=== FILE: README.md ===
# Interactive machine-learning labs — a Dafny model

This project models the computational core of a browser application that teaches
machine learning through seven interactive labs, plus its progress tracker and
guided tour. Every lab keeps a small state (points in a data square, sliders,
a drag in progress) and changes it in response to pointer events, sliders and
buttons; each lab then recomputes a model of the data. The Dafny modules follow
the program's files:

| module | file | what it models |
|---|---|---|
| `KMeans`, `KMeansWcss` | labs/kmeans.js | k-means++ seeding, the assign and update steps with their bounded centroid history, the k slider, clicks and centroid drags, and the within-cluster sum of squares (WCSS) |
| `Knn` | labs/knn.js | the stable distance ranking, the k nearest neighbours, the majority vote, point painting and query dragging |
| `Association` | labs/association.js | basket editing, pair and item counting, rules with support, confidence and lift sorted by lift, and the point-to-segment distance |
| `DecisionTrees` | labs/decision-trees.js | fruit piles keyed by split paths, splitting by a feature, pruning the last split, entropy, information gain and the automatic sorter |
| `LinearRegression` | labs/linear-regression.js | residual statistics, the least-squares line, the animated descent, point editing, presets and the outlier button |
| `Svm`, `SvmSession` | labs/svm.js | the centroid-based linear fit, the RBF candidate fit and its fallback, both predictions, the accuracy readout, and the event handlers and presets |
| `Logistic` | labs/logistic-regression.js | the sigmoid probabilities in both views, the accuracy tally, the drag, click and clear handlers and the generated students |
| `Achievements` | education-system.js | quiz results, best scores, the sticky perfect flags and the one-shot grandmaster badge, unlocked count and progress percent |
| `Tour` | education-system.js | the tour's step machine and the tooltip clamp |
| `Geometry`, `Viewport`, `Oracles`, `Seqs`, `Sorting`, `Options` | (shared) | points, clamps and squared distances; the affine data↔canvas frames; the properties assumed of `Math.sqrt`, `Math.exp`, `Math.log2`, `Math.cos`/`Math.sin`; sequence counting; the stable sort that `Array.prototype.sort` performs |

Conventions:

- Numbers are mathematical reals. `Math.sqrt`, `Math.exp`, `Math.log2`,
  `Math.pow(10, ·)` and `Math.cos`/`Math.sin` are function-valued parameters.
  Each operation states what it assumes of them, such as a true square root,
  an increasing exponential, or a point on the unit circle.
- Every `Math.random()` draw is an element of a sequence parameter with values
  in [0, 1). `Date.now()` and animation time are parameters too.
- Distances are compared as squared distances. `Oracles.SqrtOrder` and
  `Sorting.SortByEquivalentKeys` show that this gives the same orderings as
  the labs' `Math.sqrt` distances.
- Where an animation (a GSAP tween) only delays when a value becomes visible,
  the model takes the value the tween ends at. Where a lab sets an
  `animating` flag that makes presses during the animation be dropped, the
  model either keeps the flag (`KMeans.RunAutomatic`,
  `LinearRegression.DescentAt`) or says so under "Left out".
- Each handler is a pure function from the old state to the new one. For the
  k-NN and SVM labs a `Run` function folds a stream of events and a lemma shows
  that any stream keeps the lab's invariant (`Knn.QueryStaysInside`,
  `Knn.RunKeepsSeparation`, `SvmSession.RunKeepsInside`); the decision-tree lab
  folds split and auto-sort presses with `DecisionTrees.Grow`. The linear
  regression handlers state their invariant (`AllInside`) one handler at a
  time; the k-means and logistic-regression handlers carry no such invariant.

In association-rule mining the confidence of `A → B` is `count(A, B) / count(A)`
(labs/association.js:307). Over the baskets `[A, B], [A, B], [A, C]` it is
therefore 2/3, not 1, and the model computes it the same way.

## Model

| member | source | states |
|---|---|---|
| Geometry.Clamp | labs/svm.js:505-506 | `Math.max(lo, Math.min(hi, v))` lies in [lo, hi] when lo ≤ hi, is v when v is inside, lo below and hi above |
| Geometry.ClampPoint | labs/svm.js:505-506 | a point clamped coordinate-wise lies in the square and is unchanged when already inside |
| Geometry.Mean | labs/kmeans.js:425-427 | each coordinate of the mean times the count is that coordinate's sum |
| Geometry.Dist2Zero | labs/knn.js:133-135 | two points are at distance zero exactly when they coincide |
| Oracles.SqrtOrder | labs/knn.js:133-135 | a true square root orders, separates and equates distances exactly as their squares do |
| Viewport.LogicalSize | labs/knn.js:79-80 | the logical side is at least 300 px and is the measured side when that is at least 300 |
| Viewport.LogicalFrameInvertible | labs/knn.js:71-97 | a frame with 300 px minimum sides and padding below 150 px is invertible |
| Viewport.DataCanvasRoundTrip | labs/kmeans.js:74-92 | data → canvas → data is the identity for an invertible frame |
| Viewport.CanvasDataRoundTrip | labs/kmeans.js:74-92 | canvas → data → canvas is the identity for an invertible frame |
| Viewport.ScaledAgreesX | labs/linear-regression.js:112-125 | the scale-first horizontal transforms compute the same maps as the ratio-first ones |
| Viewport.ScaledAgreesY | labs/linear-regression.js:117-130 | the scale-first vertical transforms compute the same maps as the ratio-first ones |
| Sorting.SortSpec | labs/knn.js:153 | the stable sort is a permutation ordered by key that keeps equal-key elements in input order |
| Sorting.SortByEquivalentKeys | labs/knn.js:153 | two keys that order the input identically sort it identically, so sorting by squared distance equals sorting by distance |
| Seqs.Distinct | labs/decision-trees.js:208 | `[...new Set(s)]` has no repeats and holds exactly the elements of `s` |
| Seqs.DistinctKeepsFirstOrder | labs/decision-trees.js:208 | `[...new Set(s)]` lists the values in the order in which each first occurs in `s` |
| Seqs.IndexOf | labs/decision-trees.js:208 | the position of the first occurrence of a value, the order `new Set` keeps |
| Seqs.Without | labs/association.js:187-197 | `filter(i => i !== x)` drops every `x` and keeps every other element as often as before |
| KMeans.LabFrame | labs/kmeans.js:64-92 | the canvas frame (60 px padding around [0, 10]²) is invertible whenever neither side is exactly 120 px |
| KMeans.TransformsRoundTrip | labs/kmeans.js:74-92 | `toData` after `toCanvas` and `toCanvas` after `toData` give back the original coordinates when neither side is 120 px |
| KMeans.ArgMinUpTo | labs/kmeans.js:369-379 | the scan that starts from `Infinity` and replaces the best only on strictly smaller values returns a minimum, and every earlier value is strictly larger (the first minimum) |
| KMeans.FirstMinimumUnique | labs/kmeans.js:369-379 | two indices that are both minima with only larger values before them are equal, so the lowest-index tie-break is well defined |
| KMeans.Nearest | labs/kmeans.js:369-379 | the chosen centroid is at least as near as every other, and every centroid with a lower index is strictly farther |
| KMeans.NearestBySqrtDistance | labs/kmeans.js:95-97 | comparing `Math.sqrt` distances picks the same centroid as comparing squared distances, for any exact square root |
| KMeans.AssignAll | labs/kmeans.js:368-386 | every point keeps its position and gets a nearest centroid, lowest index on ties |
| KMeans.StepAssign | labs/kmeans.js:362-388 | nothing changes without centroids or once converged; otherwise the step becomes assign, every point gets its nearest centroid, and centroids, history, k, iteration and convergence stay |
| KMeans.NewCentroid | labs/kmeans.js:423-434 | a cluster with members moves to their mean; an empty cluster keeps its old position |
| KMeans.UpdatedCentroids | labs/kmeans.js:422-435 | one new position per centroid: the mean of its members, or the old position for an empty cluster |
| KMeans.PushHistory | labs/kmeans.js:410-416 | the snapshot becomes the last entry; below 10 entries the history only grows, otherwise the oldest entry is dropped, so a history of at most 10 stays at most 10 |
| KMeans.StepUpdate | labs/kmeans.js:400-453 | no-op without centroids or once converged; after a non-assign step it is exactly the assign step (every point joins its nearest centroid, no centroid moves, iteration unchanged); after an assign step the iteration grows by exactly 1, the step becomes update, the old centroids are pushed to the history, non-empty clusters move to their means, empty ones stay, and `converged` holds iff the total movement is below 0.01 |
| KMeans.FixpointMovesNothing | labs/kmeans.js:422-435 | with exact square roots, when every centroid already equals its new position the total movement is 0 |
| KMeans.FixpointConverges | labs/kmeans.js:422-453 | an update at a fixpoint reports convergence and leaves every centroid where it was |
| KMeans.HistoryBounded | labs/kmeans.js:410-416 | neither the assign nor the update step takes the history above 10 entries |
| KMeans.AsWrittenAgrees | labs/kmeans.js:422-435 | when k equals the number of centroids, the loop to `this.k` computes exactly the corrected update |
| KMeans.KUpThenUpdateCrashes | labs/kmeans.js:107-114 | pressing k-up after an assign step makes k exceed the number of centroids, and the update as written then reads past the centroids |
| KMeans.KDownThenUpdateCrashes | labs/kmeans.js:116-123 | pressing k-down after an assign step leaves the update as written pushing fewer new positions than there are centroids, so the animation reads a missing one |
| KMeans.SetK | labs/kmeans.js:101-105 | the slider sets k to the parsed value and changes nothing else (no re-seeding) |
| KMeans.KUp | labs/kmeans.js:107-114 | k grows by one below 8, stays at 8 otherwise, and nothing else changes |
| KMeans.KDown | labs/kmeans.js:116-123 | k shrinks by one above 2, stays at 2 or below otherwise, and nothing else changes |
| KMeans.RunAutomatic | labs/kmeans.js:465-473 | nothing happens with auto-run off, once converged or while animating; otherwise an assign runs after init or update, and an update after assign |
| KMeans.Clear | labs/kmeans.js:216-224 | no points, centroids or history, iteration 0, step init, not converged; k is kept |
| KMeans.HandleClick | labs/kmeans.js:226-245 | a click adds exactly one unassigned point at the click's data position when no drag is active, no centroids exist and the position lies in [0, 10]²; otherwise nothing changes |
| KMeans.DragCentroid | labs/kmeans.js:268-287 | the dragged centroid lands in [0.5, 9.5]², equal to the cursor when the cursor is inside; the other centroids stay; convergence, iteration, history and step are reset and every point becomes unassigned |
| KMeans.PickFrom | labs/kmeans.js:346-356 | subtracting weights in order from the draw stops at the first index where the remainder drops to 0 or below |
| KMeans.Pick | labs/kmeans.js:346-356 | a draw in [0, Σ weights] selects the index whose cumulative weight interval contains it |
| KMeans.PickHasWeight | labs/kmeans.js:346-356 | a positive draw never selects a point of weight zero, so a point already at a centroid is never chosen again |
| KMeans.MinDist2 | labs/kmeans.js:335-342 | the squared distance to the nearest centroid so far: non-negative and no larger than the squared distance to any centroid |
| KMeans.MinDist2Attained | labs/kmeans.js:335-342 | the minimum is the squared distance to one of the centroids, and it is zero exactly when the point coincides with a centroid |
| KMeans.Weights | labs/kmeans.js:334-343 | one non-negative weight per point, its squared distance to the nearest centroid |
| KMeans.NextCentroid | labs/kmeans.js:333-357 | each weighted draw yields the coordinates of one of the points |
| KMeans.Seed | labs/kmeans.js:333-357 | the loop adds centroids until there are k, each one a point's coordinates |
| KMeans.RandomIndex | labs/kmeans.js:326 | `Math.floor(Math.random() * n)` is an index below n |
| KMeans.InitializeCentroids | labs/kmeans.js:309-360 | with fewer than k points nothing changes; otherwise exactly k centroids, each equal to some point's coordinates, every point unassigned, empty history, iteration 0, step init, not converged |
| KMeans.Contribution | labs/kmeans.js:479-484 | a point adds a non-negative amount, and nothing when its cluster is not a centroid index |
| KMeans.WcssOf | labs/kmeans.js:478-486 | the sum over the points is non-negative |
| KMeans.Wcss | labs/kmeans.js:475-487 | the WCSS is 0 without centroids and never negative |
| KMeans.WcssIgnoresUnassigned | labs/kmeans.js:479-484 | adding a point whose cluster is not a valid centroid index leaves the WCSS unchanged |
| KMeans.WcssZeroIff | labs/kmeans.js:475-487 | the WCSS is zero exactly when every assigned point sits on its centroid |
| KMeans.AssignMinimisesWcss | labs/kmeans.js:366-386 | the nearest-centroid assignment has a WCSS no larger than any other full assignment to the same centroids |
| KMeans.AssignNeverIncreasesWcss | labs/kmeans.js:362-388 | on a fully assigned state an assign step never increases the WCSS |
| KMeansWcss.SumDist2Split | labs/kmeans.js:427-428 | moving the reference point from `mu` to `c` changes the total squared distance by twice the cross terms plus n times the squared distance between them |
| KMeansWcss.CrossFactor | labs/kmeans.js:427-428 | the cross terms factor through the coordinate sums |
| KMeansWcss.MeanMinimisesSumDist2 | labs/kmeans.js:425-434 | the members' mean, where the update moves a centroid, has the least total squared distance to the members |
| KMeansWcss.MembersSum | labs/kmeans.js:424 | summing over the filtered member list equals summing over the points of that cluster |
| KMeansWcss.WcssByCluster | labs/kmeans.js:475-487 | the WCSS is the sum of the per-cluster sums |
| KMeansWcss.ByClusterMonotone | labs/kmeans.js:475-487 | lowering every per-cluster sum lowers the WCSS |
| KMeansWcss.WcssCostIsWcss | labs/kmeans.js:475-487 | the cluster-sum form with squared distances is the WCSS of `calculateWCSS` |
| KMeansWcss.UpdateNeverIncreasesWcss | labs/kmeans.js:400-453 | on a fully assigned state an update step never increases the WCSS |
| Knn.LabFrame | labs/knn.js:71-97 | the frame `resize` leaves, at least 300 px each way, is always invertible |
| Knn.TransformsRoundTrip | labs/knn.js:111-130 | data → canvas → data and canvas → data → canvas are the identity for every measured size |
| Knn.Tag | labs/knn.js:145-149 | every point is paired with its own index and its distance from the query |
| Knn.SliceEnd | labs/knn.js:155 | the end index `slice` stops at never passes the length and equals the argument when that lies in range |
| Knn.FindKNearest | labs/knn.js:138-164 | only the neighbours and radius change; no points or no query gives no neighbours and radius 0; otherwise exactly min(k, n) neighbours are selected (n + k for a negative k, as `slice` reads it); no neighbours means radius 0 |
| Knn.SelectionIsPrefix | labs/knn.js:152-156 | the neighbours are a prefix of the stable ranking by distance |
| Knn.RankedEntries | labs/knn.js:145-152 | the ranking is a permutation of the tagged points: each entry is a lab point with its own index and distance, none twice, none missing |
| Knn.NeighboursAreGenuine | labs/knn.js:138-164 | each neighbour is the lab's point at its index with its distance from the query, and no index is selected twice |
| Knn.NeighboursAreOrdered | labs/knn.js:152-163 | neighbours come in non-decreasing distance, and the radius is the largest of their distances |
| Knn.PrefixOrdered | labs/knn.js:152-163 | a prefix of a ranking sorted by distance is sorted, and its last entry is the farthest |
| Knn.RankedSorted | labs/knn.js:152 | the ranking is sorted by distance |
| Knn.LeftOutAreFarther | labs/knn.js:152-163 | every point that was not selected is at least as far from the query as the radius |
| Knn.RankOf | labs/knn.js:145-152 | every point appears somewhere in the ranking |
| Knn.LeftOutOfPrefix | labs/knn.js:152-163 | in a sorted ranking an entry outside the selected prefix is at least as far as the prefix's last entry |
| Knn.RankingBySquaredDistance | labs/knn.js:133-135 | with an exact square root, ranking by distance equals ranking by squared distance, ties kept in index order |
| Knn.Tally | labs/knn.js:173-179 | the red count is the number of red neighbours and red + blue is the number of neighbours, so any other class counts as blue |
| Knn.GetPrediction | labs/knn.js:167-186 | no vote exactly when there are no neighbours; otherwise the counts are the red neighbours and all others |
| Knn.PredictionIsMajority | labs/knn.js:181-185 | red iff red neighbours are a strict majority, blue iff a strict minority, tie iff exactly half |
| Knn.AddPoint | labs/knn.js:346-374 | a position outside [0, 10]² or closer than 0.3 to an existing point changes nothing; otherwise exactly one point of the current brush is appended and the neighbours recomputed |
| Knn.AddPointKeepsSeparation | labs/knn.js:346-374 | if all points were pairwise at least 0.3 apart they still are, and an added point lies in [0, 10]² |
| Knn.MouseDown | labs/knn.js:283-302 | a press within 25 px of the query (when there is one) starts dragging it and changes nothing else; any other press starts painting and adds exactly the one point `addPoint` accepts at the cursor (none outside [0, 10]² or closer than 0.3), recomputing the neighbours when it does |
| Knn.MouseMove | labs/knn.js:304-334 | while dragging the query it follows the cursor clamped to [0.5, 9.5]² and the neighbours are recomputed; while painting, once more than 50 ms passed since the last painted point, the point `addPoint` accepts is added and the paint time becomes now; otherwise nothing changes |
| Knn.MouseUp | labs/knn.js:336-340 | both dragging and painting end, nothing else changes |
| Knn.SetK | labs/knn.js:250-256 | the slider sets k, keeps the points and recomputes the neighbours |
| Knn.ClearPoints | labs/knn.js:274-279 | no points, so no neighbours and radius 0; query, k and brush are kept |
| Knn.QueryStaysInside | labs/knn.js:312-313 | from a query in [0.5, 9.5]², no sequence of events takes it out |
| Knn.ApplyKeepsSeparation | labs/knn.js:283-374 | every event keeps the painted points pairwise at least 0.3 apart |
| Knn.RunKeepsSeparation | labs/knn.js:283-374 | no sequence of events brings two painted points closer than 0.3 |
| Association.AddBasket | labs/association.js:118-127 | a new empty basket under the current next id, which then grows by one; rules and thresholds stay |
| Association.InitialValid | labs/association.js:6-54 | the lab starts with three baskets, ids increasing and no duplicate items |
| Association.ThreeBasketsValid | labs/association.js:258-266 | three baskets added from id 1 form a valid state of three baskets |
| Association.Find | labs/association.js:176 | `find` returns the first basket with the id, or none when no basket has it |
| Association.AddItemToBasket | labs/association.js:175-185 | a missing basket or an item already present changes nothing; otherwise only that basket gains the item at its end, the rules are recomputed and the next id stays |
| Association.RemoveItemFromBasket | labs/association.js:187-197 | a missing basket changes nothing; otherwise that basket loses every occurrence of the item, the other baskets stay and the rules are recomputed |
| Association.ClearAll | labs/association.js:258-272 | exactly three empty baskets with ids 1, 2, 3, next id 4, and no rules |
| Association.SetMinSupport | labs/association.js:79-85 | the support threshold becomes the slider value over 100 and the rules are recomputed over the same baskets |
| Association.SetMinConfidence | labs/association.js:87-93 | the confidence threshold becomes the slider value over 100 and the rules are recomputed over the same baskets |
| Association.AddBasketKeepsValid | labs/association.js:118-127 | adding a basket keeps ids strictly increasing, since the new id is larger than every earlier one |
| Association.AddItemKeepsValid | labs/association.js:175-185 | adding an item never puts a second copy into a basket |
| Association.RemoveItemKeepsValid | labs/association.js:187-197 | removing an item keeps baskets duplicate-free and ids increasing |
| Association.ClearAllValid | labs/association.js:258-272 | the cleared state is valid |
| Association.WithoutKeepsNoDuplicates | labs/association.js:189 | filtering an item out of a duplicate-free basket leaves it duplicate-free |
| Association.Norm | labs/association.js:294 | the sorted pair key holds the two items in one of the two orders |
| Association.StrLessTotal | labs/association.js:294 | the string order `sort()` uses is a strict total order: of two different names exactly one comes first |
| Association.OneOrder | labs/association.js:294-295 | two different names are counted as a pair key in one order only, the order `sort()` gives |
| Association.PairsWith | labs/association.js:290-293 | the inner loop forms one pair key with each later item |
| Association.BasketPairItems | labs/association.js:289-294 | both names of a pair key of a basket are items of that basket |
| Association.PairItems | labs/association.js:282-296 | both names of a counted pair are counted items, so the confidence divisions never divide by zero |
| Association.CalculateRules | labs/association.js:274-278 | no baskets, no rules |
| Association.NoItemsNoRules | labs/association.js:274-340 | baskets without items give no rules |
| Association.RulesOfCountsHas | labs/association.js:303-334 | one pair's rules: `first → second` iff support ≥ minSupport and count / count(first) ≥ minConfidence, and `second → first` likewise with count(second) |
| Association.PairRulesHas | labs/association.js:298-335 | a pair key yields `x → y` iff it holds x and y in either order and passes both thresholds with x as antecedent |
| Association.PassesByCounts | labs/association.js:300-322 | the threshold test in terms of basket, pair and item counts |
| Association.EmittedHas | labs/association.js:298-336 | the rules of a list of keys are exactly the rules some key passes |
| Association.RulesAreQualifyingPairs | labs/association.js:274-340 | `x → y` is among the rules iff some counted pair of x and y meets minSupport and count / count(x) meets minConfidence, each direction judged on its own |
| Association.SameRules | labs/association.js:339 | sorting keeps which rules there are |
| Association.RulesSortedByLift | labs/association.js:302-339 | the rules come in non-increasing lift, and each rule's lift is its pair's support over the product of its two items' basket shares (`RuleOfPair`) |
| Association.PairsWithCount | labs/association.js:290-293 | in a duplicate-free basket the inner loop forms each pair key at most once |
| Association.BasketPairCount | labs/association.js:289-294 | a duplicate-free basket contributes each pair key at most once, and only pairs of its own items |
| Association.PairCountBound | labs/association.js:282-296 | with duplicate-free baskets a pair's count is at most either item's count and at most the number of baskets |
| Association.RuleMetrics | labs/association.js:298-335 | every rule comes from a counted pair of counted items, meets both thresholds and carries support = count(pair)/baskets, confidence = count(pair)/count(antecedent) and lift = support/(share(antecedent)·share(consequent)); with duplicate-free baskets support and confidence are at most 1 |
| Association.EmittedMetrics | labs/association.js:298-336 | every emitted rule carries the support, confidence and lift `calculateRules` computes from its pair's and items' counts |
| Association.PairRuleMetrics | labs/association.js:302-335 | each rule of one pair key carries that pair's support, its antecedent's confidence and the lift of the two items' shares |
| Association.ClosestIsClampedProjection | labs/association.js:533-556 | the measured point is the first end for a zero-length segment and otherwise the projection parameter clamped to [0, 1] |
| Association.DistToLineBasics | labs/association.js:533-559 | the result is never negative, and for a zero-length segment it is the distance to its end |
| DecisionTrees.Find | labs/decision-trees.js:232-237 | the entry with a key, the first one, or -1 exactly when no entry has it |
| DecisionTrees.Put | labs/decision-trees.js:234 | assigning to an object key keeps an existing entry in its place and appends a new one last |
| DecisionTrees.Push | labs/decision-trees.js:393-400 | creating an entry when missing and then pushing appends to the existing entry or adds a new last entry |
| DecisionTrees.PutKeepsKeysDistinct | labs/decision-trees.js:234 | object keys stay distinct after an assignment |
| DecisionTrees.PushKeepsKeysDistinct | labs/decision-trees.js:393-400 | object keys stay distinct after a push |
| DecisionTrees.Relabel | labs/decision-trees.js:235 | every fruit keeps its identity and gets the new pile name |
| DecisionTrees.Filter | labs/decision-trees.js:234 | every kept fruit has the value |
| DecisionTrees.PickType | labs/decision-trees.js:111 | `Math.floor(Math.random() * fruitTypes.length)` picks one of the six fruit types |
| DecisionTrees.MakeFruits | labs/decision-trees.js:109-125 | one fruit per draw, numbered from 0, each of a known type |
| DecisionTrees.GenerateFruits | labs/decision-trees.js:102-129 | 12 fruits numbered 0 to 11, all in the single pile `mixed` and labelled with it, no splits, level 0 |
| DecisionTrees.SplitByFeature | labs/decision-trees.js:200-249 | nothing changes exactly when no pile has more than one fruit and more than one value; otherwise the split `{feature, level}` is recorded and the level grows by one |
| DecisionTrees.Cut | labs/decision-trees.js:388-389 | `key.split(`_${feature}_`)[0]` is a prefix of the key with no step on the feature, cut at the first such step |
| DecisionTrees.PruneLastSplit | labs/decision-trees.js:377-411 | nothing changes without splits; otherwise the last split is popped and the level drops by one |
| DecisionTrees.SplitLeavesNothingSplittable | labs/decision-trees.js:224-240 | after a split by a feature no pile holds two values of it |
| DecisionTrees.SplitIdempotent | labs/decision-trees.js:206-214 | splitting twice by the same feature is splitting once |
| DecisionTrees.SplitKeysDistinct | labs/decision-trees.js:224-240 | the new piles have distinct keys |
| DecisionTrees.MergeKeysDistinct | labs/decision-trees.js:386-401 | the merged piles have distinct keys |
| DecisionTrees.SplitKeepsLabelled | labs/decision-trees.js:224-240 | after a split every fruit's `pile` names the pile it is in |
| DecisionTrees.MergeLabelled | labs/decision-trees.js:386-401 | after a merge every fruit's `pile` names the pile it is in |
| DecisionTrees.MergeStock | labs/decision-trees.js:386-401 | merging keeps every fruit, as a multiset |
| DecisionTrees.PruneKeepsFruits | labs/decision-trees.js:377-411 | pruning keeps the multiset of fruits, leaves distinct keys and labels every fruit with its pile |
| DecisionTrees.CutChild | labs/decision-trees.js:388-391 | cutting a child key at its feature gives back the parent key |
| DecisionTrees.ChildKeyInjective | labs/decision-trees.js:230 | different values give different child keys |
| DecisionTrees.SplitIsSegments | labs/decision-trees.js:224-240 | without key collisions each pile is replaced, in order, by one child per distinct value holding exactly the fruits with that value, or kept as is |
| DecisionTrees.FilterManyKeepsFruits | labs/decision-trees.js:229-236 | grouping a pile by its distinct values keeps every fruit once |
| DecisionTrees.StockSegments | labs/decision-trees.js:224-240 | the children of all piles hold exactly the fruits of the piles |
| DecisionTrees.SplitKeepsFruits | labs/decision-trees.js:200-249 | on piles with distinct keys that are ready for the split when it changes anything (no key already split on the feature), splitting keeps the multiset of fruits, keys distinct and every fruit labelled; `GrowKeepsFruits` shows every split history from the generated piles meets this |
| DecisionTrees.MergeSegment | labs/decision-trees.js:386-401 | merging one pile's children gives back one pile under the parent key |
| DecisionTrees.MergeSegments | labs/decision-trees.js:386-401 | for piles ready for a split on the feature (distinct keys, no earlier step on it), merging the children of every pile gives back the same keys in the same order with the same fruits up to order |
| DecisionTrees.PruneUndoesSplit | labs/decision-trees.js:377-411 | for piles ready for a split on the feature (distinct keys, no earlier step on it) and with a pile it splits, pruning right after the split restores the splits, the level, the keys in order and each pile's fruits up to order, every fruit labelled with its pile |
| DecisionTrees.GeneratedReady | labs/decision-trees.js:102-129 | the generated piles satisfy the no-collision condition for a split on either feature |
| DecisionTrees.ReadyAfterSplit | labs/decision-trees.js:224-240 | a split on one feature keeps the piles ready for a split on the other |
| DecisionTrees.TwoValues | labs/decision-trees.js:208-209 | a pile's `new Set` of values has more than one member exactly when two of its fruits differ in the feature |
| DecisionTrees.ChildSplittable | labs/decision-trees.js:224-233 | a child pile that can be split on a feature comes from a parent that could |
| DecisionTrees.SegmentsSplittable | labs/decision-trees.js:200-240 | a split makes nothing splittable on a feature that was not splittable before |
| DecisionTrees.GeneratedSplitReady | labs/decision-trees.js:102-129 | the generated piles have distinct keys and are ready for a split on any feature |
| DecisionTrees.SplitKeepsSplitReady | labs/decision-trees.js:200-249 | a split keeps the piles' keys distinct and ready for every feature that still has something to split |
| DecisionTrees.AutoSortKeepsSplitReady | labs/decision-trees.js:282-300 | an auto-sort step keeps the piles ready in the same sense |
| DecisionTrees.GrowKeepsFruits | labs/decision-trees.js:200-300 | over any sequence of split presses and auto-sort steps from ready piles, the piles stay ready, keep the multiset of fruits and keep every fruit labelled |
| DecisionTrees.GeneratedGrowth | labs/decision-trees.js:102-411 | from the generated piles any split and auto-sort history keeps every fruit labelled, and a prune right after one more split undoes it |
| DecisionTrees.ParentKeyIsPrefix | labs/decision-trees.js:388-389 | the rendered parent key is a prefix of the rendered key, followed by `_feature_` when a step was cut |
| DecisionTrees.TermSign | labs/decision-trees.js:355-359 | each subtracted `p · log2(p)` is at most 0, and below 0 for p < 1 |
| DecisionTrees.EntropySumNonNegative | labs/decision-trees.js:355-359 | the entropy sum is never negative |
| DecisionTrees.EntropySumStep | labs/decision-trees.js:355-359 | each name's term never lowers the sum, and a name present but not everywhere raises it |
| DecisionTrees.EntropySumPositive | labs/decision-trees.js:355-359 | a name present but not everywhere makes the sum positive |
| DecisionTrees.SingleNameEntropy | labs/decision-trees.js:345-362 | a non-empty pile of one name has entropy 0, using only log2(1) = 0 |
| DecisionTrees.MixedEntropy | labs/decision-trees.js:345-362 | a pile with two names has positive entropy |
| DecisionTrees.EntropyZeroIff | labs/decision-trees.js:345-362 | entropy is never negative, and 0 exactly for a pile of at most one name (the empty pile included) |
| DecisionTrees.PerfectlySortedIffPure | labs/decision-trees.js:313-319 | the piles are perfectly sorted iff every pile has zero entropy |
| DecisionTrees.WeightedBounds | labs/decision-trees.js:369-372 | a size-weighted sum of non-negative entropies is non-negative, and 0 when all are 0 |
| DecisionTrees.OverallEntropyBounds | labs/decision-trees.js:365-375 | the overall entropy is never negative and is 0 once the piles are perfectly sorted |
| DecisionTrees.GainOnlyFromSplittable | labs/decision-trees.js:321-343 | a non-zero gain implies some pile is splittable by the feature |
| DecisionTrees.SplitDisablesFeature | labs/decision-trees.js:413-420 | right after a split by a feature its gain is 0, so its button is disabled |
| DecisionTrees.BestFeature | labs/decision-trees.js:286-296 | no feature iff neither gain is positive; colour when its gain is positive and not beaten; shape only when strictly better |
| DecisionTrees.AutoSortStepSplits | labs/decision-trees.js:298-299 | an auto-sort step that picks a feature records one split |
| LinearRegression.LabFrame | labs/linear-regression.js:69-95 | the frame `resize` leaves, at least 300 px each way with 60 px padding, is always invertible |
| LinearRegression.TransformsRoundTrip | labs/linear-regression.js:112-130 | the scale-first transforms invert each other in both directions for every measured size |
| LinearRegression.Sse | labs/linear-regression.js:350-355 | the sum of squared residuals is never negative |
| LinearRegression.SsTot | labs/linear-regression.js:350-355 | the total sum of squares around the mean height is never negative |
| LinearRegression.SseZeroIff | labs/linear-regression.js:350-355 | the residuals vanish exactly when every point lies on the line |
| LinearRegression.CalculateStats | labs/linear-regression.js:336-361 | all-null for fewer than 2 points; otherwise sse is the sum of squared residuals, mse = sse / n, r² in [0, 1] and 0 when the heights do not vary, fit score in [0, 100] |
| LinearRegression.MeanError | labs/linear-regression.js:357 | mse is non-negative, n · mse = sse, and mse is 0 exactly when sse is |
| LinearRegression.RSquared | labs/linear-regression.js:358 | r² lies in [0, 1], is 0 when ssTot is not positive, and is 1 exactly when ssRes is 0 (for positive ssTot) |
| LinearRegression.FitScore | labs/linear-regression.js:359 | the score lies in [0, 100] and is 100 when the root of the mse is 0 |
| LinearRegression.PerfectFitStats | labs/linear-regression.js:336-361 | sse is 0 exactly when all points lie on the line; then mse is 0, the score is 100, and r² is 1 when the heights vary |
| LinearRegression.TankPercent | labs/linear-regression.js:395-397 | the tank level lies in [0, 100] |
| LinearRegression.Spread | labs/linear-regression.js:374-375 | the slope's denominator Σ(x − mx)² is never negative |
| LinearRegression.OptimalLine | labs/linear-regression.js:363-382 | (0.5, 0) for fewer than 2 points; otherwise the line passes through the mean point, its slope solves slope · Σdx² = Σdx·dy when Σdx² ≠ 0, and is 0 otherwise |
| LinearRegression.Slope | labs/linear-regression.js:378 | a non-zero denominator gives the quotient (slope · denominator = numerator), a zero one gives 0 |
| LinearRegression.ThroughPoint | labs/linear-regression.js:379 | the normalised intercept `(my − slope · mx − 5) / 5` puts the line, read back through `5 · intercept + 5`, through the mean point |
| LinearRegression.SliderIntercept | labs/linear-regression.js:379 | the slider value `(v − 5) / 5` stands for the intercept v |
| LinearRegression.SumResidualsSums | labs/linear-regression.js:350-353 | the residual sum is Σy − slope · Σx − n · intercept |
| LinearRegression.ResidualsBalance | labs/linear-regression.js:363-382 | a line through the mean point has residuals summing to 0 |
| LinearRegression.CentredMomentSplit | labs/linear-regression.js:371-376 | through the mean point, Σ residual · (x − mx) = Σ dx·dy − slope · Σ dx² |
| LinearRegression.NoSpreadNoCross | labs/linear-regression.js:378 | with no spread in x every centred moment vanishes, so the zero-denominator fallback is also a least-squares slope |
| LinearRegression.MomentSplit | labs/linear-regression.js:350-353 | Σ residual · x = Σ residual · (x − mx) + mx · Σ residual |
| LinearRegression.NormalEquations | labs/linear-regression.js:363-382 | the computed line satisfies both normal equations: its residuals sum to 0 and are uncorrelated with x |
| LinearRegression.OptimalCentredMoment | labs/linear-regression.js:363-382 | the computed line's centred moment vanishes |
| LinearRegression.SpreadCentredMoment | labs/linear-regression.js:371-378 | with non-zero spread the quotient slope makes the centred moment vanish |
| LinearRegression.OptimalThroughMean | labs/linear-regression.js:379 | the computed line passes through the mean point |
| LinearRegression.Shift | labs/linear-regression.js:350-353 | the squared height differences of two lines add up to a non-negative amount |
| LinearRegression.PointDecompose | labs/linear-regression.js:351-353 | at one point the squared residual of another line is this line's, plus twice the cross term, plus the squared height difference |
| LinearRegression.SseDecompose | labs/linear-regression.js:350-355 | moving to any other line adds the squared height differences plus twice the cross terms |
| LinearRegression.CrossTermLinear | labs/linear-regression.js:350-353 | the cross terms are made of the line's two normal sums |
| LinearRegression.CrossTermSplit | labs/linear-regression.js:350-353 | the cross terms equal (Δslope) · Σ residual · x + (Δintercept) · Σ residual |
| LinearRegression.OptimalLineMinimisesSse | labs/linear-regression.js:363-382 | no line has a smaller sum of squared residuals than the computed one |
| LinearRegression.Progress | labs/linear-regression.js:430 | the progress is at most 1, not negative for non-negative elapsed time, and 1 exactly once the duration has passed |
| LinearRegression.CubeBounds | labs/linear-regression.js:431 | a cube of a value in [0, 1] stays in [0, 1] |
| LinearRegression.Eased | labs/linear-regression.js:431 | the ease-out cubic maps [0, 1] into [0, 1], 0 to 0 and 1 to 1 |
| LinearRegression.EasedMonotone | labs/linear-regression.js:431 | the ease-out cubic is monotone on [0, 1] |
| LinearRegression.Interpolate | labs/linear-regression.js:433-434 | factor 0 gives the start, 1 the target, and factors in [0, 1] stay between the two |
| LinearRegression.InterpolateApproaches | labs/linear-regression.js:433-434 | a later frame is never further from the target than an earlier one |
| LinearRegression.DescentAt | labs/linear-regression.js:414-452 | no-op while animating or with fewer than 2 points; otherwise the sliders stay between start and optimum, the animation runs while time remains, and at the end the sliders equal the optimum exactly |
| LinearRegression.DescentEndsAtBestFit | labs/linear-regression.js:414-452 | once the descent finishes, no line fits the points better |
| LinearRegression.DescentMonotone | labs/linear-regression.js:429-434 | each frame is at least as close to the optimum's slope as any earlier frame |
| LinearRegression.HandleClick | labs/linear-regression.js:188-202 | ignored while dragging; otherwise a point is added exactly when the click lies in [0, 10]², so all points stay inside |
| LinearRegression.FirstWithin | labs/linear-regression.js:208-218 | the first point strictly within 15 px of the cursor, all earlier ones farther; none when every point is farther |
| LinearRegression.GrabBySqrtDistance | labs/linear-regression.js:211-213 | `Math.sqrt(d²) < 15` is the same test as `d² < 225` |
| LinearRegression.MouseDown | labs/linear-regression.js:204-220 | when some point is within 15 px of the cursor the first such point is grabbed and nothing else changes; a press away from every point changes nothing |
| LinearRegression.DragTo | labs/linear-regression.js:222-231 | only the dragged point moves, to the cursor clamped into [0, 10]², so all points stay inside |
| LinearRegression.MouseUp | labs/linear-regression.js:250-254 | the drag ends and the points stay |
| LinearRegression.Clear | labs/linear-regression.js:147-151 | no points; slope and intercept stay |
| LinearRegression.PresetPoint | labs/linear-regression.js:264-284 | every preset point has x in [1, 9); the trends clamp y into [0.5, 9.5] and the random preset gives y in [1, 9) |
| LinearRegression.HandlePreset | labs/linear-regression.js:256-293 | the three presets give exactly 15 fresh points inside their bounds, any other name none, and the line is kept |
| LinearRegression.OutlierYAsWritten | labs/linear-regression.js:474-481 | the height as written stays in [0.5, 9.5] |
| LinearRegression.OutlierTooCloseAsWritten | labs/linear-regression.js:478-481 | as written, an upward draw against a line at 8.5 leaves the outlier 0.5 from the line, closer than 2 |
| LinearRegression.OutlierY | labs/linear-regression.js:474-481 | the corrected height stays in [0.5, 9.5] and is at least 2 away from the line |
| LinearRegression.AddOutlier | labs/linear-regression.js:456-486 | the corrected outlier, with the direction flipped as the code's comment at line 478 intends (the code itself is `AddOutlierAsWritten`): exactly one outlier is appended, with x in [1, 9), y in [0.5, 9.5] and at least 2 vertically from the line; earlier points stay |
| LinearRegression.AddOutlierAsWritten | labs/linear-regression.js:456-486 | as written, one outlier inside [0, 10]² is appended and earlier points stay |
| LinearRegression.AddOutlierAsWrittenTooClose | labs/linear-regression.js:456-486 | a concrete draw for which the outlier as written lands 0.5 from a flat line at 8.5 |
| LinearRegression.SetPhase | labs/linear-regression.js:295-317 | residuals and squares are shown exactly from phase 3 on; points and line stay |
| Svm.LabFrame | labs/svm.js:52-82 | the frame is invertible unless a side is exactly twice the 60 px padding |
| Svm.TransformsRoundTrip | labs/svm.js:62-82 | the transforms invert each other in both directions when neither side is 120 px |
| Svm.NormZero | labs/svm.js:86-87 | the norm is never negative and is 0 exactly when both weights are |
| Svm.DistanceSign | labs/svm.js:84-89 | the signed distance is 0 for a zero normal, otherwise has the sign of the score, and equals the score for a unit normal |
| Svm.PredictionFollowsDistance | labs/svm.js:92-96 | for a non-zero normal, linear `predict` says blue exactly on the non-negative side the signed distance reports |
| Svm.Closest | labs/svm.js:106-109 | a closest point of a class exists exactly when the class occurs, and it belongs to that class |
| Svm.ClosestIsLeast | labs/svm.js:106-109 | the running minimum with strict `<` ends on the first index of least distance in the class |
| Svm.NearestClassIsRed | labs/svm.js:102-111 | without support vectors, `predictRBF` answers red exactly when some red point is strictly closer than every blue point (a missing class is infinitely far) |
| Svm.UnanimousSum | labs/svm.js:114-119 | when every support vector votes for one class with positive weight, each kernel term pushes the sum toward that class, given a positive `exp` |
| Svm.UnanimousPrediction | labs/svm.js:113-122 | then the RBF prediction is that class everywhere |
| Svm.Positions | labs/svm.js:139-140 | a class's filtered positions are empty exactly when no point has that class |
| Svm.Hyperplane | labs/svm.js:191-197 | the line passes through the centroids' midpoint |
| Svm.DirectionIsUnit | labs/svm.js:174-188 | the normal is a unit vector from the red centroid toward the blue one, and (1, 0) when the centroids coincide |
| Svm.CentroidsOnTheirSides | labs/svm.js:174-197 | each centroid lies half the separation from the line on its own side, so linear `predict` classifies each centroid as its class |
| Svm.Below | labs/svm.js:238-244 | the pass after the pair collects, in increasing order, exactly the indices outside the pair whose distance is below the threshold |
| Svm.LinearSelectionFacts | labs/svm.js:203-244 | the closest red then the closest blue point with weight 1 (first of least distance), then exactly the other points inside the band with weight 0.5; every index is a point and none appears twice |
| Svm.PairThenBand | labs/svm.js:230-244 | two distinct indices followed by increasing indices outside them name each index once |
| Svm.LinearMarginFacts | labs/svm.js:246-250 | the margin is never negative and is 0 exactly when one of the pair lies on the line |
| Svm.FitLinear | labs/svm.js:158-251 | the linear fit changes only weights, support vectors and margin |
| Svm.NearestOtherIndex | labs/svm.js:259-270 | each point's nearest other-class point is of the other class |
| Svm.NearestOthers | labs/svm.js:259-270 | one nearest-other distance per point, to that point |
| Svm.NearestOtherIsLeast | labs/svm.js:259-270 | the nearest-other distance is a lower bound on the distances to the other class |
| Svm.NearestNonNegative | labs/svm.js:259-270 | for a non-negative `sqrt` every nearest-other distance is non-negative |
| Svm.RbfWeighted | labs/svm.js:273-276 | a candidate's weight is 1 / (1 + its nearest-other distance) |
| Svm.FitRbf | labs/svm.js:253-313 | the RBF fit changes only support vectors and margin |
| Svm.InverseBounds | labs/svm.js:275 | 1 / (1 + d) lies in (0, 1] for non-negative d |
| Svm.RbfSelectionFacts | labs/svm.js:259-277 | the candidates are exactly the points nearer than the threshold to the other class, each once, weights in (0, 1], margin non-negative |
| Svm.NearerThan | labs/svm.js:259-274 | a point's nearest-other distance is below the threshold exactly when some other-class point is nearer than it |
| Svm.CandidatesNearOther | labs/svm.js:253-313 | the RBF candidates are well shaped and are exactly the points near the other class |
| Svm.RbfFitTakesCandidates | labs/svm.js:299-313 | with candidates, the fit keeps them and their averaged margin |
| Svm.RbfFitTakesPair | labs/svm.js:280-298 | without candidates, the fit falls back to the closest pair |
| Svm.PairRed | labs/svm.js:284-293 | the pair's red end is a red point |
| Svm.PairRedIsLeast | labs/svm.js:284-293 | no red point is nearer to the blue class than the pair's red end |
| Svm.ClosestPairFacts | labs/svm.js:280-298 | a red then a blue index with weight 1 each, the margin their distance, which no red–blue pair undercuts |
| Svm.RbfCandidates | labs/svm.js:259-277 | when some point is near the other class, the support vectors are exactly the points that are |
| Svm.NoCandidates | labs/svm.js:259-280 | with no point near the other class there is no candidate |
| Svm.RbfFallback | labs/svm.js:280-298 | then the fit is the closest red–blue pair, weight 1 each, margin their distance, and no pair is closer |
| Svm.PairIsNearest | labs/svm.js:284-293 | no red–blue pair is at a smaller `sqrt` distance than the chosen pair |
| Svm.PairIsClosest | labs/svm.js:284-293 | for a true square root no red–blue pair is closer in squared distance than the chosen pair |
| Svm.RbfFitShape | labs/svm.js:253-313 | every RBF fit names each point at most once, only points, weights in (0, 1], margin non-negative |
| Svm.ClosestPairShape | labs/svm.js:280-298 | the closest-pair fallback is well shaped |
| Svm.LinearShape | labs/svm.js:203-244 | the linear fit names only points, each at most once |
| Svm.FitSvm | labs/svm.js:131-156 | fewer than 2 points or a missing class leaves no support vectors and margin 0; otherwise the kernel's fit runs; only weights, support vectors and margin change, and every support vector names a distinct point |
| Svm.Hits | labs/svm.js:575-579 | whether each point is predicted as its own class |
| Svm.AccuracyFacts | labs/svm.js:574-584 | misclassified = n − correct counts the wrong predictions; accuracy lies in [0, 100], is 100 with no points, and is 100 exactly when every point is predicted as its class |
| SvmSession.FirstGrabbed | labs/svm.js:478-491 | the first support vector within 20 px of the press, and none exactly when no support vector is that close |
| SvmSession.MouseDown | labs/svm.js:474-493 | a press on no support vector changes nothing; otherwise dragging starts on the point of the first support vector under the cursor and nothing else changes |
| SvmSession.MouseMove | labs/svm.js:495-526 | while dragging, only the dragged point moves, to the cursor clamped into [0.5, 9.5]², keeps its class, and the model is refitted; otherwise nothing changes |
| SvmSession.DragFollowsPointer | labs/svm.js:503-508 | the dragged point never leaves [0.5, 9.5]² and sits exactly under the cursor while the cursor is inside that square |
| SvmSession.MouseUp | labs/svm.js:528-532 | dragging stops and nothing else changes |
| SvmSession.HandleClick | labs/svm.js:534-563 | a click while dragging, within 15 px of a point or outside [0, 10]² changes nothing; otherwise one point of the selected class is appended and the model refitted |
| SvmSession.ClickedPointIsApart | labs/svm.js:538-548 | an added point is drawn at least 15 px from every earlier point |
| SvmSession.ClearPoints | labs/svm.js:456-461 | clear empties points and support vectors and zeroes the margin, keeping the rest |
| SvmSession.SelectKernel | labs/svm.js:410-418 | the kernel toggle keeps the points, sets the kernel and leaves the state as the fit of it |
| SvmSession.SlideC | labs/svm.js:421-425 | the C slider keeps points and kernel, sets C and leaves the state as the fit of it |
| SvmSession.UniformBounds | labs/svm.js:322-323 | `Math.random() * width + lo` lies in [lo, lo + width) |
| SvmSession.Blob | labs/svm.js:316-338 | one point of the given class per pair of draws |
| SvmSession.BlobInBox | labs/svm.js:316-362 | every blob point lies in the box [lo, lo + width)² |
| SvmSession.Ring | labs/svm.js:364-389 | one point of the given class per pair of draws |
| SvmSession.AroundFacts | labs/svm.js:372-373 | a point at radius r in a unit direction from (5, 5) is at distance r and inside the square of half-side r |
| SvmSession.RingInAnnulus | labs/svm.js:364-389 | a ring point lies at distance in [inner, inner + width) from (5, 5) |
| SvmSession.PresetPoints | labs/svm.js:316-389 | a preset makes half as many points as draws, the first half red and the second blue |
| SvmSession.PresetInside | labs/svm.js:316-389 | every preset point lies in [0.5, 9.5]² for draws in [0, 1) |
| SvmSession.LoadPreset | labs/svm.js:435-455 | the preset buttons choose the linear kernel for the blob sets and RBF for the circular set, load the preset points and fit |
| SvmSession.PresetHasBothClasses | labs/svm.js:316-389 | every preset has both classes, so its fit takes the kernel's path |
| SvmSession.Apply | labs/svm.js:399-563 | every event keeps the support vectors and the dragged point naming existing points |
| SvmSession.Run | labs/svm.js:399-563 | a sequence of events does too |
| SvmSession.ApplyKeepsInside | labs/svm.js:399-563 | every event keeps all points inside [0, 10]² |
| SvmSession.PointerKeepsInside | labs/svm.js:474-563 | pointer events keep all points inside [0, 10]² |
| SvmSession.ControlKeepsInside | labs/svm.js:410-461 | buttons, slider and presets keep all points inside [0, 10]² |
| SvmSession.RunKeepsInside | labs/svm.js:399-563 | any sequence of events keeps all points inside [0, 10]² |
| Logistic.HoursFrame | labs/logistic-regression.js:51-58 | the hours frame is invertible unless a side is exactly twice the padding |
| Logistic.ProbabilityFrame | labs/logistic-regression.js:340-342 | the probability axis frame is invertible under the same condition |
| Logistic.TransformsAgree | labs/logistic-regression.js:336-354 | the lab's five transforms are those of the shared affine frame |
| Logistic.TransformsRoundTrip | labs/logistic-regression.js:336-354 | data → canvas → data and canvas → data → canvas are identities |
| Logistic.SigmoidFacts | labs/logistic-regression.js:61-63 | for an increasing positive exponential with exp 0 = 1 the sigmoid is 1/2 at 0, strictly increasing, and at least 1/2 exactly at non-negative arguments |
| Logistic.Predict1Sign | labs/logistic-regression.js:66-69 | the 1-D view predicts a pass exactly when weight · hours + bias ≥ 0 |
| Logistic.Predict2Side | labs/logistic-regression.js:72-87 | at threshold 1/2 the 2-D view predicts a pass exactly on the non-negative side of the boundary through (position/10, position/10) |
| Logistic.ThresholdMonotone | labs/logistic-regression.js:397 | raising the threshold never turns a predicted fail into a pass |
| Logistic.Hits1 | labs/logistic-regression.js:388-393 | for each 1-D point, whether the one-half cutoff predicts its label |
| Logistic.Hits2 | labs/logistic-regression.js:395-401 | for each 2-D point, whether the threshold predicts its label |
| Logistic.AccuracyFacts | labs/logistic-regression.js:383-405 | the tally counts the current view's points, correct ≤ total, accuracy lies in [0, 100], is 0 with no points, and is 100 exactly when every point of a non-empty view is right |
| Logistic.OneDTallyBySign | labs/logistic-regression.js:388-393 | in the 1-D view the correct count is the number of points whose sign of weight · hours + bias agrees with the label |
| Logistic.MouseDown | labs/logistic-regression.js:283-305 | in 2-D every press grabs the boundary; in 1-D a press grabs the curve exactly when it is within 30 px of it vertically, and otherwise nothing changes |
| Logistic.Abs | labs/logistic-regression.js:294 | the absolute value is non-negative and is x or −x |
| Logistic.MouseMove | labs/logistic-regression.js:246-281 | the cursor is recorded; without a drag nothing else changes; a 1-D drag changes only the bias, to −weight · x when that lies in [−10, 0] and to the nearer end otherwise; a 2-D drag changes only the position, to 5 · (x + y) when that lies in [10, 90] and to the nearer end otherwise |
| Logistic.CurveDragCentres | labs/logistic-regression.js:253-259 | an unclamped curve drag puts the curve's one-half point under the cursor |
| Logistic.BoundaryDragThroughPointer | labs/logistic-regression.js:264-270 | an unclamped boundary drag at 45 degrees puts the boundary through the cursor |
| Logistic.MouseUp | labs/logistic-regression.js:307-311 | the drag ends and nothing else changes |
| Logistic.MouseLeave | labs/logistic-regression.js:164-169 | leaving the canvas ends the drag, moves the cursor to (−1, −1) and changes nothing else |
| Logistic.Readout | labs/logistic-regression.js:356-381 | no readout with the cursor outside the horizontal plot range; otherwise the current view's probability at the cursor and PASS exactly when it reaches the threshold |
| Logistic.ReadoutAgreesAtHalf | labs/logistic-regression.js:377 | at threshold 1/2 the 1-D readout's verdict is the accuracy tally's prediction |
| Logistic.HandleClick | labs/logistic-regression.js:313-333 | only a click in the 2-D view, not while dragging and inside [0, 10]², appends one point, failed with shift and passed otherwise |
| Logistic.ClearView | labs/logistic-regression.js:215-222 | clear empties only the current view's points |
| Logistic.UniformBounds | labs/logistic-regression.js:96 | `Math.random() * width + lo` lies in [lo, lo + width) |
| Logistic.Line | labs/logistic-regression.js:93-108 | one student with the given label per draw |
| Logistic.MixedLine | labs/logistic-regression.js:110-116 | one mixed student per pair of draws |
| Logistic.Square | labs/logistic-regression.js:120-137 | one student with the given label per pair of draws |
| Logistic.MixedSquare | labs/logistic-regression.js:139-147 | one mixed student per pair of draws, passed exactly when x + y > 10 |
| Logistic.Generate | labs/logistic-regression.js:89-150 | 25 one-dimensional and 30 two-dimensional students, nothing else changed |
| Logistic.GeneratedRanges | labs/logistic-regression.js:89-150 | the generated hours lie in [1, 10) and the 2-D points in [1, 9)², the first ten (1-D) and twelve (2-D) failed and the next ones passed |
| Logistic.LineRange | labs/logistic-regression.js:93-108 | every student of a line lies in [lo, lo + width) |
| Logistic.MixedLineRange | labs/logistic-regression.js:110-116 | the mixed 1-D students lie in [4, 7) |
| Logistic.SquareRange | labs/logistic-regression.js:120-137 | every student of a square lies in [lo, lo + width)² |
| Achievements.LabsDistinct | education-system.js:336-385 | the badge table names seven distinct labs |
| Achievements.RecordQuizResult | education-system.js:661-686 | one more attempt; the lab is recorded (from {score 0, not perfect} if unseen) and no other record changes; the score becomes the larger of old and new; perfect is sticky and set by a full score; the grandmaster title is appended once, exactly when the seven labs are perfect, and earlier achievements are kept in order |
| Achievements.RecordIsMonotone | education-system.js:661-682 | a result never lowers a score, clears a perfect flag, forgets a lab, revokes the grandmaster status or lowers the unlocked count |
| Achievements.RecordAll | education-system.js:662 | a sequence of results counts one attempt each |
| Achievements.RecordAllKeepsBest | education-system.js:664-676 | after any sequence of results a lab's score is the best submitted (or kept) and it is perfect exactly when it was or some submission was a full score |
| Achievements.SomePerfectFirst | education-system.js:673-676 | a full score in a sequence is in its first result or in the rest |
| Achievements.UntouchedByOthers | education-system.js:664-676 | results for other labs leave a lab's record unchanged |
| Achievements.BestOfOthers | education-system.js:669-671 | scores for other labs do not change a lab's best |
| Achievements.GrandmasterOnce | education-system.js:679-682 | over any sequence of results the title appears at most once and is held exactly when the seven labs are perfect |
| Achievements.ProgressBounds | education-system.js:645-658 | with only the seven lab ids recorded, at most 8 badges and a progress in [0, 100], reaching 8 and 100% exactly for a grandmaster |
| Achievements.UnknownIdOverflows | education-system.js:645-653 | a perfect record under an unknown id counts as well, so a grandmaster's count can pass 8 and the progress 100% |
| Tour.End | education-system.js:216-221 | the tour stops, with the overlay and tooltip hidden, and is marked completed; the current step and the record of the step last shown are kept |
| Tour.ShowStep | education-system.js:112-158 | an out-of-range index changes nothing; a present element is shown at that index; the step stays in range and only present steps are shown |
| Tour.Next | education-system.js:200-207 | the step stays in range and only present steps are shown |
| Tour.Prev | education-system.js:209-214 | at step 0 nothing changes; the step stays in range and only present steps are shown |
| Tour.Start | education-system.js:104-110 | with no steps nothing changes; the step stays in range and only present steps are shown |
| Tour.NextSteps | education-system.js:200-204 | before the last step, with the next element present, `next` moves one step on and shows it |
| Tour.NextEnds | education-system.js:200-206 | at the last step `next` ends the tour |
| Tour.PrevSteps | education-system.js:209-213 | above step 0, with the previous element present, `prev` moves one step back and shows it |
| Tour.StartShowsFirst | education-system.js:104-110 | a tour with steps starts active at step 0 and shows it when its element is present |
| Tour.NextSkipsMissing | education-system.js:112-121 | `next` lands on the first later step whose element is present, or ends the tour when there is none |
| Tour.KeepInside | education-system.js:191-193 | the clamped coordinate is at least the 16 px padding, at most the far bound whenever that bound is at least the padding, and unchanged when already inside |
| Tour.PositionTooltip | education-system.js:160-198 | the tooltip's left and top are at least 16 px, and at most the window size less tooltip and padding whenever that is at least 16 |
| Tour.TooltipFits | education-system.js:166-193 | a tooltip that fits where it is placed is not moved, and one too large for the window sits at the padding |

## Left out

- Rendering: every `render`/`draw*` method, the animation loops, gradients, pulses and tooltips. They only draw.
- The DOM is not modelled: slider and readout text, cursor styles, class toggles, notifications, confetti and the badge modal. They display state the model already holds.
- GSAP tweens and `setTimeout` delays are not modelled. Each handler takes the value a tween ends at.
- KMeans.StepAssign, KMeans.StepUpdate: the `animating` flag is kept only by `KMeans.RunAutomatic`. The step buttons drop a press made while the previous step animates (labs/kmeans.js:150-156), and the model describes a press made when no animation runs. The timers that chain automatic steps (labs/kmeans.js:455-462) are not modelled.
- DecisionTrees.SplitByFeature, DecisionTrees.PruneLastSplit: the `animating` flag is not modelled. In the code the feature, reset, auto-sort and prune buttons, and `splitByFeature` and `autoSort` themselves, drop any press made while the previous animation runs (labs/decision-trees.js:171-201, 282-283). The model describes a press made when no animation runs. The feature buttons' `disabled` state (gain 0, labs/decision-trees.js:413-420) is covered only through `DecisionTrees.GainOnlyFromSplittable`.
- DecisionTrees.SplitKeepsFruits, DecisionTrees.MergeSegments, DecisionTrees.PruneUndoesSplit: these hold for piles that are ready for the split, that is, with distinct keys and no key already split on the feature. Without that, a new key can collide with an existing one, and `newPiles[newKey] = …` (labs/decision-trees.js:230-231) overwrites the fruits already stored under it. `DecisionTrees.GrowKeepsFruits` shows readiness for every history of split presses and auto-sort steps from the generated piles. It is not proved for histories that also contain prunes.
- `localStorage` is left out: the saved achievement record and the "tour completed" flag (education-system.js:70, 221, 398-409). Persistence does not change the logic.
- Floating point is not modelled: numbers are reals, so rounding, `NaN` and `Infinity` do not arise. `Infinity` as a "no candidate yet" start value becomes an `Option`.
- `Math.sqrt`, `Math.exp`, `Math.log2`, `Math.pow`, `Math.cos` and `Math.sin` are parameters with only the properties each proof needs. Their exact values are foreign code.
- `Math.random()` is replaced by sequences of draws in [0, 1). Which numbers come out is outside the program.
- The random generators of k-means (`generateRandomPoints`, `generateClusteredData`, labs/kmeans.js:168-214) and of k-nearest neighbours (`generateClusters`, `generateScattered`, labs/knn.js:188-237) are left out. They only produce demo data, and every later operation accepts any points. The SVM, linear-regression and logistic-regression generators are modelled, because the lab invariants depend on where their points land.
- The shuffle in the association lab's random basket (labs/association.js:242) is left out. Its comparator is random, so it has no deterministic result to state.
- KMeans: the press hit test and the release of `handleMouseDown`/`handleMouseUp` (labs/kmeans.js:247-307) are left out. `KMeans.DragCentroid` takes the grabbed centroid's index directly. The hit test is the same 20 px rule as `SvmSession.FirstGrabbed`.
- The hover cursor branches of the k-means and SVM `handleMouseMove` and the SVM `updateKernelDescription` are left out. They only change the cursor or text.
- script.js is not part of this model, nor are the `LabTours` and `ParameterExplanations` configuration tables in education-system.js. They are navigation, page decoration and static text; the latter object literal is not valid JavaScript because of stray semicolons at education-system.js:1067 and 1113.
- Tour: the DOM effects of `showStep` are left out: spotlight, scroll, step indicator and buttons. A step is modelled only by whether its element is on the page. `Tour.Side` has the four positions the code handles. An unknown position leaves `top` and `left` undefined in the code and is not modelled.
- Logistic: the weight, bias, angle, position and threshold sliders and `setViewMode` are left out. Each is a plain field assignment followed by the accuracy tally, which `Logistic.UpdateAccuracy` models for any field values.
- Svm: the threshold of the RBF fit, `3 / 10^(C/2)` (labs/svm.js:273), is computed with the `Math.pow` parameter. The proofs need only that it is positive.
- Svm.RbfSelectionFacts: states that the averaged RBF margin is non-negative. It does not state that it is the mean of the candidates' nearest-other distances, which the definition computes as `totalDist / supportVectors.length` (labs/svm.js:300-312).
- Achievements.ProgressBounds: assumes every recorded lab id is one of the seven labs. The code accepts any id, and `Achievements.UnknownIdOverflows` shows that the count then exceeds 8.
- Tour.ShowStep: does not state what a step with a missing element leads to in the same ensures. `Tour.NextSkipsMissing` states it separately.
- LinearRegression.AddOutlierAsWritten: states only that the outlier lies in the data square. Its distance from the line is the subject of the finding below.

## Findings

| source | as written | input that shows it | evidently intended | confidence | as-written member | corrected member |
|---|---|---|---|---|---|---|
| labs/linear-regression.js:478-481 | when the clamped outlier lands within 2 units of the line, the code sets `y = direction > 0 ? 9 : 1`, which keeps the original direction, although the comment says to flip it | slope 0, intercept slider 0.7 (line height 8.5), draws u = 0.5, v = 0.9 (upward), w = 0.0: the outlier lands at y = 9, only 0.5 from the line | flip the direction (`direction > 0 ? 1 : 9`), so that the outlier is always at least 2 units from the line | not executed | LinearRegression.AddOutlierAsWrittenTooClose | LinearRegression.AddOutlier |
| labs/kmeans.js:422-435 | `stepUpdate` loops `i < this.k` but then tweens every centroid towards `newCentroids[i]`. After the k slider or the k-up/k-down buttons (labs/kmeans.js:101-123) change `k` without re-seeding, `newCentroids` is shorter than `centroids` (or `centroids[i]` is undefined), and the update throws a `TypeError` | k = 3 with three centroids after an assign step, then k-up: k = 4 and the next update reads `centroids[3]` | loop over the existing centroids (or re-seed when k changes) | not executed | KMeans.KUpThenUpdateCrashes | KMeans.StepUpdate |

=== FILE: achievements.dfy ===
/**
 The achievement record of education-system.js (`AchievementSystem`): the best
 quiz score and a sticky "perfect" flag per lab, the count of quiz attempts,
 and the one-shot "grandmaster" achievement for perfect scores in all seven
 labs. Lab ids are strings, as in the source, so a result may be recorded for
 an id outside the seven.
 */
module Achievements {

  import opened Geometry
  import opened Seqs

  /** `{score, perfect}` of `completedLabs[labId]`. */
  datatype LabRecord = LabRecord(score: real, perfect: bool)

  datatype Progress = Progress(
    completedLabs: map<string, LabRecord>,
    totalQuizAttempts: nat,
    achievements: seq<string>)

  /** The keys of `achievements.labs`. */
  const Labs: seq<string> :=
    ["linear-regression", "logistic-regression", "decision-trees", "svm", "knn", "kmeans", "association"]

  const Grandmaster: string := "grandmaster"

  /** Seven lab badges and the grandmaster title. */
  const BadgeCount: nat := 8

  /** `loadProgress` with nothing saved. */
  const Fresh: Progress := Progress(map[], 0, [])

  lemma LabsDistinct()
    ensures NoDuplicates(Labs)
    ensures |Elements(Labs)| == 7
  {
    assert Labs[3] != Labs[4] by {
      assert Labs[3][0] != Labs[4][0];
    }
    ElementsCard(Labs);
  }

  /** The record a lab starts from: the stored one, or `{score: 0, perfect: false}`. */
  function Before(cl: map<string, LabRecord>, id: string): LabRecord
  {
    if id in cl then cl[id] else LabRecord(0.0, false)
  }

  /** `isGrandmaster`: every one of the seven labs has a perfect record. */
  predicate IsGrandmaster(cl: map<string, LabRecord>)
  {
    forall i :: 0 <= i < |Labs| ==> Labs[i] in cl && cl[Labs[i]].perfect
  }

  /** The ids with a perfect record, whether or not they are one of the seven. */
  function PerfectLabs(cl: map<string, LabRecord>): set<string>
  {
    set id | id in cl && cl[id].perfect
  }

  /** `getUnlockedCount`: the perfect records plus one for the grandmaster. */
  function UnlockedCount(p: Progress): nat
  {
    |PerfectLabs(p.completedLabs)| + (if IsGrandmaster(p.completedLabs) then 1 else 0)
  }

  /** `getProgressPercent`. */
  function ProgressPercent(p: Progress): real
  {
    (UnlockedCount(p) as real / BadgeCount as real) * 100.0
  }

  /** `recordQuizResult`: one more attempt; the lab's record keeps the best
      score and becomes perfect on a full score; "grandmaster" is appended
      once the seven labs are perfect, unless it is already there. */
  function RecordQuizResult(p: Progress, id: string, score: real, total: real): (r: Progress)
    ensures r.totalQuizAttempts == p.totalQuizAttempts + 1
    ensures r.completedLabs.Keys == p.completedLabs.Keys + {id}
    ensures forall k :: k in p.completedLabs && k != id ==> r.completedLabs[k] == p.completedLabs[k]
    ensures r.completedLabs[id].score >= Before(p.completedLabs, id).score
    ensures r.completedLabs[id].score >= score
    ensures r.completedLabs[id].score == Before(p.completedLabs, id).score || r.completedLabs[id].score == score
    ensures r.completedLabs[id].perfect <==> Before(p.completedLabs, id).perfect || score == total
    ensures Grandmaster in r.achievements <==> Grandmaster in p.achievements || IsGrandmaster(r.completedLabs)
    ensures Grandmaster in p.achievements ==> r.achievements == p.achievements
    ensures |p.achievements| <= |r.achievements| <= |p.achievements| + 1
    ensures r.achievements[..|p.achievements|] == p.achievements
  {
    var current := Before(p.completedLabs, id);
    var best := if score > current.score then score else current.score;
    var perfect := if score == total && !current.perfect then true else current.perfect;
    var cl := p.completedLabs[id := LabRecord(best, perfect)];
    var achievements :=
      if IsGrandmaster(cl) && Grandmaster !in p.achievements then p.achievements + [Grandmaster]
      else p.achievements;
    Progress(cl, p.totalQuizAttempts + 1, achievements)
  }

  /** A recorded result never lowers a score, never clears a perfect flag,
      never forgets a lab and never takes the grandmaster title away. */
  lemma RecordIsMonotone(p: Progress, id: string, score: real, total: real)
    ensures var r := RecordQuizResult(p, id, score, total);
      && (forall k :: k in p.completedLabs ==>
            k in r.completedLabs
            && r.completedLabs[k].score >= p.completedLabs[k].score
            && (p.completedLabs[k].perfect ==> r.completedLabs[k].perfect))
      && (IsGrandmaster(p.completedLabs) ==> IsGrandmaster(r.completedLabs))
      && PerfectLabs(p.completedLabs) <= PerfectLabs(r.completedLabs)
      && UnlockedCount(p) <= UnlockedCount(r)
  {
    var r := RecordQuizResult(p, id, score, total);
    var a, b := PerfectLabs(p.completedLabs), PerfectLabs(r.completedLabs);
    assert a <= b;
    SubsetCard(a, b);
  }

  /** A quiz result: lab id, score and number of questions. */
  datatype Result = Result(id: string, score: real, total: real)

  /** The progress after recording `rs` in order. */
  function RecordAll(p: Progress, rs: seq<Result>): (r: Progress)
    ensures r.totalQuizAttempts == p.totalQuizAttempts + |rs|
    decreases |rs|
  {
    if |rs| == 0 then p
    else RecordAll(RecordQuizResult(p, rs[0].id, rs[0].score, rs[0].total), rs[1..])
  }

  /** The best of `init` and every score submitted for `id` in `rs`. */
  function BestOf(rs: seq<Result>, id: string, init: real): real
    decreases |rs|
  {
    if |rs| == 0 then init
    else BestOf(rs[1..], id, if rs[0].id == id then Max(init, rs[0].score) else init)
  }

  /** Whether some result in `rs` is a full score for `id`. */
  predicate SomePerfect(rs: seq<Result>, id: string)
  {
    exists i :: 0 <= i < |rs| && rs[i].id == id && rs[i].score == rs[i].total
  }

  /** After a sequence of quizzes, a lab's stored score is the best score ever
      submitted for it (or 0), and it is perfect exactly when it was perfect
      before or some submission was a full score. */
  lemma {:induction false} RecordAllKeepsBest(p: Progress, rs: seq<Result>, id: string)
    requires exists i :: 0 <= i < |rs| && rs[i].id == id
    ensures id in RecordAll(p, rs).completedLabs
    ensures RecordAll(p, rs).completedLabs[id].score == BestOf(rs, id, Before(p.completedLabs, id).score)
    ensures RecordAll(p, rs).completedLabs[id].perfect <==> Before(p.completedLabs, id).perfect || SomePerfect(rs, id)
    decreases |rs|
  {
    var q := RecordQuizResult(p, rs[0].id, rs[0].score, rs[0].total);
    var next := Before(q.completedLabs, id);
    assert next.score == (if rs[0].id == id then Max(Before(p.completedLabs, id).score, rs[0].score)
                          else Before(p.completedLabs, id).score);
    SomePerfectFirst(rs, id);
    if exists i :: 0 <= i < |rs[1..]| && rs[1..][i].id == id {
      RecordAllKeepsBest(q, rs[1..], id);
    } else {
      assert rs[0].id == id by {
        var i :| 0 <= i < |rs| && rs[i].id == id;
      }
      UntouchedByOthers(q, rs[1..], id);
      BestOfOthers(rs[1..], id, next.score);
      assert !SomePerfect(rs[1..], id);
    }
  }

  /** A full score for `id` is in the first result or in the rest. */
  lemma SomePerfectFirst(rs: seq<Result>, id: string)
    requires |rs| > 0
    ensures SomePerfect(rs, id) <==> (rs[0].id == id && rs[0].score == rs[0].total) || SomePerfect(rs[1..], id)
  {
    if SomePerfect(rs, id) {
      var i :| 0 <= i < |rs| && rs[i].id == id && rs[i].score == rs[i].total;
      if i > 0 {
        assert rs[1..][i - 1] == rs[i];
      }
    }
    if SomePerfect(rs[1..], id) {
      var i :| 0 <= i < |rs[1..]| && rs[1..][i].id == id && rs[1..][i].score == rs[1..][i].total;
      assert rs[i + 1] == rs[1..][i];
    }
  }

  /** Results for other labs leave a recorded lab's record as it is. */
  lemma {:induction false} UntouchedByOthers(p: Progress, rs: seq<Result>, id: string)
    requires id in p.completedLabs
    requires forall i :: 0 <= i < |rs| ==> rs[i].id != id
    ensures id in RecordAll(p, rs).completedLabs
    ensures RecordAll(p, rs).completedLabs[id] == p.completedLabs[id]
    decreases |rs|
  {
    if |rs| > 0 {
      UntouchedByOthers(RecordQuizResult(p, rs[0].id, rs[0].score, rs[0].total), rs[1..], id);
    }
  }

  lemma {:induction false} BestOfOthers(rs: seq<Result>, id: string, init: real)
    requires forall i :: 0 <= i < |rs| ==> rs[i].id != id
    ensures BestOf(rs, id, init) == init
    decreases |rs|
  {
    if |rs| > 0 {
      BestOfOthers(rs[1..], id, init);
    }
  }

  /** "grandmaster" is appended at most once: starting without it, a sequence
      of quizzes leaves it in the list at most once, and present exactly when
      the seven labs are perfect. */
  lemma {:induction false} GrandmasterOnce(p: Progress, rs: seq<Result>)
    requires Count(p.achievements, Grandmaster) <= 1
    requires Grandmaster in p.achievements <==> IsGrandmaster(p.completedLabs)
    ensures Count(RecordAll(p, rs).achievements, Grandmaster) <= 1
    ensures Grandmaster in RecordAll(p, rs).achievements <==> IsGrandmaster(RecordAll(p, rs).completedLabs)
    decreases |rs|
  {
    if |rs| > 0 {
      var q := RecordQuizResult(p, rs[0].id, rs[0].score, rs[0].total);
      RecordIsMonotone(p, rs[0].id, rs[0].score, rs[0].total);
      if q.achievements != p.achievements {
        CountAppend(p.achievements, [Grandmaster], Grandmaster);
        assert [Grandmaster][..0] == [];
      }
      GrandmasterOnce(q, rs[1..]);
    }
  }

  /** When every recorded id is one of the seven labs, the unlocked count is
      at most 8, the progress at most 100%, and both reach their maximum
      exactly for a grandmaster. */
  lemma ProgressBounds(p: Progress)
    requires p.completedLabs.Keys <= Elements(Labs)
    ensures UnlockedCount(p) <= BadgeCount
    ensures 0.0 <= ProgressPercent(p) <= 100.0
    ensures UnlockedCount(p) == BadgeCount <==> IsGrandmaster(p.completedLabs)
    ensures ProgressPercent(p) == 100.0 <==> IsGrandmaster(p.completedLabs)
  {
    LabsDistinct();
    var perfect := PerfectLabs(p.completedLabs);
    SubsetCard(perfect, Elements(Labs));
    if IsGrandmaster(p.completedLabs) {
      forall x | x in Elements(Labs)
        ensures x in perfect
      {
        var i :| 0 <= i < |Labs| && Labs[i] == x;
      }
      assert perfect == Elements(Labs);
    } else {
      var i :| 0 <= i < |Labs| && !(Labs[i] in p.completedLabs && p.completedLabs[Labs[i]].perfect);
      assert Labs[i] in Elements(Labs) && Labs[i] !in perfect;
      assert perfect != Elements(Labs);
      SubsetCard(perfect, Elements(Labs));
      assert |perfect| < 7;
    }
    PercentBounds(UnlockedCount(p) as real, BadgeCount as real);
  }

  /** With a perfect record for an id outside the seven, a grandmaster's count
      passes 8 and the progress passes 100%. */
  lemma UnknownIdOverflows(p: Progress)
    requires IsGrandmaster(p.completedLabs)
    requires "quiz" in p.completedLabs && p.completedLabs["quiz"].perfect
    ensures UnlockedCount(p) > BadgeCount
    ensures ProgressPercent(p) > 100.0
  {
    LabsDistinct();
    var perfect := PerfectLabs(p.completedLabs);
    assert "quiz" !in Labs;
    assert Elements(Labs) + {"quiz"} <= perfect;
    SubsetCard(Elements(Labs) + {"quiz"}, perfect);
    assert |Elements(Labs) + {"quiz"}| == 8;
    var c := UnlockedCount(p) as real;
    assert c >= 9.0;
    assert (c / 8.0) * 100.0 == c * 12.5;
  }
}

=== FILE: association.dfy ===
/**
 The market-basket lab (`AssociationRulesLab` in labs/association.js).

 Baskets are numbered transactions holding item names. `calculateRules`
 counts, over all baskets, how often each item occurs and how often each
 unordered pair of items occurs together, and turns every pair whose support
 reaches the threshold into up to two rules, one per direction, each kept when
 its confidence reaches the second threshold; the rules are then ordered by
 lift, highest first.

 Pair keys are the two names sorted by `Array.prototype.sort` (code-unit order,
 `StrLess` below) and joined with a comma; the model keeps the two names as a
 `Pair` instead of the joined string. `Math.sqrt` is the parameter `sqrt`.
 */
module Association {

  import opened Geometry
  import opened Oracles
  import opened Seqs
  import opened Sorting

  datatype Basket = Basket(id: int, items: seq<string>)

  datatype Rule = Rule(antecedent: string, consequent: string, support: real, confidence: real, lift: real)

  datatype State = State(
    baskets: seq<Basket>,
    nextBasketId: int,
    rules: seq<Rule>,
    minSupport: real,
    minConfidence: real)

  // ---------------------------------------------------------------------
  // Baskets

  /** `addBasket`: a new empty basket under the next id. */
  function AddBasket(s: State): (r: State)
    ensures r.baskets == s.baskets + [Basket(s.nextBasketId, [])]
    ensures r.nextBasketId == s.nextBasketId + 1
    ensures r.rules == s.rules && r.minSupport == s.minSupport && r.minConfidence == s.minConfidence
  {
    s.(baskets := s.baskets + [Basket(s.nextBasketId, [])], nextBasketId := s.nextBasketId + 1)
  }

  /** The constructor: thresholds 20 % and 50 %, then `init` adds three baskets. */
  function Initial(): State
  {
    AddBasket(AddBasket(AddBasket(State([], 1, [], 0.2, 0.5))))
  }

  /** Basket ids increase strictly along the list and stay below `nextBasketId`;
      every basket holds each item at most once. */
  ghost predicate Valid(s: State)
  {
    && (forall i, j :: 0 <= i < j < |s.baskets| ==> s.baskets[i].id < s.baskets[j].id)
    && (forall i :: 0 <= i < |s.baskets| ==> s.baskets[i].id < s.nextBasketId)
    && (forall i :: 0 <= i < |s.baskets| ==> NoDuplicates(s.baskets[i].items))
  }

  lemma InitialValid()
    ensures Valid(Initial())
    ensures |Initial().baskets| == 3
  {
    ThreeBasketsValid(State([], 1, [], 0.2, 0.5));
  }

  /** Three baskets added to an empty state starting at id 1 are valid. */
  lemma ThreeBasketsValid(s: State)
    requires s.baskets == [] && s.nextBasketId == 1
    ensures Valid(AddBasket(AddBasket(AddBasket(s))))
    ensures |AddBasket(AddBasket(AddBasket(s))).baskets| == 3
  {
    assert Valid(s);
    AddBasketKeepsValid(s);
    AddBasketKeepsValid(AddBasket(s));
    AddBasketKeepsValid(AddBasket(AddBasket(s)));
  }

  /** `this.baskets.find(b => b.id === basketId)`, as an index. */
  function Find(bs: seq<Basket>, id: int): (r: int)
    ensures -1 <= r < |bs|
    ensures r >= 0 ==> bs[r].id == id && forall j :: 0 <= j < r ==> bs[j].id != id
    ensures r == -1 ==> forall j :: 0 <= j < |bs| ==> bs[j].id != id
  {
    if |bs| == 0 then -1
    else if bs[0].id == id then 0
    else
      var r := Find(bs[1..], id);
      if r == -1 then -1 else r + 1
  }

  /** `addItemToBasket`: the item joins the basket with that id unless the
      basket is missing or already holds it; then the rules are recomputed. */
  function AddItemToBasket(s: State, id: int, item: string): (r: State)
    ensures var i := Find(s.baskets, id);
      if i < 0 || item in s.baskets[i].items then r == s
      else
        && r.baskets == s.baskets[i := Basket(id, s.baskets[i].items + [item])]
        && r.rules == CalculateRules(r.baskets, s.minSupport, s.minConfidence)
        && r.nextBasketId == s.nextBasketId
  {
    var i := Find(s.baskets, id);
    if i < 0 || item in s.baskets[i].items then s
    else
      var bs := s.baskets[i := Basket(id, s.baskets[i].items + [item])];
      s.(baskets := bs, rules := CalculateRules(bs, s.minSupport, s.minConfidence))
  }

  /** `removeItemFromBasket`: every occurrence of the item leaves the basket
      with that id; other items and other baskets stay. */
  function RemoveItemFromBasket(s: State, id: int, item: string): (r: State)
    ensures var i := Find(s.baskets, id);
      if i < 0 then r == s
      else
        && r.baskets == s.baskets[i := Basket(id, Without(s.baskets[i].items, item))]
        && r.rules == CalculateRules(r.baskets, s.minSupport, s.minConfidence)
        && r.nextBasketId == s.nextBasketId
  {
    var i := Find(s.baskets, id);
    if i < 0 then s
    else
      var bs := s.baskets[i := Basket(id, Without(s.baskets[i].items, item))];
      s.(baskets := bs, rules := CalculateRules(bs, s.minSupport, s.minConfidence))
  }

  /** `clearAll`: back to three empty baskets numbered 1, 2 and 3, and no rules. */
  function ClearAll(s: State): (r: State)
    ensures r.baskets == [Basket(1, []), Basket(2, []), Basket(3, [])]
    ensures r.nextBasketId == 4
    ensures r.rules == []
  {
    var t := AddBasket(AddBasket(AddBasket(s.(baskets := [], nextBasketId := 1, rules := []))));
    NoItemsNoRules(t.baskets, t.minSupport, t.minConfidence);
    t.(rules := CalculateRules(t.baskets, t.minSupport, t.minConfidence))
  }

  /** The support slider: `value / 100`, then the rules again. */
  function SetMinSupport(s: State, percent: int): (r: State)
    ensures r.minSupport == percent as real / 100.0
    ensures r.baskets == s.baskets && r.rules == CalculateRules(s.baskets, r.minSupport, s.minConfidence)
  {
    var t := s.(minSupport := percent as real / 100.0);
    t.(rules := CalculateRules(t.baskets, t.minSupport, t.minConfidence))
  }

  /** The confidence slider. */
  function SetMinConfidence(s: State, percent: int): (r: State)
    ensures r.minConfidence == percent as real / 100.0
    ensures r.baskets == s.baskets && r.rules == CalculateRules(s.baskets, s.minSupport, r.minConfidence)
  {
    var t := s.(minConfidence := percent as real / 100.0);
    t.(rules := CalculateRules(t.baskets, t.minSupport, t.minConfidence))
  }

  /** Adding a basket keeps ids increasing, since the new id is the largest. */
  lemma AddBasketKeepsValid(s: State)
    requires Valid(s)
    ensures Valid(AddBasket(s))
  {
  }

  lemma AppendKeepsNoDuplicates(items: seq<string>, item: string)
    requires NoDuplicates(items) && item !in items
    ensures NoDuplicates(items + [item])
  {
    forall a, b | 0 <= a < b < |items + [item]|
      ensures (items + [item])[a] != (items + [item])[b]
    {
      if b == |items| {
        assert (items + [item])[a] == items[a];
      }
    }
  }

  /** Adding an item never puts a second copy into a basket, and ids stay. */
  lemma AddItemKeepsValid(s: State, id: int, item: string)
    requires Valid(s)
    ensures Valid(AddItemToBasket(s, id, item))
  {
    var i := Find(s.baskets, id);
    if 0 <= i && item !in s.baskets[i].items {
      AppendKeepsNoDuplicates(s.baskets[i].items, item);
    }
  }

  lemma RemoveItemKeepsValid(s: State, id: int, item: string)
    requires Valid(s)
    ensures Valid(RemoveItemFromBasket(s, id, item))
  {
    var i := Find(s.baskets, id);
    if 0 <= i {
      WithoutKeepsNoDuplicates(s.baskets[i].items, item);
    }
  }

  lemma ClearAllValid(s: State)
    ensures Valid(ClearAll(s))
  {
    var t := s.(baskets := [], nextBasketId := 1, rules := []);
    ThreeBasketsValid(t);
    var u := AddBasket(AddBasket(AddBasket(t)));
    assert ClearAll(s).baskets == u.baskets && ClearAll(s).nextBasketId == u.nextBasketId;
  }

  lemma {:induction false} WithoutKeepsNoDuplicates(xs: seq<string>, x: string)
    requires NoDuplicates(xs)
    ensures NoDuplicates(Without(xs, x))
  {
    if |xs| > 0 {
      var init := xs[..|xs| - 1];
      var last := xs[|xs| - 1];
      WithoutKeepsNoDuplicates(init, x);
      if last != x {
        var w := Without(init, x);
        assert last !in init;
        assert last !in w;
        assert Without(xs, x) == w + [last];
      }
    }
  }

  // ---------------------------------------------------------------------
  // Counting

  /** `a < b` on strings: code-unit-wise, a proper prefix first. */
  predicate StrLess(a: string, b: string)
  {
    if |a| == 0 then |b| > 0
    else if |b| == 0 then false
    else if a[0] != b[0] then a[0] < b[0]
    else StrLess(a[1..], b[1..])
  }

  /** An unordered pair of item names in the order `[a, b].sort()` puts them. */
  datatype Pair = Pair(first: string, second: string)

  function Norm(a: string, b: string): (p: Pair)
    ensures p == Pair(a, b) || p == Pair(b, a)
  {
    if StrLess(b, a) then Pair(b, a) else Pair(a, b)
  }

  /** The pairs `x` forms with each later item of its basket. */
  function PairsWith(x: string, rest: seq<string>): (r: seq<Pair>)
    ensures |r| == |rest|
    ensures forall j :: 0 <= j < |rest| ==> r[j] == Norm(x, rest[j])
  {
    seq(|rest|, j requires 0 <= j < |rest| => Norm(x, rest[j]))
  }

  /** The pair keys of one basket in the order of the `i < j` double loop. */
  function BasketPairs(items: seq<string>): seq<Pair>
    decreases |items|
  {
    if |items| == 0 then [] else PairsWith(items[0], items[1..]) + BasketPairs(items[1..])
  }

  /** Every pair key counted, basket after basket. */
  function PairList(bs: seq<Basket>): seq<Pair>
  {
    if |bs| == 0 then [] else PairList(bs[..|bs| - 1]) + BasketPairs(bs[|bs| - 1].items)
  }

  /** Every item counted, basket after basket. */
  function ItemList(bs: seq<Basket>): seq<string>
  {
    if |bs| == 0 then [] else ItemList(bs[..|bs| - 1]) + bs[|bs| - 1].items
  }

  /** `pairCounts[key]`. */
  function PairCount(bs: seq<Basket>, p: Pair): nat
  {
    Count(PairList(bs), p)
  }

  /** `itemCounts[item]`. */
  function ItemCount(bs: seq<Basket>, x: string): nat
  {
    Count(ItemList(bs), x)
  }

  lemma {:induction false} PairsWithItems(x: string, rest: seq<string>, p: Pair)
    requires p in PairsWith(x, rest)
    ensures p.first in [x] + rest && p.second in [x] + rest
  {
    var j :| 0 <= j < |rest| && PairsWith(x, rest)[j] == p;
    assert rest[j] in [x] + rest;
  }

  lemma {:induction false} BasketPairItems(items: seq<string>, p: Pair)
    requires p in BasketPairs(items)
    ensures p.first in items && p.second in items
    decreases |items|
  {
    assert items == [items[0]] + items[1..];
    if p in PairsWith(items[0], items[1..]) {
      PairsWithItems(items[0], items[1..], p);
    } else {
      BasketPairItems(items[1..], p);
    }
  }

  /** Both names of a counted pair are counted items. */
  lemma {:induction false} PairItems(bs: seq<Basket>, p: Pair)
    requires p in PairList(bs)
    ensures ItemCount(bs, p.first) > 0 && ItemCount(bs, p.second) > 0
  {
    var init := bs[..|bs| - 1];
    var items := bs[|bs| - 1].items;
    if p in PairList(init) {
      PairItems(init, p);
      CountAppend(ItemList(init), items, p.first);
      CountAppend(ItemList(init), items, p.second);
    } else {
      BasketPairItems(items, p);
      CountAppend(ItemList(init), items, p.first);
      CountAppend(ItemList(init), items, p.second);
    }
  }

  // ---------------------------------------------------------------------
  // Rules

  /** The rules of a pair `(first, second)` occurring `c` times among `n`
      baskets, its items `c1` and `c2` times, in the order `calculateRules`
      pushes them: first `first → second`, then `second → first`. */
  function RulesOfCounts(first: string, second: string, n: real, c: real, c1: real, c2: real,
                         minSupport: real, minConfidence: real): seq<Rule>
    requires n > 0.0 && c1 > 0.0 && c2 > 0.0
  {
    var support := c / n;
    if support >= minSupport then
      MulPositive(c1 / n, c2 / n);
      MulPositive(c2 / n, c1 / n);
      var confidence1 := c / c1;
      var lift1 := support / ((c1 / n) * (c2 / n));
      var confidence2 := c / c2;
      var lift2 := support / ((c2 / n) * (c1 / n));
      (if confidence1 >= minConfidence then [Rule(first, second, support, confidence1, lift1)] else [])
      + (if confidence2 >= minConfidence then [Rule(second, first, support, confidence2, lift2)] else [])
    else []
  }

  /** The rules `calculateRules` derives from one pair key. */
  function PairRules(bs: seq<Basket>, p: Pair, minSupport: real, minConfidence: real): seq<Rule>
    requires p in PairList(bs)
  {
    PairItems(bs, p);
    RulesOfCounts(p.first, p.second, |bs| as real, PairCount(bs, p) as real,
                  ItemCount(bs, p.first) as real, ItemCount(bs, p.second) as real, minSupport, minConfidence)
  }

  /** The rules of the pair keys `keys`, in key order. */
  function Emitted(bs: seq<Basket>, keys: seq<Pair>, minSupport: real, minConfidence: real): seq<Rule>
    requires forall i :: 0 <= i < |keys| ==> keys[i] in PairList(bs)
  {
    if |keys| == 0 then []
    else Emitted(bs, keys[..|keys| - 1], minSupport, minConfidence) + PairRules(bs, keys[|keys| - 1], minSupport, minConfidence)
  }

  /** The keys of `pairCounts` in insertion order, which `Object.entries` keeps
      for keys that are not array indices (a pair key holds a comma). */
  function Keys(bs: seq<Basket>): (keys: seq<Pair>)
    ensures forall i :: 0 <= i < |keys| ==> keys[i] in PairList(bs)
  {
    Distinct(PairList(bs))
  }

  function NegLift(r: Rule): real
  {
    -r.lift
  }

  /** `calculateRules`. The comparator `(a, b) => b.lift - a.lift` of the
      stable sort is ascending order of `-lift`. */
  function CalculateRules(bs: seq<Basket>, minSupport: real, minConfidence: real): (r: seq<Rule>)
    ensures |bs| == 0 ==> r == []
  {
    if |bs| == 0 then []
    else Sort(Emitted(bs, Keys(bs), minSupport, minConfidence), NegLift)
  }

  lemma {:induction false} NoItemsNoPairs(bs: seq<Basket>)
    requires forall i :: 0 <= i < |bs| ==> bs[i].items == []
    ensures PairList(bs) == []
  {
    if |bs| > 0 {
      NoItemsNoPairs(bs[..|bs| - 1]);
    }
  }

  /** Baskets without items give no rules. */
  lemma NoItemsNoRules(bs: seq<Basket>, minSupport: real, minConfidence: real)
    requires forall i :: 0 <= i < |bs| ==> bs[i].items == []
    ensures CalculateRules(bs, minSupport, minConfidence) == []
  {
    NoItemsNoPairs(bs);
  }

  /** `c / d` reaches `t` exactly when `c` reaches `t · d`, for a positive `d`. */
  lemma DivAtLeast(c: real, d: real, t: real)
    requires d > 0.0
    ensures c / d >= t <==> c >= t * d
  {
    var q := c / d;
    assert q * d == c;
    if q >= t {
      assert (q - t) * d >= 0.0 by { MulNonNegative(q - t, d); }
    } else {
      MulPositive(t - q, d);
    }
  }

  /** The rule `x → y` passes both thresholds through the pair key `k`: the
      pair occurs, its count reaches `minSupport` of the baskets and
      `minConfidence` of the occurrences of `x`. */
  ghost predicate Passes(bs: seq<Basket>, k: Pair, x: string, minSupport: real, minConfidence: real)
  {
    && k in PairList(bs)
    && Share(PairCount(bs, k), |bs|) >= minSupport
    && Share(PairCount(bs, k), ItemCount(bs, x)) >= minConfidence
  }

  /** `a / b` for counts, 0 when `b` is 0. */
  function Share(a: nat, b: nat): real
  {
    if b == 0 then 0.0 else a as real / b as real
  }

  /** `x → y` is a rule for some key holding `x` and `y` in either order. */
  ghost predicate Qualifies(bs: seq<Basket>, x: string, y: string, minSupport: real, minConfidence: real)
  {
    Passes(bs, Pair(x, y), x, minSupport, minConfidence) || Passes(bs, Pair(y, x), x, minSupport, minConfidence)
  }

  ghost predicate HasRule(rules: seq<Rule>, x: string, y: string)
  {
    exists i :: 0 <= i < |rules| && rules[i].antecedent == x && rules[i].consequent == y
  }

  lemma RulesOfCountsHas(first: string, second: string, n: real, c: real, c1: real, c2: real,
                         minSupport: real, minConfidence: real, x: string, y: string)
    requires n > 0.0 && c1 > 0.0 && c2 > 0.0
    ensures HasRule(RulesOfCounts(first, second, n, c, c1, c2, minSupport, minConfidence), x, y)
        <==> c / n >= minSupport
             && ((x == first && y == second && c / c1 >= minConfidence)
                 || (x == second && y == first && c / c2 >= minConfidence))
  {
    var rs := RulesOfCounts(first, second, n, c, c1, c2, minSupport, minConfidence);
    if HasRule(rs, x, y) {
      var i :| 0 <= i < |rs| && rs[i].antecedent == x && rs[i].consequent == y;
    }
    if c / n >= minSupport {
      if x == first && y == second && c / c1 >= minConfidence {
        assert rs[0].antecedent == x && rs[0].consequent == y;
      } else if x == second && y == first && c / c2 >= minConfidence {
        assert rs[|rs| - 1].antecedent == x && rs[|rs| - 1].consequent == y;
      }
    }
  }

  lemma PairRulesHas(bs: seq<Basket>, p: Pair, minSupport: real, minConfidence: real, x: string, y: string)
    requires p in PairList(bs)
    ensures HasRule(PairRules(bs, p, minSupport, minConfidence), x, y)
        <==> (p == Pair(x, y) || p == Pair(y, x)) && Passes(bs, p, x, minSupport, minConfidence)
  {
    PairItems(bs, p);
    var n, c := |bs| as real, PairCount(bs, p) as real;
    var c1, c2 := ItemCount(bs, p.first) as real, ItemCount(bs, p.second) as real;
    var rs := PairRules(bs, p, minSupport, minConfidence);
    assert rs == RulesOfCounts(p.first, p.second, n, c, c1, c2, minSupport, minConfidence);
    RulesOfCountsHas(p.first, p.second, n, c, c1, c2, minSupport, minConfidence, x, y);
    PassesByCounts(bs, p, x, minSupport, minConfidence, n, c, c1, c2);
    CountsAgree(p, x, y, HasRule(rs, x, y), c / n >= minSupport, c / c1 >= minConfidence, c / c2 >= minConfidence,
                Passes(bs, p, x, minSupport, minConfidence));
  }

  lemma PassesByCounts(bs: seq<Basket>, p: Pair, x: string, minSupport: real, minConfidence: real,
                       n: real, c: real, c1: real, c2: real)
    requires p in PairList(bs)
    requires n == |bs| as real && c == PairCount(bs, p) as real
    requires c1 == ItemCount(bs, p.first) as real && c2 == ItemCount(bs, p.second) as real
    requires n > 0.0 && c1 > 0.0 && c2 > 0.0
    ensures x == p.first ==> (Passes(bs, p, x, minSupport, minConfidence) <==> c / n >= minSupport && c / c1 >= minConfidence)
    ensures x == p.second ==> (Passes(bs, p, x, minSupport, minConfidence) <==> c / n >= minSupport && c / c2 >= minConfidence)
  {
  }

  lemma CountsAgree(p: Pair, x: string, y: string, has: bool, sup: bool, conf1: bool, conf2: bool, passes: bool)
    requires has <==> sup && ((x == p.first && y == p.second && conf1) || (x == p.second && y == p.first && conf2))
    requires x == p.first ==> (passes <==> sup && conf1)
    requires x == p.second ==> (passes <==> sup && conf2)
    ensures has <==> (p == Pair(x, y) || p == Pair(y, x)) && passes
  {
  }

  /** Some key among `keys` yields `x → y`: the key holds `x` and `y` in one
      of the two orders and passes the thresholds with `x` as antecedent. */
  ghost predicate PassesIn(bs: seq<Basket>, keys: seq<Pair>, x: string, y: string, minSupport: real, minConfidence: real)
  {
    || (Pair(x, y) in keys && Passes(bs, Pair(x, y), x, minSupport, minConfidence))
    || (Pair(y, x) in keys && Passes(bs, Pair(y, x), x, minSupport, minConfidence))
  }

  lemma {:induction false} EmittedHas(bs: seq<Basket>, keys: seq<Pair>, minSupport: real, minConfidence: real, x: string, y: string)
    requires forall i :: 0 <= i < |keys| ==> keys[i] in PairList(bs)
    ensures HasRule(Emitted(bs, keys, minSupport, minConfidence), x, y)
        <==> PassesIn(bs, keys, x, y, minSupport, minConfidence)
  {
    if |keys| > 0 {
      var init := keys[..|keys| - 1];
      EmittedHas(bs, init, minSupport, minConfidence, x, y);
      EmittedHasCase(bs, keys, minSupport, minConfidence, x, y);
    }
  }

  /** One step of `EmittedHas`: the last key's rules join those of the rest. */
  lemma EmittedHasCase(bs: seq<Basket>, keys: seq<Pair>, minSupport: real, minConfidence: real, x: string, y: string)
    requires |keys| > 0
    requires forall i :: 0 <= i < |keys| ==> keys[i] in PairList(bs)
    requires HasRule(Emitted(bs, keys[..|keys| - 1], minSupport, minConfidence), x, y)
        <==> PassesIn(bs, keys[..|keys| - 1], x, y, minSupport, minConfidence)
    ensures HasRule(Emitted(bs, keys, minSupport, minConfidence), x, y)
        <==> PassesIn(bs, keys, x, y, minSupport, minConfidence)
  {
    var init := keys[..|keys| - 1];
    var k := keys[|keys| - 1];
    InLast(keys, Pair(x, y));
    InLast(keys, Pair(y, x));
    PairRulesHas(bs, k, minSupport, minConfidence, x, y);
    var a := Emitted(bs, init, minSupport, minConfidence);
    var b := PairRules(bs, k, minSupport, minConfidence);
    assert Emitted(bs, keys, minSupport, minConfidence) == a + b;
    HasRuleAppend(a, b, x, y);
  }

  /** A value is in a non-empty sequence when it is in the front or is the last element. */
  lemma InLast<T>(s: seq<T>, v: T)
    requires |s| > 0
    ensures v in s <==> v in s[..|s| - 1] || v == s[|s| - 1]
  {
    assert s == s[..|s| - 1] + [s[|s| - 1]];
  }

  lemma HasRuleAppend(a: seq<Rule>, b: seq<Rule>, x: string, y: string)
    ensures HasRule(a + b, x, y) <==> HasRule(a, x, y) || HasRule(b, x, y)
  {
    if HasRule(a + b, x, y) {
      var i :| 0 <= i < |a + b| && (a + b)[i].antecedent == x && (a + b)[i].consequent == y;
      if i >= |a| {
        assert b[i - |a|] == (a + b)[i];
      }
    }
    if HasRule(a, x, y) {
      var i :| 0 <= i < |a| && a[i].antecedent == x && a[i].consequent == y;
      assert (a + b)[i] == a[i];
    }
    if HasRule(b, x, y) {
      var i :| 0 <= i < |b| && b[i].antecedent == x && b[i].consequent == y;
      assert (a + b)[|a| + i] == b[i];
    }
  }

  /** `x → y` is among the rules exactly when it passes both thresholds, each
      direction of a pair judged on its own antecedent's count. */
  lemma RulesAreQualifyingPairs(bs: seq<Basket>, minSupport: real, minConfidence: real, x: string, y: string)
    ensures HasRule(CalculateRules(bs, minSupport, minConfidence), x, y)
        <==> Qualifies(bs, x, y, minSupport, minConfidence)
  {
    if |bs| > 0 {
      var e := Emitted(bs, Keys(bs), minSupport, minConfidence);
      var r := CalculateRules(bs, minSupport, minConfidence);
      EmittedHas(bs, Keys(bs), minSupport, minConfidence, x, y);
      SameRules(e, r, x, y);
      assert PassesIn(bs, Keys(bs), x, y, minSupport, minConfidence) <==> Qualifies(bs, x, y, minSupport, minConfidence);
    } else {
      assert !Passes(bs, Pair(x, y), x, minSupport, minConfidence);
      assert !Passes(bs, Pair(y, x), x, minSupport, minConfidence);
    }
  }

  /** Reordering rules keeps which rules there are. */
  lemma SameRules(e: seq<Rule>, r: seq<Rule>, x: string, y: string)
    requires multiset(r) == multiset(e)
    ensures HasRule(r, x, y) <==> HasRule(e, x, y)
  {
    if HasRule(r, x, y) {
      var i :| 0 <= i < |r| && r[i].antecedent == x && r[i].consequent == y;
      assert r[i] in multiset(e);
      var j :| 0 <= j < |e| && e[j] == r[i];
    }
    if HasRule(e, x, y) {
      var i :| 0 <= i < |e| && e[i].antecedent == x && e[i].consequent == y;
      assert e[i] in multiset(r);
      var j :| 0 <= j < |r| && r[j] == e[i];
    }
  }

  /** The rules are ordered by lift, highest first, each lift being its
      pair's support over the product of its items' shares (`RuleOfPair`). */
  lemma RulesSortedByLift(bs: seq<Basket>, minSupport: real, minConfidence: real)
    ensures var r := CalculateRules(bs, minSupport, minConfidence);
      forall i, j :: 0 <= i < j < |r| ==> r[i].lift >= r[j].lift
    ensures var r := CalculateRules(bs, minSupport, minConfidence);
      forall i :: 0 <= i < |r| ==> RuleOfPair(bs, r[i], minSupport, minConfidence)
  {
    var r := CalculateRules(bs, minSupport, minConfidence);
    forall i | 0 <= i < |r|
      ensures RuleOfPair(bs, r[i], minSupport, minConfidence)
    {
      RuleMetrics(bs, minSupport, minConfidence, i);
    }
    if |bs| > 0 {
      SortSpec(Emitted(bs, Keys(bs), minSupport, minConfidence), NegLift);
      forall i, j | 0 <= i < j < |r|
        ensures r[i].lift >= r[j].lift
      {
        assert NegLift(r[i]) <= NegLift(r[j]);
      }
    }
  }

  // ---------------------------------------------------------------------
  // Bounds for duplicate-free baskets

  ghost predicate DuplicateFree(bs: seq<Basket>)
  {
    forall i :: 0 <= i < |bs| ==> NoDuplicates(bs[i].items)
  }

  lemma {:induction false} PairsWithCount(x: string, rest: seq<string>, p: Pair)
    requires NoDuplicates(rest) && x !in rest
    ensures Count(PairsWith(x, rest), p) <= 1
    ensures Count(PairsWith(x, rest), p) > 0 ==> p.first == x || p.second == x
  {
    if |rest| > 0 {
      var init := rest[..|rest| - 1];
      PairsWithPrefix(x, rest);
      PairsWithCount(x, init, p);
      if Norm(x, rest[|rest| - 1]) == p {
        LastPairIsNew(x, rest);
      }
    }
  }

  lemma PairsWithPrefix(x: string, rest: seq<string>)
    requires |rest| > 0
    ensures PairsWith(x, rest)[..|rest| - 1] == PairsWith(x, rest[..|rest| - 1])
  {
  }

  /** The pair `x` forms with the last item is not formed with any earlier one. */
  lemma LastPairIsNew(x: string, rest: seq<string>)
    requires |rest| > 0 && NoDuplicates(rest) && x !in rest
    ensures Norm(x, rest[|rest| - 1]) !in PairsWith(x, rest[..|rest| - 1])
  {
    var init := rest[..|rest| - 1];
    var y := rest[|rest| - 1];
    forall j | 0 <= j < |init|
      ensures PairsWith(x, init)[j] != Norm(x, y)
    {
      NormSharedItem(x, init[j], y);
    }
  }

  lemma {:induction false} BasketPairCount(items: seq<string>, p: Pair)
    requires NoDuplicates(items)
    ensures Count(BasketPairs(items), p) <= 1
    ensures Count(BasketPairs(items), p) > 0 ==> p.first in items && p.second in items
    decreases |items|
  {
    if |items| > 0 {
      var x := items[0];
      var rest := items[1..];
      assert items == [x] + rest;
      assert x !in rest;
      PairsWithCount(x, rest, p);
      BasketPairCount(rest, p);
      CountAppend(PairsWith(x, rest), BasketPairs(rest), p);
      if Count(PairsWith(x, rest), p) > 0 {
        PairsWithItems(x, rest, p);
      }
    }
  }

  /** With duplicate-free baskets, a pair occurs in at most as many baskets as
      either of its items, and in at most all of them. */
  lemma {:induction false} PairCountBound(bs: seq<Basket>, p: Pair)
    requires DuplicateFree(bs)
    ensures PairCount(bs, p) <= ItemCount(bs, p.first)
    ensures PairCount(bs, p) <= ItemCount(bs, p.second)
    ensures PairCount(bs, p) <= |bs|
  {
    if |bs| > 0 {
      var init := bs[..|bs| - 1];
      var items := bs[|bs| - 1].items;
      PairCountBound(init, p);
      BasketPairCount(items, p);
      CountAppend(PairList(init), BasketPairs(items), p);
      CountAppend(ItemList(init), items, p.first);
      CountAppend(ItemList(init), items, p.second);
    }
  }

  /** Two pairs of `x` with different partners differ. */
  lemma NormSharedItem(x: string, a: string, b: string)
    requires a != b && x != a && x != b
    ensures Norm(x, a) != Norm(x, b)
  {
  }

  lemma ProductZero(a: real, b: real)
    requires a * b == 0.0 && b != 0.0
    ensures a == 0.0
  {
    assert a == (a * b) / b;
  }

  lemma DivAtMostOne(c: real, d: real)
    requires 0.0 <= c <= d && d > 0.0
    ensures c / d <= 1.0
  {
    var q, r := c / d, (d - c) / d;
    DivAtLeast(d - c, d, 0.0);
    assert q * d == c && r * d == d - c;
    assert (q + r - 1.0) * d == 0.0;
    ProductZero(q + r - 1.0, d);
  }

  /** `StrLess` is a strict total order: of two different strings exactly one
      comes first. */
  lemma {:induction false} StrLessTotal(a: string, b: string)
    ensures a != b ==> StrLess(a, b) || StrLess(b, a)
    ensures !(StrLess(a, b) && StrLess(b, a))
    decreases |a|
  {
    if |a| > 0 && |b| > 0 && a[0] == b[0] {
      StrLessTotal(a[1..], b[1..]);
      assert a == [a[0]] + a[1..] && b == [b[0]] + b[1..];
    }
  }

  /** A key as `sort()` leaves it: the second name does not come first. */
  predicate SortedKey(p: Pair)
  {
    !StrLess(p.second, p.first)
  }

  lemma NormSorted(a: string, b: string)
    ensures SortedKey(Norm(a, b))
  {
    StrLessTotal(a, b);
  }

  lemma {:induction false} BasketPairsSorted(items: seq<string>, p: Pair)
    ensures p in BasketPairs(items) ==> SortedKey(p)
    decreases |items|
  {
    if |items| > 0 {
      var w := PairsWith(items[0], items[1..]);
      if p in w {
        var j :| 0 <= j < |w| && w[j] == p;
        NormSorted(items[0], items[1..][j]);
      }
      BasketPairsSorted(items[1..], p);
    }
  }

  lemma {:induction false} PairListSorted(bs: seq<Basket>, p: Pair)
    ensures p in PairList(bs) ==> SortedKey(p)
  {
    if |bs| > 0 {
      PairListSorted(bs[..|bs| - 1], p);
      BasketPairsSorted(bs[|bs| - 1].items, p);
    }
  }

  /** Two different names are counted as a pair in one order only. */
  lemma OneOrder(bs: seq<Basket>, a: string, b: string)
    requires a != b && Pair(a, b) in PairList(bs)
    ensures Pair(b, a) !in PairList(bs)
  {
    PairListSorted(bs, Pair(a, b));
    PairListSorted(bs, Pair(b, a));
    StrLessTotal(a, b);
  }

  /** Lift: the support over the support the two items would have if they
      were independent, the product of their shares. */
  function Lift(support: real, share1: real, share2: real): real
    requires share1 > 0.0 && share2 > 0.0
  {
    MulPositive(share1, share2);
    support / (share1 * share2)
  }

  /** The values `calculateRules` gives the rules of a pair found `c` times
      among `n` baskets, its items `c1` and `c2` times. */
  lemma RulesOfCountsValues(first: string, second: string, n: nat, c: nat, c1: nat, c2: nat,
                            minSupport: real, minConfidence: real, r: Rule)
    requires n > 0 && c1 > 0 && c2 > 0
    requires r in RulesOfCounts(first, second, n as real, c as real, c1 as real, c2 as real, minSupport, minConfidence)
    ensures r.support == Share(c, n) && r.support >= minSupport && r.confidence >= minConfidence
    ensures || (r.antecedent == first && r.consequent == second
                && r.confidence == Share(c, c1) && r.lift == Lift(r.support, Share(c1, n), Share(c2, n)))
            || (r.antecedent == second && r.consequent == first
                && r.confidence == Share(c, c2) && r.lift == Lift(r.support, Share(c2, n), Share(c1, n)))
  {
  }

  /** Every rule carries the support, confidence and lift of its pair
      (`RuleOfPair`), and over duplicate-free baskets support and confidence
      are at most 1. */
  lemma RuleMetrics(bs: seq<Basket>, minSupport: real, minConfidence: real, i: nat)
    requires i < |CalculateRules(bs, minSupport, minConfidence)|
    ensures var r := CalculateRules(bs, minSupport, minConfidence)[i];
      && |bs| > 0
      && (Pair(r.antecedent, r.consequent) in PairList(bs) || Pair(r.consequent, r.antecedent) in PairList(bs))
      && ItemCount(bs, r.antecedent) > 0 && ItemCount(bs, r.consequent) > 0
      && r.support >= minSupport && r.confidence >= minConfidence
    ensures var r := CalculateRules(bs, minSupport, minConfidence)[i];
      DuplicateFree(bs) ==> r.support <= 1.0 && r.confidence <= 1.0
    ensures RuleOfPair(bs, CalculateRules(bs, minSupport, minConfidence)[i], minSupport, minConfidence)
  {
    var rs := CalculateRules(bs, minSupport, minConfidence);
    var e := Emitted(bs, Keys(bs), minSupport, minConfidence);
    assert rs[i] in multiset(e);
    EmittedMetrics(bs, Keys(bs), minSupport, minConfidence, rs[i]);
  }

  /** What a rule of one key says about its pair `k`, the key holding its two
      names: support is the share of baskets holding the pair, confidence the
      share of the antecedent's baskets holding it, and lift the support over
      the product of the two items' shares. */
  ghost predicate RuleOfPair(bs: seq<Basket>, r: Rule, minSupport: real, minConfidence: real)
  {
    var k := if Pair(r.antecedent, r.consequent) in PairList(bs) then Pair(r.antecedent, r.consequent)
             else Pair(r.consequent, r.antecedent);
    && |bs| > 0
    && k in PairList(bs)
    && ItemCount(bs, r.antecedent) > 0 && ItemCount(bs, r.consequent) > 0
    && r.support == Share(PairCount(bs, k), |bs|)
    && r.confidence == Share(PairCount(bs, k), ItemCount(bs, r.antecedent))
    && r.lift == Lift(r.support, Share(ItemCount(bs, r.antecedent), |bs|), Share(ItemCount(bs, r.consequent), |bs|))
    && r.support >= minSupport && r.confidence >= minConfidence
    && (DuplicateFree(bs) ==> r.support <= 1.0 && r.confidence <= 1.0)
  }

  lemma EmittedMetrics(bs: seq<Basket>, keys: seq<Pair>, minSupport: real, minConfidence: real, r: Rule)
    requires forall i :: 0 <= i < |keys| ==> keys[i] in PairList(bs)
    requires r in Emitted(bs, keys, minSupport, minConfidence)
    ensures RuleOfPair(bs, r, minSupport, minConfidence)
    decreases |keys|
  {
    var init := keys[..|keys| - 1];
    var k := keys[|keys| - 1];
    if r in Emitted(bs, init, minSupport, minConfidence) {
      EmittedMetrics(bs, init, minSupport, minConfidence, r);
    } else {
      assert r in PairRules(bs, k, minSupport, minConfidence);
      PairRuleMetrics(bs, k, minSupport, minConfidence, r);
    }
  }

  /** `EmittedMetrics` for the rules of one key. */
  lemma PairRuleMetrics(bs: seq<Basket>, k: Pair, minSupport: real, minConfidence: real, r: Rule)
    requires k in PairList(bs)
    requires r in PairRules(bs, k, minSupport, minConfidence)
    ensures RuleOfPair(bs, r, minSupport, minConfidence)
  {
    PairItems(bs, k);
    var c := PairCount(bs, k);
    var c1, c2 := ItemCount(bs, k.first), ItemCount(bs, k.second);
    RulesOfCountsValues(k.first, k.second, |bs|, c, c1, c2, minSupport, minConfidence, r);
    if k.first != k.second {
      OneOrder(bs, k.first, k.second);
    }
    if DuplicateFree(bs) {
      PairCountBound(bs, k);
      DivAtMostOne(c as real, |bs| as real);
      DivAtMostOne(c as real, c1 as real);
      DivAtMostOne(c as real, c2 as real);
    }
  }


  // ---------------------------------------------------------------------
  // Link hit test

  /** The point `a + t · (b - a)` of the line through `a` and `b`. */
  function Along(a: Point, b: Point, t: real): Point
  {
    Point(a.x + t * (b.x - a.x), a.y + t * (b.y - a.y))
  }

  /** The projection parameter of `distToLine`: -1 for a zero-length segment. */
  function Param(p: Point, a: Point, b: Point): real
  {
    var lenSq := Sq(b.x - a.x) + Sq(b.y - a.y);
    if lenSq != 0.0 then ((p.x - a.x) * (b.x - a.x) + (p.y - a.y) * (b.y - a.y)) / lenSq else -1.0
  }

  /** The point of segment `a`–`b` that `distToLine` measures to: `a` for a
      parameter before 0, `b` for one past 1, the projection otherwise. */
  function Closest(p: Point, a: Point, b: Point): Point
  {
    var t := Param(p, a, b);
    if t < 0.0 then a else if t > 1.0 then b else Along(a, b, t)
  }

  /** `distToLine`. */
  function DistToLine(sqrt: real -> real, p: Point, a: Point, b: Point): real
  {
    sqrt(Dist2(p, Closest(p, a, b)))
  }

  /** The measured point is `a` for a zero-length segment and otherwise the
      point at the projection parameter clamped to [0, 1]. */
  lemma ClosestIsClampedProjection(p: Point, a: Point, b: Point)
    ensures a == b ==> Closest(p, a, b) == a
    ensures a != b ==>
      Dist2(b, a) > 0.0
      && Closest(p, a, b)
         == Along(a, b, Clamp(0.0, 1.0, ((p.x - a.x) * (b.x - a.x) + (p.y - a.y) * (b.y - a.y)) / Dist2(b, a)))
  {
    Dist2Zero(b, a);
    if a != b {
      var t := Param(p, a, b);
      var dot := (p.x - a.x) * (b.x - a.x) + (p.y - a.y) * (b.y - a.y);
      assert t == dot / Dist2(b, a);
      if t < 0.0 {
        assert Along(a, b, 0.0) == a;
      } else if t > 1.0 {
        assert Along(a, b, 1.0) == b;
      }
    }
  }

  /** `distToLine` is a distance: non-negative, and the distance to `a` when
      the segment has no length. */
  lemma DistToLineBasics(sqrt: real -> real, p: Point, a: Point)
    requires IsSqrt(sqrt)
    ensures DistToLine(sqrt, p, a, a) == sqrt(Dist2(p, a))
    ensures forall b :: DistToLine(sqrt, p, a, b) >= 0.0
  {
    ClosestIsClampedProjection(p, a, a);
  }
}

=== FILE: decision_trees.dfy ===
/**
 The fruit-sorting lab (`DecisionTreeLab` in labs/decision-trees.js).

 Twelve fruits start in one pile, `mixed`. Splitting by a feature (colour or
 shape) replaces every pile holding more than one fruit and more than one value
 of that feature by one pile per value; pruning undoes the most recent split by
 merging every pile into the key it had before that split. Entropy over fruit
 names measures how mixed a pile is.

 The lab keeps its piles in an object whose keys are strings such as
 `mixed_color_red_shape_round`. The model keeps a key as the path of
 (feature, value) steps from `mixed` (`Key`; `Render` spells it out) and the
 object as the list of its entries in insertion order, with the object's
 assignment (`Put`: replace in place or append) and `push` onto an entry
 (`Push`). `Math.log2` is the parameter `log2`.
 */
module DecisionTrees {

  import opened Seqs
  import opened Oracles
  import opened Options
  import opened Geometry

  datatype Feature = Color | Shape

  function FeatureName(f: Feature): string
  {
    match f
    case Color => "color"
    case Shape => "shape"
  }

  /** A fruit type: name, colour and shape (the emoji is display only). */
  datatype Kind = Kind(name: string, color: string, shape: string)

  const FruitTypes: seq<Kind> := [
    Kind("Red Apple", "red", "round"),
    Kind("Green Apple", "green", "round"),
    Kind("Banana", "yellow", "long"),
    Kind("Orange", "orange", "round"),
    Kind("Lemon", "yellow", "oval"),
    Kind("Grape", "purple", "round")
  ]

  const FruitCount: nat := 12

  /** `f[feature]`. */
  function Value(k: Kind, f: Feature): string
  {
    match f
    case Color => k.color
    case Shape => k.shape
  }

  datatype Step = Step(feature: Feature, value: string)

  /** A pile key: the splits that led from `mixed` to the pile. */
  type Key = seq<Step>

  /** The key as the lab writes it: `${pileKey}_${feature}_${value}` per split. */
  function Render(k: Key): string
  {
    if |k| == 0 then "mixed"
    else Render(k[..|k| - 1]) + "_" + FeatureName(k[|k| - 1].feature) + "_" + k[|k| - 1].value
  }

  /** What a fruit is, apart from the pile it is in. */
  datatype Body = Body(id: int, kind: Kind)

  datatype Fruit = Fruit(body: Body, pile: Key)

  datatype Pile = Pile(key: Key, fruits: seq<Fruit>)

  datatype SplitRecord = SplitRecord(feature: Feature, level: int)

  datatype State = State(piles: seq<Pile>, splits: seq<SplitRecord>, level: int)

  // ---------------------------------------------------------------------
  // The piles object

  function KeysOf(ps: seq<Pile>): (ks: seq<Key>)
    ensures |ks| == |ps|
    ensures forall i :: 0 <= i < |ps| ==> ks[i] == ps[i].key
  {
    seq(|ps|, i requires 0 <= i < |ps| => ps[i].key)
  }

  /** The position of the entry with key `k`, or -1. */
  function Find(ps: seq<Pile>, k: Key): (r: int)
    ensures r == -1 <==> k !in KeysOf(ps)
    ensures r != -1 ==> 0 <= r < |ps| && ps[r].key == k
    ensures r != -1 ==> forall j :: 0 <= j < r ==> ps[j].key != k
  {
    if |ps| == 0 then -1
    else if ps[0].key == k then 0
    else
      var r := Find(ps[1..], k);
      assert forall j :: 0 < j < |ps| ==> ps[j].key == KeysOf(ps[1..])[j - 1];
      if r == -1 then -1 else r + 1
  }

  predicate KeysDistinct(ps: seq<Pile>)
  {
    NoDuplicates(KeysOf(ps))
  }

  /** `piles[k] = fs`: an existing entry keeps its place, a new one goes last. */
  function Put(ps: seq<Pile>, k: Key, fs: seq<Fruit>): (r: seq<Pile>)
    ensures KeysOf(r) == if k in KeysOf(ps) then KeysOf(ps) else KeysOf(ps) + [k]
    ensures k !in KeysOf(ps) ==> r == ps + [Pile(k, fs)]
    ensures k in KeysOf(ps) ==> r == ps[Find(ps, k) := Pile(k, fs)]
  {
    var i := Find(ps, k);
    if i == -1 then
      var r := ps + [Pile(k, fs)];
      assert KeysOf(r) == KeysOf(ps) + [k];
      r
    else
      var r := ps[i := Pile(k, fs)];
      assert KeysOf(r) == KeysOf(ps);
      r
  }

  /** `if (!piles[k]) piles[k] = []` followed by `piles[k].push(...fs)`. */
  function Push(ps: seq<Pile>, k: Key, fs: seq<Fruit>): (r: seq<Pile>)
    ensures KeysOf(r) == if k in KeysOf(ps) then KeysOf(ps) else KeysOf(ps) + [k]
    ensures k !in KeysOf(ps) ==> r == ps + [Pile(k, fs)]
    ensures k in KeysOf(ps) ==> r == ps[Find(ps, k) := Pile(k, ps[Find(ps, k)].fruits + fs)]
  {
    var i := Find(ps, k);
    if i == -1 then
      var r := ps + [Pile(k, fs)];
      assert KeysOf(r) == KeysOf(ps) + [k];
      r
    else
      var r := ps[i := Pile(k, ps[i].fruits + fs)];
      assert KeysOf(r) == KeysOf(ps);
      r
  }

  lemma PutKeepsKeysDistinct(ps: seq<Pile>, k: Key, fs: seq<Fruit>)
    requires KeysDistinct(ps)
    ensures KeysDistinct(Put(ps, k, fs))
  {
  }

  lemma PushKeepsKeysDistinct(ps: seq<Pile>, k: Key, fs: seq<Fruit>)
    requires KeysDistinct(ps)
    ensures KeysDistinct(Push(ps, k, fs))
  {
  }

  // ---------------------------------------------------------------------
  // Fruits

  function Bodies(fs: seq<Fruit>): (bs: seq<Body>)
    ensures |bs| == |fs|
    ensures forall i :: 0 <= i < |fs| ==> bs[i] == fs[i].body
  {
    seq(|fs|, i requires 0 <= i < |fs| => fs[i].body)
  }

  /** Every fruit of `fs` gets `f.pile = k`. */
  function Relabel(fs: seq<Fruit>, k: Key): (r: seq<Fruit>)
    ensures |r| == |fs|
    ensures forall i :: 0 <= i < |fs| ==> r[i] == Fruit(fs[i].body, k)
  {
    seq(|fs|, i requires 0 <= i < |fs| => Fruit(fs[i].body, k))
  }

  /** `pile.map(f => f[feature])`. */
  function Values(fs: seq<Fruit>, f: Feature): (vs: seq<string>)
    ensures |vs| == |fs|
    ensures forall i :: 0 <= i < |fs| ==> vs[i] == Value(fs[i].body.kind, f)
  {
    seq(|fs|, i requires 0 <= i < |fs| => Value(fs[i].body.kind, f))
  }

  /** `pile.filter(f => f[feature] === v)`. */
  function Filter(fs: seq<Fruit>, f: Feature, v: string): (r: seq<Fruit>)
    ensures forall i :: 0 <= i < |r| ==> Value(r[i].body.kind, f) == v
  {
    if |fs| == 0 then []
    else
      var init := Filter(fs[..|fs| - 1], f, v);
      var x := fs[|fs| - 1];
      if Value(x.body.kind, f) == v then init + [x] else init
  }

  /** The multiset of everything in the piles, apart from the pile labels. */
  function Stock(ps: seq<Pile>): multiset<Body>
  {
    if |ps| == 0 then multiset{} else Stock(ps[..|ps| - 1]) + multiset(Bodies(ps[|ps| - 1].fruits))
  }

  /** Every fruit's `pile` field names the pile it is in. */
  ghost predicate Labelled(ps: seq<Pile>)
  {
    forall i, j :: 0 <= i < |ps| && 0 <= j < |ps[i].fruits| ==> ps[i].fruits[j].pile == ps[i].key
  }

  // ---------------------------------------------------------------------
  // Generating the fruits

  /** `Math.floor(u * fruitTypes.length)` for a `Math.random()` value `u`. */
  function PickType(u: real): (k: Kind)
    requires 0.0 <= u < 1.0
    ensures k in FruitTypes
  {
    var i := (u * 6.0).Floor;
    FruitTypes[i]
  }

  function MakeFruits(rands: seq<real>): (fs: seq<Fruit>)
    requires forall i :: 0 <= i < |rands| ==> 0.0 <= rands[i] < 1.0
    ensures |fs| == |rands|
    ensures forall i :: 0 <= i < |fs| ==> fs[i].body.id == i && fs[i].body.kind in FruitTypes && fs[i].pile == []
  {
    seq(|rands|, i requires 0 <= i < |rands| => Fruit(Body(i, PickType(rands[i])), []))
  }

  /** `generateFruits`, given the twelve `Math.random()` draws for the types
      (the ones for rotation are display only). */
  function GenerateFruits(rands: seq<real>): (s: State)
    requires |rands| == FruitCount
    requires forall i :: 0 <= i < |rands| ==> 0.0 <= rands[i] < 1.0
    ensures |s.piles| == 1 && s.piles[0].key == [] && Render(s.piles[0].key) == "mixed"
    ensures |s.piles[0].fruits| == 12
    ensures forall i :: 0 <= i < 12 ==> s.piles[0].fruits[i].body.id == i && s.piles[0].fruits[i].body.kind in FruitTypes
    ensures Labelled(s.piles)
    ensures s.splits == [] && s.level == 0
  {
    State([Pile([], MakeFruits(rands))], [], 0)
  }

  // ---------------------------------------------------------------------
  // Splitting

  /** A pile `splitByFeature` splits: more than one fruit and more than one value. */
  predicate Splittable(p: Pile, f: Feature)
  {
    |p.fruits| > 1 && |Distinct(Values(p.fruits, f))| > 1
  }

  predicate AnySplittable(ps: seq<Pile>, f: Feature)
  {
    exists i :: 0 <= i < |ps| && Splittable(ps[i], f)
  }

  function ChildKey(k: Key, f: Feature, v: string): Key
  {
    k + [Step(f, v)]
  }

  /** The child pile of `p` for value `v`, its fruits relabelled. */
  function Child(p: Pile, f: Feature, v: string): Pile
  {
    Pile(ChildKey(p.key, f, v), Relabel(Filter(p.fruits, f, v), ChildKey(p.key, f, v)))
  }

  /** `values.forEach(value => newPiles[newKey] = ...)`. */
  function PutChildren(acc: seq<Pile>, p: Pile, f: Feature, vs: seq<string>): seq<Pile>
  {
    if |vs| == 0 then acc
    else
      var c := Child(p, f, vs[|vs| - 1]);
      Put(PutChildren(acc, p, f, vs[..|vs| - 1]), c.key, c.fruits)
  }

  /** What one entry of the old piles contributes to `newPiles`. */
  function SplitOne(acc: seq<Pile>, p: Pile, f: Feature): seq<Pile>
  {
    if Splittable(p, f) then PutChildren(acc, p, f, Distinct(Values(p.fruits, f)))
    else Put(acc, p.key, p.fruits)
  }

  function SplitPiles(ps: seq<Pile>, f: Feature): seq<Pile>
  {
    if |ps| == 0 then [] else SplitOne(SplitPiles(ps[..|ps| - 1], f), ps[|ps| - 1], f)
  }

  /** `splitByFeature(feature)`, in the state the animation ends in. */
  function SplitByFeature(s: State, f: Feature): (r: State)
    ensures !AnySplittable(s.piles, f) <==> r == s
    ensures AnySplittable(s.piles, f) ==>
      r.splits == s.splits + [SplitRecord(f, s.level)] && r.level == s.level + 1
  {
    if !AnySplittable(s.piles, f) then s
    else State(SplitPiles(s.piles, f), s.splits + [SplitRecord(f, s.level)], s.level + 1)
  }

  // ---------------------------------------------------------------------
  // Pruning

  /** `key.split(`_${feature}_`)[0]`: the key before its first split on `f`. */
  function Cut(k: Key, f: Feature): (r: Key)
    ensures r <= k
    ensures forall i :: 0 <= i < |r| ==> r[i].feature != f
    ensures |r| < |k| ==> k[|r|].feature == f
  {
    if |k| == 0 || k[0].feature == f then []
    else [k[0]] + Cut(k[1..], f)
  }

  /** The entries of `ps`, in order, pushed into the parent keys of `acc`. */
  function MergeFrom(acc: seq<Pile>, ps: seq<Pile>, f: Feature): seq<Pile>
  {
    if |ps| == 0 then acc
    else
      var p := ps[|ps| - 1];
      var parent := Cut(p.key, f);
      Push(MergeFrom(acc, ps[..|ps| - 1], f), parent, Relabel(p.fruits, parent))
  }

  /** `pruneLastSplit`, in the state the animation ends in. */
  function PruneLastSplit(s: State): (r: State)
    ensures |s.splits| == 0 ==> r == s
    ensures |s.splits| > 0 ==> r.splits == s.splits[..|s.splits| - 1] && r.level == s.level - 1
  {
    if |s.splits| == 0 then s
    else
      var f := s.splits[|s.splits| - 1].feature;
      State(MergeFrom([], s.piles, f), s.splits[..|s.splits| - 1], s.level - 1)
  }

  // ---------------------------------------------------------------------
  // A split leaves nothing to split on the same feature

  predicate NoneSplittable(ps: seq<Pile>, f: Feature)
  {
    forall i :: 0 <= i < |ps| ==> !Splittable(ps[i], f)
  }

  /** A sequence of one repeated value has at most one distinct value. */
  lemma UniformDistinct(xs: seq<string>, v: string)
    requires forall i :: 0 <= i < |xs| ==> xs[i] == v
    ensures |Distinct(xs)| <= 1
  {
    var d := Distinct(xs);
    assert forall i :: 0 <= i < |d| ==> d[i] == v by {
      forall i | 0 <= i < |d|
        ensures d[i] == v
      {
        assert d[i] in xs;
      }
    }
    CountUniform(d, v);
    CountNoDuplicates(d, v);
  }

  lemma ChildNotSplittable(p: Pile, f: Feature, v: string)
    ensures !Splittable(Child(p, f, v), f)
  {
    var c := Child(p, f, v);
    UniformDistinct(Values(c.fruits, f), v);
  }

  lemma PutKeepsNoneSplittable(ps: seq<Pile>, k: Key, fs: seq<Fruit>, f: Feature)
    requires NoneSplittable(ps, f) && !Splittable(Pile(k, fs), f)
    ensures NoneSplittable(Put(ps, k, fs), f)
  {
  }

  lemma {:induction false} PutChildrenNoneSplittable(acc: seq<Pile>, p: Pile, f: Feature, vs: seq<string>)
    requires NoneSplittable(acc, f)
    ensures NoneSplittable(PutChildren(acc, p, f, vs), f)
  {
    if |vs| > 0 {
      var c := Child(p, f, vs[|vs| - 1]);
      PutChildrenNoneSplittable(acc, p, f, vs[..|vs| - 1]);
      ChildNotSplittable(p, f, vs[|vs| - 1]);
      PutKeepsNoneSplittable(PutChildren(acc, p, f, vs[..|vs| - 1]), c.key, c.fruits, f);
    }
  }

  /** After splitting by `f` no pile holds two values of `f`. */
  lemma {:induction false} SplitLeavesNothingSplittable(ps: seq<Pile>, f: Feature)
    ensures NoneSplittable(SplitPiles(ps, f), f)
  {
    if |ps| > 0 {
      var p := ps[|ps| - 1];
      var acc := SplitPiles(ps[..|ps| - 1], f);
      SplitLeavesNothingSplittable(ps[..|ps| - 1], f);
      if Splittable(p, f) {
        PutChildrenNoneSplittable(acc, p, f, Distinct(Values(p.fruits, f)));
      } else {
        PutKeepsNoneSplittable(acc, p.key, p.fruits, f);
      }
    }
  }

  /** Splitting twice by the same feature is splitting once. */
  lemma SplitIdempotent(s: State, f: Feature)
    ensures SplitByFeature(SplitByFeature(s, f), f) == SplitByFeature(s, f)
  {
    SplitLeavesNothingSplittable(s.piles, f);
  }

  // ---------------------------------------------------------------------
  // Keys stay distinct and labels stay right

  lemma {:induction false} PutChildrenKeysDistinct(acc: seq<Pile>, p: Pile, f: Feature, vs: seq<string>)
    requires KeysDistinct(acc)
    ensures KeysDistinct(PutChildren(acc, p, f, vs))
  {
    if |vs| > 0 {
      var c := Child(p, f, vs[|vs| - 1]);
      PutChildrenKeysDistinct(acc, p, f, vs[..|vs| - 1]);
      PutKeepsKeysDistinct(PutChildren(acc, p, f, vs[..|vs| - 1]), c.key, c.fruits);
    }
  }

  /** The split piles, like any object's entries, have distinct keys. */
  lemma {:induction false} SplitKeysDistinct(ps: seq<Pile>, f: Feature)
    ensures KeysDistinct(SplitPiles(ps, f))
  {
    if |ps| > 0 {
      var p := ps[|ps| - 1];
      var acc := SplitPiles(ps[..|ps| - 1], f);
      SplitKeysDistinct(ps[..|ps| - 1], f);
      if Splittable(p, f) {
        PutChildrenKeysDistinct(acc, p, f, Distinct(Values(p.fruits, f)));
      } else {
        PutKeepsKeysDistinct(acc, p.key, p.fruits);
      }
    }
  }

  /** The merged piles have distinct keys. */
  lemma {:induction false} MergeKeysDistinct(acc: seq<Pile>, ps: seq<Pile>, f: Feature)
    requires KeysDistinct(acc)
    ensures KeysDistinct(MergeFrom(acc, ps, f))
  {
    if |ps| > 0 {
      var p := ps[|ps| - 1];
      MergeKeysDistinct(acc, ps[..|ps| - 1], f);
      PushKeepsKeysDistinct(MergeFrom(acc, ps[..|ps| - 1], f), Cut(p.key, f), Relabel(p.fruits, Cut(p.key, f)));
    }
  }

  predicate LabelledAs(fs: seq<Fruit>, k: Key)
  {
    forall j :: 0 <= j < |fs| ==> fs[j].pile == k
  }

  lemma PutKeepsLabelled(ps: seq<Pile>, k: Key, fs: seq<Fruit>)
    requires Labelled(ps) && LabelledAs(fs, k)
    ensures Labelled(Put(ps, k, fs))
  {
  }

  lemma PushKeepsLabelled(ps: seq<Pile>, k: Key, fs: seq<Fruit>)
    requires Labelled(ps) && LabelledAs(fs, k)
    ensures Labelled(Push(ps, k, fs))
  {
    if k in KeysOf(ps) {
      var i := Find(ps, k);
      var r := Push(ps, k, fs);
      forall j | 0 <= j < |r[i].fruits|
        ensures r[i].fruits[j].pile == k
      {
        if j >= |ps[i].fruits| {
          assert r[i].fruits[j] == fs[j - |ps[i].fruits|];
        }
      }
    }
  }

  lemma {:induction false} PutChildrenLabelled(acc: seq<Pile>, p: Pile, f: Feature, vs: seq<string>)
    requires Labelled(acc)
    ensures Labelled(PutChildren(acc, p, f, vs))
  {
    if |vs| > 0 {
      var c := Child(p, f, vs[|vs| - 1]);
      PutChildrenLabelled(acc, p, f, vs[..|vs| - 1]);
      PutKeepsLabelled(PutChildren(acc, p, f, vs[..|vs| - 1]), c.key, c.fruits);
    }
  }

  /** Splitting keeps every fruit's `pile` field equal to its pile's key. */
  lemma {:induction false} SplitKeepsLabelled(ps: seq<Pile>, f: Feature)
    requires Labelled(ps)
    ensures Labelled(SplitPiles(ps, f))
  {
    if |ps| > 0 {
      var p := ps[|ps| - 1];
      var acc := SplitPiles(ps[..|ps| - 1], f);
      SplitKeepsLabelled(ps[..|ps| - 1], f);
      if Splittable(p, f) {
        PutChildrenLabelled(acc, p, f, Distinct(Values(p.fruits, f)));
      } else {
        PutKeepsLabelled(acc, p.key, p.fruits);
      }
    }
  }

  /** Merging sets every fruit's `pile` field to its pile's key, whatever it was. */
  lemma {:induction false} MergeLabelled(acc: seq<Pile>, ps: seq<Pile>, f: Feature)
    requires Labelled(acc)
    ensures Labelled(MergeFrom(acc, ps, f))
  {
    if |ps| > 0 {
      var p := ps[|ps| - 1];
      MergeLabelled(acc, ps[..|ps| - 1], f);
      PushKeepsLabelled(MergeFrom(acc, ps[..|ps| - 1], f), Cut(p.key, f), Relabel(p.fruits, Cut(p.key, f)));
    }
  }

  // ---------------------------------------------------------------------
  // Pruning keeps every fruit

  lemma BodiesAppend(a: seq<Fruit>, b: seq<Fruit>)
    ensures Bodies(a + b) == Bodies(a) + Bodies(b)
  {
  }

  lemma BodiesRelabel(fs: seq<Fruit>, k: Key)
    ensures Bodies(Relabel(fs, k)) == Bodies(fs)
  {
  }

  lemma StockAppend(ps: seq<Pile>, q: Pile)
    ensures Stock(ps + [q]) == Stock(ps) + multiset(Bodies(q.fruits))
  {
    assert (ps + [q])[..|ps|] == ps;
  }

  lemma {:induction false} StockUpdate(ps: seq<Pile>, i: nat, q: Pile)
    requires i < |ps|
    ensures Stock(ps[i := q]) + multiset(Bodies(ps[i].fruits)) == Stock(ps) + multiset(Bodies(q.fruits))
  {
    var n := |ps| - 1;
    if i < n {
      StockUpdate(ps[..n], i, q);
      StockUpdateCase(ps, i, q);
    } else {
      assert ps[i := q][..n] == ps[..n];
    }
  }

  /** The step of `StockUpdate` for a position before the last. */
  lemma StockUpdateCase(ps: seq<Pile>, i: nat, q: Pile)
    requires i < |ps| - 1
    requires Stock(ps[..|ps| - 1][i := q]) + multiset(Bodies(ps[i].fruits))
      == Stock(ps[..|ps| - 1]) + multiset(Bodies(q.fruits))
    ensures Stock(ps[i := q]) + multiset(Bodies(ps[i].fruits)) == Stock(ps) + multiset(Bodies(q.fruits))
  {
    var n := |ps| - 1;
    var u := ps[i := q];
    assert u[..n] == ps[..n][i := q];
    assert u[n] == ps[n];
    var l := multiset(Bodies(ps[n].fruits));
    assert Stock(u) == Stock(u[..n]) + l;
    assert Stock(ps) == Stock(ps[..n]) + l;
    ShiftSum(Stock(u[..n]), multiset(Bodies(ps[i].fruits)), Stock(ps[..n]), multiset(Bodies(q.fruits)), l);
  }

  lemma CancelSum(a: multiset<Body>, b: multiset<Body>, c: multiset<Body>, d: multiset<Body>)
    requires a + b == c + (b + d)
    ensures a == c + d
  {
    forall x
      ensures a[x] == (c + d)[x]
    {
      assert (a + b)[x] == (c + (b + d))[x];
    }
  }

  lemma ShiftSum(a: multiset<Body>, b: multiset<Body>, c: multiset<Body>, d: multiset<Body>, l: multiset<Body>)
    requires a + b == c + d
    ensures a + l + b == c + l + d
  {
    forall x
      ensures (a + l + b)[x] == (c + l + d)[x]
    {
      assert (a + b)[x] == (c + d)[x];
    }
  }

  lemma PushStock(ps: seq<Pile>, k: Key, fs: seq<Fruit>)
    ensures Stock(Push(ps, k, fs)) == Stock(ps) + multiset(Bodies(fs))
  {
    if k in KeysOf(ps) {
      var i := Find(ps, k);
      StockUpdate(ps, i, Pile(k, ps[i].fruits + fs));
      BodiesAppend(ps[i].fruits, fs);
      CancelSum(Stock(Push(ps, k, fs)), multiset(Bodies(ps[i].fruits)), Stock(ps), multiset(Bodies(fs)));
    } else {
      StockAppend(ps, Pile(k, fs));
    }
  }

  lemma {:induction false} MergeStock(acc: seq<Pile>, ps: seq<Pile>, f: Feature)
    ensures Stock(MergeFrom(acc, ps, f)) == Stock(acc) + Stock(ps)
  {
    if |ps| > 0 {
      var p := ps[|ps| - 1];
      MergeStock(acc, ps[..|ps| - 1], f);
      PushStock(MergeFrom(acc, ps[..|ps| - 1], f), Cut(p.key, f), Relabel(p.fruits, Cut(p.key, f)));
      BodiesRelabel(p.fruits, Cut(p.key, f));
    }
  }

  /** Pruning keeps every fruit, leaves distinct keys and labels every fruit
      with its new pile. */
  lemma PruneKeepsFruits(s: State)
    ensures Stock(PruneLastSplit(s).piles) == Stock(s.piles)
    ensures |s.splits| > 0 ==> KeysDistinct(PruneLastSplit(s).piles) && Labelled(PruneLastSplit(s).piles)
  {
    if |s.splits| > 0 {
      var f := s.splits[|s.splits| - 1].feature;
      MergeStock([], s.piles, f);
      MergeKeysDistinct([], s.piles, f);
      MergeLabelled([], s.piles, f);
    }
  }

  // ---------------------------------------------------------------------
  // Splitting and pruning when no key collides

  predicate NoStepOn(k: Key, f: Feature)
  {
    forall j :: 0 <= j < |k| ==> k[j].feature != f
  }

  /** Distinct keys none of which has been split on `f` yet: true of the
      generated piles for either feature, and kept by a split on the other
      feature (`ReadyAfterSplit`). In this case no key the split writes is
      already taken. */
  ghost predicate Ready(ps: seq<Pile>, f: Feature)
  {
    KeysDistinct(ps) && forall i :: 0 <= i < |ps| ==> NoStepOn(ps[i].key, f)
  }

  lemma CutUnsplit(k: Key, f: Feature)
    requires NoStepOn(k, f)
    ensures Cut(k, f) == k
  {
  }

  lemma CutChild(k: Key, f: Feature, v: string)
    requires NoStepOn(k, f)
    ensures Cut(ChildKey(k, f, v), f) == k
  {
    var c := ChildKey(k, f, v);
    var r := Cut(c, f);
    assert c[|k|].feature == f;
    assert |r| <= |k|;
    assert r == c[..|r|];
  }

  lemma ChildKeyInjective(k: Key, f: Feature, a: string, b: string)
    requires a != b
    ensures ChildKey(k, f, a) != ChildKey(k, f, b)
  {
    assert ChildKey(k, f, a)[|k|] != ChildKey(k, f, b)[|k|];
  }

  /** The piles `p` splits into, one per value in `vs`. */
  function Children(p: Pile, f: Feature, vs: seq<string>): (cs: seq<Pile>)
    ensures |cs| == |vs|
    ensures forall i :: 0 <= i < |vs| ==> cs[i] == Child(p, f, vs[i])
  {
    seq(|vs|, i requires 0 <= i < |vs| => Child(p, f, vs[i]))
  }

  /** The fruits of `fs` grouped by the values `vs` in turn. */
  function FilterMany(fs: seq<Fruit>, f: Feature, vs: seq<string>): seq<Fruit>
  {
    if |vs| == 0 then [] else FilterMany(fs, f, vs[..|vs| - 1]) + Filter(fs, f, vs[|vs| - 1])
  }

  /** The entries pile `p` becomes. */
  function Segment(p: Pile, f: Feature): seq<Pile>
  {
    if Splittable(p, f) then Children(p, f, Distinct(Values(p.fruits, f))) else [p]
  }

  function Segments(ps: seq<Pile>, f: Feature): seq<Pile>
  {
    if |ps| == 0 then [] else Segments(ps[..|ps| - 1], f) + Segment(ps[|ps| - 1], f)
  }

  lemma {:induction false} PutChildrenAppends(acc: seq<Pile>, p: Pile, f: Feature, vs: seq<string>)
    requires NoDuplicates(vs)
    requires forall v :: v in vs ==> ChildKey(p.key, f, v) !in KeysOf(acc)
    ensures PutChildren(acc, p, f, vs) == acc + Children(p, f, vs)
  {
    if |vs| > 0 {
      var m := |vs| - 1;
      var v := vs[m];
      PutChildrenAppends(acc, p, f, vs[..m]);
      var x := acc + Children(p, f, vs[..m]);
      forall i | 0 <= i < |x|
        ensures x[i].key != ChildKey(p.key, f, v)
      {
        if i >= |acc| {
          assert x[i] == Child(p, f, vs[i - |acc|]);
          ChildKeyInjective(p.key, f, vs[i - |acc|], v);
        }
      }
      ChildrenSnoc(p, f, vs);
    }
  }

  lemma ChildrenSnoc(p: Pile, f: Feature, vs: seq<string>)
    requires |vs| > 0
    ensures Children(p, f, vs) == Children(p, f, vs[..|vs| - 1]) + [Child(p, f, vs[|vs| - 1])]
  {
  }

  /** Every entry of `Segment(p, f)` has `p`'s key as its parent key. */
  lemma SegmentParents(p: Pile, f: Feature)
    requires NoStepOn(p.key, f)
    ensures forall i :: 0 <= i < |Segment(p, f)| ==> Cut(Segment(p, f)[i].key, f) == p.key
  {
    CutUnsplit(p.key, f);
    if Splittable(p, f) {
      var vs := Distinct(Values(p.fruits, f));
      forall i | 0 <= i < |vs|
        ensures Cut(Segment(p, f)[i].key, f) == p.key
      {
        CutChild(p.key, f, vs[i]);
      }
    }
  }

  /** The parent key of every entry of `segs` is a key of `ps`. */
  predicate ParentsIn(segs: seq<Pile>, ps: seq<Pile>, f: Feature)
  {
    forall i :: 0 <= i < |segs| ==> Cut(segs[i].key, f) in KeysOf(ps)
  }

  lemma ReadyPrefix(ps: seq<Pile>, f: Feature)
    requires |ps| > 0 && Ready(ps, f)
    ensures Ready(ps[..|ps| - 1], f)
    ensures ps[|ps| - 1].key !in KeysOf(ps[..|ps| - 1])
  {
    assert KeysOf(ps[..|ps| - 1]) == KeysOf(ps)[..|ps| - 1];
  }

  /** Without collisions `splitByFeature` writes each pile's segment after the
      earlier ones, and every new key's parent is an old key. */
  lemma {:induction false} SplitIsSegments(ps: seq<Pile>, f: Feature)
    requires Ready(ps, f)
    ensures SplitPiles(ps, f) == Segments(ps, f)
    ensures ParentsIn(Segments(ps, f), ps, f)
  {
    if |ps| > 0 {
      ReadyPrefix(ps, f);
      SplitIsSegments(ps[..|ps| - 1], f);
      SplitIsSegmentsCase(ps, f);
    }
  }

  lemma SplitIsSegmentsCase(ps: seq<Pile>, f: Feature)
    requires |ps| > 0 && Ready(ps, f)
    requires ps[|ps| - 1].key !in KeysOf(ps[..|ps| - 1])
    requires SplitPiles(ps[..|ps| - 1], f) == Segments(ps[..|ps| - 1], f)
    requires ParentsIn(Segments(ps[..|ps| - 1], f), ps[..|ps| - 1], f)
    ensures SplitPiles(ps, f) == Segments(ps, f)
    ensures ParentsIn(Segments(ps, f), ps, f)
  {
    var init := ps[..|ps| - 1];
    var p := ps[|ps| - 1];
    var a := Segments(init, f);
    assert NoStepOn(p.key, f);
    assert SplitPiles(ps, f) == SplitOne(a, p, f);
    assert Segments(ps, f) == a + Segment(p, f);
    FreshKeys(a, init, p, f);
    SplitOneAppends(a, p, f);
    ParentsSnoc(a, ps, f);
  }

  /** Neither `p`'s key nor any child key of it is taken by earlier entries. */
  lemma FreshKeys(a: seq<Pile>, init: seq<Pile>, p: Pile, f: Feature)
    requires ParentsIn(a, init, f) && p.key !in KeysOf(init) && NoStepOn(p.key, f)
    ensures p.key !in KeysOf(a)
    ensures forall v :: ChildKey(p.key, f, v) !in KeysOf(a)
  {
    CutUnsplit(p.key, f);
    forall v
      ensures ChildKey(p.key, f, v) !in KeysOf(a)
    {
      CutChild(p.key, f, v);
    }
  }

  lemma SplitOneAppends(a: seq<Pile>, p: Pile, f: Feature)
    requires p.key !in KeysOf(a)
    requires forall v :: ChildKey(p.key, f, v) !in KeysOf(a)
    ensures SplitOne(a, p, f) == a + Segment(p, f)
  {
    if Splittable(p, f) {
      PutChildrenAppends(a, p, f, Distinct(Values(p.fruits, f)));
    }
  }

  lemma ParentsSnoc(a: seq<Pile>, ps: seq<Pile>, f: Feature)
    requires |ps| > 0 && NoStepOn(ps[|ps| - 1].key, f)
    requires ParentsIn(a, ps[..|ps| - 1], f)
    ensures ParentsIn(a + Segment(ps[|ps| - 1], f), ps, f)
  {
    var init := ps[..|ps| - 1];
    var p := ps[|ps| - 1];
    SegmentParents(p, f);
    assert forall k :: k in KeysOf(init) ==> k in KeysOf(ps) by {
      assert KeysOf(init) == KeysOf(ps)[..|init|];
    }
    assert p.key in KeysOf(ps) by {
      assert KeysOf(ps)[|init|] == p.key;
    }
  }

  // Conservation

  lemma {:induction false} StockConcat(a: seq<Pile>, b: seq<Pile>)
    ensures Stock(a + b) == Stock(a) + Stock(b)
  {
    if |b| > 0 {
      StockConcat(a, b[..|b| - 1]);
      assert (a + b)[..|a + b| - 1] == a + b[..|b| - 1];
    } else {
      assert a + b == a;
    }
  }

  lemma FilterSnoc(fs: seq<Fruit>, x: Fruit, f: Feature, v: string)
    ensures Filter(fs + [x], f, v) == Filter(fs, f, v) + (if Value(x.body.kind, f) == v then [x] else [])
  {
    assert (fs + [x])[..|fs|] == fs;
  }

  /** `multiset{x.body}` when `x`'s value is among `vs`, else empty. */
  function Extra(x: Fruit, f: Feature, vs: seq<string>): multiset<Body>
  {
    if Value(x.body.kind, f) in vs then multiset{x.body} else multiset{}
  }

  /** Grouping one more fruit adds it once when its value is among `vs`. */
  lemma {:induction false} FilterManySnoc(fs: seq<Fruit>, x: Fruit, f: Feature, vs: seq<string>)
    requires NoDuplicates(vs)
    ensures multiset(Bodies(FilterMany(fs + [x], f, vs))) == multiset(Bodies(FilterMany(fs, f, vs))) + Extra(x, f, vs)
  {
    if |vs| > 0 {
      FilterManySnoc(fs, x, f, vs[..|vs| - 1]);
      FilterManySnocCase(fs, x, f, vs);
    }
  }

  lemma FilterManySnocCase(fs: seq<Fruit>, x: Fruit, f: Feature, vs: seq<string>)
    requires |vs| > 0 && NoDuplicates(vs)
    requires multiset(Bodies(FilterMany(fs + [x], f, vs[..|vs| - 1])))
      == multiset(Bodies(FilterMany(fs, f, vs[..|vs| - 1]))) + Extra(x, f, vs[..|vs| - 1])
    ensures multiset(Bodies(FilterMany(fs + [x], f, vs))) == multiset(Bodies(FilterMany(fs, f, vs))) + Extra(x, f, vs)
  {
    var m := |vs| - 1;
    var v := vs[m];
    var hit: seq<Fruit> := if Value(x.body.kind, f) == v then [x] else [];
    FilterSnoc(fs, x, f, v);
    BodiesAppend(FilterMany(fs + [x], f, vs[..m]), Filter(fs + [x], f, v));
    BodiesAppend(FilterMany(fs, f, vs[..m]), Filter(fs, f, v));
    BodiesAppend(Filter(fs, f, v), hit);
    ExtraSnoc(x, f, vs);
    Rearrange(multiset(Bodies(FilterMany(fs, f, vs[..m]))), Extra(x, f, vs[..m]),
              multiset(Bodies(Filter(fs, f, v))), multiset(Bodies(hit)));
  }

  lemma ExtraSnoc(x: Fruit, f: Feature, vs: seq<string>)
    requires |vs| > 0 && NoDuplicates(vs)
    ensures Extra(x, f, vs) == Extra(x, f, vs[..|vs| - 1])
      + multiset(Bodies(if Value(x.body.kind, f) == vs[|vs| - 1] then [x] else []))
  {
    var m := |vs| - 1;
    assert vs == vs[..m] + [vs[m]];
    assert Value(x.body.kind, f) == vs[m] ==> Value(x.body.kind, f) !in vs[..m];
  }

  lemma Rearrange(a: multiset<Body>, e: multiset<Body>, b: multiset<Body>, h: multiset<Body>)
    ensures (a + e) + (b + h) == (a + b) + (e + h)
  {
    forall y
      ensures ((a + e) + (b + h))[y] == ((a + b) + (e + h))[y]
    {
    }
  }

  lemma {:induction false} FilterManyEmpty(f: Feature, vs: seq<string>)
    ensures FilterMany([], f, vs) == []
  {
    if |vs| > 0 {
      FilterManyEmpty(f, vs[..|vs| - 1]);
    }
  }

  /** Grouping by distinct values that cover every fruit keeps every fruit. */
  lemma {:induction false} FilterManyKeepsFruits(fs: seq<Fruit>, f: Feature, vs: seq<string>)
    requires NoDuplicates(vs)
    requires forall i :: 0 <= i < |fs| ==> Value(fs[i].body.kind, f) in vs
    ensures multiset(Bodies(FilterMany(fs, f, vs))) == multiset(Bodies(fs))
  {
    if |fs| == 0 {
      FilterManyEmpty(f, vs);
    } else {
      FilterManyKeepsFruits(fs[..|fs| - 1], f, vs);
      FilterManyKeepsFruitsCase(fs, f, vs);
    }
  }

  lemma FilterManyKeepsFruitsCase(fs: seq<Fruit>, f: Feature, vs: seq<string>)
    requires |fs| > 0 && NoDuplicates(vs)
    requires Value(fs[|fs| - 1].body.kind, f) in vs
    requires multiset(Bodies(FilterMany(fs[..|fs| - 1], f, vs))) == multiset(Bodies(fs[..|fs| - 1]))
    ensures multiset(Bodies(FilterMany(fs, f, vs))) == multiset(Bodies(fs))
  {
    var init := fs[..|fs| - 1];
    var x := fs[|fs| - 1];
    LastSplit(fs);
    FilterManySnoc(init, x, f, vs);
    assert multiset(Bodies(FilterMany(fs, f, vs))) == multiset(Bodies(FilterMany(init, f, vs))) + multiset{x.body};
    BodiesSnoc(fs);
  }

  lemma BodiesSnoc(fs: seq<Fruit>)
    requires |fs| > 0
    ensures multiset(Bodies(fs)) == multiset(Bodies(fs[..|fs| - 1])) + multiset{fs[|fs| - 1].body}
  {
    assert Bodies(fs) == Bodies(fs[..|fs| - 1]) + [fs[|fs| - 1].body];
  }

  lemma {:induction false} StockChildren(p: Pile, f: Feature, vs: seq<string>)
    ensures Stock(Children(p, f, vs)) == multiset(Bodies(FilterMany(p.fruits, f, vs)))
  {
    if |vs| > 0 {
      var m := |vs| - 1;
      StockChildren(p, f, vs[..m]);
      ChildrenSnoc(p, f, vs);
      StockAppend(Children(p, f, vs[..m]), Child(p, f, vs[m]));
      BodiesRelabel(Filter(p.fruits, f, vs[m]), ChildKey(p.key, f, vs[m]));
      BodiesAppend(FilterMany(p.fruits, f, vs[..m]), Filter(p.fruits, f, vs[m]));
    }
  }

  lemma DistinctValuesCover(fs: seq<Fruit>, f: Feature)
    ensures forall i :: 0 <= i < |fs| ==> Value(fs[i].body.kind, f) in Distinct(Values(fs, f))
  {
    assert forall i :: 0 <= i < |fs| ==> Values(fs, f)[i] in Values(fs, f);
  }

  lemma StockSegment(p: Pile, f: Feature)
    ensures Stock(Segment(p, f)) == multiset(Bodies(p.fruits))
  {
    if Splittable(p, f) {
      var vs := Distinct(Values(p.fruits, f));
      StockChildren(p, f, vs);
      DistinctValuesCover(p.fruits, f);
      FilterManyKeepsFruits(p.fruits, f, vs);
    } else {
      StockAppend([], p);
      assert [] + [p] == [p];
    }
  }

  lemma {:induction false} StockSegments(ps: seq<Pile>, f: Feature)
    ensures Stock(Segments(ps, f)) == Stock(ps)
  {
    if |ps| > 0 {
      StockSegments(ps[..|ps| - 1], f);
      StockConcat(Segments(ps[..|ps| - 1], f), Segment(ps[|ps| - 1], f));
      StockSegment(ps[|ps| - 1], f);
    }
  }

  /** Splitting keeps every fruit, when no key collides. */
  lemma SplitKeepsFruits(s: State, f: Feature)
    requires KeysDistinct(s.piles) && (AnySplittable(s.piles, f) ==> Ready(s.piles, f))
    ensures Stock(SplitByFeature(s, f).piles) == Stock(s.piles)
    ensures KeysDistinct(SplitByFeature(s, f).piles)
    ensures Labelled(s.piles) ==> Labelled(SplitByFeature(s, f).piles)
  {
    if AnySplittable(s.piles, f) {
      SplitPilesKeepFruits(s.piles, f);
      SplitKeysDistinct(s.piles, f);
      if Labelled(s.piles) {
        SplitKeepsLabelled(s.piles, f);
      }
    }
  }

  lemma SplitPilesKeepFruits(ps: seq<Pile>, f: Feature)
    requires Ready(ps, f)
    ensures Stock(SplitPiles(ps, f)) == Stock(ps)
  {
    SplitIsSegments(ps, f);
    StockSegments(ps, f);
  }

  // ---------------------------------------------------------------------
  // Pruning right after a split undoes it

  lemma {:induction false} MergeAppend(acc: seq<Pile>, a: seq<Pile>, b: seq<Pile>, f: Feature)
    ensures MergeFrom(acc, a + b, f) == MergeFrom(MergeFrom(acc, a, f), b, f)
  {
    if |b| == 0 {
      assert a + b == a;
    } else {
      MergeAppend(acc, a, b[..|b| - 1], f);
      assert (a + b)[..|a + b| - 1] == a + b[..|b| - 1];
    }
  }

  lemma RelabelAppend(a: seq<Fruit>, b: seq<Fruit>, k: Key)
    ensures Relabel(a, k) + Relabel(b, k) == Relabel(a + b, k)
  {
  }

  lemma RelabelTwice(fs: seq<Fruit>, k1: Key, k2: Key)
    ensures Relabel(Relabel(fs, k1), k2) == Relabel(fs, k2)
  {
  }

  /** The fruits of `p` as pruning gathers them back from its segment. */
  function Regathered(p: Pile, f: Feature): seq<Fruit>
  {
    if Splittable(p, f) then Relabel(FilterMany(p.fruits, f, Distinct(Values(p.fruits, f))), p.key)
    else Relabel(p.fruits, p.key)
  }

  lemma RegatheredBodies(p: Pile, f: Feature)
    ensures multiset(Bodies(Regathered(p, f))) == multiset(Bodies(p.fruits))
  {
    if Splittable(p, f) {
      var vs := Distinct(Values(p.fruits, f));
      BodiesRelabel(FilterMany(p.fruits, f, vs), p.key);
      DistinctValuesCover(p.fruits, f);
      FilterManyKeepsFruits(p.fruits, f, vs);
    } else {
      BodiesRelabel(p.fruits, p.key);
    }
  }

  /** Merging the children of `p` back gives one new entry under `p`'s key. */
  lemma {:induction false} MergeChildren(m: seq<Pile>, p: Pile, f: Feature, vs: seq<string>)
    requires NoStepOn(p.key, f) && p.key !in KeysOf(m) && |vs| > 0
    ensures MergeFrom(m, Children(p, f, vs), f) == m + [Pile(p.key, Relabel(FilterMany(p.fruits, f, vs), p.key))]
  {
    if |vs| == 1 {
      MergeChildrenFirst(m, p, f, vs);
    } else {
      MergeChildren(m, p, f, vs[..|vs| - 1]);
      MergeChildrenCase(m, p, f, vs);
    }
  }

  lemma MergeChildrenFirst(m: seq<Pile>, p: Pile, f: Feature, vs: seq<string>)
    requires NoStepOn(p.key, f) && p.key !in KeysOf(m) && |vs| == 1
    ensures MergeFrom(m, Children(p, f, vs), f) == m + [Pile(p.key, Relabel(FilterMany(p.fruits, f, vs), p.key))]
  {
    var v := vs[0];
    var c := Child(p, f, v);
    CutChild(p.key, f, v);
    ChildrenSnoc(p, f, vs);
    assert vs[..0] == [];
    assert Children(p, f, vs)[..0] == [];
    RelabelTwice(Filter(p.fruits, f, v), c.key, p.key);
    assert FilterMany(p.fruits, f, vs) == Filter(p.fruits, f, v);
  }

  lemma MergeChildrenCase(m: seq<Pile>, p: Pile, f: Feature, vs: seq<string>)
    requires NoStepOn(p.key, f) && p.key !in KeysOf(m) && |vs| > 1
    requires MergeFrom(m, Children(p, f, vs[..|vs| - 1]), f)
      == m + [Pile(p.key, Relabel(FilterMany(p.fruits, f, vs[..|vs| - 1]), p.key))]
    ensures MergeFrom(m, Children(p, f, vs), f) == m + [Pile(p.key, Relabel(FilterMany(p.fruits, f, vs), p.key))]
  {
    var k := |vs| - 1;
    var v := vs[k];
    var c := Child(p, f, v);
    var x := Relabel(FilterMany(p.fruits, f, vs[..k]), p.key);
    var y := Relabel(Filter(p.fruits, f, v), p.key);
    var m1 := m + [Pile(p.key, x)];
    CutChild(p.key, f, v);
    ChildrenSnoc(p, f, vs);
    RelabelTwice(Filter(p.fruits, f, v), c.key, p.key);
    assert MergeFrom(m, Children(p, f, vs), f) == Push(m1, p.key, y);
    PushOntoLast(m, p.key, x, y);
    RelabelAppend(FilterMany(p.fruits, f, vs[..k]), Filter(p.fruits, f, v), p.key);
  }

  lemma PushOntoLast(m: seq<Pile>, k: Key, x: seq<Fruit>, y: seq<Fruit>)
    requires k !in KeysOf(m)
    ensures Push(m + [Pile(k, x)], k, y) == m + [Pile(k, x + y)]
  {
    var m1 := m + [Pile(k, x)];
    assert KeysOf(m1)[|m|] == k;
    assert Find(m1, k) == |m|;
  }

  /** Merging the segment of `p` back gives one new entry under `p`'s key. */
  lemma MergeSegment(m: seq<Pile>, p: Pile, f: Feature)
    requires NoStepOn(p.key, f) && p.key !in KeysOf(m)
    ensures MergeFrom(m, Segment(p, f), f) == m + [Pile(p.key, Regathered(p, f))]
  {
    if Splittable(p, f) {
      MergeChildren(m, p, f, Distinct(Values(p.fruits, f)));
    } else {
      CutUnsplit(p.key, f);
      assert [p][..0] == [];
    }
  }

  /** The same keys in the same order, each pile with the same fruits up to order. */
  ghost predicate Similar(a: seq<Pile>, b: seq<Pile>)
  {
    && |a| == |b|
    && forall i :: 0 <= i < |a| ==>
         a[i].key == b[i].key && multiset(Bodies(a[i].fruits)) == multiset(Bodies(b[i].fruits))
  }

  lemma {:induction false} MergeSegments(ps: seq<Pile>, f: Feature)
    requires Ready(ps, f)
    ensures Similar(MergeFrom([], Segments(ps, f), f), ps)
  {
    if |ps| > 0 {
      ReadyPrefix(ps, f);
      MergeSegments(ps[..|ps| - 1], f);
      MergeSegmentsCase(ps, f);
    }
  }

  lemma MergeSegmentsCase(ps: seq<Pile>, f: Feature)
    requires |ps| > 0 && Ready(ps, f)
    requires ps[|ps| - 1].key !in KeysOf(ps[..|ps| - 1])
    requires Similar(MergeFrom([], Segments(ps[..|ps| - 1], f), f), ps[..|ps| - 1])
    ensures Similar(MergeFrom([], Segments(ps, f), f), ps)
  {
    var init := ps[..|ps| - 1];
    var p := ps[|ps| - 1];
    var m := MergeFrom([], Segments(init, f), f);
    assert Segments(ps, f) == Segments(init, f) + Segment(p, f);
    MergeAppend([], Segments(init, f), Segment(p, f), f);
    assert KeysOf(m) == KeysOf(init);
    assert NoStepOn(p.key, f);
    MergeSegment(m, p, f);
    RegatheredBodies(p, f);
    SimilarSnoc(m, ps, Pile(p.key, Regathered(p, f)));
  }

  lemma SimilarSnoc(a: seq<Pile>, b: seq<Pile>, x: Pile)
    requires |b| > 0 && Similar(a, b[..|b| - 1])
    requires x.key == b[|b| - 1].key && multiset(Bodies(x.fruits)) == multiset(Bodies(b[|b| - 1].fruits))
    ensures Similar(a + [x], b)
  {
  }

  /** Pruning right after a split that changed something restores the splits,
      the level, the keys in their order and each pile's fruits (up to their
      order inside the pile), with every fruit labelled with its pile. */
  lemma PruneUndoesSplit(s: State, f: Feature)
    requires Ready(s.piles, f) && AnySplittable(s.piles, f)
    ensures var r := PruneLastSplit(SplitByFeature(s, f));
      && r.splits == s.splits && r.level == s.level
      && Similar(r.piles, s.piles)
      && Labelled(r.piles)
  {
    SplitIsSegments(s.piles, f);
    MergeSegments(s.piles, f);
    MergeLabelled([], SplitPiles(s.piles, f), f);
    assert (s.splits + [SplitRecord(f, s.level)])[..|s.splits|] == s.splits;
  }

  /** The generated piles are ready for a split on either feature. */
  lemma GeneratedReady(rands: seq<real>, f: Feature)
    requires |rands| == FruitCount
    requires forall i :: 0 <= i < |rands| ==> 0.0 <= rands[i] < 1.0
    ensures Ready(GenerateFruits(rands).piles, f)
  {
  }

  lemma {:induction false} SegmentsNoStepOn(ps: seq<Pile>, f: Feature, g: Feature)
    requires f != g
    requires forall i :: 0 <= i < |ps| ==> NoStepOn(ps[i].key, g)
    ensures forall i :: 0 <= i < |Segments(ps, f)| ==> NoStepOn(Segments(ps, f)[i].key, g)
  {
    if |ps| > 0 {
      var p := ps[|ps| - 1];
      SegmentsNoStepOn(ps[..|ps| - 1], f, g);
      assert NoStepOn(p.key, g);
      assert forall i :: 0 <= i < |Segment(p, f)| ==> NoStepOn(Segment(p, f)[i].key, g);
    }
  }

  /** A split on `f` keeps the piles ready for a split on the other feature. */
  lemma ReadyAfterSplit(s: State, f: Feature, g: Feature)
    requires f != g && Ready(s.piles, f) && Ready(s.piles, g)
    ensures Ready(SplitByFeature(s, f).piles, g)
  {
    SplitIsSegments(s.piles, f);
    SplitKeysDistinct(s.piles, f);
    SegmentsNoStepOn(s.piles, f, g);
  }

  // ---------------------------------------------------------------------
  // Rendered keys

  lemma {:induction false} RenderPrefix(k: Key, j: nat)
    requires j <= |k|
    ensures Render(k[..j]) <= Render(k)
    decreases |k| - j
  {
    if j < |k| {
      RenderPrefix(k, j + 1);
      assert k[..j + 1][..j] == k[..j];
    } else {
      assert k[..j] == k;
    }
  }

  /** The string key of a pile starts with its parent key followed by
      `_${feature}_` when the pile lies below a split on `feature`, so
      `key.split(`_${feature}_`)[0]` finds the parent there. */
  lemma ParentKeyIsPrefix(k: Key, f: Feature)
    ensures Render(Cut(k, f)) <= Render(k)
    ensures |Cut(k, f)| < |k| ==> Render(Cut(k, f)) + "_" + FeatureName(f) + "_" <= Render(k)
  {
    var c := Cut(k, f);
    RenderPrefix(k, |c|);
    assert k[..|c|] == c;
    if |c| < |k| {
      RenderPrefix(k, |c| + 1);
      assert k[..|c| + 1][..|c|] == c;
      var r := Render(k[..|c| + 1]);
      assert r == Render(c) + "_" + FeatureName(f) + "_" + k[|c|].value;
    }
  }

  // ---------------------------------------------------------------------
  // Entropy

  function Names(fs: seq<Fruit>): (ns: seq<string>)
    ensures |ns| == |fs|
    ensures forall i :: 0 <= i < |fs| ==> ns[i] == fs[i].body.kind.name
  {
    seq(|fs|, i requires 0 <= i < |fs| => fs[i].body.kind.name)
  }

  /** `entropy -= p * Math.log2(p)` over `names`, `p` each name's share of `ns`. */
  function EntropySum(log2: real -> real, ns: seq<string>, names: seq<string>): real
    requires |ns| > 0
  {
    if |names| == 0 then 0.0
    else
      var e := EntropySum(log2, ns, names[..|names| - 1]);
      var p := Proportion(Count(ns, names[|names| - 1]), |ns|);
      if p > 0.0 then e - Term(log2, p) else e
  }

  /** A count's share `c / n` of a non-empty collection. */
  function Proportion(c: nat, n: nat): real
    requires n > 0
  {
    c as real / n as real
  }

  /** `p · log2(p)`, the quantity subtracted for each name. */
  function Term(log2: real -> real, p: real): real
  {
    p * log2(p)
  }

  /** `calculateEntropy`: the names counted in the order they first occur. */
  function Entropy(log2: real -> real, fs: seq<Fruit>): real
  {
    if |fs| == 0 then 0.0 else EntropySum(log2, Names(fs), Distinct(Names(fs)))
  }

  /** Every fruit has the first fruit's name. */
  predicate SingleName(fs: seq<Fruit>)
  {
    forall i :: 0 <= i < |fs| ==> fs[i].body.kind.name == fs[0].body.kind.name
  }

  /** `isPerfectlySorted`. */
  predicate PerfectlySorted(ps: seq<Pile>)
  {
    forall i :: 0 <= i < |ps| ==> |ps[i].fruits| <= 1 || SingleName(ps[i].fruits)
  }

  lemma ShareInUnit(c: nat, n: nat)
    requires 0 < c <= n
    ensures 0.0 < Proportion(c, n) <= 1.0
    ensures c < n ==> Proportion(c, n) < 1.0
  {
    var p := c as real / n as real;
    assert p * n as real == c as real;
  }

  /** One term `-p · log2(p)` is never negative, and positive for `p < 1`. */
  lemma TermSign(log2: real -> real, p: real)
    requires IsLog2(log2) && 0.0 < p <= 1.0
    ensures Term(log2, p) <= 0.0
    ensures p < 1.0 ==> Term(log2, p) < 0.0
  {
    if p < 1.0 {
      MulPositive(p, -log2(p));
      assert p * -log2(p) == -(p * log2(p));
    }
  }

  lemma {:induction false} EntropySumNonNegative(log2: real -> real, ns: seq<string>, names: seq<string>)
    requires IsLog2(log2) && |ns| > 0
    ensures EntropySum(log2, ns, names) >= 0.0
  {
    if |names| > 0 {
      EntropySumNonNegative(log2, ns, names[..|names| - 1]);
      EntropySumStep(log2, ns, names);
    }
  }

  /** Adding a name never lowers the sum, and a name that occurs but not
      everywhere raises it. */
  lemma EntropySumStep(log2: real -> real, ns: seq<string>, names: seq<string>)
    requires IsLog2(log2) && |ns| > 0 && |names| > 0
    ensures EntropySum(log2, ns, names) >= EntropySum(log2, ns, names[..|names| - 1])
    ensures 0 < Count(ns, names[|names| - 1]) < |ns| ==>
      EntropySum(log2, ns, names) > EntropySum(log2, ns, names[..|names| - 1])
  {
    var c := Count(ns, names[|names| - 1]);
    var p := Proportion(c, |ns|);
    ShareSign(c, |ns|);
    if p > 0.0 {
      ShareInUnit(c, |ns|);
      TermSign(log2, p);
    }
  }

  lemma ProportionWhole(n: nat)
    requires n > 0
    ensures Proportion(n, n) == 1.0
  {
  }

  lemma ShareSign(c: nat, n: nat)
    requires 0 < n
    ensures Proportion(c, n) > 0.0 <==> c > 0
  {
    var p := c as real / n as real;
    assert p * n as real == c as real;
  }

  /** A name that occurs but not everywhere makes the sum positive. */
  lemma {:induction false} EntropySumPositive(log2: real -> real, ns: seq<string>, names: seq<string>, j: nat)
    requires IsLog2(log2) && |ns| > 0
    requires j < |names| && 0 < Count(ns, names[j]) < |ns|
    ensures EntropySum(log2, ns, names) > 0.0
  {
    var init := names[..|names| - 1];
    EntropySumStep(log2, ns, names);
    if j < |names| - 1 {
      EntropySumPositive(log2, ns, init, j);
    } else {
      EntropySumNonNegative(log2, ns, init);
    }
  }

  lemma SingleNameEntropy(log2: real -> real, fs: seq<Fruit>)
    requires IsLog2(log2) && |fs| > 0 && SingleName(fs)
    ensures Entropy(log2, fs) == 0.0
  {
    var ns := Names(fs);
    var n0 := ns[0];
    var d := Distinct(ns);
    UniformDistinct(ns, n0);
    assert n0 in d;
    assert d == [n0];
    CountUniform(ns, n0);
    assert d[..0] == [];
    ProportionWhole(|ns|);
    assert EntropySum(log2, ns, d) == 0.0 - Term(log2, 1.0);
  }

  lemma MixedEntropy(log2: real -> real, fs: seq<Fruit>, i: nat)
    requires IsLog2(log2) && i < |fs| && fs[i].body.kind.name != fs[0].body.kind.name
    ensures Entropy(log2, fs) > 0.0
  {
    var ns := Names(fs);
    var d := Distinct(ns);
    CountTwo(ns, ns[0], ns[i]);
    assert ns[i] in ns;
    assert ns[0] in d;
    var j :| 0 <= j < |d| && d[j] == ns[0];
    EntropySumPositive(log2, ns, d, j);
  }

  /** Entropy is never negative, and zero exactly for a pile of one name. */
  lemma EntropyZeroIff(log2: real -> real, fs: seq<Fruit>)
    requires IsLog2(log2)
    ensures Entropy(log2, fs) >= 0.0
    ensures Entropy(log2, fs) == 0.0 <==> SingleName(fs)
  {
    if |fs| > 0 {
      if SingleName(fs) {
        SingleNameEntropy(log2, fs);
      } else {
        var i :| 0 <= i < |fs| && fs[i].body.kind.name != fs[0].body.kind.name;
        MixedEntropy(log2, fs, i);
      }
    }
  }

  /** The piles are perfectly sorted exactly when every pile has zero entropy. */
  lemma PerfectlySortedIffPure(log2: real -> real, ps: seq<Pile>)
    requires IsLog2(log2)
    ensures PerfectlySorted(ps) <==> forall i :: 0 <= i < |ps| ==> Entropy(log2, ps[i].fruits) == 0.0
  {
    forall i | 0 <= i < |ps|
      ensures (|ps[i].fruits| <= 1 || SingleName(ps[i].fruits)) <==> Entropy(log2, ps[i].fruits) == 0.0
    {
      EntropyZeroIff(log2, ps[i].fruits);
    }
  }

  /** The entropy of every pile, in pile order. */
  function Entropies(log2: real -> real, ps: seq<Pile>): (es: seq<real>)
    ensures |es| == |ps|
    ensures forall i :: 0 <= i < |ps| ==> es[i] == Entropy(log2, ps[i].fruits)
  {
    seq(|ps|, i requires 0 <= i < |ps| => Entropy(log2, ps[i].fruits))
  }

  function Sizes(ps: seq<Pile>): (ns: seq<nat>)
    ensures |ns| == |ps|
    ensures forall i :: 0 <= i < |ps| ==> ns[i] == |ps[i].fruits|
  {
    seq(|ps|, i requires 0 <= i < |ps| => |ps[i].fruits|)
  }

  /** Σ es[i] · ns[i]: `totalEntropy += entropy * pile.length`. */
  function Weighted(es: seq<real>, ns: seq<nat>): real
    requires |es| == |ns|
  {
    if |es| == 0 then 0.0
    else Weighted(es[..|es| - 1], ns[..|ns| - 1]) + es[|es| - 1] * ns[|ns| - 1] as real
  }

  function Total(ns: seq<nat>): nat
  {
    if |ns| == 0 then 0 else Total(ns[..|ns| - 1]) + ns[|ns| - 1]
  }

  /** `calculateOverallEntropy`: the size-weighted mean entropy of the piles. */
  function OverallEntropy(log2: real -> real, ps: seq<Pile>): real
  {
    var ns := Sizes(ps);
    if Total(ns) > 0 then Weighted(Entropies(log2, ps), ns) / Total(ns) as real else 0.0
  }

  lemma {:induction false} WeightedBounds(es: seq<real>, ns: seq<nat>)
    requires |es| == |ns|
    requires forall i :: 0 <= i < |es| ==> es[i] >= 0.0
    ensures Weighted(es, ns) >= 0.0
    ensures (forall i :: 0 <= i < |es| ==> es[i] == 0.0) ==> Weighted(es, ns) == 0.0
  {
    if |es| > 0 {
      WeightedBounds(es[..|es| - 1], ns[..|ns| - 1]);
      MulNonNegative(es[|es| - 1], ns[|ns| - 1] as real);
    }
  }

  /** The overall entropy is never negative and is zero once the piles are
      perfectly sorted. */
  lemma OverallEntropyBounds(log2: real -> real, ps: seq<Pile>)
    requires IsLog2(log2)
    ensures OverallEntropy(log2, ps) >= 0.0
    ensures PerfectlySorted(ps) ==> OverallEntropy(log2, ps) == 0.0
  {
    var es, ns := Entropies(log2, ps), Sizes(ps);
    forall i | 0 <= i < |es|
      ensures es[i] >= 0.0
    {
      EntropyZeroIff(log2, ps[i].fruits);
    }
    PerfectlySortedIffPure(log2, ps);
    WeightedBounds(es, ns);
    if Total(ns) > 0 {
      DivNonNegative(Weighted(es, ns), Total(ns) as real);
    }
  }

  // ---------------------------------------------------------------------
  // Information gain and the automatic sort

  /** Σ over `vs` of `subset.length / pile.length · entropy(subset)`. */
  function SplitEntropy(log2: real -> real, fs: seq<Fruit>, f: Feature, vs: seq<string>): real
    requires |fs| > 0
  {
    if |vs| == 0 then 0.0
    else
      var subset := Filter(fs, f, vs[|vs| - 1]);
      SplitEntropy(log2, fs, f, vs[..|vs| - 1]) + (|subset| as real / |fs| as real) * Entropy(log2, subset)
  }

  /** What one pile adds to `calculateInformationGain`. */
  function PileGain(log2: real -> real, p: Pile, f: Feature): real
  {
    if |p.fruits| <= 1 then 0.0
    else
      var vs := Distinct(Values(p.fruits, f));
      if |vs| <= 1 then 0.0 else Entropy(log2, p.fruits) - SplitEntropy(log2, p.fruits, f, vs)
  }

  /** `calculateInformationGain(feature)`. */
  function InformationGain(log2: real -> real, ps: seq<Pile>, f: Feature): real
  {
    if |ps| == 0 then 0.0 else InformationGain(log2, ps[..|ps| - 1], f) + PileGain(log2, ps[|ps| - 1], f)
  }

  /** Only a pile the split would change contributes to the gain, so a feature
      with no splittable pile has gain 0 and its button is disabled. */
  lemma {:induction false} GainOnlyFromSplittable(log2: real -> real, ps: seq<Pile>, f: Feature)
    ensures InformationGain(log2, ps, f) != 0.0 ==> AnySplittable(ps, f)
  {
    if |ps| > 0 {
      GainOnlyFromSplittable(log2, ps[..|ps| - 1], f);
      if AnySplittable(ps[..|ps| - 1], f) {
        var i :| 0 <= i < |ps| - 1 && Splittable(ps[..|ps| - 1][i], f);
        assert Splittable(ps[i], f);
      }
    }
  }

  /** Right after a split by `f`, `f`'s button is disabled. */
  lemma SplitDisablesFeature(log2: real -> real, s: State, f: Feature)
    requires AnySplittable(s.piles, f)
    ensures InformationGain(log2, SplitByFeature(s, f).piles, f) == 0.0
  {
    SplitLeavesNothingSplittable(s.piles, f);
    GainOnlyFromSplittable(log2, SplitPiles(s.piles, f), f);
  }

  /** The choice of `autoSort`'s step: colour, then shape if strictly better,
      and nothing unless the best gain is positive. */
  function BestFeature(colorGain: real, shapeGain: real): (r: Option<Feature>)
    ensures r == None <==> colorGain <= 0.0 && shapeGain <= 0.0
    ensures r == Some(Color) ==> colorGain > 0.0 && colorGain >= shapeGain
    ensures r == Some(Shape) ==> shapeGain > 0.0 && shapeGain > colorGain
  {
    var (best, gain) := if colorGain > 0.0 then (Some(Color), colorGain) else (None, 0.0);
    var (best', gain') := if shapeGain > gain then (Some(Shape), shapeGain) else (best, gain);
    if best'.Some? && gain' > 0.0 then best' else None
  }

  /** One step of `autoSort`. */
  function AutoSortStep(log2: real -> real, s: State): State
  {
    match BestFeature(InformationGain(log2, s.piles, Color), InformationGain(log2, s.piles, Shape))
    case None => s
    case Some(f) => SplitByFeature(s, f)
  }

  /** An `autoSort` step that picks a feature records a split. */
  lemma AutoSortStepSplits(log2: real -> real, s: State)
    ensures BestFeature(InformationGain(log2, s.piles, Color), InformationGain(log2, s.piles, Shape)) != None ==>
      |AutoSortStep(log2, s).splits| == |s.splits| + 1
  {
    GainOnlyFromSplittable(log2, s.piles, Color);
    GainOnlyFromSplittable(log2, s.piles, Shape);
  }

  // ---------------------------------------------------------------------
  // Histories of splits stay ready

  /** More than one distinct value means two positions holding different values. */
  lemma TwoValues(xs: seq<string>)
    ensures |Distinct(xs)| > 1 <==> exists i, j :: 0 <= i < |xs| && 0 <= j < |xs| && xs[i] != xs[j]
  {
    var d := Distinct(xs);
    if |d| > 1 {
      assert d[0] in xs && d[1] in xs;
      var i :| 0 <= i < |xs| && xs[i] == d[0];
      var j :| 0 <= j < |xs| && xs[j] == d[1];
    }
    if exists i, j :: 0 <= i < |xs| && 0 <= j < |xs| && xs[i] != xs[j] {
      var i, j :| 0 <= i < |xs| && 0 <= j < |xs| && xs[i] != xs[j];
      assert xs[i] in d && xs[j] in d;
    }
  }

  lemma {:induction false} FilterFrom(fs: seq<Fruit>, f: Feature, v: string)
    ensures forall x :: x in Filter(fs, f, v) ==> x in fs
  {
    if |fs| > 0 {
      FilterFrom(fs[..|fs| - 1], f, v);
      assert forall x :: x in fs[..|fs| - 1] ==> x in fs;
    }
  }

  /** A child that can be split on `g` has a parent that can. */
  lemma ChildSplittable(p: Pile, f: Feature, v: string, g: Feature)
    requires Splittable(Child(p, f, v), g)
    ensures Splittable(p, g)
  {
    var c := Child(p, f, v);
    var fl := Filter(p.fruits, f, v);
    TwoValues(Values(c.fruits, g));
    var i, j :| 0 <= i < |c.fruits| && 0 <= j < |c.fruits| && Values(c.fruits, g)[i] != Values(c.fruits, g)[j];
    FilterFrom(p.fruits, f, v);
    assert fl[i] in p.fruits && fl[j] in p.fruits;
    var a :| 0 <= a < |p.fruits| && p.fruits[a] == fl[i];
    var b :| 0 <= b < |p.fruits| && p.fruits[b] == fl[j];
    assert Values(p.fruits, g)[a] != Values(p.fruits, g)[b];
    TwoValues(Values(p.fruits, g));
  }

  lemma SegmentSplittable(p: Pile, f: Feature, g: Feature, i: nat)
    requires i < |Segment(p, f)| && Splittable(Segment(p, f)[i], g)
    ensures Splittable(p, g)
  {
    if Splittable(p, f) {
      ChildSplittable(p, f, Distinct(Values(p.fruits, f))[i], g);
    }
  }

  /** A split creates nothing splittable on a feature that was not splittable before. */
  lemma {:induction false} SegmentsSplittable(ps: seq<Pile>, f: Feature, g: Feature)
    ensures AnySplittable(Segments(ps, f), g) ==> AnySplittable(ps, g)
  {
    if |ps| > 0 && AnySplittable(Segments(ps, f), g) {
      var init := ps[..|ps| - 1];
      var a := Segments(init, f);
      var i :| 0 <= i < |Segments(ps, f)| && Splittable(Segments(ps, f)[i], g);
      if i < |a| {
        assert Splittable(a[i], g);
        SegmentsSplittable(init, f, g);
        var j :| 0 <= j < |init| && Splittable(init[j], g);
        assert ps[j] == init[j];
      } else {
        SegmentSplittable(ps[|ps| - 1], f, g, i - |a|);
      }
    }
  }

  /** Distinct keys, and no collision for a split on any feature that still has
      something to split. */
  ghost predicate SplitReady(ps: seq<Pile>)
  {
    KeysDistinct(ps) && forall f :: AnySplittable(ps, f) ==> Ready(ps, f)
  }

  lemma GeneratedSplitReady(rands: seq<real>)
    requires |rands| == FruitCount
    requires forall i :: 0 <= i < |rands| ==> 0.0 <= rands[i] < 1.0
    ensures SplitReady(GenerateFruits(rands).piles)
  {
    forall f | AnySplittable(GenerateFruits(rands).piles, f)
      ensures Ready(GenerateFruits(rands).piles, f)
    {
      GeneratedReady(rands, f);
    }
  }

  /** A split keeps the piles ready: the feature split on has nothing left to
      split, and a pile splittable on the other feature descends from one that
      already was, whose key had no step on it. */
  lemma SplitKeepsSplitReady(s: State, f: Feature)
    requires SplitReady(s.piles)
    ensures SplitReady(SplitByFeature(s, f).piles)
  {
    if AnySplittable(s.piles, f) {
      var ps := s.piles;
      var r := SplitPiles(ps, f);
      SplitIsSegments(ps, f);
      SplitKeysDistinct(ps, f);
      SplitLeavesNothingSplittable(ps, f);
      forall g | AnySplittable(r, g)
        ensures Ready(r, g)
      {
        assert g != f;
        SegmentsSplittable(ps, f, g);
        SegmentsNoStepOn(ps, f, g);
      }
    }
  }

  lemma AutoSortKeepsSplitReady(log2: real -> real, s: State)
    requires SplitReady(s.piles)
    ensures SplitReady(AutoSortStep(log2, s).piles)
  {
    match BestFeature(InformationGain(log2, s.piles, Color), InformationGain(log2, s.piles, Shape))
    case None =>
    case Some(f) => SplitKeepsSplitReady(s, f);
  }

  /** A press of a split button, or one step of `autoSort`. */
  datatype Growth = SplitPress(feature: Feature) | AutoSortPress

  /** The state after the presses `es`, in order, with no prune among them. */
  function Grow(log2: real -> real, s: State, es: seq<Growth>): State
  {
    if |es| == 0 then s
    else
      var t := Grow(log2, s, es[..|es| - 1]);
      match es[|es| - 1]
      case SplitPress(f) => SplitByFeature(t, f)
      case AutoSortPress => AutoSortStep(log2, t)
  }

  /** Along any history of splits and auto-sort steps from ready piles, the
      piles stay ready, keep every fruit, and keep every fruit labelled. */
  lemma {:induction false} GrowKeepsFruits(log2: real -> real, s: State, es: seq<Growth>)
    requires SplitReady(s.piles)
    ensures SplitReady(Grow(log2, s, es).piles)
    ensures Stock(Grow(log2, s, es).piles) == Stock(s.piles)
    ensures Labelled(s.piles) ==> Labelled(Grow(log2, s, es).piles)
  {
    if |es| > 0 {
      var t := Grow(log2, s, es[..|es| - 1]);
      GrowKeepsFruits(log2, s, es[..|es| - 1]);
      var f := match es[|es| - 1]
        case SplitPress(g) => g
        case AutoSortPress =>
          match BestFeature(InformationGain(log2, t.piles, Color), InformationGain(log2, t.piles, Shape))
          case None => Color
          case Some(g) => g;
      SplitKeepsFruits(t, f);
      SplitKeepsSplitReady(t, f);
    }
  }

  /** From the generated piles, every history of splits and auto-sort steps
      keeps all twelve fruits, and a prune right after any further split
      undoes it. */
  lemma GeneratedGrowth(log2: real -> real, rands: seq<real>, es: seq<Growth>, f: Feature)
    requires |rands| == FruitCount
    requires forall i :: 0 <= i < |rands| ==> 0.0 <= rands[i] < 1.0
    ensures var s := Grow(log2, GenerateFruits(rands), es);
      && Stock(s.piles) == Stock(GenerateFruits(rands).piles)
      && Labelled(s.piles)
      && (AnySplittable(s.piles, f) ==>
            var r := PruneLastSplit(SplitByFeature(s, f));
            r.splits == s.splits && r.level == s.level && Similar(r.piles, s.piles))
  {
    var s := Grow(log2, GenerateFruits(rands), es);
    GeneratedSplitReady(rands);
    GrowKeepsFruits(log2, GenerateFruits(rands), es);
    if AnySplittable(s.piles, f) {
      PruneUndoesSplit(s, f);
    }
  }
}

=== FILE: geometry.dfy ===
/**
 Points of a lab's data plane and the small pieces of arithmetic that every lab
 shares: squared Euclidean distance, `Math.min`/`Math.max`, the clamp
 `Math.max(lo, Math.min(hi, v))`, coordinate sums and the centroid (mean point).
 */
module Geometry {

  datatype Point = Point(x: real, y: real)

  function Max(a: real, b: real): (r: real)
    ensures r >= a && r >= b
    ensures r == a || r == b
  {
    if a >= b then a else b
  }

  function Min(a: real, b: real): (r: real)
    ensures r <= a && r <= b
    ensures r == a || r == b
  {
    if a <= b then a else b
  }

  /** `Math.max(lo, Math.min(hi, v))`, the clamp every drag handler applies. */
  function Clamp(lo: real, hi: real, v: real): (r: real)
    ensures lo <= r
    ensures lo <= hi ==> r <= hi
    ensures lo <= v <= hi ==> r == v
    ensures v < lo ==> r == lo
    ensures lo <= hi < v ==> r == hi
  {
    Max(lo, Min(hi, v))
  }

  /** True when both coordinates lie in the closed square [lo, hi]². */
  predicate InSquare(p: Point, lo: real, hi: real)
  {
    lo <= p.x <= hi && lo <= p.y <= hi
  }

  /** A point whose coordinates are both clamped into [lo, hi]. */
  function ClampPoint(lo: real, hi: real, p: Point): (r: Point)
    requires lo <= hi
    ensures InSquare(r, lo, hi)
    ensures InSquare(p, lo, hi) ==> r == p
  {
    Point(Clamp(lo, hi, p.x), Clamp(lo, hi, p.y))
  }

  function Sq(a: real): (r: real)
    ensures r >= 0.0
  {
    a * a
  }

  lemma MulPositive(a: real, b: real)
    requires a > 0.0 && b > 0.0
    ensures a * b > 0.0
  {
  }

  lemma MulNonNegative(a: real, b: real)
    requires a >= 0.0 && b >= 0.0
    ensures a * b >= 0.0
  {
    if a > 0.0 && b > 0.0 {
      MulPositive(a, b);
    }
  }

  /** A quotient of a non-negative number by a positive one is non-negative. */
  lemma DivNonNegative(w: real, t: real)
    requires w >= 0.0 && t > 0.0
    ensures w / t >= 0.0
    ensures w == 0.0 ==> w / t == 0.0
  {
    var q := w / t;
    assert q * t == w;
    if q < 0.0 {
      MulPositive(-q, t);
    }
  }

  /** A square is zero only at zero. */
  lemma SqPositive(a: real)
    ensures a != 0.0 ==> Sq(a) > 0.0
  {
    var h := a / 2.0;
    if a > 0.0 {
      MulPositive(a, h);
    } else if a < 0.0 {
      MulPositive(-a, -h);
    }
    assert Sq(a) == 2.0 * (a * h);
  }

  /** Squaring is strictly increasing on the non-negative reals. */
  lemma SqMonotone(a: real, b: real)
    ensures 0.0 <= a < b ==> Sq(a) < Sq(b)
  {
    var d := b - a;
    var s := b + a;
    if 0.0 <= a < b {
      MulPositive(d, s);
    }
    assert Sq(b) - Sq(a) == d * s;
  }

  /** `c / n · 100` for a count `c` out of `n > 0` lies in [0, 100] and
      reaches 100 exactly when `c == n`. */
  lemma PercentBounds(c: real, n: real)
    requires 0.0 <= c <= n && n > 0.0
    ensures 0.0 <= (c / n) * 100.0 <= 100.0
    ensures (c / n) * 100.0 == 100.0 <==> c == n
  {
    var q := c / n;
    assert q * n == c;
    DivNonNegative(c, n);
    if q > 1.0 {
      MulPositive(q - 1.0, n);
    }
    if q < 1.0 && c == n {
      MulPositive(1.0 - q, n);
    }
  }

  /** Squared Euclidean distance. The labs compare `Math.sqrt` of this value;
      comparing the square instead preserves every ordering (see Oracles). */
  function Dist2(p: Point, q: Point): (d: real)
    ensures d >= 0.0
  {
    Sq(p.x - q.x) + Sq(p.y - q.y)
  }

  /** Two points are at squared distance zero exactly when they coincide. */
  lemma Dist2Zero(p: Point, q: Point)
    ensures Dist2(p, q) == 0.0 <==> p == q
  {
    SqPositive(p.x - q.x);
    SqPositive(p.y - q.y);
    assert p.x == q.x && p.y == q.y ==> p == q;
  }

  lemma Dist2Symmetric(p: Point, q: Point)
    ensures Dist2(p, q) == Dist2(q, p)
  {
    assert Sq(p.x - q.x) == Sq(q.x - p.x);
    assert Sq(p.y - q.y) == Sq(q.y - p.y);
  }

  function SumX(ps: seq<Point>): real
  {
    if |ps| == 0 then 0.0 else SumX(ps[..|ps| - 1]) + ps[|ps| - 1].x
  }

  function SumY(ps: seq<Point>): real
  {
    if |ps| == 0 then 0.0 else SumY(ps[..|ps| - 1]) + ps[|ps| - 1].y
  }

  /** The mean point `(Σx / n, Σy / n)` as the labs compute it with `reduce`. */
  function Mean(ps: seq<Point>): (m: Point)
    requires |ps| > 0
    ensures m.x * (|ps| as real) == SumX(ps)
    ensures m.y * (|ps| as real) == SumY(ps)
  {
    Point(SumX(ps) / (|ps| as real), SumY(ps) / (|ps| as real))
  }

  /** `c` is the mean of `ps`: each coordinate times the count is the sum. */
  predicate IsMean(c: Point, ps: seq<Point>)
  {
    c.x * (|ps| as real) == SumX(ps) && c.y * (|ps| as real) == SumY(ps)
  }

  /** Σ over `ps` of the squared distance to `c`. */
  function SumDist2(ps: seq<Point>, c: Point): (r: real)
    ensures r >= 0.0
  {
    if |ps| == 0 then 0.0 else SumDist2(ps[..|ps| - 1], c) + Dist2(ps[|ps| - 1], c)
  }
}

=== FILE: kmeans.dfy ===
/**
 The stepped k-means engine of the k-means lab (`KMeansLab` in labs/kmeans.js).

 The lab keeps data points in [0, 10]², each tagged with a cluster index (-1
 while unassigned), and k centroids. The user seeds the centroids (k-means++),
 then alternates an assign step (every point joins its nearest centroid) and an
 update step (every centroid moves to the mean of its members). Each update
 leaves the previous centroid positions in a bounded "ghost trail" history and
 counts one iteration; the engine reports convergence once the centroids move
 less than 0.01 in total.

 The model takes the values every tween ends at. The `animating` flag that
 makes the step buttons ignore presses while a tween runs is kept only by
 `RunAutomatic`; the step functions themselves model a press that is
 accepted. Randomness is a parameter: a sequence of
 numbers in [0, 1), one per `Math.random()` call.
 */
module KMeans {

  import opened Geometry
  import opened Oracles
  import opened Seqs
  import opened Viewport

  datatype Step = Init | Assign | Update

  /** A data point and the cluster it belongs to; `Unassigned` is -1. */
  datatype KPoint = KPoint(pos: Point, cluster: int)

  datatype State = State(
    points: seq<KPoint>,
    k: int,
    centroids: seq<Point>,
    history: seq<seq<Point>>,
    iteration: nat,
    step: Step,
    converged: bool)

  const Unassigned: int := -1
  const MaxHistory: nat := 10
  const ConvergenceTolerance: real := 0.01
  const DataMin: real := 0.0
  const DataMax: real := 10.0
  const DragMin: real := 0.5
  const DragMax: real := 9.5
  const KMin: int := 2
  const KMax: int := 8

  /** The lab's canvas frame: 60 pixels of padding around [0, 10]². */
  function LabFrame(width: real, height: real): (f: Frame)
    ensures width != 120.0 && height != 120.0 ==> Invertible(f)
  {
    Frame(60.0, DataMin, DataMax, width, height)
  }

  /** The canvas takes the container's measured size as is, so the transforms
      invert each other unless a side is exactly twice the padding. */
  lemma TransformsRoundTrip(width: real, height: real, p: Point, c: Point)
    requires width != 120.0 && height != 120.0
    ensures ToData(LabFrame(width, height), ToCanvas(LabFrame(width, height), p)) == p
    ensures ToCanvas(LabFrame(width, height), ToData(LabFrame(width, height), c)) == c
  {
    DataCanvasRoundTrip(LabFrame(width, height), p);
    CanvasDataRoundTrip(LabFrame(width, height), c);
  }

  /** The lab starts with k = 3 and nothing else. */
  function Initial(): State
  {
    State([], 3, [], [], 0, Init, false)
  }

  function Positions(ps: seq<KPoint>): (r: seq<Point>)
    ensures |r| == |ps|
    ensures forall i :: 0 <= i < |ps| ==> r[i] == ps[i].pos
  {
    seq(|ps|, i requires 0 <= i < |ps| => ps[i].pos)
  }

  // ---------------------------------------------------------------------
  // Nearest centroid

  /** `j` is a nearest centroid to `p`, and no earlier centroid is as near. */
  ghost predicate IsNearest(p: Point, cs: seq<Point>, j: int)
  {
    && 0 <= j < |cs|
    && (forall i :: 0 <= i < |cs| ==> Dist2(p, cs[j]) <= Dist2(p, cs[i]))
    && (forall i :: 0 <= i < j ==> Dist2(p, cs[i]) > Dist2(p, cs[j]))
  }

  /** Index of the first minimum of `ds[..n]`: the scan that starts from
      `Infinity` and replaces the best index only on a strictly smaller value. */
  function ArgMinUpTo(ds: seq<real>, n: nat): (r: nat)
    requires 0 < n <= |ds|
    ensures r < n
    ensures forall j :: 0 <= j < n ==> ds[r] <= ds[j]
    ensures forall j :: 0 <= j < r ==> ds[j] > ds[r]
  {
    if n == 1 then 0
    else
      var b := ArgMinUpTo(ds, n - 1);
      if ds[n - 1] < ds[b] then n - 1 else b
  }

  /** The first minimum is unique: any index that is a minimum with only larger
      values before it is the one `ArgMinUpTo` finds. */
  lemma FirstMinimumUnique(ds: seq<real>, a: nat, b: nat)
    requires a < |ds| && b < |ds|
    requires forall j :: 0 <= j < |ds| ==> ds[a] <= ds[j] && ds[b] <= ds[j]
    requires forall j :: 0 <= j < a ==> ds[j] > ds[a]
    requires forall j :: 0 <= j < b ==> ds[j] > ds[b]
    ensures a == b
  {
    var da, db := ds[a], ds[b];
    assert da <= db && db <= da;
    assert a < b ==> da > db;
    assert b < a ==> db > da;
  }

  function Distances(p: Point, cs: seq<Point>): (ds: seq<real>)
    ensures |ds| == |cs|
    ensures forall j :: 0 <= j < |cs| ==> ds[j] == Dist2(p, cs[j])
  {
    seq(|cs|, j requires 0 <= j < |cs| => Dist2(p, cs[j]))
  }

  /** The centroid a point is assigned to (labs/kmeans.js, `stepAssign`). */
  function Nearest(p: Point, cs: seq<Point>): (j: nat)
    requires |cs| > 0
    ensures IsNearest(p, cs, j)
  {
    ArgMinUpTo(Distances(p, cs), |cs|)
  }

  /** The distances the lab compares: `Math.sqrt` of the squared distances. */
  function RootDistances(sqrt: real -> real, p: Point, cs: seq<Point>): (ds: seq<real>)
    ensures |ds| == |cs|
    ensures forall j :: 0 <= j < |cs| ==> ds[j] == sqrt(Dist2(p, cs[j]))
  {
    seq(|cs|, j requires 0 <= j < |cs| => sqrt(Dist2(p, cs[j])))
  }

  /** Scanning the `Math.sqrt` distances picks the index `Nearest` picks on
      squared distances. */
  lemma NearestBySqrtDistance(sqrt: real -> real, p: Point, cs: seq<Point>)
    requires IsSqrt(sqrt) && |cs| > 0
    ensures ArgMinUpTo(RootDistances(sqrt, p, cs), |cs|) == Nearest(p, cs)
  {
    var es := RootDistances(sqrt, p, cs);
    var ds := Distances(p, cs);
    var a := ArgMinUpTo(es, |cs|);
    forall j | 0 <= j < |cs|
      ensures ds[a] <= ds[j]
      ensures j < a ==> ds[j] > ds[a]
    {
      assert es[a] <= es[j];
      SqrtOrder(sqrt, ds[a], ds[j]);
    }
    FirstMinimumUnique(ds, a, Nearest(p, cs));
  }

  // ---------------------------------------------------------------------
  // Assign step

  function AssignAll(ps: seq<KPoint>, cs: seq<Point>): (r: seq<KPoint>)
    requires |cs| > 0
    ensures |r| == |ps|
    ensures forall i :: 0 <= i < |ps| ==> r[i].pos == ps[i].pos && IsNearest(ps[i].pos, cs, r[i].cluster)
  {
    seq(|ps|, i requires 0 <= i < |ps| => KPoint(ps[i].pos, Nearest(ps[i].pos, cs)))
  }

  /** `stepAssign`: a no-op without centroids or once converged; otherwise every
      point joins its nearest centroid (lowest index on ties) and the step
      becomes 'assign'. */
  function StepAssign(s: State): (r: State)
    ensures |s.centroids| == 0 || s.converged ==> r == s
    ensures |r.points| == |s.points|
    ensures forall i :: 0 <= i < |s.points| ==> r.points[i].pos == s.points[i].pos
    ensures r.centroids == s.centroids && r.history == s.history && r.k == s.k
    ensures r.iteration == s.iteration && r.converged == s.converged
    ensures |s.centroids| > 0 && !s.converged ==>
      && r.step == Assign
      && forall i :: 0 <= i < |r.points| ==> IsNearest(r.points[i].pos, r.centroids, r.points[i].cluster)
  {
    if |s.centroids| == 0 || s.converged then s
    else s.(points := AssignAll(s.points, s.centroids), step := Assign)
  }

  // ---------------------------------------------------------------------
  // Update step

  /** The positions of the points whose cluster is `i`, in order. */
  function Members(ps: seq<KPoint>, i: int): (m: seq<Point>)
    ensures |m| <= |ps|
  {
    if |ps| == 0 then []
    else
      assert ps == ps[..|ps| - 1] + [ps[|ps| - 1]];
      Members(ps[..|ps| - 1], i) + (if ps[|ps| - 1].cluster == i then [ps[|ps| - 1].pos] else [])
  }

  /** Where centroid `i` moves: the mean of its members, or where it was when
      the cluster is empty. */
  function NewCentroid(ps: seq<KPoint>, cs: seq<Point>, i: nat): (c: Point)
    requires i < |cs|
    ensures |Members(ps, i)| == 0 ==> c == cs[i]
    ensures |Members(ps, i)| > 0 ==> IsMean(c, Members(ps, i))
  {
    var m := Members(ps, i);
    if |m| > 0 then Mean(m) else cs[i]
  }

  function UpdatedCentroids(ps: seq<KPoint>, cs: seq<Point>): (r: seq<Point>)
    ensures |r| == |cs|
    ensures forall i :: 0 <= i < |cs| && |Members(ps, i)| == 0 ==> r[i] == cs[i]
    ensures forall i :: 0 <= i < |cs| && |Members(ps, i)| > 0 ==> IsMean(r[i], Members(ps, i))
  {
    seq(|cs|, i requires 0 <= i < |cs| => NewCentroid(ps, cs, i))
  }

  /** Σ of `Math.sqrt` distances moved by the centroids of non-empty clusters
      among the first `n`. */
  function Movement(sqrt: real -> real, ps: seq<KPoint>, cs: seq<Point>, n: nat): real
    requires n <= |cs|
  {
    if n == 0 then 0.0
    else
      Movement(sqrt, ps, cs, n - 1)
      + (if |Members(ps, n - 1)| > 0 then sqrt(Dist2(cs[n - 1], NewCentroid(ps, cs, n - 1))) else 0.0)
  }

  /** Appends the snapshot and drops the oldest entry once there are more than
      `MaxHistory`. */
  function PushHistory(h: seq<seq<Point>>, snapshot: seq<Point>): (r: seq<seq<Point>>)
    ensures |h| <= MaxHistory ==> |r| <= MaxHistory
    ensures |r| > 0 && r[|r| - 1] == snapshot
    ensures |h| < MaxHistory ==> r == h + [snapshot]
    ensures |h| >= MaxHistory ==> |r| == |h| && r[..|r| - 1] == h[1..]
  {
    var pushed := h + [snapshot];
    if |pushed| > MaxHistory then pushed[1..] else pushed
  }

  /** The update proper, once the guards of `stepUpdate` have passed. */
  function ApplyUpdate(sqrt: real -> real, s: State): (r: State)
    requires |s.centroids| > 0
  {
    var moved := Movement(sqrt, s.points, s.centroids, |s.centroids|);
    s.(history := PushHistory(s.history, s.centroids),
       centroids := UpdatedCentroids(s.points, s.centroids),
       iteration := s.iteration + 1,
       step := Update,
       converged := moved < ConvergenceTolerance)
  }

  /** `stepUpdate`, over every centroid (see `StepUpdateAsWritten` for the loop
      bound the source uses). */
  function StepUpdate(sqrt: real -> real, s: State): (r: State)
    ensures |s.centroids| == 0 || s.converged ==> r == s
    ensures r.points == s.points || s.step != Assign
    ensures |s.centroids| > 0 && !s.converged && s.step != Assign ==>
      r.centroids == s.centroids && r.iteration == s.iteration && r.history == s.history && r.step == Assign
    ensures |s.centroids| > 0 && !s.converged && s.step != Assign ==>
      && r == StepAssign(s)
      && |r.points| == |s.points|
      && forall i :: 0 <= i < |s.points| ==>
           r.points[i].pos == s.points[i].pos && IsNearest(s.points[i].pos, s.centroids, r.points[i].cluster)
    ensures |s.centroids| > 0 && !s.converged && s.step == Assign ==>
      && |r.centroids| == |s.centroids|
      && r.iteration == s.iteration + 1
      && r.step == Update
      && r.history == PushHistory(s.history, s.centroids)
      && (r.converged <==> Movement(sqrt, s.points, s.centroids, |s.centroids|) < ConvergenceTolerance)
      && (forall i :: 0 <= i < |s.centroids| && |Members(s.points, i)| == 0 ==> r.centroids[i] == s.centroids[i])
      && (forall i :: 0 <= i < |s.centroids| && |Members(s.points, i)| > 0 ==>
            r.centroids[i] == Mean(Members(s.points, i)))
  {
    if |s.centroids| == 0 || s.converged then s
    else if s.step != Assign then StepAssign(s)
    else ApplyUpdate(sqrt, s)
  }

  /** With exact square roots, a step in which every centroid already sits at
      its members' mean moves nothing and so reports convergence. */
  lemma {:induction false} FixpointMovesNothing(sqrt: real -> real, ps: seq<KPoint>, cs: seq<Point>, n: nat)
    requires IsSqrt(sqrt) && n <= |cs|
    requires forall i :: 0 <= i < |cs| ==> NewCentroid(ps, cs, i) == cs[i]
    ensures Movement(sqrt, ps, cs, n) == 0.0
  {
    if n > 0 {
      FixpointMovesNothing(sqrt, ps, cs, n - 1);
      SqrtZero(sqrt);
      assert Dist2(cs[n - 1], NewCentroid(ps, cs, n - 1)) == 0.0;
    }
  }

  lemma FixpointConverges(sqrt: real -> real, s: State)
    requires IsSqrt(sqrt)
    requires |s.centroids| > 0 && !s.converged && s.step == Assign
    requires forall i :: 0 <= i < |s.centroids| ==> NewCentroid(s.points, s.centroids, i) == s.centroids[i]
    ensures StepUpdate(sqrt, s).converged
    ensures StepUpdate(sqrt, s).centroids == s.centroids
  {
    FixpointMovesNothing(sqrt, s.points, s.centroids, |s.centroids|);
  }

  /** The history never holds more than `MaxHistory` snapshots. */
  lemma HistoryBounded(sqrt: real -> real, s: State)
    requires |s.history| <= MaxHistory
    ensures |StepUpdate(sqrt, s).history| <= MaxHistory
    ensures |StepAssign(s).history| <= MaxHistory
  {
  }

  // ---------------------------------------------------------------------
  // The update step as the source writes it

  /** What a call of `stepUpdate` leaves behind: a completed step, or a
      `TypeError` thrown halfway, after which the lab's `animating` flag stays
      set and both step buttons ignore clicks. */
  datatype Outcome = Completed(state: State) | Crashed(state: State)

  /** `stepUpdate` exactly as written: the loop that computes new centroids
      runs over `i < this.k`, while the tweens run over every centroid. The k
      slider and buttons change `k` without re-seeding, so the two can differ.
      With `k > |centroids|` the loop reads `this.centroids[k']` for some
      `k' >= |centroids|`; with `k < |centroids|` the tween loop reads
      `newCentroids[k]`. Either is `undefined.x`. The snapshot is already in the
      history then, and in the second case the first `k` centroids have
      started moving. */
  function StepUpdateAsWritten(sqrt: real -> real, s: State): (r: Outcome)
  {
    if |s.centroids| == 0 || s.converged then Completed(s)
    else if s.step != Assign then Completed(StepAssign(s))
    else if s.k == |s.centroids| then Completed(ApplyUpdate(sqrt, s))
    else
      var h := PushHistory(s.history, s.centroids);
      var moved := if 0 <= s.k < |s.centroids|
        then UpdatedCentroids(s.points, s.centroids)[..s.k] + s.centroids[s.k..]
        else s.centroids;
      Crashed(s.(history := h, centroids := moved))
  }

  /** When `k` matches the number of centroids the source's loop bound is
      harmless and the corrected `StepUpdate` is what it computes. */
  lemma AsWrittenAgrees(sqrt: real -> real, s: State)
    requires s.k == |s.centroids|
    ensures StepUpdateAsWritten(sqrt, s) == Completed(StepUpdate(sqrt, s))
  {
  }

  /** The `k-up` button after an assign step: k grows past the number of
      centroids and the next update crashes. */
  lemma KUpThenUpdateCrashes(sqrt: real -> real, s: State)
    requires 0 < |s.centroids| == s.k < KMax
    requires !s.converged && s.step == Assign
    ensures StepUpdateAsWritten(sqrt, KUp(s)).Crashed?
  {
  }

  /** The `k-down` button after an assign step crashes the next update too. */
  lemma KDownThenUpdateCrashes(sqrt: real -> real, s: State)
    requires KMin < s.k == |s.centroids|
    requires !s.converged && s.step == Assign
    ensures StepUpdateAsWritten(sqrt, KDown(s)).Crashed?
  {
  }

  // ---------------------------------------------------------------------
  // The k controls

  /** The slider sets `k` and nothing else. */
  function SetK(s: State, v: int): (r: State)
    ensures r.k == v && r.(k := s.k) == s
  {
    s.(k := v)
  }

  function KUp(s: State): (r: State)
    ensures s.k < KMax ==> r.k == s.k + 1
    ensures s.k >= KMax ==> r.k == s.k
    ensures r.(k := s.k) == s
  {
    if s.k < KMax then s.(k := s.k + 1) else s
  }

  function KDown(s: State): (r: State)
    ensures s.k > KMin ==> r.k == s.k - 1
    ensures s.k <= KMin ==> r.k == s.k
    ensures r.(k := s.k) == s
  {
    if s.k > KMin then s.(k := s.k - 1) else s
  }

  // ---------------------------------------------------------------------
  // Automatic run, clearing, clicks and dragging

  /** One tick of `runAutomatic`: nothing while auto-run is off, the engine has
      converged or an animation is running; otherwise the step that is due. */
  function RunAutomatic(sqrt: real -> real, s: State, autoRun: bool, animating: bool): (r: State)
    ensures !autoRun || s.converged || animating ==> r == s
    ensures autoRun && !animating && s.step != Assign ==> r == StepAssign(s)
    ensures autoRun && !animating && s.step == Assign ==> r == StepUpdate(sqrt, s)
  {
    if !autoRun || s.converged || animating then s
    else if s.step == Init || s.step == Update then StepAssign(s)
    else StepUpdate(sqrt, s)
  }

  function Clear(s: State): (r: State)
    ensures r.points == [] && r.centroids == [] && r.history == []
    ensures r.iteration == 0 && r.step == Init && !r.converged && r.k == s.k
  {
    State([], s.k, [], [], 0, Init, false)
  }

  /** `handleClick` with the click already converted to data coordinates:
      ignored while dragging or once centroids exist, otherwise adds an
      unassigned point when the click lies in [0, 10]². */
  function HandleClick(s: State, dragging: bool, d: Point): (r: State)
    ensures dragging || |s.centroids| > 0 || !InSquare(d, DataMin, DataMax) ==> r == s
    ensures !dragging && |s.centroids| == 0 && InSquare(d, DataMin, DataMax) ==>
      r == s.(points := s.points + [KPoint(d, Unassigned)])
  {
    if dragging || |s.centroids| > 0 then s
    else if InSquare(d, DataMin, DataMax) then s.(points := s.points + [KPoint(d, Unassigned)])
    else s
  }

  /** Every point back to unassigned. */
  function Unassign(ps: seq<KPoint>): (r: seq<KPoint>)
    ensures |r| == |ps|
    ensures forall i :: 0 <= i < |ps| ==> r[i] == KPoint(ps[i].pos, Unassigned)
  {
    seq(|ps|, i requires 0 <= i < |ps| => KPoint(ps[i].pos, Unassigned))
  }

  /** The drag branch of `handleMouseMove`: the dragged centroid follows the
      pointer clamped to [0.5, 9.5]², and the run starts over. */
  function DragCentroid(s: State, i: nat, d: Point): (r: State)
    requires i < |s.centroids|
    ensures |r.centroids| == |s.centroids|
    ensures InSquare(r.centroids[i], DragMin, DragMax)
    ensures InSquare(d, DragMin, DragMax) ==> r.centroids[i] == d
    ensures forall j :: 0 <= j < |s.centroids| && j != i ==> r.centroids[j] == s.centroids[j]
    ensures !r.converged && r.iteration == 0 && r.history == [] && r.step == Init
    ensures |r.points| == |s.points|
    ensures forall j :: 0 <= j < |s.points| ==> r.points[j] == KPoint(s.points[j].pos, Unassigned)
  {
    s.(centroids := s.centroids[i := ClampPoint(DragMin, DragMax, d)],
       converged := false,
       iteration := 0,
       history := [],
       points := Unassign(s.points),
       step := Init)
  }

  // ---------------------------------------------------------------------
  // k-means++ seeding

  /** Σ of `ds[..m]`, the running total after `m` subtractions. */
  function Prefix(ds: seq<real>, m: nat): real
    requires m <= |ds|
  {
    Sum(ds[..m])
  }

  lemma PrefixStep(ds: seq<real>, m: nat)
    requires m < |ds|
    ensures Prefix(ds, m + 1) == Prefix(ds, m) + ds[m]
  {
    assert ds[..m + 1][..m] == ds[..m];
  }

  lemma PrefixMonotone(ds: seq<real>, a: nat, b: nat)
    requires a <= b <= |ds|
    requires forall i :: 0 <= i < |ds| ==> ds[i] >= 0.0
    ensures Prefix(ds, a) <= Prefix(ds, b)
    decreases b - a
  {
    if a < b {
      PrefixStep(ds, b - 1);
      PrefixMonotone(ds, a, b - 1);
    }
  }

  /** The weighted draw: subtract weights in order and stop at the first index
      where the remainder `rem` drops to zero or below. The remainder after the
      weights before `i` is `target - Prefix(ds, i)`. */
  function PickFrom(ds: seq<real>, target: real, i: nat): (j: nat)
    requires i < |ds|
    requires forall m :: 0 <= m < |ds| ==> ds[m] >= 0.0
    requires target <= Prefix(ds, |ds|)
    requires target - Prefix(ds, i) > 0.0 || i == 0
    ensures i <= j < |ds|
    ensures target - Prefix(ds, j + 1) <= 0.0
    ensures forall m :: i < m <= j ==> target - Prefix(ds, m) > 0.0
    decreases |ds| - i
  {
    PrefixStep(ds, i);
    if target - Prefix(ds, i + 1) <= 0.0 then i
    else PickFrom(ds, target, i + 1)
  }

  /** The index a weighted draw of `target` in [0, Σ ds] selects. */
  function Pick(ds: seq<real>, target: real): (j: nat)
    requires |ds| > 0
    requires forall m :: 0 <= m < |ds| ==> ds[m] >= 0.0
    requires 0.0 <= target <= Prefix(ds, |ds|)
    ensures j < |ds|
    ensures Prefix(ds, j) < target || j == 0
    ensures target <= Prefix(ds, j + 1)
  {
    PickFrom(ds, target, 0)
  }

  /** A positive draw never selects a point of weight zero, i.e. a point that
      already coincides with a centroid. */
  lemma PickHasWeight(ds: seq<real>, target: real)
    requires |ds| > 0
    requires forall m :: 0 <= m < |ds| ==> ds[m] >= 0.0
    requires 0.0 < target <= Prefix(ds, |ds|)
    ensures ds[Pick(ds, target)] > 0.0
  {
    var j := Pick(ds, target);
    PrefixStep(ds, j);
    if j == 0 {
      assert Prefix(ds, 0) == 0.0;
    }
  }

  /** Squared distance from `p` to its nearest centroid. */
  function MinDist2(p: Point, cs: seq<Point>): (d: real)
    requires |cs| > 0
    ensures d >= 0.0
    ensures forall c :: c in cs ==> d <= Dist2(p, c)
  {
    if |cs| == 1 then Dist2(p, cs[0])
    else
      var rest := MinDist2(p, cs[..|cs| - 1]);
      assert cs == cs[..|cs| - 1] + [cs[|cs| - 1]];
      Min(rest, Dist2(p, cs[|cs| - 1]))
  }

  /** The minimum is the distance to one of the centroids, so a point's weight
      is zero exactly when it coincides with a centroid. */
  lemma {:induction false} MinDist2Attained(p: Point, cs: seq<Point>)
    requires |cs| > 0
    ensures exists j :: 0 <= j < |cs| && MinDist2(p, cs) == Dist2(p, cs[j])
    ensures MinDist2(p, cs) == 0.0 <==> p in cs
  {
    if |cs| > 1 {
      var init := cs[..|cs| - 1];
      MinDist2Attained(p, init);
      var j :| 0 <= j < |init| && MinDist2(p, init) == Dist2(p, init[j]);
      assert init[j] == cs[j];
      var last := |cs| - 1;
      if MinDist2(p, cs) == Dist2(p, cs[last]) {
        assert 0 <= last < |cs|;
      } else {
        assert MinDist2(p, cs) == Dist2(p, cs[j]);
      }
    } else {
      assert MinDist2(p, cs) == Dist2(p, cs[0]);
    }
    var j :| 0 <= j < |cs| && MinDist2(p, cs) == Dist2(p, cs[j]);
    Dist2Zero(p, cs[j]);
    Dist2Zero(p, p);
  }

  function Weights(pos: seq<Point>, cs: seq<Point>): (ds: seq<real>)
    requires |cs| > 0
    ensures |ds| == |pos|
    ensures forall m :: 0 <= m < |pos| ==> ds[m] == MinDist2(pos[m], cs) && ds[m] >= 0.0
  {
    seq(|pos|, m requires 0 <= m < |pos| => MinDist2(pos[m], cs))
  }

  lemma SumNonNegativeWeights(ds: seq<real>)
    requires forall m :: 0 <= m < |ds| ==> ds[m] >= 0.0
    ensures Prefix(ds, |ds|) >= 0.0
  {
    assert ds[..|ds|] == ds;
    SumNonNegative(ds);
  }

  lemma ScaleBelow(u: real, t: real)
    requires 0.0 <= u < 1.0 && t >= 0.0
    ensures 0.0 <= u * t <= t
  {
    var v := 1.0 - u;
    if t > 0.0 {
      if u > 0.0 {
        MulPositive(u, t);
      }
      MulPositive(v, t);
      assert t - u * t == v * t;
    }
  }

  /** The random draws are numbers in [0, 1). */
  predicate UnitRandoms(rands: seq<real>)
  {
    forall i :: 0 <= i < |rands| ==> 0.0 <= rands[i] < 1.0
  }

  /** One weighted draw: a point chosen with probability proportional to its
      squared distance from the nearest centroid so far. */
  function NextCentroid(pos: seq<Point>, cs: seq<Point>, u: real): (c: Point)
    requires |pos| > 0 && |cs| > 0 && 0.0 <= u < 1.0
    ensures c in pos
  {
    var ds := Weights(pos, cs);
    var total := Prefix(ds, |ds|);
    SumNonNegativeWeights(ds);
    ScaleBelow(u, total);
    pos[Pick(ds, u * total)]
  }

  /** The remaining centroids: each round weighs every point by its squared
      distance to the nearest centroid so far and draws one. */
  function Seed(pos: seq<Point>, cs: seq<Point>, k: int, rands: seq<real>): (r: seq<Point>)
    requires |pos| > 0 && |cs| > 0
    requires UnitRandoms(rands) && |rands| >= k - |cs|
    requires forall c :: c in cs ==> c in pos
    ensures |r| == if |cs| >= k then |cs| else k
    ensures forall c :: c in r ==> c in pos
    decreases k - |cs|
  {
    if |cs| >= k then cs
    else
      var next := cs + [NextCentroid(pos, cs, rands[0])];
      Seed(pos, next, k, rands[1..])
  }

  /** `Math.floor(u * n)` for a draw `u` in [0, 1): an index below `n`. */
  function RandomIndex(u: real, n: nat): (i: nat)
    requires 0.0 <= u < 1.0 && n > 0
    ensures i < n
  {
    ScaleBelow(u, n as real);
    var f := (u * (n as real)).Floor;
    assert f as real <= u * (n as real);
    assert f < n by {
      if u > 0.0 {
        var v := 1.0 - u;
        MulPositive(v, n as real);
        assert (n as real) - u * (n as real) == v * (n as real);
      }
    }
    f
  }

  /** `initializeCentroids`: with fewer than k points nothing changes;
      otherwise k centroids are seeded, each at the position of some point, and
      the run starts over. The first draw picks the first centroid, each later
      draw one more. */
  function InitializeCentroids(s: State, rands: seq<real>): (r: State)
    requires s.k >= 1
    requires UnitRandoms(rands) && |rands| >= s.k
    ensures |s.points| < s.k ==> r == s
    ensures |s.points| >= s.k ==>
      && |r.centroids| == s.k
      && (forall c :: c in r.centroids ==> exists q :: q in s.points && q.pos == c)
      && |r.points| == |s.points|
      && (forall j :: 0 <= j < |s.points| ==> r.points[j] == KPoint(s.points[j].pos, Unassigned))
      && r.history == [] && r.iteration == 0 && r.step == Init && !r.converged && r.k == s.k
  {
    if |s.points| < s.k then s
    else
      var pos := Positions(s.points);
      var first := pos[RandomIndex(rands[0], |pos|)];
      var cs := Seed(pos, [first], s.k, rands[1..]);
      assert forall c :: c in cs ==> exists q :: q in s.points && q.pos == c by {
        forall c | c in cs
          ensures exists q :: q in s.points && q.pos == c
        {
          var m :| 0 <= m < |pos| && pos[m] == c;
          assert s.points[m] in s.points;
        }
      }
      State(Unassign(s.points), s.k, cs, [], 0, Init, false)
  }

  // ---------------------------------------------------------------------
  // Within-cluster sum of squares

  /** A point's share of the WCSS: its squared distance to its own centroid,
      or nothing when its cluster is not a centroid index. */
  function Contribution(q: KPoint, cs: seq<Point>): (w: real)
    ensures w >= 0.0
    ensures !(0 <= q.cluster < |cs|) ==> w == 0.0
  {
    if 0 <= q.cluster < |cs| then Dist2(q.pos, cs[q.cluster]) else 0.0
  }

  function WcssOf(ps: seq<KPoint>, cs: seq<Point>): (w: real)
    ensures w >= 0.0
  {
    if |ps| == 0 then 0.0 else WcssOf(ps[..|ps| - 1], cs) + Contribution(ps[|ps| - 1], cs)
  }

  /** `calculateWCSS`. */
  function Wcss(s: State): (w: real)
    ensures w >= 0.0
    ensures |s.centroids| == 0 ==> w == 0.0
  {
    if |s.centroids| == 0 then 0.0 else WcssOf(s.points, s.centroids)
  }

  /** A point whose cluster is not a centroid index adds nothing. */
  lemma WcssIgnoresUnassigned(s: State, q: KPoint)
    requires !(0 <= q.cluster < |s.centroids|)
    ensures Wcss(s.(points := s.points + [q])) == Wcss(s)
  {
    var ps := s.points + [q];
    assert ps[..|ps| - 1] == s.points;
  }

  /** The WCSS is zero exactly when every assigned point sits on its centroid. */
  lemma {:induction false} WcssZeroIff(ps: seq<KPoint>, cs: seq<Point>)
    ensures WcssOf(ps, cs) == 0.0 <==>
      forall i :: 0 <= i < |ps| && 0 <= ps[i].cluster < |cs| ==> ps[i].pos == cs[ps[i].cluster]
  {
    if |ps| > 0 {
      var init, last := ps[..|ps| - 1], ps[|ps| - 1];
      WcssZeroIff(init, cs);
      if 0 <= last.cluster < |cs| {
        Dist2Zero(last.pos, cs[last.cluster]);
      }
      assert forall i :: 0 <= i < |init| ==> init[i] == ps[i];
    }
  }

  /** The assignment the assign step makes is optimal: no other labelling of
      the same positions by centroid indices has a smaller WCSS. In particular
      an assign step never increases the WCSS of a fully assigned state. */
  lemma {:induction false} AssignMinimisesWcss(ps: seq<KPoint>, qs: seq<KPoint>, cs: seq<Point>)
    requires |cs| > 0 && |qs| == |ps|
    requires forall i :: 0 <= i < |ps| ==> qs[i].pos == ps[i].pos && 0 <= qs[i].cluster < |cs|
    ensures WcssOf(AssignAll(ps, cs), cs) <= WcssOf(qs, cs)
  {
    if |ps| > 0 {
      var n := |ps| - 1;
      AssignMinimisesWcss(ps[..n], qs[..n], cs);
      var a := AssignAll(ps, cs);
      assert a[..n] == AssignAll(ps[..n], cs);
      assert Contribution(a[n], cs) <= Contribution(qs[n], cs);
    }
  }

  lemma AssignNeverIncreasesWcss(s: State)
    requires forall i :: 0 <= i < |s.points| ==> 0 <= s.points[i].cluster < |s.centroids|
    ensures Wcss(StepAssign(s)) <= Wcss(s)
  {
    if |s.centroids| > 0 && !s.converged {
      AssignMinimisesWcss(s.points, s.points, s.centroids);
    }
  }
}

=== FILE: kmeans_wcss.dfy ===
/**
 Why the stepped k-means engine makes progress: the WCSS (`calculateWCSS` in
 labs/kmeans.js) splits into one sum of squared distances per cluster, the mean
 of a cluster is the point that minimises that sum, and so the update step can
 only lower the WCSS. Together with `KMeans.AssignNeverIncreasesWcss` this is
 the monotonicity of Lloyd's algorithm.
 */
module KMeansWcss {

  import opened Geometry
  import opened KMeans

  /** (a + b)² = a² + 2ab + b². */
  lemma SqSplit(a: real, b: real)
    ensures Sq(a + b) == Sq(a) + 2.0 * (a * b) + Sq(b)
  {
    var s := a + b;
    assert Sq(s) == a * s + b * s;
  }

  /** Moving the reference point from `mu` to `c` changes the squared distance
      of `p` by a term linear in `p` plus the squared distance from `mu` to `c`. */
  lemma Dist2Split(p: Point, mu: Point, c: Point)
    ensures Dist2(p, c) == Dist2(p, mu) + 2.0 * CrossTerm(p, mu, c) + Dist2(mu, c)
  {
    SqSplit(p.x - mu.x, mu.x - c.x);
    SqSplit(p.y - mu.y, mu.y - c.y);
    assert (p.x - mu.x) * (mu.x - c.x) == (mu.x - c.x) * (p.x - mu.x);
    assert (p.y - mu.y) * (mu.y - c.y) == (mu.y - c.y) * (p.y - mu.y);
  }

  /** The cross term `(mu - c)·(p - mu)`. */
  function CrossTerm(p: Point, mu: Point, c: Point): real
  {
    (mu.x - c.x) * (p.x - mu.x) + (mu.y - c.y) * (p.y - mu.y)
  }

  /** Σ over `m` of the cross terms. */
  function Cross(m: seq<Point>, mu: Point, c: Point): real
  {
    if |m| == 0 then 0.0 else Cross(m[..|m| - 1], mu, c) + CrossTerm(m[|m| - 1], mu, c)
  }

  /** `|m|` copies of `d` added up. */
  function Repeat(m: seq<Point>, d: real): (r: real)
    ensures d >= 0.0 ==> r >= 0.0
  {
    if |m| == 0 then 0.0 else Repeat(m[..|m| - 1], d) + d
  }

  lemma SumDist2Append(m: seq<Point>, p: Point, c: Point)
    ensures SumDist2(m + [p], c) == SumDist2(m, c) + Dist2(p, c)
  {
    var mp := m + [p];
    assert mp[..|mp| - 1] == m;
  }

  /** The parallel-axis identity for a finite set of points: measuring from
      `c` instead of `mu` adds the cross terms and `|m|` times the squared
      distance between the two reference points. */
  lemma {:induction false} SumDist2Split(m: seq<Point>, mu: Point, c: Point)
    ensures SumDist2(m, c) == SumDist2(m, mu) + 2.0 * Cross(m, mu, c) + Repeat(m, Dist2(mu, c))
  {
    if |m| > 0 {
      var init := m[..|m| - 1];
      var p := m[|m| - 1];
      SumDist2Split(init, mu, c);
      Dist2Split(p, mu, c);
      assert m == init + [p];
      SumDist2Append(init, p, c);
      SumDist2Append(init, p, mu);
    }
  }

  /** `d · (s − n·m)` in each coordinate: the cross terms of `n` points
      with coordinate sums `s`, measured from `m`, along the offset `d`. */
  function Factor(dx: real, dy: real, mx: real, my: real, sx: real, sy: real, n: real): real
  {
    dx * (sx - n * mx) + dy * (sy - n * my)
  }

  /** The step of `CrossFactor`, over plain reals. */
  lemma FactorStep(p: Point, mu: Point, c: Point, sx: real, sy: real, n: real)
    ensures var dx, dy := mu.x - c.x, mu.y - c.y;
      Factor(dx, dy, mu.x, mu.y, sx, sy, n) + CrossTerm(p, mu, c)
      == Factor(dx, dy, mu.x, mu.y, sx + p.x, sy + p.y, n + 1.0)
  {
    var dx, dy, mx, my, px, py := mu.x - c.x, mu.y - c.y, mu.x, mu.y, p.x, p.y;
    assert dx * ((sx + px) - (n + 1.0) * mx) == dx * (sx - n * mx) + dx * (px - mx);
    assert dy * ((sy + py) - (n + 1.0) * my) == dy * (sy - n * my) + dy * (py - my);
  }

  /** The last point's cross term. */
  lemma CrossLast(m: seq<Point>, mu: Point, c: Point)
    requires |m| > 0
    ensures Cross(m, mu, c) == Cross(m[..|m| - 1], mu, c) + CrossTerm(m[|m| - 1], mu, c)
  {
  }

  lemma CoordinatesLast(m: seq<Point>)
    requires |m| > 0
    ensures SumX(m) == SumX(m[..|m| - 1]) + m[|m| - 1].x
    ensures SumY(m) == SumY(m[..|m| - 1]) + m[|m| - 1].y
  {
  }

  /** The cross terms factor through the coordinate sums. */
  lemma {:induction false} CrossFactor(m: seq<Point>, mu: Point, c: Point)
    ensures Cross(m, mu, c) == Factor(mu.x - c.x, mu.y - c.y, mu.x, mu.y, SumX(m), SumY(m), |m| as real)
  {
    if |m| > 0 {
      var init := m[..|m| - 1];
      var p := m[|m| - 1];
      CrossFactor(init, mu, c);
      CrossLast(m, mu, c);
      CoordinatesLast(m);
      FactorStep(p, mu, c, SumX(init), SumY(init), |init| as real);
    }
  }

  lemma ZeroFactors(dx: real, dy: real, mx: real, my: real, sx: real, sy: real, n: real)
    requires sx - n * mx == 0.0 && sy - n * my == 0.0
    ensures Factor(dx, dy, mx, my, sx, sy, n) == 0.0
  {
  }

  /** The mean is the point with the least total squared distance to a
      non-empty set of points. */
  lemma MeanMinimisesSumDist2(m: seq<Point>, c: Point)
    requires |m| > 0
    ensures SumDist2(m, Mean(m)) <= SumDist2(m, c)
  {
    var mu := Mean(m);
    var n := |m| as real;
    CrossFactor(m, mu, c);
    ZeroFactors(mu.x - c.x, mu.y - c.y, mu.x, mu.y, SumX(m), SumY(m), n);
    SumDist2Split(m, mu, c);
  }

  // The decomposition below holds for any cost of a point relative to a
  // centroid; stating it for a cost parameter keeps the squared distance's
  // arithmetic out of the bookkeeping.

  /** Σ over `m` of `cost(p, c)`. */
  function SumCost(m: seq<Point>, c: Point, cost: (Point, Point) -> real): real
  {
    if |m| == 0 then 0.0 else SumCost(m[..|m| - 1], c, cost) + cost(m[|m| - 1], c)
  }

  /** The WCSS with `cost` in place of the squared distance. */
  function WcssCost(ps: seq<KPoint>, cs: seq<Point>, cost: (Point, Point) -> real): real
  {
    if |ps| == 0 then 0.0
    else
      var q := ps[|ps| - 1];
      WcssCost(ps[..|ps| - 1], cs, cost) + (if 0 <= q.cluster < |cs| then cost(q.pos, cs[q.cluster]) else 0.0)
  }

  lemma SumCostAppend(m: seq<Point>, p: Point, c: Point, cost: (Point, Point) -> real)
    ensures SumCost(m + [p], c, cost) == SumCost(m, c, cost) + cost(p, c)
  {
    var mp := m + [p];
    assert mp[..|mp| - 1] == m;
  }

  /** The last point adds its cost to its own cluster's sum and leaves the
      other clusters' sums alone. */
  lemma ClusterAppend(ps: seq<KPoint>, c: Point, i: int, cost: (Point, Point) -> real)
    requires |ps| > 0
    ensures SumCost(Members(ps, i), c, cost)
         == SumCost(Members(ps[..|ps| - 1], i), c, cost) + (if ps[|ps| - 1].cluster == i then cost(ps[|ps| - 1].pos, c) else 0.0)
  {
    var init := ps[..|ps| - 1];
    if ps[|ps| - 1].cluster == i {
      SumCostAppend(Members(init, i), ps[|ps| - 1].pos, c, cost);
    } else {
      assert Members(init, i) + [] == Members(init, i);
    }
  }

  /** Σ of `cost(p, c)` over the points of cluster `i`, walking the points
      themselves rather than the member list. */
  function PointSum(ps: seq<KPoint>, i: int, c: Point, cost: (Point, Point) -> real): real
  {
    if |ps| == 0 then 0.0
    else
      var q := ps[|ps| - 1];
      PointSum(ps[..|ps| - 1], i, c, cost) + (if q.cluster == i then cost(q.pos, c) else 0.0)
  }

  lemma {:induction false} MembersSum(ps: seq<KPoint>, i: int, c: Point, cost: (Point, Point) -> real)
    ensures SumCost(Members(ps, i), c, cost) == PointSum(ps, i, c, cost)
  {
    if |ps| > 0 {
      MembersSum(ps[..|ps| - 1], i, c, cost);
      ClusterAppend(ps, c, i, cost);
    }
  }

  /** Σ over the clusters `i < n` of the cost of the points of cluster `i`
      relative to `cs[i]`. */
  function ByCluster(ps: seq<KPoint>, cs: seq<Point>, n: nat, cost: (Point, Point) -> real): real
    requires n <= |cs|
  {
    if n == 0 then 0.0 else ByCluster(ps, cs, n - 1, cost) + PointSum(ps, n - 1, cs[n - 1], cost)
  }

  /** What point `q` contributes to the first `n` cluster sums: its cost
      relative to its own centroid when its cluster is below `n`. */
  function Share(q: KPoint, cs: seq<Point>, n: nat, cost: (Point, Point) -> real): real
    requires n <= |cs|
  {
    if n == 0 then 0.0
    else Share(q, cs, n - 1, cost) + (if q.cluster == n - 1 then cost(q.pos, cs[n - 1]) else 0.0)
  }

  lemma {:induction false} ShareOwnCluster(q: KPoint, cs: seq<Point>, n: nat, cost: (Point, Point) -> real)
    requires n <= |cs|
    ensures Share(q, cs, n, cost) == if 0 <= q.cluster < n then cost(q.pos, cs[q.cluster]) else 0.0
  {
    if n > 0 {
      ShareOwnCluster(q, cs, n - 1, cost);
    }
  }

  /** The last point's cost lands in exactly one of the cluster sums. */
  lemma {:induction false} ByClusterAppend(ps: seq<KPoint>, cs: seq<Point>, n: nat, cost: (Point, Point) -> real)
    requires n <= |cs| && |ps| > 0
    ensures ByCluster(ps, cs, n, cost) == ByCluster(ps[..|ps| - 1], cs, n, cost) + Share(ps[|ps| - 1], cs, n, cost)
  {
    if n > 0 {
      ByClusterAppend(ps, cs, n - 1, cost);
    }
  }

  lemma {:induction false} ByClusterEmpty(cs: seq<Point>, n: nat, cost: (Point, Point) -> real)
    requires n <= |cs|
    ensures ByCluster([], cs, n, cost) == 0.0
  {
    if n > 0 {
      ByClusterEmpty(cs, n - 1, cost);
    }
  }

  /** The WCSS is the sum of the per-cluster sums. */
  lemma {:induction false} WcssByCluster(ps: seq<KPoint>, cs: seq<Point>, cost: (Point, Point) -> real)
    ensures WcssCost(ps, cs, cost) == ByCluster(ps, cs, |cs|, cost)
  {
    if |ps| == 0 {
      ByClusterEmpty(cs, |cs|, cost);
    } else {
      WcssByCluster(ps[..|ps| - 1], cs, cost);
      ByClusterAppend(ps, cs, |cs|, cost);
      ShareOwnCluster(ps[|ps| - 1], cs, |cs|, cost);
    }
  }

  /** Lowering every per-cluster sum lowers their total. */
  lemma {:induction false} ByClusterMonotone(ps: seq<KPoint>, cs: seq<Point>, ds: seq<Point>, n: nat, cost: (Point, Point) -> real)
    requires n <= |cs| && n <= |ds|
    requires forall i :: 0 <= i < n ==> PointSum(ps, i, ds[i], cost) <= PointSum(ps, i, cs[i], cost)
    ensures ByCluster(ps, ds, n, cost) <= ByCluster(ps, cs, n, cost)
  {
    if n > 0 {
      ByClusterMonotone(ps, cs, ds, n - 1, cost);
    }
  }

  /** With the squared distance as the cost, the sums are `SumDist2` and the
      WCSS of `calculateWCSS`. */
  lemma {:induction false} SumCostIsSumDist2(m: seq<Point>, c: Point)
    ensures SumCost(m, c, Dist2) == SumDist2(m, c)
  {
    if |m| > 0 {
      SumCostIsSumDist2(m[..|m| - 1], c);
    }
  }

  lemma {:induction false} WcssCostIsWcss(ps: seq<KPoint>, cs: seq<Point>)
    ensures WcssCost(ps, cs, Dist2) == WcssOf(ps, cs)
  {
    if |ps| > 0 {
      WcssCostIsWcss(ps[..|ps| - 1], cs);
    }
  }

  /** An update step never increases the WCSS of a state whose points all carry
      a centroid index: every centroid of a non-empty cluster moves to the
      minimiser of its cluster's sum, and the others stay. */
  lemma UpdateNeverIncreasesWcss(sqrt: real -> real, s: State)
    requires forall i :: 0 <= i < |s.points| ==> 0 <= s.points[i].cluster < |s.centroids|
    ensures Wcss(StepUpdate(sqrt, s)) <= Wcss(s)
  {
    var r := StepUpdate(sqrt, s);
    if |s.centroids| > 0 && !s.converged {
      if s.step != Assign {
        AssignNeverIncreasesWcss(s);
      } else {
        var cs, ds := s.centroids, r.centroids;
        forall i | 0 <= i < |cs|
          ensures PointSum(s.points, i, ds[i], Dist2) <= PointSum(s.points, i, cs[i], Dist2)
        {
          MembersSum(s.points, i, ds[i], Dist2);
          MembersSum(s.points, i, cs[i], Dist2);
          SumCostIsSumDist2(Members(s.points, i), ds[i]);
          SumCostIsSumDist2(Members(s.points, i), cs[i]);
          if |Members(s.points, i)| > 0 {
            MeanMinimisesSumDist2(Members(s.points, i), cs[i]);
          }
        }
        ByClusterMonotone(s.points, cs, ds, |cs|, Dist2);
        WcssByCluster(s.points, cs, Dist2);
        WcssByCluster(s.points, ds, Dist2);
        WcssCostIsWcss(s.points, cs);
        WcssCostIsWcss(s.points, ds);
      }
    }
  }
}

=== FILE: knn.dfy ===
/**
 The k-nearest-neighbours lab (`KNNLab` in labs/knn.js).

 The user paints red and blue points into [0, 10]² and drags a query point; the
 lab ranks the points by distance to the query with a stable sort, keeps the
 first k, draws a circle through the k-th one and lets the neighbours vote.

 `Math.sqrt` is the parameter `sqrt` (see Oracles), `Date.now()` the parameter
 `now`, and pointer events arrive in canvas pixels together with the frame the
 canvas was last resized to.
 */
module Knn {

  import opened Geometry
  import opened Oracles
  import opened Seqs
  import opened Sorting
  import opened Viewport
  import opened Options

  /** A painted point; `cls` is the brush that painted it (`'red'` or `'blue'`). */
  datatype LPoint = LPoint(pos: Point, cls: string)

  /** An entry of the ranking: the point, its index in `points` and its distance to the query. */
  datatype Neighbour = Neighbour(point: LPoint, index: nat, distance: real)

  datatype State = State(
    points: seq<LPoint>,
    query: Point,
    hasQuery: bool,
    k: int,
    brush: string,
    draggingQuery: bool,
    painting: bool,
    lastPaintTime: int,
    neighbours: seq<Neighbour>,
    kRadius: real)

  const Red: string := "red"
  const Padding: real := 60.0
  const DataMin: real := 0.0
  const DataMax: real := 10.0
  const QueryMin: real := 0.5
  const QueryMax: real := 9.5
  /** Painted points keep at least this distance from each other. */
  const MinSeparation: real := 0.3
  /** A press this close to the query, in pixels, grabs it. */
  const GrabRadius: real := 25.0
  /** Milliseconds between two points painted by one stroke. */
  const PaintInterval: int := 50

  /** The lab's frame after `resize`: the measured size, at least 300 pixels each way. */
  function LabFrame(measuredW: real, measuredH: real): (f: Frame)
    ensures Invertible(f)
  {
    LogicalFrameInvertible(Padding, DataMin, DataMax, measuredW, measuredH);
    Frame(Padding, DataMin, DataMax, LogicalSize(measuredW), LogicalSize(measuredH))
  }

  /** Data → canvas → data and canvas → data → canvas are the identity for every
      size the canvas can be measured at. */
  lemma TransformsRoundTrip(measuredW: real, measuredH: real, p: Point, c: Point)
    ensures ToData(LabFrame(measuredW, measuredH), ToCanvas(LabFrame(measuredW, measuredH), p)) == p
    ensures ToCanvas(LabFrame(measuredW, measuredH), ToData(LabFrame(measuredW, measuredH), c)) == c
  {
    DataCanvasRoundTrip(LabFrame(measuredW, measuredH), p);
    CanvasDataRoundTrip(LabFrame(measuredW, measuredH), c);
  }

  /** The lab as the constructor leaves it, around the points the preset generated. */
  function Initial(points: seq<LPoint>): State
  {
    State(points, Point(5.0, 5.0), true, 3, Red, false, false, 0, [], 0.0)
  }

  function Distance(sqrt: real -> real, p: Point, q: Point): real
  {
    sqrt(Dist2(p, q))
  }

  // ---------------------------------------------------------------------
  // Ranking

  /** The `distances` array of `findKNearest`: every point with its index and distance. */
  function Tag(sqrt: real -> real, q: Point, ps: seq<LPoint>): (r: seq<Neighbour>)
    ensures |r| == |ps|
    ensures forall i :: 0 <= i < |ps| ==> r[i] == Neighbour(ps[i], i, Distance(sqrt, q, ps[i].pos))
  {
    seq(|ps|, i requires 0 <= i < |ps| => Neighbour(ps[i], i, Distance(sqrt, q, ps[i].pos)))
  }

  function DistanceKey(n: Neighbour): real
  {
    n.distance
  }

  /** The points sorted by `(a, b) => a.distance - b.distance`; the sort is stable. */
  function Ranked(sqrt: real -> real, q: Point, ps: seq<LPoint>): (r: seq<Neighbour>)
    ensures |r| == |ps|
  {
    Sort(Tag(sqrt, q, ps), DistanceKey)
  }

  /** The end index `Array.prototype.slice(0, end)` stops at on a sequence of length `n`. */
  function SliceEnd(end: int, n: nat): (e: nat)
    ensures e <= n
    ensures 0 <= end <= n ==> e == end
  {
    if end < 0 then (if n + end < 0 then 0 else n + end)
    else if end > n then n
    else end
  }

  /** `findKNearest`: the first `Math.min(k, n)` entries of the ranking, and
      the distance of the last of them as the radius. */
  function FindKNearest(sqrt: real -> real, s: State): (r: State)
    ensures r.(neighbours := s.neighbours, kRadius := s.kRadius) == s
    ensures |s.points| == 0 || !s.hasQuery ==> r.neighbours == [] && r.kRadius == 0.0
    ensures s.hasQuery && 0 <= s.k ==> |r.neighbours| == if s.k < |s.points| then s.k else |s.points|
    ensures s.hasQuery && s.k < 0 ==> |r.neighbours| == if |s.points| + s.k < 0 then 0 else |s.points| + s.k
    ensures |r.neighbours| == 0 ==> r.kRadius == 0.0
  {
    if |s.points| == 0 || !s.hasQuery then s.(neighbours := [], kRadius := 0.0)
    else
      var ranked := Ranked(sqrt, s.query, s.points);
      var end := if s.k < |ranked| then s.k else |ranked|;
      var nb := ranked[..SliceEnd(end, |ranked|)];
      s.(neighbours := nb, kRadius := if |nb| > 0 then nb[|nb| - 1].distance else 0.0)
  }

  /** The selection is a prefix of the stable ranking. */
  lemma SelectionIsPrefix(sqrt: real -> real, s: State)
    requires |s.points| > 0 && s.hasQuery
    ensures FindKNearest(sqrt, s).neighbours == Ranked(sqrt, s.query, s.points)[..|FindKNearest(sqrt, s).neighbours|]
  {
  }

  lemma MultisetCount<T>(a: seq<T>, x: T)
    ensures multiset(a)[x] == Count(a, x)
  {
    if |a| > 0 {
      MultisetCount(a[..|a| - 1], x);
      assert a == a[..|a| - 1] + [a[|a| - 1]];
    }
  }

  /** A permutation of a duplicate-free sequence is duplicate-free. */
  lemma PermutationNoDuplicates<T>(a: seq<T>, b: seq<T>)
    requires multiset(a) == multiset(b)
    requires NoDuplicates(a)
    ensures NoDuplicates(b)
  {
    forall i, j | 0 <= i < j < |b|
      ensures b[i] != b[j]
    {
      if b[i] == b[j] {
        var x := b[i];
        assert b == b[..j] + b[j..];
        assert x in multiset(b[..j]) && x in multiset(b[j..]) by {
          assert b[..j][i] == x;
          assert b[j..][0] == x;
        }
        assert multiset(b)[x] >= 2;
        CountNoDuplicates(a, x);
        MultisetCount(a, x);
      }
    }
  }

  /** Every ranked entry is a point of the lab, tagged with its own index and
      distance, and no point is ranked twice. */
  lemma RankedEntries(sqrt: real -> real, q: Point, ps: seq<LPoint>)
    ensures forall i :: 0 <= i < |ps| ==>
      var n := Ranked(sqrt, q, ps)[i];
      n.index < |ps| && n == Neighbour(ps[n.index], n.index, Distance(sqrt, q, ps[n.index].pos))
    ensures NoDuplicates(Ranked(sqrt, q, ps))
    ensures forall j :: 0 <= j < |ps| ==> Tag(sqrt, q, ps)[j] in Ranked(sqrt, q, ps)
  {
    var tag := Tag(sqrt, q, ps);
    var ranked := Ranked(sqrt, q, ps);
    SortSpec(tag, DistanceKey);
    forall i | 0 <= i < |ps|
      ensures ranked[i].index < |ps|
      ensures ranked[i] == Neighbour(ps[ranked[i].index], ranked[i].index, Distance(sqrt, q, ps[ranked[i].index].pos))
    {
      assert ranked[i] in multiset(tag);
    }
    PermutationNoDuplicates(tag, ranked);
    forall j | 0 <= j < |ps|
      ensures tag[j] in ranked
    {
      assert tag[j] in multiset(ranked);
    }
  }

  /** The neighbours are points of the lab, tagged with their own index and
      distance, and no point is selected twice. */
  lemma NeighboursAreGenuine(sqrt: real -> real, s: State)
    ensures var nb := FindKNearest(sqrt, s).neighbours;
      forall i :: 0 <= i < |nb| ==>
        nb[i].index < |s.points| && nb[i].point == s.points[nb[i].index]
        && nb[i].distance == Distance(sqrt, s.query, nb[i].point.pos)
    ensures var nb := FindKNearest(sqrt, s).neighbours;
      forall i, j :: 0 <= i < j < |nb| ==> nb[i].index != nb[j].index
  {
    var nb := FindKNearest(sqrt, s).neighbours;
    if |s.points| > 0 && s.hasQuery {
      var ranked := Ranked(sqrt, s.query, s.points);
      RankedEntries(sqrt, s.query, s.points);
      assert nb == ranked[..|nb|];
      forall i, j | 0 <= i < j < |nb|
        ensures nb[i].index != nb[j].index
      {
        assert ranked[i] != ranked[j];
      }
    }
  }

  /** The neighbours come in order of non-decreasing distance, and the radius is
      the largest of their distances. */
  lemma NeighboursAreOrdered(sqrt: real -> real, s: State)
    ensures var nb := FindKNearest(sqrt, s).neighbours;
      forall i, j :: 0 <= i < j < |nb| ==> nb[i].distance <= nb[j].distance
    ensures var r := FindKNearest(sqrt, s);
      forall i :: 0 <= i < |r.neighbours| ==> r.neighbours[i].distance <= r.kRadius
  {
    var r := FindKNearest(sqrt, s);
    if |s.points| > 0 && s.hasQuery {
      SelectionIsPrefix(sqrt, s);
      RankedSorted(sqrt, s.query, s.points);
      PrefixOrdered(Ranked(sqrt, s.query, s.points), r.neighbours);
    }
  }

  /** A prefix of a ranking by distance is ordered by distance, and its last
      entry is the farthest. */
  lemma PrefixOrdered(ranked: seq<Neighbour>, nb: seq<Neighbour>)
    requires SortedBy(ranked, DistanceKey)
    requires |nb| <= |ranked| && nb == ranked[..|nb|]
    ensures forall i, j :: 0 <= i < j < |nb| ==> nb[i].distance <= nb[j].distance
    ensures forall i :: 0 <= i < |nb| ==> nb[i].distance <= nb[|nb| - 1].distance
  {
    forall i, j | 0 <= i < j < |nb|
      ensures nb[i].distance <= nb[j].distance
    {
      assert DistanceKey(ranked[i]) <= DistanceKey(ranked[j]);
    }
  }

  lemma RankedSorted(sqrt: real -> real, q: Point, ps: seq<LPoint>)
    ensures SortedBy(Ranked(sqrt, q, ps), DistanceKey)
  {
    SortSpec(Tag(sqrt, q, ps), DistanceKey);
  }

  lemma OutsidePrefix(ranked: seq<Neighbour>, n: nat, j: nat, m: nat)
    requires n <= |ranked| && m < |ranked|
    requires forall i :: 0 <= i < n ==> ranked[i].index != j
    requires ranked[m].index == j
    ensures n <= m
  {
  }

  /** Every point that was not selected is at least as far from the query as
      the radius. */
  lemma LeftOutAreFarther(sqrt: real -> real, s: State, j: nat)
    requires j < |s.points|
    requires var nb := FindKNearest(sqrt, s).neighbours;
      |nb| > 0 && forall i :: 0 <= i < |nb| ==> nb[i].index != j
    ensures FindKNearest(sqrt, s).kRadius <= Distance(sqrt, s.query, s.points[j].pos)
  {
    var nb := FindKNearest(sqrt, s).neighbours;
    var ranked := Ranked(sqrt, s.query, s.points);
    SelectionIsPrefix(sqrt, s);
    RankedSorted(sqrt, s.query, s.points);
    var m := RankOf(sqrt, s.query, s.points, j);
    LeftOutOfPrefix(ranked, nb, j, m);
  }

  /** Where point `j` stands in the ranking. */
  lemma RankOf(sqrt: real -> real, q: Point, ps: seq<LPoint>, j: nat) returns (m: nat)
    requires j < |ps|
    ensures m < |ps| && Ranked(sqrt, q, ps)[m] == Tag(sqrt, q, ps)[j]
  {
    RankedEntries(sqrt, q, ps);
    var ranked := Ranked(sqrt, q, ps);
    m :| 0 <= m < |ranked| && ranked[m] == Tag(sqrt, q, ps)[j];
  }

  /** In a ranking sorted by distance, an entry outside the prefix `nb` is at
      least as far as the last entry of `nb`. */
  lemma LeftOutOfPrefix(ranked: seq<Neighbour>, nb: seq<Neighbour>, j: nat, m: nat)
    requires 0 < |nb| <= |ranked| && nb == ranked[..|nb|]
    requires m < |ranked| && SortedBy(ranked, DistanceKey)
    requires forall i :: 0 <= i < |nb| ==> nb[i].index != j
    requires ranked[m].index == j
    ensures nb[|nb| - 1].distance <= ranked[m].distance
  {
    forall i | 0 <= i < |nb|
      ensures ranked[i].index != j
    {
      assert ranked[i] == nb[i];
    }
    OutsidePrefix(ranked, |nb|, j, m);
    assert DistanceKey(ranked[|nb| - 1]) <= DistanceKey(ranked[m]);
  }

  function SquaredDistanceKey(q: Point): Neighbour -> real
  {
    (n: Neighbour) => Dist2(q, n.point.pos)
  }

  /** With a true square root, ranking by distance is ranking by squared distance. */
  lemma RankingBySquaredDistance(sqrt: real -> real, q: Point, ps: seq<LPoint>)
    requires IsSqrt(sqrt)
    ensures Ranked(sqrt, q, ps) == Sort(Tag(sqrt, q, ps), SquaredDistanceKey(q))
  {
    var tag := Tag(sqrt, q, ps);
    forall a, b | a in tag && b in tag
      ensures DistanceKey(a) <= DistanceKey(b) <==> SquaredDistanceKey(q)(a) <= SquaredDistanceKey(q)(b)
    {
      SqrtOrder(sqrt, Dist2(q, a.point.pos), Dist2(q, b.point.pos));
    }
    SortByEquivalentKeys(tag, DistanceKey, SquaredDistanceKey(q));
  }

  // ---------------------------------------------------------------------
  // Voting

  datatype Prediction = PredictRed | PredictBlue | PredictTie

  datatype Vote = Vote(redCount: nat, blueCount: nat, prediction: Prediction)

  function Classes(nb: seq<Neighbour>): (r: seq<string>)
    ensures |r| == |nb|
    ensures forall i :: 0 <= i < |nb| ==> r[i] == nb[i].point.cls
  {
    seq(|nb|, i requires 0 <= i < |nb| => nb[i].point.cls)
  }

  /** The `forEach` of `getPrediction`: red votes, and every other class as blue. */
  function Tally(nb: seq<Neighbour>): (r: (nat, nat))
    ensures r.0 == Count(Classes(nb), Red)
    ensures r.0 + r.1 == |nb|
  {
    if |nb| == 0 then (0, 0)
    else
      assert Classes(nb)[..|nb| - 1] == Classes(nb[..|nb| - 1]);
      var t := Tally(nb[..|nb| - 1]);
      if nb[|nb| - 1].point.cls == Red then (t.0 + 1, t.1) else (t.0, t.1 + 1)
  }

  function GetPrediction(nb: seq<Neighbour>): (r: Option<Vote>)
    ensures r.None? <==> |nb| == 0
    ensures r.Some? ==> r.value.redCount == Count(Classes(nb), Red)
    ensures r.Some? ==> r.value.redCount + r.value.blueCount == |nb|
  {
    if |nb| == 0 then None
    else
      var (red, blue) := Tally(nb);
      Some(Vote(red, blue, if red > blue then PredictRed else if blue > red then PredictBlue else PredictTie))
  }

  /** The vote is a strict majority of red neighbours, a strict majority of the
      others, or a tie when exactly half are red. */
  lemma PredictionIsMajority(nb: seq<Neighbour>)
    requires |nb| > 0
    ensures GetPrediction(nb).value.prediction == PredictRed <==> 2 * Count(Classes(nb), Red) > |nb|
    ensures GetPrediction(nb).value.prediction == PredictBlue <==> 2 * Count(Classes(nb), Red) < |nb|
    ensures GetPrediction(nb).value.prediction == PredictTie <==> 2 * Count(Classes(nb), Red) == |nb|
  {
  }

  // ---------------------------------------------------------------------
  // Painting

  /** Some point of `ps` lies closer than `MinSeparation` to `d`. */
  predicate TooClose(sqrt: real -> real, d: Point, ps: seq<LPoint>)
  {
    exists i :: 0 <= i < |ps| && Distance(sqrt, d, ps[i].pos) < MinSeparation
  }

  /** The points after painting at data position `d`: one more point of the
      current brush, unless `d` lies outside [0, 10]² or too close to an
      existing point. */
  function Painted(sqrt: real -> real, s: State, d: Point): seq<LPoint>
  {
    if InSquare(d, DataMin, DataMax) && !TooClose(sqrt, d, s.points) then s.points + [LPoint(d, s.brush)]
    else s.points
  }

  /** `addPoint`: the cursor in data coordinates becomes a point of the current
      brush, unless it lies outside [0, 10]² or too close to an existing point. */
  function AddPoint(sqrt: real -> real, s: State, f: Frame, c: Point): (r: State)
    requires Invertible(f)
    ensures var d := ToData(f, c);
      if !InSquare(d, DataMin, DataMax) || TooClose(sqrt, d, s.points) then r == s
      else r == FindKNearest(sqrt, s.(points := s.points + [LPoint(d, s.brush)]))
  {
    var d := ToData(f, c);
    if !InSquare(d, DataMin, DataMax) then s
    else if TooClose(sqrt, d, s.points) then s
    else FindKNearest(sqrt, s.(points := s.points + [LPoint(d, s.brush)]))
  }

  /** All pairs of points are at least `MinSeparation` apart. */
  ghost predicate Separated(sqrt: real -> real, ps: seq<LPoint>)
  {
    forall i, j :: 0 <= i < j < |ps| ==> Distance(sqrt, ps[i].pos, ps[j].pos) >= MinSeparation
  }

  /** Painting keeps painted points apart: an accepted point is far enough from
      every earlier one, so a separated set stays separated, and the new point
      lies in [0, 10]². */
  lemma AddPointKeepsSeparation(sqrt: real -> real, s: State, f: Frame, c: Point)
    requires Invertible(f)
    requires Separated(sqrt, s.points)
    ensures Separated(sqrt, AddPoint(sqrt, s, f, c).points)
    ensures var r := AddPoint(sqrt, s, f, c);
      r.points == s.points || (|r.points| == |s.points| + 1 && InSquare(r.points[|s.points|].pos, DataMin, DataMax))
  {
    var d := ToData(f, c);
    var r := AddPoint(sqrt, s, f, c);
    if InSquare(d, DataMin, DataMax) && !TooClose(sqrt, d, s.points) {
      var ps := r.points;
      assert ps == s.points + [LPoint(d, s.brush)];
      forall i, j | 0 <= i < j < |ps|
        ensures Distance(sqrt, ps[i].pos, ps[j].pos) >= MinSeparation
      {
        if j == |s.points| {
          Dist2Symmetric(d, ps[i].pos);
          assert !(Distance(sqrt, d, s.points[i].pos) < MinSeparation);
        }
      }
    }
  }

  // ---------------------------------------------------------------------
  // Pointer

  /** The press lands within `GrabRadius` pixels of the query's canvas position. */
  predicate NearQuery(sqrt: real -> real, s: State, f: Frame, c: Point)
    requires Invertible(f)
  {
    Distance(sqrt, c, ToCanvas(f, s.query)) < GrabRadius
  }

  ghost predicate Idle(s: State)
  {
    !s.draggingQuery && !s.painting
  }

  /** `handleMouseDown`: grab the query when the press is near it, otherwise
      start a stroke and paint its first point. */
  function MouseDown(sqrt: real -> real, s: State, f: Frame, c: Point): (r: State)
    requires Invertible(f)
    ensures s.hasQuery && NearQuery(sqrt, s, f, c) ==> r == s.(draggingQuery := true)
    ensures !(s.hasQuery && NearQuery(sqrt, s, f, c)) ==>
      && r.painting
      && r.draggingQuery == s.draggingQuery
      && r.points == Painted(sqrt, s, ToData(f, c))
      && (r.points == s.points ==> r == s.(painting := true))
      && (r.points != s.points ==> r == FindKNearest(sqrt, s.(painting := true, points := r.points)))
    ensures r.lastPaintTime == s.lastPaintTime && r.query == s.query
  {
    if s.hasQuery && NearQuery(sqrt, s, f, c) then s.(draggingQuery := true)
    else AddPoint(sqrt, s.(painting := true), f, c)
  }

  /** `handleMouseMove`: a grabbed query follows the cursor, clamped to
      [0.5, 9.5]²; a stroke paints again once more than 50 ms have passed since
      the last painted point; otherwise only the cursor changes. */
  function MouseMove(sqrt: real -> real, s: State, f: Frame, c: Point, now: int): (r: State)
    requires Invertible(f)
    ensures s.draggingQuery ==> InSquare(r.query, QueryMin, QueryMax) && r.points == s.points
    ensures s.draggingQuery && InSquare(ToData(f, c), QueryMin, QueryMax) ==> r.query == ToData(f, c)
    ensures s.draggingQuery ==>
      var d := ToData(f, c);
      && (d.x < QueryMin ==> r.query.x == QueryMin) && (d.x > QueryMax ==> r.query.x == QueryMax)
      && (d.y < QueryMin ==> r.query.y == QueryMin) && (d.y > QueryMax ==> r.query.y == QueryMax)
      && (QueryMin <= d.x <= QueryMax ==> r.query.x == d.x) && (QueryMin <= d.y <= QueryMax ==> r.query.y == d.y)
    ensures !s.draggingQuery ==> r.query == s.query
    ensures r.points != s.points ==> !s.draggingQuery && s.painting && now - s.lastPaintTime > PaintInterval
    ensures r.draggingQuery == s.draggingQuery && r.painting == s.painting
    ensures s.draggingQuery ==> r == FindKNearest(sqrt, s.(query := r.query))
    ensures !s.draggingQuery && s.painting && now - s.lastPaintTime > PaintInterval ==>
      && r.points == Painted(sqrt, s, ToData(f, c))
      && r.lastPaintTime == now
      && (r.points == s.points ==> r == s.(lastPaintTime := now))
      && (r.points != s.points ==> r == FindKNearest(sqrt, s.(points := r.points, lastPaintTime := now)))
    ensures !s.draggingQuery && !(s.painting && now - s.lastPaintTime > PaintInterval) ==> r == s
  {
    if s.draggingQuery then
      FindKNearest(sqrt, s.(query := ClampPoint(QueryMin, QueryMax, ToData(f, c))))
    else if s.painting then
      if now - s.lastPaintTime > PaintInterval then AddPoint(sqrt, s, f, c).(lastPaintTime := now) else s
    else s
  }

  /** `handleMouseUp`, also bound to `mouseleave`. */
  function MouseUp(s: State): (r: State)
    ensures Idle(r)
    ensures r.(draggingQuery := s.draggingQuery, painting := s.painting) == s
  {
    s.(draggingQuery := false, painting := false)
  }

  /** The k slider: `parseInt` of the slider, then a new ranking. */
  function SetK(sqrt: real -> real, s: State, v: int): (r: State)
    ensures r.k == v && r.points == s.points
    ensures r == FindKNearest(sqrt, s.(k := v))
  {
    FindKNearest(sqrt, s.(k := v))
  }

  /** The clear button: no points, so no neighbours and a zero radius. */
  function ClearPoints(sqrt: real -> real, s: State): (r: State)
    ensures r.points == [] && r.neighbours == [] && r.kRadius == 0.0
    ensures r.query == s.query && r.k == s.k && r.brush == s.brush
  {
    FindKNearest(sqrt, s.(points := []))
  }

  datatype Event = Down(c: Point) | Move(c: Point, now: int) | Up | Slider(v: int) | Brush(b: string) | ClearAll

  function Apply(sqrt: real -> real, s: State, f: Frame, e: Event): State
    requires Invertible(f)
  {
    match e
    case Down(c) => MouseDown(sqrt, s, f, c)
    case Move(c, now) => MouseMove(sqrt, s, f, c, now)
    case Up => MouseUp(s)
    case Slider(v) => SetK(sqrt, s, v)
    case Brush(b) => s.(brush := b)
    case ClearAll => ClearPoints(sqrt, s)
  }

  function Run(sqrt: real -> real, s: State, f: Frame, es: seq<Event>): State
    requires Invertible(f)
    decreases |es|
  {
    if |es| == 0 then s else Run(sqrt, Apply(sqrt, s, f, es[0]), f, es[1..])
  }

  /** The query starts at (5, 5) and no sequence of events takes it out of
      [0.5, 9.5]². */
  lemma {:induction false} QueryStaysInside(sqrt: real -> real, s: State, f: Frame, es: seq<Event>)
    requires Invertible(f)
    requires InSquare(s.query, QueryMin, QueryMax)
    ensures InSquare(Run(sqrt, s, f, es).query, QueryMin, QueryMax)
    decreases |es|
  {
    if |es| > 0 {
      QueryStaysInside(sqrt, Apply(sqrt, s, f, es[0]), f, es[1..]);
    }
  }

  /** Every event keeps painted points at least `MinSeparation` apart. */
  lemma ApplyKeepsSeparation(sqrt: real -> real, s: State, f: Frame, e: Event)
    requires Invertible(f)
    requires Separated(sqrt, s.points)
    ensures Separated(sqrt, Apply(sqrt, s, f, e).points)
  {
    match e
    case Down(c) =>
      if !(s.hasQuery && NearQuery(sqrt, s, f, c)) {
        AddPointKeepsSeparation(sqrt, s.(painting := true), f, c);
      }
    case Move(c, now) =>
      if !s.draggingQuery && s.painting && now - s.lastPaintTime > PaintInterval {
        AddPointKeepsSeparation(sqrt, s, f, c);
      }
    case _ =>
  }

  /** No sequence of events brings two painted points closer than
      `MinSeparation`. */
  lemma {:induction false} RunKeepsSeparation(sqrt: real -> real, s: State, f: Frame, es: seq<Event>)
    requires Invertible(f)
    requires Separated(sqrt, s.points)
    ensures Separated(sqrt, Run(sqrt, s, f, es).points)
    decreases |es|
  {
    if |es| > 0 {
      ApplyKeepsSeparation(sqrt, s, f, es[0]);
      RunKeepsSeparation(sqrt, Apply(sqrt, s, f, es[0]), f, es[1..]);
    }
  }
}

=== FILE: linear_regression.dfy ===
/**
 The linear-regression lab (`LinearRegressionLab` in labs/linear-regression.js).

 The learner places points in [0, 10]² and fits a line `y = slope · x + b` by
 hand with two sliders; the intercept slider holds a normalised value `i` and
 the line's actual intercept is `b = 5 · i + 5`. The lab reports the residual
 statistics of the hand-made line, computes the ordinary-least-squares line and
 animates the sliders towards it ("gradient descent"), and can add a random
 outlier far from the current line.

 The model takes the mouse position already converted to logical canvas or
 data coordinates, passes every `Math.random()` value and the elapsed
 animation time in as parameters, and `Math.sqrt` as an oracle.
 */
module LinearRegression {

  import opened Geometry
  import opened Oracles
  import opened Options
  import opened Seqs
  import opened Viewport

  const Padding: real := 60.0
  const DataMin: real := 0.0
  const DataMax: real := 10.0
  const PresetCount: nat := 15
  const OutlierMin: real := 0.5
  const OutlierMax: real := 9.5
  /** Closest an outlier may stay to the line before it is moved away. */
  const OutlierGap: real := 2.0
  /** The animation runs for 2000 ms. */
  const Duration: real := 2000.0
  /** A press selects a point within 15 pixels: compared as a squared distance. */
  const GrabRadius2: real := 225.0

  datatype LPoint = LPoint(pos: Point, outlier: bool)

  datatype Lab = Lab(
    points: seq<LPoint>,
    slope: real,
    intercept: real,
    phase: int,
    showResiduals: bool,
    showSquares: bool,
    animating: bool,
    dragged: Option<nat>)

  /** The line of the two sliders. */
  datatype Line = Line(slope: real, intercept: real)

  function Initial(): Lab
  {
    Lab([], 0.5, 0.0, 1, false, false, false, None)
  }

  function Positions(ps: seq<LPoint>): (r: seq<Point>)
    ensures |r| == |ps|
    ensures forall i :: 0 <= i < |ps| ==> r[i] == ps[i].pos
  {
    seq(|ps|, i requires 0 <= i < |ps| => ps[i].pos)
  }

  // ---------------------------------------------------------------------
  // Coordinates

  /** The canvas is at least 300 × 300 logical pixels with 60 pixels of
      padding around [0, 10]². */
  function LabFrame(measuredWidth: real, measuredHeight: real): (f: Frame)
    ensures Invertible(f)
  {
    LogicalFrameInvertible(Padding, DataMin, DataMax, measuredWidth, measuredHeight);
    Frame(Padding, DataMin, DataMax, LogicalSize(measuredWidth), LogicalSize(measuredHeight))
  }

  function ToCanvas(f: Frame, p: Point): Point
    requires Invertible(f)
  {
    Point(ScaledToCanvasX(f, p.x), ScaledToCanvasY(f, p.y))
  }

  function ToData(f: Frame, c: Point): Point
    requires Invertible(f)
  {
    Point(ScaledToDataX(f, c.x), ScaledToDataY(f, c.y))
  }

  /** The lab's scale-first transforms invert each other for every canvas size. */
  lemma TransformsRoundTrip(measuredWidth: real, measuredHeight: real, p: Point, c: Point)
    ensures ToData(LabFrame(measuredWidth, measuredHeight), ToCanvas(LabFrame(measuredWidth, measuredHeight), p)) == p
    ensures ToCanvas(LabFrame(measuredWidth, measuredHeight), ToData(LabFrame(measuredWidth, measuredHeight), c)) == c
  {
    var f := LabFrame(measuredWidth, measuredHeight);
    var q := Viewport.ToCanvas(f, p);
    var d := Viewport.ToData(f, c);
    ScaledAgreesX(f, p.x, q.x);
    ScaledAgreesY(f, p.y, q.y);
    ScaledAgreesX(f, d.x, c.x);
    ScaledAgreesY(f, d.y, c.y);
    DataCanvasRoundTrip(f, p);
    CanvasDataRoundTrip(f, c);
  }

  // ---------------------------------------------------------------------
  // Residual statistics

  /** The slider value `i` stands for the intercept `5 · i + 5`. */
  function ActualIntercept(i: real): real
  {
    i * 5.0 + 5.0
  }

  function Predicted(l: Line, x: real): real
  {
    l.slope * x + ActualIntercept(l.intercept)
  }

  function Residual(l: Line, p: Point): real
  {
    p.y - Predicted(l, p.x)
  }

  /** Σ of the squared residuals of `l`. */
  function Sse(ps: seq<Point>, l: Line): (r: real)
    ensures r >= 0.0
  {
    if |ps| == 0 then 0.0 else Sse(ps[..|ps| - 1], l) + Sq(Residual(l, ps[|ps| - 1]))
  }

  /** Σ (y − m)²: the total sum of squares around the mean height `m`. */
  function SsTot(ps: seq<Point>, m: real): (r: real)
    ensures r >= 0.0
  {
    if |ps| == 0 then 0.0 else SsTot(ps[..|ps| - 1], m) + Sq(ps[|ps| - 1].y - m)
  }

  predicate OnLine(ps: seq<Point>, l: Line)
  {
    forall i :: 0 <= i < |ps| ==> ps[i].y == Predicted(l, ps[i].x)
  }

  /** The residuals vanish exactly when every point lies on the line. */
  lemma {:induction false} SseZeroIff(ps: seq<Point>, l: Line)
    ensures Sse(ps, l) == 0.0 <==> OnLine(ps, l)
  {
    if |ps| > 0 {
      var init, p := ps[..|ps| - 1], ps[|ps| - 1];
      SseZeroIff(init, l);
      SqPositive(Residual(l, p));
      if OnLine(ps, l) {
        assert OnLine(init, l) by {
          forall i | 0 <= i < |init|
            ensures init[i].y == Predicted(l, init[i].x)
          {
            assert init[i] == ps[i];
          }
        }
      }
      if Sse(ps, l) == 0.0 {
        forall i | 0 <= i < |ps|
          ensures ps[i].y == Predicted(l, ps[i].x)
        {
          if i < |ps| - 1 {
            assert ps[i] == init[i];
          }
        }
      }
    }
  }

  datatype Stats = Stats(rSquared: real, mse: real, sse: real, fitScore: real)

  /** `calculateStats` for the line `l`; `None` stands for the all-null record. */
  function CalculateStats(sqrt: real -> real, ps: seq<Point>, l: Line): (r: Option<Stats>)
    ensures r == None <==> |ps| < 2
    ensures r.Some? ==> r.value.sse == Sse(ps, l) && r.value.mse == MeanError(r.value.sse, |ps|)
    ensures r.Some? ==> 0.0 <= r.value.rSquared <= 1.0
    ensures r.Some? && SsTot(ps, Mean(ps).y) == 0.0 ==> r.value.rSquared == 0.0
    ensures r.Some? ==> 0.0 <= r.value.fitScore <= 100.0
  {
    if |ps| < 2 then None
    else
      var ssRes := Sse(ps, l);
      var mse := MeanError(ssRes, |ps|);
      Some(Stats(RSquared(ssRes, SsTot(ps, Mean(ps).y)), mse, ssRes, FitScore(sqrt, mse)))
  }

  /** `sse / n`: the mean squared error. */
  function MeanError(sse: real, n: nat): (mse: real)
    requires sse >= 0.0 && n > 0
    ensures mse >= 0.0 && mse * n as real == sse
    ensures mse == 0.0 <==> sse == 0.0
  {
    DivNonNegative(sse, n as real);
    QuotientTimes(sse, n as real);
    sse / n as real
  }

  /** `1 − ssRes / ssTot`, floored at 0, or 0 when the heights do not vary. */
  function RSquared(ssRes: real, ssTot: real): (r: real)
    requires ssRes >= 0.0
    ensures 0.0 <= r <= 1.0
    ensures ssTot <= 0.0 ==> r == 0.0
    ensures ssTot > 0.0 ==> (r == 1.0 <==> ssRes == 0.0)
  {
    if ssTot > 0.0 then
      DivNonNegative(ssRes, ssTot);
      QuotientTimes(ssRes, ssTot);
      Max(0.0, 1.0 - ssRes / ssTot)
    else 0.0
  }

  /** `(1 − √mse / 5) · 100`, clamped to [0, 100]. */
  function FitScore(sqrt: real -> real, mse: real): (f: real)
    ensures 0.0 <= f <= 100.0
    ensures sqrt(mse) == 0.0 ==> f == 100.0
  {
    Max(0.0, Min(100.0, (1.0 - sqrt(mse) / 5.0) * 100.0))
  }

  /** A line through every point has no error, a full fit score and, when
      the heights vary, a coefficient of determination of one; and only
      such a line has no error. */
  lemma PerfectFitStats(sqrt: real -> real, ps: seq<Point>, l: Line)
    requires IsSqrt(sqrt) && |ps| >= 2
    ensures CalculateStats(sqrt, ps, l).value.sse == 0.0 <==> OnLine(ps, l)
    ensures OnLine(ps, l) ==> CalculateStats(sqrt, ps, l).value.mse == 0.0
    ensures OnLine(ps, l) ==> CalculateStats(sqrt, ps, l).value.fitScore == 100.0
    ensures OnLine(ps, l) && SsTot(ps, Mean(ps).y) > 0.0 ==> CalculateStats(sqrt, ps, l).value.rSquared == 1.0
  {
    SseZeroIff(ps, l);
    SqrtZero(sqrt);
  }

  /** The height of the error tank: `min(100, sse / (25 · n) · 100)`. */
  function TankPercent(sse: real, n: nat): (r: real)
    requires sse >= 0.0 && n > 0
    ensures 0.0 <= r <= 100.0
  {
    DivNonNegative(sse, n as real * 25.0);
    Min(100.0, (sse / (n as real * 25.0)) * 100.0)
  }

  // ---------------------------------------------------------------------
  // The least-squares line

  /** residual · x at one point. */
  function MomentAt(l: Line, p: Point): real
  {
    Residual(l, p) * p.x
  }

  /** residual · (x − mx) at one point. */
  function CentredAt(l: Line, p: Point, mx: real): real
  {
    Residual(l, p) * (p.x - mx)
  }

  /** (x − m.x)(y − m.y) at one point. */
  function ProductAt(p: Point, m: Point): real
  {
    (p.x - m.x) * (p.y - m.y)
  }

  /** Σ (x − m.x)(y − m.y), the numerator of the slope. */
  function Cross(ps: seq<Point>, m: Point): real
  {
    if |ps| == 0 then 0.0 else Cross(ps[..|ps| - 1], m) + ProductAt(ps[|ps| - 1], m)
  }

  /** Σ (x − mx)², the denominator of the slope. */
  function Spread(ps: seq<Point>, mx: real): (r: real)
    ensures r >= 0.0
  {
    if |ps| == 0 then 0.0 else Spread(ps[..|ps| - 1], mx) + Sq(ps[|ps| - 1].x - mx)
  }

  /** `calculateOptimalLine`: the default line for fewer than two points,
      otherwise the least-squares slope (0 when every x is the same) with the
      intercept slider set so that the line passes through the mean point. */
  function OptimalLine(ps: seq<Point>): (r: Line)
    ensures |ps| < 2 ==> r == Line(0.5, 0.0)
    ensures |ps| >= 2 ==> Predicted(r, Mean(ps).x) == Mean(ps).y
    ensures |ps| >= 2 && Spread(ps, Mean(ps).x) != 0.0 ==>
      Deduct(Cross(ps, Mean(ps)), r.slope, Spread(ps, Mean(ps).x)) == 0.0
    ensures |ps| >= 2 && Spread(ps, Mean(ps).x) == 0.0 ==> r.slope == 0.0
  {
    if |ps| < 2 then Line(0.5, 0.0)
    else
      var m := Mean(ps);
      ThroughPoint(Slope(Cross(ps, m), Spread(ps, m.x)), m)
  }

  /** `numerator / denominator`, or 0 for a zero denominator. */
  function Slope(numerator: real, denominator: real): (s: real)
    ensures denominator != 0.0 ==> Deduct(numerator, s, denominator) == 0.0
    ensures denominator == 0.0 ==> s == 0.0
  {
    if denominator != 0.0 then QuotientTimes(numerator, denominator); numerator / denominator else 0.0
  }

  /** The line of the given slope whose intercept slider, `(b − 5) / 5` for
      `b = my − slope · mx`, puts it through `m`. */
  function ThroughPoint(slope: real, m: Point): (l: Line)
    ensures l.slope == slope && Predicted(l, m.x) == m.y
  {
    SliderIntercept(m.y - slope * m.x);
    Line(slope, (m.y - slope * m.x - 5.0) / 5.0)
  }

  lemma QuotientTimes(a: real, b: real)
    requires b != 0.0
    ensures (a / b) * b == a
  {
  }

  /** The slider value `(v − 5) / 5` stands for the intercept `v`. */
  lemma SliderIntercept(v: real)
    ensures ActualIntercept((v - 5.0) / 5.0) == v
  {
  }

  /** Σ of the residuals. */
  function SumResiduals(ps: seq<Point>, l: Line): real
  {
    if |ps| == 0 then 0.0 else SumResiduals(ps[..|ps| - 1], l) + Residual(l, ps[|ps| - 1])
  }

  /** Σ residual · x. */
  function Moment(ps: seq<Point>, l: Line): real
  {
    if |ps| == 0 then 0.0 else Moment(ps[..|ps| - 1], l) + MomentAt(l, ps[|ps| - 1])
  }

  /** Σ residual · (x − mx). */
  function CentredMoment(ps: seq<Point>, l: Line, mx: real): real
  {
    if |ps| == 0 then 0.0 else CentredMoment(ps[..|ps| - 1], l, mx) + CentredAt(l, ps[|ps| - 1], mx)
  }

  lemma Distribute(a: real, b: real, c: real)
    ensures a * (b + c) == a * b + a * c
  {
  }

  lemma {:induction false} SumResidualsSums(ps: seq<Point>, l: Line)
    ensures SumResiduals(ps, l) == SumY(ps) - l.slope * SumX(ps) - |ps| as real * ActualIntercept(l.intercept)
  {
    if |ps| > 0 {
      var init := ps[..|ps| - 1];
      SumResidualsSums(init, l);
      Distribute(l.slope, SumX(init), ps[|ps| - 1].x);
    }
  }

  /** A line through the mean point has residuals that sum to zero. */
  lemma ResidualsBalance(ps: seq<Point>, l: Line)
    requires |ps| > 0 && Predicted(l, Mean(ps).x) == Mean(ps).y
    ensures SumResiduals(ps, l) == 0.0
  {
    var m := Mean(ps);
    SumResidualsSums(ps, l);
    BalanceArith(SumResiduals(ps, l), SumX(ps), SumY(ps), |ps| as real, m, l.slope, ActualIntercept(l.intercept));
  }

  /** Σ (y − (b·x + c)) vanishes when `(mx, my)` is the mean and `my = b·mx + c`. */
  lemma BalanceArith(r: real, sx: real, sy: real, n: real, m: Point, b: real, c: real)
    requires r == sy - b * sx - n * c
    requires m.x * n == sx && m.y * n == sy && m.y == b * m.x + c
    ensures r == 0.0
  {
    assert b * (m.x * n) == (b * m.x) * n;
    assert m.y * n - (b * m.x) * n - n * c == (m.y - b * m.x - c) * n;
  }

  /** One term: through the mean point the residual is dy − slope · dx. */
  lemma CentredTerm(l: Line, p: Point, m: Point)
    requires Predicted(l, m.x) == m.y
    ensures CentredAt(l, p, m.x) == Deduct(ProductAt(p, m), l.slope, Sq(p.x - m.x))
  {
    var r, b := Residual(l, p), l.slope;
    assert r == (p.y - m.y) - b * (p.x - m.x);
  }

  /** `x − k·s`. */
  function Deduct(x: real, k: real, s: real): real
  {
    x - k * s
  }

  /** `C = X − k·S` survives adding `c = x − k·s` to both sides. */
  lemma DeductStep(c0: real, x0: real, s0: real, c: real, x: real, s: real, k: real)
    requires c0 == Deduct(x0, k, s0) && c == Deduct(x, k, s)
    ensures c0 + c == Deduct(x0 + x, k, s0 + s)
  {
  }

  /** The last point's terms. */
  lemma CentredLast(ps: seq<Point>, l: Line, m: Point)
    requires |ps| > 0
    ensures CentredMoment(ps, l, m.x) == CentredMoment(ps[..|ps| - 1], l, m.x) + CentredAt(l, ps[|ps| - 1], m.x)
    ensures Cross(ps, m) == Cross(ps[..|ps| - 1], m) + ProductAt(ps[|ps| - 1], m)
    ensures Spread(ps, m.x) == Spread(ps[..|ps| - 1], m.x) + Sq(ps[|ps| - 1].x - m.x)
  {
  }

  /** Through the mean point, Σ residual · (x − mx) = Σ dx·dy − slope · Σ dx². */
  lemma {:induction false} CentredMomentSplit(ps: seq<Point>, l: Line, m: Point)
    requires Predicted(l, m.x) == m.y
    ensures CentredMoment(ps, l, m.x) == Deduct(Cross(ps, m), l.slope, Spread(ps, m.x))
  {
    if |ps| > 0 {
      var init, p := ps[..|ps| - 1], ps[|ps| - 1];
      CentredMomentSplit(init, l, m);
      CentredTerm(l, p, m);
      CentredLast(ps, l, m);
      DeductStep(CentredMoment(init, l, m.x), Cross(init, m), Spread(init, m.x),
                 CentredAt(l, p, m.x), ProductAt(p, m), Sq(p.x - m.x), l.slope);
    }
  }

  /** With no spread in x every point sits at the mean x, so every centred
      moment vanishes. */
  lemma {:induction false} NoSpreadNoCross(ps: seq<Point>, l: Line, m: Point)
    requires Spread(ps, m.x) == 0.0
    ensures CentredMoment(ps, l, m.x) == 0.0
  {
    if |ps| > 0 {
      var init, p := ps[..|ps| - 1], ps[|ps| - 1];
      SqPositive(p.x - m.x);
      NoSpreadNoCross(init, l, m);
      assert p.x - m.x == 0.0;
    }
  }

  /** residual · x = residual · (x − mx) + mx · residual at one point. */
  lemma MomentTerm(l: Line, p: Point, mx: real)
    ensures MomentAt(l, p) == CentredAt(l, p, mx) + mx * Residual(l, p)
  {
    var r := Residual(l, p);
    assert r * p.x == r * (p.x - mx) + mx * r;
  }

  /** `T = C + a·Z` survives adding `t = c + a·z` to both sides. */
  lemma AddScaledStep(t0: real, c0: real, z0: real, t: real, c: real, z: real, a: real)
    requires t0 == c0 + a * z0 && t == c + a * z
    ensures t0 + t == (c0 + c) + a * (z0 + z)
  {
  }

  lemma {:induction false} MomentSplit(ps: seq<Point>, l: Line, mx: real)
    ensures Moment(ps, l) == CentredMoment(ps, l, mx) + mx * SumResiduals(ps, l)
  {
    if |ps| > 0 {
      var init, p := ps[..|ps| - 1], ps[|ps| - 1];
      MomentSplit(init, l, mx);
      MomentTerm(l, p, mx);
      AddScaledStep(Moment(init, l), CentredMoment(init, l, mx), SumResiduals(init, l),
                    MomentAt(l, p), CentredAt(l, p, mx), Residual(l, p), mx);
    }
  }

  /** The least-squares line satisfies both normal equations: its residuals
      sum to zero and are uncorrelated with x. */
  lemma NormalEquations(ps: seq<Point>)
    requires |ps| >= 2
    ensures SumResiduals(ps, OptimalLine(ps)) == 0.0
    ensures Moment(ps, OptimalLine(ps)) == 0.0
  {
    var l, m := OptimalLine(ps), Mean(ps);
    OptimalThroughMean(ps);
    ResidualsBalance(ps, l);
    OptimalCentredMoment(ps);
    MomentSplit(ps, l, m.x);
    SumOfZeros(CentredMoment(ps, l, m.x), m.x, SumResiduals(ps, l), Moment(ps, l));
  }

  lemma SumOfZeros(c: real, a: real, z: real, t: real)
    requires c == 0.0 && z == 0.0 && t == c + a * z
    ensures t == 0.0
  {
  }

  /** The best-fit line's centred moment vanishes. */
  lemma OptimalCentredMoment(ps: seq<Point>)
    requires |ps| >= 2
    ensures CentredMoment(ps, OptimalLine(ps), Mean(ps).x) == 0.0
  {
    var l, m := OptimalLine(ps), Mean(ps);
    if Spread(ps, m.x) == 0.0 {
      NoSpreadNoCross(ps, l, m);
    } else {
      SpreadCentredMoment(ps);
    }
  }

  lemma SpreadCentredMoment(ps: seq<Point>)
    requires |ps| >= 2 && Spread(ps, Mean(ps).x) != 0.0
    ensures CentredMoment(ps, OptimalLine(ps), Mean(ps).x) == 0.0
  {
    var l, m := OptimalLine(ps), Mean(ps);
    OptimalThroughMean(ps);
    CentredMomentSplit(ps, l, m);
  }

  lemma OptimalThroughMean(ps: seq<Point>)
    requires |ps| >= 2
    ensures Predicted(OptimalLine(ps), Mean(ps).x) == Mean(ps).y
  {
  }



  /** Σ (height of `l` − height of `o`)² over the points' x. */
  function Shift(ps: seq<Point>, l: Line, o: Line): (r: real)
    ensures r >= 0.0
  {
    if |ps| == 0 then 0.0
    else Shift(ps[..|ps| - 1], l, o) + Sq(Predicted(l, ps[|ps| - 1].x) - Predicted(o, ps[|ps| - 1].x))
  }

  /** Residual of `l` · (height of `l` − height of `o`) at one point. */
  function CrossAt(l: Line, o: Line, p: Point): real
  {
    Residual(l, p) * (Predicted(l, p.x) - Predicted(o, p.x))
  }

  /** Σ residual of `l` · (height of `l` − height of `o`). */
  function CrossTerm(ps: seq<Point>, l: Line, o: Line): real
  {
    if |ps| == 0 then 0.0
    else CrossTerm(ps[..|ps| - 1], l, o) + CrossAt(l, o, ps[|ps| - 1])
  }

  lemma SqSum(r: real, d: real)
    ensures Sq(r + d) == Sq(r) + 2.0 * (r * d) + Sq(d)
  {
  }

  /** At one point, the squared residual of `o` is that of `l` plus twice the
      cross term plus the squared height difference. */
  lemma PointDecompose(l: Line, o: Line, p: Point)
    ensures Sq(Residual(o, p)) ==
      Sq(Residual(l, p)) + 2.0 * CrossAt(l, o, p) + Sq(Predicted(l, p.x) - Predicted(o, p.x))
  {
    var r, d := Residual(l, p), Predicted(l, p.x) - Predicted(o, p.x);
    assert Residual(o, p) == r + d;
    SqSum(r, d);
  }

  /** Moving from `l` to any other line `o` adds the squared height
      differences plus twice their products with `l`'s residuals. */
  lemma {:induction false} SseDecompose(ps: seq<Point>, l: Line, o: Line)
    ensures Sse(ps, o) == Sse(ps, l) + 2.0 * CrossTerm(ps, l, o) + Shift(ps, l, o)
  {
    if |ps| > 0 {
      var init, p := ps[..|ps| - 1], ps[|ps| - 1];
      SseDecompose(init, l, o);
      PointDecompose(l, o, p);
      assert Sse(ps, o) == Sse(init, o) + Sq(Residual(o, p));
      assert Sse(ps, l) == Sse(init, l) + Sq(Residual(l, p));
      assert CrossTerm(ps, l, o) == CrossTerm(init, l, o) + CrossAt(l, o, p);
      assert Shift(ps, l, o) == Shift(init, l, o) + Sq(Predicted(l, p.x) - Predicted(o, p.x));
    }
  }

  /** At one point the cross term is a·(residual · x) + k·residual. */
  lemma CrossAtSplit(l: Line, o: Line, p: Point)
    ensures CrossAt(l, o, p)
         == Linear(l.slope - o.slope, MomentAt(l, p), ActualIntercept(l.intercept) - ActualIntercept(o.intercept), Residual(l, p))
  {
    var a, k, r := l.slope - o.slope, ActualIntercept(l.intercept) - ActualIntercept(o.intercept), Residual(l, p);
    assert Predicted(l, p.x) - Predicted(o, p.x) == a * p.x + k;
    assert r * (a * p.x + k) == a * (r * p.x) + k * r;
  }

  /** `a·m + k·z`. */
  function Linear(a: real, m: real, k: real, z: real): real
  {
    a * m + k * z
  }

  /** `T = a·M + k·Z` survives adding `t = a·m + k·z` to both sides. */
  lemma LinearStep(t0: real, m0: real, z0: real, t: real, m: real, z: real, a: real, k: real)
    requires t0 == Linear(a, m0, k, z0) && t == Linear(a, m, k, z)
    ensures t0 + t == Linear(a, m0 + m, k, z0 + z)
  {
  }

  /** The last point's terms. */
  lemma CrossTermLast(ps: seq<Point>, l: Line, o: Line)
    requires |ps| > 0
    ensures CrossTerm(ps, l, o) == CrossTerm(ps[..|ps| - 1], l, o) + CrossAt(l, o, ps[|ps| - 1])
    ensures Moment(ps, l) == Moment(ps[..|ps| - 1], l) + MomentAt(l, ps[|ps| - 1])
    ensures SumResiduals(ps, l) == SumResiduals(ps[..|ps| - 1], l) + Residual(l, ps[|ps| - 1])
  {
  }

  /** The cross term is made of `l`'s two normal sums. */
  lemma {:induction false} CrossTermLinear(ps: seq<Point>, l: Line, o: Line)
    ensures CrossTerm(ps, l, o) ==
      Linear(l.slope - o.slope, Moment(ps, l), ActualIntercept(l.intercept) - ActualIntercept(o.intercept), SumResiduals(ps, l))
  {
    if |ps| > 0 {
      var init, p := ps[..|ps| - 1], ps[|ps| - 1];
      CrossTermLinear(init, l, o);
      CrossAtSplit(l, o, p);
      CrossTermLast(ps, l, o);
      LinearStep(CrossTerm(init, l, o), Moment(init, l), SumResiduals(init, l),
                 CrossAt(l, o, p), MomentAt(l, p), Residual(l, p),
                 l.slope - o.slope, ActualIntercept(l.intercept) - ActualIntercept(o.intercept));
    }
  }

  lemma CrossTermSplit(ps: seq<Point>, l: Line, o: Line)
    ensures CrossTerm(ps, l, o) ==
      (l.slope - o.slope) * Moment(ps, l) + (ActualIntercept(l.intercept) - ActualIntercept(o.intercept)) * SumResiduals(ps, l)
  {
    CrossTermLinear(ps, l, o);
  }

  /** The line the gradient descent heads for has the least sum of squared
      residuals of all lines. */
  lemma OptimalLineMinimisesSse(ps: seq<Point>, o: Line)
    requires |ps| >= 2
    ensures Sse(ps, OptimalLine(ps)) <= Sse(ps, o)
  {
    NormalEquations(ps);
    SseDecompose(ps, OptimalLine(ps), o);
    CrossTermSplit(ps, OptimalLine(ps), o);
  }

  // ---------------------------------------------------------------------
  // The animated descent

  /** `Math.min(1, elapsed / duration)`. */
  function Progress(elapsed: real): (p: real)
    ensures p <= 1.0
    ensures elapsed >= 0.0 ==> p >= 0.0
    ensures p == 1.0 <==> elapsed >= Duration
  {
    Min(1.0, elapsed / Duration)
  }

  function Cube(t: real): real
  {
    Sq(t) * t
  }

  lemma CubeBounds(t: real)
    requires 0.0 <= t <= 1.0
    ensures 0.0 <= Cube(t) <= 1.0
  {
    MulNonNegative(t, 1.0 - t);
    assert t * (1.0 - t) == t - Sq(t);
    MulNonNegative(Sq(t), 1.0 - t);
    assert Sq(t) * (1.0 - t) == Sq(t) - Cube(t);
    MulNonNegative(Sq(t), t);
  }

  lemma CubeMonotone(s: real, t: real)
    requires 0.0 <= s <= t
    ensures Cube(s) <= Cube(t)
  {
    MulNonNegative(s, t - s);
    MulNonNegative(t, t - s);
    assert Sq(s) <= s * t <= Sq(t);
    MulNonNegative(Sq(s), t - s);
    MulNonNegative(t, Sq(t) - Sq(s));
  }

  /** The ease-out cubic `1 − (1 − p)³`. */
  function Eased(p: real): (e: real)
    ensures 0.0 <= p <= 1.0 ==> 0.0 <= e <= 1.0
    ensures p == 0.0 ==> e == 0.0
    ensures p == 1.0 ==> e == 1.0
  {
    if 0.0 <= p <= 1.0 then CubeBounds(1.0 - p); 1.0 - Cube(1.0 - p)
    else 1.0 - Cube(1.0 - p)
  }

  lemma EasedMonotone(p: real, q: real)
    requires 0.0 <= p <= q <= 1.0
    ensures Eased(p) <= Eased(q)
  {
    CubeMonotone(1.0 - q, 1.0 - p);
  }

  /** `start + (target − start) · e`. */
  function Interpolate(start: real, target: real, e: real): (v: real)
    ensures e == 0.0 ==> v == start
    ensures e == 1.0 ==> v == target
    ensures 0.0 <= e <= 1.0 ==> Min(start, target) <= v <= Max(start, target)
  {
    InterpolateBetween(start, target, e);
    start + (target - start) * e
  }

  lemma InterpolateBetween(start: real, target: real, e: real)
    ensures 0.0 <= e <= 1.0 ==> Min(start, target) <= start + (target - start) * e <= Max(start, target)
  {
    if 0.0 <= e <= 1.0 {
      if start <= target {
        MulNonNegative(target - start, e);
        MulNonNegative(target - start, 1.0 - e);
      } else {
        MulNonNegative(start - target, e);
        MulNonNegative(start - target, 1.0 - e);
      }
    }
  }

  /** A later frame is never further from the target than an earlier one. */
  lemma InterpolateApproaches(start: real, target: real, e1: real, e2: real)
    requires 0.0 <= e1 <= e2 <= 1.0
    ensures start <= target ==> Interpolate(start, target, e1) <= Interpolate(start, target, e2)
    ensures target <= start ==> Interpolate(start, target, e2) <= Interpolate(start, target, e1)
  {
    assert Interpolate(start, target, e2) - Interpolate(start, target, e1) == (target - start) * (e2 - e1);
    if start <= target {
      MulNonNegative(target - start, e2 - e1);
    } else {
      MulNonNegative(start - target, e2 - e1);
    }
  }

  /** The sliders `elapsed` milliseconds after the descent was started from
      `s`: nothing happens while an animation runs or with fewer than two
      points; otherwise both sliders move along the eased curve towards the
      least-squares line and the animation ends once the duration is over. */
  function DescentAt(s: Lab, elapsed: real): (r: Lab)
    ensures s.animating || |s.points| < 2 ==> r == s
    ensures r.points == s.points && r.phase == s.phase && r.dragged == s.dragged
    ensures !s.animating && |s.points| >= 2 ==> r.animating == (elapsed < Duration)
    ensures !s.animating && |s.points| >= 2 && elapsed >= 0.0 ==>
      && Min(s.slope, OptimalLine(Positions(s.points)).slope) <= r.slope <= Max(s.slope, OptimalLine(Positions(s.points)).slope)
      && Min(s.intercept, OptimalLine(Positions(s.points)).intercept) <= r.intercept <= Max(s.intercept, OptimalLine(Positions(s.points)).intercept)
    ensures !s.animating && |s.points| >= 2 && elapsed >= Duration ==>
      Line(r.slope, r.intercept) == OptimalLine(Positions(s.points))
  {
    if s.animating || |s.points| < 2 then s
    else
      var target := OptimalLine(Positions(s.points));
      var p := Progress(elapsed);
      var e := Eased(p);
      s.(slope := Interpolate(s.slope, target.slope, e),
         intercept := Interpolate(s.intercept, target.intercept, e),
         animating := p < 1.0)
  }

  /** Once the descent finishes, no line fits the points better than the
      sliders' line. */
  lemma DescentEndsAtBestFit(s: Lab, elapsed: real, o: Line)
    requires !s.animating && |s.points| >= 2 && elapsed >= Duration
    ensures Sse(Positions(s.points), Line(DescentAt(s, elapsed).slope, DescentAt(s, elapsed).intercept)) <= Sse(Positions(s.points), o)
  {
    OptimalLineMinimisesSse(Positions(s.points), o);
  }

  /** The slider values of two frames: the later one is at least as close to
      the least-squares line. */
  lemma DescentMonotone(s: Lab, t1: real, t2: real)
    requires !s.animating && |s.points| >= 2 && 0.0 <= t1 <= t2
    ensures var target := OptimalLine(Positions(s.points));
      (s.slope <= target.slope ==> DescentAt(s, t1).slope <= DescentAt(s, t2).slope)
      && (target.slope <= s.slope ==> DescentAt(s, t2).slope <= DescentAt(s, t1).slope)
  {
    var target := OptimalLine(Positions(s.points));
    assert Progress(t1) <= Progress(t2);
    EasedMonotone(Progress(t1), Progress(t2));
    InterpolateApproaches(s.slope, target.slope, Eased(Progress(t1)), Eased(Progress(t2)));
  }

  // ---------------------------------------------------------------------
  // Editing the points

  predicate AllInside(ps: seq<LPoint>)
  {
    forall i :: 0 <= i < |ps| ==> InSquare(ps[i].pos, DataMin, DataMax)
  }

  /** `handleCanvasClick` with the click in data coordinates: ignored while
      dragging, otherwise adds a point only inside [0, 10]². */
  function HandleClick(s: Lab, d: Point): (r: Lab)
    ensures s.dragged.Some? || !InSquare(d, DataMin, DataMax) ==> r == s
    ensures s.dragged.None? && InSquare(d, DataMin, DataMax) ==>
      r == s.(points := s.points + [LPoint(d, false)])
    ensures AllInside(s.points) ==> AllInside(r.points)
  {
    if s.dragged.None? && InSquare(d, DataMin, DataMax) then s.(points := s.points + [LPoint(d, false)])
    else s
  }

  /** The first index whose canvas position lies strictly within 15 pixels
      of `c`, searching from `from`. */
  function FirstWithin(cs: seq<Point>, c: Point, from: nat): (r: Option<nat>)
    requires from <= |cs|
    ensures r.Some? ==> from <= r.value < |cs| && Dist2(cs[r.value], c) < GrabRadius2
    ensures r.Some? ==> forall j :: from <= j < r.value ==> Dist2(cs[j], c) >= GrabRadius2
    ensures r.None? ==> forall j :: from <= j < |cs| ==> Dist2(cs[j], c) >= GrabRadius2
    decreases |cs| - from
  {
    if from == |cs| then None
    else if Dist2(cs[from], c) < GrabRadius2 then Some(from)
    else FirstWithin(cs, c, from + 1)
  }

  /** `Math.sqrt(dx² + dy²) < 15` is the squared comparison with 225. */
  lemma GrabBySqrtDistance(sqrt: real -> real, p: Point, c: Point)
    requires IsSqrt(sqrt)
    ensures sqrt(Dist2(p, c)) < 15.0 <==> Dist2(p, c) < GrabRadius2
  {
    SqMonotone(sqrt(GrabRadius2), 15.0);
    SqMonotone(15.0, sqrt(GrabRadius2));
    SqrtOrder(sqrt, Dist2(p, c), GrabRadius2);
  }

  function CanvasPositions(f: Frame, ps: seq<LPoint>): (r: seq<Point>)
    requires Invertible(f)
    ensures |r| == |ps|
    ensures forall i :: 0 <= i < |ps| ==> r[i] == ToCanvas(f, ps[i].pos)
  {
    seq(|ps|, i requires 0 <= i < |ps| => ToCanvas(f, ps[i].pos))
  }

  /** `handleMouseDown`: grabs the first point under the cursor, if any. */
  function MouseDown(s: Lab, f: Frame, c: Point): (r: Lab)
    requires Invertible(f)
    ensures r.points == s.points
    ensures r.dragged.Some? && r.dragged != s.dragged ==>
      r.dragged.value < |s.points| && Dist2(ToCanvas(f, s.points[r.dragged.value].pos), c) < GrabRadius2
    ensures (forall j :: 0 <= j < |s.points| ==> Dist2(ToCanvas(f, s.points[j].pos), c) >= GrabRadius2) ==> r == s
    ensures (exists j :: 0 <= j < |s.points| && Dist2(ToCanvas(f, s.points[j].pos), c) < GrabRadius2) ==>
      && r == s.(dragged := r.dragged)
      && r.dragged.Some? && r.dragged.value < |s.points|
      && Dist2(ToCanvas(f, s.points[r.dragged.value].pos), c) < GrabRadius2
      && forall j :: 0 <= j < r.dragged.value ==> Dist2(ToCanvas(f, s.points[j].pos), c) >= GrabRadius2
  {
    match FirstWithin(CanvasPositions(f, s.points), c, 0)
    case Some(i) => s.(dragged := Some(i))
    case None => s
  }

  predicate ValidDrag(s: Lab)
  {
    s.dragged.Some? ==> s.dragged.value < |s.points|
  }

  /** The drag branch of `handleMouseMove`: the grabbed point follows the
      pointer, each coordinate clamped into [0, 10]. */
  function DragTo(s: Lab, d: Point): (r: Lab)
    requires ValidDrag(s)
    ensures |r.points| == |s.points| && r.dragged == s.dragged
    ensures s.dragged.None? ==> r == s
    ensures s.dragged.Some? ==> InSquare(r.points[s.dragged.value].pos, DataMin, DataMax)
    ensures s.dragged.Some? && InSquare(d, DataMin, DataMax) ==> r.points[s.dragged.value].pos == d
    ensures forall j :: 0 <= j < |s.points| && Some(j) != s.dragged ==> r.points[j] == s.points[j]
    ensures AllInside(s.points) ==> AllInside(r.points)
  {
    match s.dragged
    case None => s
    case Some(i) => s.(points := s.points[i := s.points[i].(pos := ClampPoint(DataMin, DataMax, d))])
  }

  function MouseUp(s: Lab): (r: Lab)
    ensures r.dragged == None && r.points == s.points
  {
    s.(dragged := None)
  }

  function Clear(s: Lab): (r: Lab)
    ensures r.points == [] && r.slope == s.slope && r.intercept == s.intercept
  {
    s.(points := [])
  }

  // ---------------------------------------------------------------------
  // Presets

  datatype Preset = Positive | Negative | Scatter | Unknown

  predicate UnitRandoms(us: seq<real>)
  {
    forall i :: 0 <= i < |us| ==> 0.0 <= us[i] < 1.0
  }

  /** One preset point from two `Math.random()` values. */
  function PresetPoint(t: Preset, u: real, v: real): (p: Point)
    requires 0.0 <= u < 1.0 && 0.0 <= v < 1.0
    ensures 1.0 <= p.x < 9.0
    ensures t != Scatter ==> OutlierMin <= p.y <= OutlierMax
    ensures t == Scatter ==> 1.0 <= p.y < 9.0
  {
    var x := u * 8.0 + 1.0;
    match t
    case Positive => Point(x, Clamp(OutlierMin, OutlierMax, x * 0.8 + (v - 0.5) * 1.5 + 1.0))
    case Negative => Point(x, Clamp(OutlierMin, OutlierMax, -x * 0.3 + (v - 0.5) * 2.0 + 7.0))
    case Scatter => Point(x, v * 8.0 + 1.0)
    case Unknown => Point(x, OutlierMin)
  }

  /** `handlePreset`: the points are replaced by fifteen fresh ones for the
      three known presets, and by none for any other name. */
  function HandlePreset(s: Lab, t: Preset, rands: seq<real>): (r: Lab)
    requires |rands| == 2 * PresetCount && UnitRandoms(rands)
    ensures t == Unknown ==> r.points == []
    ensures t != Unknown ==> |r.points| == PresetCount
    ensures forall i :: 0 <= i < |r.points| ==>
      && 1.0 <= r.points[i].pos.x < 9.0
      && (t == Scatter ==> 1.0 <= r.points[i].pos.y < 9.0)
      && (t != Scatter ==> OutlierMin <= r.points[i].pos.y <= OutlierMax)
      && !r.points[i].outlier
    ensures AllInside(r.points)
    ensures r.slope == s.slope && r.intercept == s.intercept
  {
    if t == Unknown then s.(points := [])
    else
      s.(points := seq(PresetCount, i requires 0 <= i < PresetCount =>
        LPoint(PresetPoint(t, rands[2 * i], rands[2 * i + 1]), false)))
  }

  // ---------------------------------------------------------------------
  // Outliers

  /** The outlier height as written: the line's height plus 3 to 6 units in
      a random direction, clamped into [0.5, 9.5]; when the clamp leaves it
      within 2 of the line it goes to 9 for an upward and 1 for a downward
      direction, i.e. the same side it was already on. */
  function OutlierYAsWritten(predicted: real, up: bool, offset: real): (y: real)
    ensures OutlierMin <= y <= OutlierMax
  {
    var direction := if up then 1.0 else -1.0;
    var y := Clamp(OutlierMin, OutlierMax, predicted + offset * direction);
    if -OutlierGap < y - predicted < OutlierGap then (if up then 9.0 else 1.0) else y
  }

  /** As written, a line at height 8.5 with an upward draw leaves the outlier
      half a unit from the line. */
  lemma OutlierTooCloseAsWritten()
    ensures OutlierYAsWritten(8.5, true, 3.0) == 9.0
    ensures 9.0 - 8.5 < OutlierGap
  {
  }

  /** The outlier height with the direction flipped when the clamp leaves it
      too close, as the code's comment says. */
  function OutlierY(predicted: real, up: bool, offset: real): (y: real)
    requires 3.0 <= offset <= 6.0
    ensures OutlierMin <= y <= OutlierMax
    ensures y - predicted >= OutlierGap || predicted - y >= OutlierGap
  {
    var direction := if up then 1.0 else -1.0;
    var y := Clamp(OutlierMin, OutlierMax, predicted + offset * direction);
    if -OutlierGap < y - predicted < OutlierGap then (if up then 1.0 else 9.0) else y
  }

  lemma FarSquare(d: real)
    requires d >= OutlierGap || -d >= OutlierGap
    ensures d * d >= OutlierGap * OutlierGap
  {
    if d >= OutlierGap {
      MulNonNegative(d - OutlierGap, d + OutlierGap);
    } else {
      MulNonNegative(-d - OutlierGap, -d + OutlierGap);
    }
  }

  /** `addOutlier` from three `Math.random()` values: a position, a direction
      (upward when above one half) and a distance of 3 to 6 units. */
  function AddOutlier(s: Lab, u: real, v: real, w: real): (r: Lab)
    requires 0.0 <= u < 1.0 && 0.0 <= v < 1.0 && 0.0 <= w < 1.0
    ensures |r.points| == |s.points| + 1 && r.points[..|s.points|] == s.points
    ensures var p := r.points[|s.points|];
      && p.outlier
      && 1.0 <= p.pos.x < 9.0
      && OutlierMin <= p.pos.y <= OutlierMax
      && Residual(Line(s.slope, s.intercept), p.pos) * Residual(Line(s.slope, s.intercept), p.pos) >= OutlierGap * OutlierGap
    ensures AllInside(s.points) ==> AllInside(r.points)
  {
    var x := u * 8.0 + 1.0;
    var predicted := Predicted(Line(s.slope, s.intercept), x);
    var y := OutlierY(predicted, v > 0.5, w * 3.0 + 3.0);
    FarSquare(y - predicted);
    s.(points := s.points + [LPoint(Point(x, y), true)])
  }

  /** `addOutlier` as written. */
  function AddOutlierAsWritten(s: Lab, u: real, v: real, w: real): (r: Lab)
    requires 0.0 <= u < 1.0 && 0.0 <= v < 1.0 && 0.0 <= w < 1.0
    ensures |r.points| == |s.points| + 1 && r.points[..|s.points|] == s.points
    ensures r.points[|s.points|].outlier && InSquare(r.points[|s.points|].pos, DataMin, DataMax)
  {
    var x := u * 8.0 + 1.0;
    var predicted := Predicted(Line(s.slope, s.intercept), x);
    s.(points := s.points + [LPoint(Point(x, OutlierYAsWritten(predicted, v > 0.5, w * 3.0 + 3.0)), true)])
  }

  /** Slope 0 and intercept slider 0.7 put the line at height 8.5; with an
      upward draw at the shortest distance the written outlier ends half a
      unit from the line. */
  lemma AddOutlierAsWrittenTooClose(s: Lab)
    requires s.slope == 0.0 && s.intercept == 0.7
    ensures var p := AddOutlierAsWritten(s, 0.5, 0.9, 0.0).points[|s.points|].pos;
      p.y == 9.0 && Residual(Line(s.slope, s.intercept), p) == 0.5
  {
  }

  // ---------------------------------------------------------------------
  // Phases

  /** `setPhase`: residuals and their squares are drawn from phase 3 on. */
  function SetPhase(s: Lab, phase: int): (r: Lab)
    ensures r.phase == phase
    ensures r.showResiduals <==> phase >= 3
    ensures r.showSquares <==> phase >= 3
    ensures r.points == s.points && r.slope == s.slope && r.intercept == s.intercept
  {
    s.(phase := phase, showResiduals := phase >= 3, showSquares := phase >= 3)
  }
}

=== FILE: logistic.dfy ===
/**
 The logistic-regression lab (labs/logistic-regression.js): a one-dimensional
 view (pass probability against study hours, `sigmoid(weight · x + bias)`) and
 a two-dimensional view (study and sleep hours, a boundary line at an angle
 through `(position / 10, position / 10)` and a threshold slider). The model
 covers the probabilities and their sign rules, the accuracy tally, the drag,
 click and clear handlers, the generated data and the transforms.
 */
module Logistic {

  import opened Geometry
  import opened Seqs
  import opened Viewport
  import opened Options

  datatype View = OneD | TwoD

  /** What a drag moves: nothing, the 1-D curve or the 2-D boundary. */
  datatype Target = Nothing | Curve | Boundary

  /** A 1-D student: study hours and whether the student passed (label 1). */
  datatype Student = Student(hours: real, pass: bool)

  /** A 2-D student: (study hours, sleep hours) and the label. */
  datatype Student2 = Student2(pos: Point, pass: bool)

  datatype State = State(
    view: View,
    weight: real,
    bias: real,
    angle: real,
    position: real,
    threshold: real,
    points1: seq<Student>,
    points2: seq<Student2>,
    mouse: Point,
    dragging: bool,
    target: Target)

  /** `Math.exp`, and `heading(θ) = (cos(θ·π/180), sin(θ·π/180))`. */
  datatype Numerics = Numerics(exp: real -> real, heading: real -> Point)

  /** What `sigmoid` needs to be defined: `Math.exp` is positive. */
  ghost predicate PositiveExp(exp: real -> real)
  {
    forall x :: exp(x) > 0.0
  }

  /** The exponential as far as the sign rules need it: positive, strictly
      increasing and 1 at 0. */
  ghost predicate IsExp(exp: real -> real)
  {
    && PositiveExp(exp)
    && exp(0.0) == 1.0
    && forall a, b :: a < b ==> exp(a) < exp(b)
  }

  const Padding: real := 60.0
  const HoursMax: real := 10.0
  /** A press this close to the curve, in pixels, grabs it. */
  const CurveGrab: real := 30.0
  const BiasMin: real := -10.0
  const BiasMax: real := 0.0
  const PositionMin: real := 10.0
  const PositionMax: real := 90.0

  /** The canvas keeps the container's size, so the transforms invert each
      other unless a side is exactly twice the padding. */
  function HoursFrame(width: real, height: real): (f: Frame)
    ensures width != 2.0 * Padding && height != 2.0 * Padding ==> Invertible(f)
  {
    Frame(Padding, 0.0, HoursMax, width, height)
  }

  /** The vertical axis of the 1-D view plots a probability in [0, 1]. */
  function ProbabilityFrame(width: real, height: real): (f: Frame)
    ensures width != 2.0 * Padding && height != 2.0 * Padding ==> Invertible(f)
  {
    Frame(Padding, 0.0, 1.0, width, height)
  }

  /** The lab's own spellings of `toCanvasX`, `toDataX`, `toCanvasY1D`,
      `toCanvasY2D` and `toDataY2D` are those of the shared frame. */
  lemma TransformsAgree(w: real, h: real, x: real, cx: real, prob: real, y: real, cy: real)
    requires w != 2.0 * Padding && h != 2.0 * Padding
    ensures ToCanvasX(HoursFrame(w, h), x) == Padding + (x / 10.0) * (w - 2.0 * Padding)
    ensures ToDataX(HoursFrame(w, h), cx) == ((cx - Padding) / (w - 2.0 * Padding)) * 10.0
    ensures ToCanvasY(ProbabilityFrame(w, h), prob) == h - Padding - prob * (h - 2.0 * Padding)
    ensures ToCanvasY(HoursFrame(w, h), y) == h - Padding - (y / 10.0) * (h - 2.0 * Padding)
    ensures ToDataY(HoursFrame(w, h), cy) == ((h - Padding - cy) / (h - 2.0 * Padding)) * 10.0
  {
  }

  /** Canvas → data → canvas and data → canvas → data are identities. */
  lemma TransformsRoundTrip(w: real, h: real, p: Point, c: Point)
    requires w != 2.0 * Padding && h != 2.0 * Padding
    ensures ToData(HoursFrame(w, h), ToCanvas(HoursFrame(w, h), p)) == p
    ensures ToCanvas(HoursFrame(w, h), ToData(HoursFrame(w, h), c)) == c
  {
    DataCanvasRoundTrip(HoursFrame(w, h), p);
    CanvasDataRoundTrip(HoursFrame(w, h), c);
  }

  // ---------------------------------------------------------------------
  // Probabilities

  /** `1 / (1 + Math.exp(−x))`. */
  function Sigmoid(exp: real -> real, x: real): real
    requires PositiveExp(exp)
  {
    1.0 / (1.0 + exp(-x))
  }

  /** For positive denominators, a larger denominator gives a smaller
      reciprocal. */
  lemma ReciprocalOrder(d1: real, d2: real)
    requires 0.0 < d1 < d2
    ensures 1.0 / d2 < 1.0 / d1
  {
    var q1, q2 := 1.0 / d1, 1.0 / d2;
    assert q1 * d1 == 1.0 && q2 * d2 == 1.0;
    DivNonNegative(1.0, d1);
    DivNonNegative(1.0, d2);
    MulPositive(q1, q2);
    MulPositive(q1 * q2, d2 - d1);
    assert (q1 * q2) * d2 == q1 * (q2 * d2);
    assert (q1 * q2) * d1 == q2 * (q1 * d1);
    assert q1 - q2 == (q1 * q2) * (d2 - d1);
  }

  /** The sigmoid is strictly increasing and equal to one half at 0, so it is
      at least one half exactly when its argument is non-negative. */
  lemma SigmoidFacts(exp: real -> real, a: real, b: real)
    requires IsExp(exp)
    ensures Sigmoid(exp, 0.0) == 0.5
    ensures a < b ==> Sigmoid(exp, a) < Sigmoid(exp, b)
    ensures Sigmoid(exp, a) >= 0.5 <==> a >= 0.0
  {
    assert -0.0 == 0.0;
    if a < b {
      assert exp(-b) < exp(-a);
      ReciprocalOrder(1.0 + exp(-b), 1.0 + exp(-a));
    }
    if a < 0.0 {
      assert exp(0.0) < exp(-a);
      ReciprocalOrder(2.0, 1.0 + exp(-a));
    } else if a > 0.0 {
      assert exp(-a) < exp(0.0);
      ReciprocalOrder(1.0 + exp(-a), 2.0);
    }
  }

  /** The sigmoid's argument in the 1-D view. */
  function Logit(s: State, hours: real): real
  {
    s.weight * hours + s.bias
  }

  /** `getProbability1D`. */
  function Probability1(m: Numerics, s: State, hours: real): real
    requires PositiveExp(m.exp)
  {
    Sigmoid(m.exp, Logit(s, hours))
  }

  /** The signed distance of `q` from the 2-D boundary: the heading's unit
      normal dotted with `q − (position / 10, position / 10)`. */
  function Offset(m: Numerics, s: State, q: Point): real
  {
    var n := m.heading(s.angle);
    var b := s.position / 10.0;
    n.x * (q.x - b) + n.y * (q.y - b)
  }

  /** `getProbability2D`: the sigmoid of twice the offset. */
  function Probability2(m: Numerics, s: State, q: Point): real
    requires PositiveExp(m.exp)
  {
    Sigmoid(m.exp, Offset(m, s, q) * 2.0)
  }

  /** The 1-D view predicts a pass (label 1) when the probability is at least
      one half. */
  function Predict1(m: Numerics, s: State, hours: real): bool
    requires PositiveExp(m.exp)
  {
    Probability1(m, s, hours) >= 0.5
  }

  /** The 2-D view predicts a pass when the probability reaches the threshold. */
  function Predict2(m: Numerics, s: State, q: Point): bool
    requires PositiveExp(m.exp)
  {
    Probability2(m, s, q) >= s.threshold
  }

  /** The 1-D view predicts a pass exactly when `weight · x + bias >= 0`. */
  lemma Predict1Sign(m: Numerics, s: State, hours: real)
    requires IsExp(m.exp)
    ensures Predict1(m, s, hours) <==> s.weight * hours + s.bias >= 0.0
  {
    SigmoidFacts(m.exp, Logit(s, hours), 0.0);
  }

  /** At the default threshold of one half, the 2-D view predicts a pass
      exactly on the non-negative side of the boundary. */
  lemma Predict2Side(m: Numerics, s: State, q: Point)
    requires IsExp(m.exp) && s.threshold == 0.5
    ensures Predict2(m, s, q) <==> Offset(m, s, q) >= 0.0
  {
    SigmoidFacts(m.exp, Offset(m, s, q) * 2.0, 0.0);
  }

  /** Raising the threshold never turns a predicted fail into a pass. */
  lemma ThresholdMonotone(m: Numerics, s: State, q: Point, t: real)
    requires PositiveExp(m.exp) && s.threshold <= t
    ensures Predict2(m, s.(threshold := t), q) ==> Predict2(m, s, q)
  {
    assert Offset(m, s.(threshold := t), q) == Offset(m, s, q);
  }

  // ---------------------------------------------------------------------
  // Accuracy

  /** Whether each 1-D point's prediction matches its label. */
  function Hits1(m: Numerics, s: State): (h: seq<bool>)
    requires PositiveExp(m.exp)
    ensures |h| == |s.points1|
    ensures forall i :: 0 <= i < |h| ==> h[i] == (Predict1(m, s, s.points1[i].hours) == s.points1[i].pass)
  {
    seq(|s.points1|, i requires 0 <= i < |s.points1| => Predict1(m, s, s.points1[i].hours) == s.points1[i].pass)
  }

  /** Whether each 2-D point's prediction matches its label. */
  function Hits2(m: Numerics, s: State): (h: seq<bool>)
    requires PositiveExp(m.exp)
    ensures |h| == |s.points2|
    ensures forall i :: 0 <= i < |h| ==> h[i] == (Predict2(m, s, s.points2[i].pos) == s.points2[i].pass)
  {
    seq(|s.points2|, i requires 0 <= i < |s.points2| => Predict2(m, s, s.points2[i].pos) == s.points2[i].pass)
  }

  datatype Tally = Tally(correct: nat, total: nat)

  /** `updateAccuracy`: the current view's points, scored with the fixed
      one-half cutoff in 1-D and with the threshold slider in 2-D. */
  function UpdateAccuracy(m: Numerics, s: State): (t: Tally)
    requires PositiveExp(m.exp)
  {
    match s.view
    case OneD => Tally(Count(Hits1(m, s), true), |s.points1|)
    case TwoD => Tally(Count(Hits2(m, s), true), |s.points2|)
  }

  /** `correct / total · 100`, and 0 with no points. */
  function Accuracy(t: Tally): real
    requires t.correct <= t.total
  {
    if t.total > 0 then (t.correct as real / t.total as real) * 100.0 else 0.0
  }

  /** The tally counts the current view's points, never more correct than
      there are; the accuracy lies in [0, 100], is 0 with no points, and is 100
      exactly when every point of a non-empty view is predicted right. */
  lemma AccuracyFacts(m: Numerics, s: State)
    requires PositiveExp(m.exp)
    ensures var t := UpdateAccuracy(m, s);
      && t.correct <= t.total
      && t.total == (if s.view == OneD then |s.points1| else |s.points2|)
      && 0.0 <= Accuracy(t) <= 100.0
      && (t.total == 0 ==> Accuracy(t) == 0.0)
      && (Accuracy(t) == 100.0 <==> t.total > 0 && t.correct == t.total)
  {
    var t := UpdateAccuracy(m, s);
    if t.total > 0 {
      PercentBounds(t.correct as real, t.total as real);
    }
  }

  /** In the 1-D view a point counts as correct exactly when the sign of
      `weight · x + bias` agrees with its label. */
  lemma OneDTallyBySign(m: Numerics, s: State)
    requires IsExp(m.exp) && s.view == OneD
    ensures UpdateAccuracy(m, s).correct == Count(seq(|s.points1|, i requires 0 <= i < |s.points1| =>
      (s.weight * s.points1[i].hours + s.bias >= 0.0) == s.points1[i].pass), true)
  {
    var h := Hits1(m, s);
    var g := seq(|s.points1|, i requires 0 <= i < |s.points1| =>
      (s.weight * s.points1[i].hours + s.bias >= 0.0) == s.points1[i].pass);
    forall i | 0 <= i < |s.points1|
      ensures h[i] == g[i]
    {
      Predict1Sign(m, s, s.points1[i].hours);
    }
    assert h == g;
  }

  // ---------------------------------------------------------------------
  // Pointer handlers

  /** `handleMouseDown`: in 1-D a press within 30 pixels (vertically) of the
      curve grabs it; in 2-D every press grabs the boundary. */
  function MouseDown(m: Numerics, w: real, h: real, s: State, c: Point): (r: State)
    requires PositiveExp(m.exp) && w != 2.0 * Padding && h != 2.0 * Padding
    ensures r.view == TwoD ==> r == s.(dragging := true, target := Boundary)
    ensures r.view == OneD ==>
      var x := ToDataX(HoursFrame(w, h), c.x);
      var curveY := ToCanvasY(ProbabilityFrame(w, h), Probability1(m, s, x));
      if Abs(c.y - curveY) < CurveGrab then r == s.(dragging := true, target := Curve) else r == s
  {
    if s.view == OneD then
      var x := ToDataX(HoursFrame(w, h), c.x);
      var curveY := ToCanvasY(ProbabilityFrame(w, h), Probability1(m, s, x));
      if Abs(c.y - curveY) < CurveGrab then s.(dragging := true, target := Curve) else s
    else s.(dragging := true, target := Boundary)
  }

  function Abs(x: real): (r: real)
    ensures r >= 0.0 && (r == x || r == -x)
  {
    if x >= 0.0 then x else -x
  }

  /** `handleMouseMove`: the cursor is recorded; while dragging, the 1-D
      drag sets `bias = −weight · x` clamped to [−10, 0], and the 2-D drag sets
      `position = 5 · (x + y)` clamped to [10, 90]. */
  function MouseMove(w: real, h: real, s: State, c: Point): (r: State)
    requires w != 2.0 * Padding && h != 2.0 * Padding
    ensures r.mouse == c
    ensures !s.dragging ==> r == s.(mouse := c)
    ensures BiasMin <= r.bias <= BiasMax || r.bias == s.bias
    ensures PositionMin <= r.position <= PositionMax || r.position == s.position
    ensures s.dragging && s.view == OneD ==>
      var b := -s.weight * ToDataX(HoursFrame(w, h), c.x);
      && r == s.(mouse := c, bias := r.bias)
      && (BiasMin <= b <= BiasMax ==> r.bias == b)
      && (b < BiasMin ==> r.bias == BiasMin)
      && (b > BiasMax ==> r.bias == BiasMax)
    ensures s.dragging && s.view == TwoD ==>
      var d := ToData(HoursFrame(w, h), c);
      var q := ((d.x + d.y) / 2.0) * 10.0;
      && r == s.(mouse := c, position := r.position)
      && (PositionMin <= q <= PositionMax ==> r.position == q)
      && (q < PositionMin ==> r.position == PositionMin)
      && (q > PositionMax ==> r.position == PositionMax)
  {
    var d := ToData(HoursFrame(w, h), c);
    if !s.dragging then s.(mouse := c)
    else if s.view == OneD then s.(mouse := c, bias := Clamp(BiasMin, BiasMax, -s.weight * d.x))
    else s.(mouse := c, position := Clamp(PositionMin, PositionMax, ((d.x + d.y) / 2.0) * 10.0))
  }

  /** A 1-D drag that needs no clamping puts the curve's one-half crossing
      under the cursor. */
  lemma CurveDragCentres(m: Numerics, w: real, h: real, s: State, c: Point)
    requires IsExp(m.exp) && w != 2.0 * Padding && h != 2.0 * Padding
    requires s.dragging && s.view == OneD
    requires var x := ToDataX(HoursFrame(w, h), c.x); BiasMin <= -s.weight * x <= BiasMax
    ensures Probability1(m, MouseMove(w, h, s, c), ToDataX(HoursFrame(w, h), c.x)) == 0.5
  {
    SigmoidFacts(m.exp, 0.0, 0.0);
  }

  /** A 2-D drag that needs no clamping, with the boundary at 45 degrees
      (equal normal components), puts the boundary through the cursor. */
  lemma BoundaryDragThroughPointer(m: Numerics, w: real, h: real, s: State, c: Point)
    requires w != 2.0 * Padding && h != 2.0 * Padding
    requires s.dragging && s.view == TwoD && m.heading(s.angle).x == m.heading(s.angle).y
    requires var d := ToData(HoursFrame(w, h), c); PositionMin <= ((d.x + d.y) / 2.0) * 10.0 <= PositionMax
    ensures Offset(m, MouseMove(w, h, s, c), ToData(HoursFrame(w, h), c)) == 0.0
  {
    var d := ToData(HoursFrame(w, h), c);
    var n := m.heading(s.angle);
    var b := (d.x + d.y) / 2.0;
    assert n.x * (d.x - b) + n.y * (d.y - b) == n.x * ((d.x - b) + (d.y - b));
  }

  /** `handleMouseUp`, also run when the cursor leaves the canvas. */
  function MouseUp(s: State): (r: State)
    ensures !r.dragging && r.target == Nothing
    ensures r.(dragging := s.dragging, target := s.target) == s
  {
    s.(dragging := false, target := Nothing)
  }

  /** `mouseleave`: releases any drag and moves the recorded pointer off the
      canvas. */
  function MouseLeave(s: State): (r: State)
    ensures !r.dragging && r.target == Nothing && r.mouse == Point(-1.0, -1.0)
    ensures r.(dragging := s.dragging, target := s.target, mouse := s.mouse) == s
  {
    MouseUp(s).(mouse := Point(-1.0, -1.0))
  }

  /** The probability and verdict `updateUI` shows for the cursor: nothing
      while the cursor is left or right of the plot; otherwise the current
      view's probability, read as a pass when it reaches the threshold in both
      views (the accuracy tally uses a fixed one half in the 1-D view). */
  function Readout(m: Numerics, w: real, h: real, s: State): (r: Option<(real, bool)>)
    requires PositiveExp(m.exp) && w != 2.0 * Padding && h != 2.0 * Padding
    ensures r.None? <==> s.mouse.x < Padding || s.mouse.x > w - Padding
    ensures r.Some? ==> r.value.1 == (r.value.0 >= s.threshold)
    ensures r.Some? && s.view == OneD ==> r.value.0 == Probability1(m, s, ToDataX(HoursFrame(w, h), s.mouse.x))
    ensures r.Some? && s.view == TwoD ==> r.value.0 == Probability2(m, s, ToData(HoursFrame(w, h), s.mouse))
  {
    if s.mouse.x < Padding || s.mouse.x > w - Padding then None
    else
      var d := ToData(HoursFrame(w, h), s.mouse);
      var prob := if s.view == OneD then Probability1(m, s, d.x) else Probability2(m, s, d);
      Some((prob, prob >= s.threshold))
  }

  /** At the default threshold the readout's verdict in the 1-D view is the
      accuracy tally's prediction. */
  lemma ReadoutAgreesAtHalf(m: Numerics, w: real, h: real, s: State)
    requires PositiveExp(m.exp) && w != 2.0 * Padding && h != 2.0 * Padding
    requires s.view == OneD && s.threshold == 0.5
    requires Readout(m, w, h, s).Some?
    ensures Readout(m, w, h, s).value.1 == Predict1(m, s, ToDataX(HoursFrame(w, h), s.mouse.x))
  {
  }

  /** `handleClick`: in the 2-D view only, and not while dragging, a click
      inside [0, 10]² adds a student there, failed (label 0) with shift held and
      passed otherwise. */
  function HandleClick(w: real, h: real, s: State, c: Point, shift: bool): (r: State)
    requires w != 2.0 * Padding && h != 2.0 * Padding
    ensures var d := ToData(HoursFrame(w, h), c);
      if !s.dragging && s.view == TwoD && InSquare(d, 0.0, HoursMax)
      then r == s.(points2 := s.points2 + [Student2(d, !shift)])
      else r == s
  {
    if s.dragging || s.view != TwoD then s
    else
      var d := ToData(HoursFrame(w, h), c);
      if InSquare(d, 0.0, HoursMax) then s.(points2 := s.points2 + [Student2(d, !shift)]) else s
  }

  /** The clear button empties the current view's points and nothing else. */
  function ClearView(s: State): (r: State)
    ensures s.view == OneD ==> r.points1 == [] && r.points2 == s.points2
    ensures s.view == TwoD ==> r.points2 == [] && r.points1 == s.points1
    ensures r.(points1 := s.points1, points2 := s.points2) == s
  {
    if s.view == OneD then s.(points1 := []) else s.(points2 := [])
  }

  // ---------------------------------------------------------------------
  // Generated data

  /** Every draw of `Math.random()` lies in [0, 1). */
  predicate Draws(us: seq<real>)
  {
    forall i :: 0 <= i < |us| ==> 0.0 <= us[i] < 1.0
  }

  /** `Math.random() * width + lo` for the draw `u`. */
  function Uniform(u: real, width: real, lo: real): real
  {
    u * width + lo
  }

  lemma UniformBounds(u: real, width: real, lo: real)
    requires 0.0 <= u < 1.0 && width > 0.0
    ensures lo <= Uniform(u, width, lo) < lo + width
  {
    MulNonNegative(u, width);
    MulPositive(1.0 - u, width);
  }

  /** `count` 1-D students with the given label, one draw each. */
  function Line(us: seq<real>, lo: real, width: real, pass: bool): (r: seq<Student>)
    ensures |r| == |us|
    ensures forall i :: 0 <= i < |r| ==> r[i].pass == pass
  {
    seq(|us|, i requires 0 <= i < |us| => Student(Uniform(us[i], width, lo), pass))
  }

  /** The mixed 1-D students: for each, one draw for the hours in [4, 7) and
      one for the label, passed when that draw exceeds one half. */
  function MixedLine(us: seq<real>): (r: seq<Student>)
    requires |us| % 2 == 0
    ensures |r| == |us| / 2
  {
    seq(|us| / 2, i requires 0 <= i < |us| / 2 => Student(Uniform(us[2 * i], 3.0, 4.0), us[2 * i + 1] > 0.5))
  }

  /** `count` 2-D students with the given label, two draws each. */
  function Square(us: seq<real>, lo: real, width: real, pass: bool): (r: seq<Student2>)
    requires |us| % 2 == 0
    ensures |r| == |us| / 2
    ensures forall i :: 0 <= i < |r| ==> r[i].pass == pass
  {
    seq(|us| / 2, i requires 0 <= i < |us| / 2 =>
      Student2(Point(Uniform(us[2 * i], width, lo), Uniform(us[2 * i + 1], width, lo)), pass))
  }

  /** The mixed 2-D students in [3, 7)², labelled passed when `x + y > 10`. */
  function MixedSquare(us: seq<real>): (r: seq<Student2>)
    requires |us| % 2 == 0
    ensures |r| == |us| / 2
    ensures forall i :: 0 <= i < |r| ==> r[i].pass == (r[i].pos.x + r[i].pos.y > 10.0)
  {
    seq(|us| / 2, i requires 0 <= i < |us| / 2 =>
      var p := Point(Uniform(us[2 * i], 4.0, 3.0), Uniform(us[2 * i + 1], 4.0, 3.0));
      Student2(p, p.x + p.y > 10.0))
  }

  /** `generateData` takes 90 draws: 30 for the 1-D students, then 60 for the
      2-D students. */
  const GenerateDraws: nat := 90

  /** `generateData`: ten failed students with 1 to 5 hours, ten passed with 6
      to 10, five mixed with 4 to 7; then twelve failed in [1, 4)², twelve
      passed in [6, 9)² and six mixed in [3, 7)². */
  function Generate(s: State, us: seq<real>): (r: State)
    requires |us| == GenerateDraws
    ensures |r.points1| == 25 && |r.points2| == 30
    ensures r.(points1 := s.points1, points2 := s.points2) == s
  {
    s.(points1 := Line(us[..10], 1.0, 4.0, false) + Line(us[10..20], 6.0, 4.0, true) + MixedLine(us[20..30]),
       points2 := Square(us[30..54], 1.0, 3.0, false) + Square(us[54..78], 6.0, 3.0, true) + MixedSquare(us[78..]))
  }

  lemma DrawsSlice(us: seq<real>, a: nat, b: nat)
    requires Draws(us) && a <= b <= |us|
    ensures Draws(us[a..b])
  {
    assert forall i :: 0 <= i < b - a ==> us[a..b][i] == us[a + i];
  }

  /** Generated 1-D students have between 1 and 10 study hours, the first ten
      failed and the next ten passed; generated 2-D students lie in [1, 9)²,
      the first twelve failed and the next twelve passed. */
  lemma GeneratedRanges(s: State, us: seq<real>)
    requires |us| == GenerateDraws && Draws(us)
    ensures var r := Generate(s, us);
      && (forall i :: 0 <= i < 25 ==> 1.0 <= r.points1[i].hours < 10.0)
      && (forall i :: 0 <= i < 20 ==> r.points1[i].pass == (i >= 10))
      && (forall i :: 0 <= i < 30 ==> 1.0 <= r.points2[i].pos.x < 9.0 && 1.0 <= r.points2[i].pos.y < 9.0)
      && (forall i :: 0 <= i < 24 ==> r.points2[i].pass == (i >= 12))
  {
    DrawsSlice(us, 0, 10);
    DrawsSlice(us, 10, 20);
    DrawsSlice(us, 20, 30);
    DrawsSlice(us, 30, 54);
    DrawsSlice(us, 54, 78);
    DrawsSlice(us, 78, 90);
    assert us[78..] == us[78..90];
    GeneratedLine(us[..10], us[10..20], us[20..30]);
    GeneratedSquare(us[30..54], us[54..78], us[78..]);
  }

  lemma GeneratedLine(a: seq<real>, b: seq<real>, c: seq<real>)
    requires |a| == 10 && |b| == 10 && |c| == 10
    requires Draws(a) && Draws(b) && Draws(c)
    ensures var ps := Line(a, 1.0, 4.0, false) + Line(b, 6.0, 4.0, true) + MixedLine(c);
      && (forall i :: 0 <= i < 25 ==> 1.0 <= ps[i].hours < 10.0)
      && (forall i :: 0 <= i < 20 ==> ps[i].pass == (i >= 10))
  {
    LineRange(a, 1.0, 4.0, false);
    LineRange(b, 6.0, 4.0, true);
    MixedLineRange(c);
  }

  lemma GeneratedSquare(a: seq<real>, b: seq<real>, c: seq<real>)
    requires |a| == 24 && |b| == 24 && |c| == 12
    requires Draws(a) && Draws(b) && Draws(c)
    ensures var ps := Square(a, 1.0, 3.0, false) + Square(b, 6.0, 3.0, true) + MixedSquare(c);
      && (forall i :: 0 <= i < 30 ==> 1.0 <= ps[i].pos.x < 9.0 && 1.0 <= ps[i].pos.y < 9.0)
      && (forall i :: 0 <= i < 24 ==> ps[i].pass == (i >= 12))
  {
    SquareRange(a, 1.0, 3.0, false);
    SquareRange(b, 6.0, 3.0, true);
    SquareRange(c, 3.0, 4.0, false);
    assert forall i :: 0 <= i < |c| / 2 ==> MixedSquare(c)[i].pos == Square(c, 3.0, 4.0, false)[i].pos;
  }

  lemma LineRange(us: seq<real>, lo: real, width: real, pass: bool)
    requires Draws(us) && width > 0.0
    ensures forall i :: 0 <= i < |us| ==> lo <= Line(us, lo, width, pass)[i].hours < lo + width
  {
    forall i | 0 <= i < |us|
      ensures lo <= Line(us, lo, width, pass)[i].hours < lo + width
    {
      UniformBounds(us[i], width, lo);
    }
  }

  lemma MixedLineRange(us: seq<real>)
    requires Draws(us) && |us| % 2 == 0
    ensures forall i :: 0 <= i < |us| / 2 ==> 4.0 <= MixedLine(us)[i].hours < 7.0
  {
    forall i | 0 <= i < |us| / 2
      ensures 4.0 <= MixedLine(us)[i].hours < 7.0
    {
      UniformBounds(us[2 * i], 3.0, 4.0);
    }
  }

  lemma SquareRange(us: seq<real>, lo: real, width: real, pass: bool)
    requires Draws(us) && |us| % 2 == 0 && width > 0.0
    ensures forall i :: 0 <= i < |us| / 2 ==>
      && lo <= Square(us, lo, width, pass)[i].pos.x < lo + width
      && lo <= Square(us, lo, width, pass)[i].pos.y < lo + width
  {
    forall i | 0 <= i < |us| / 2
      ensures lo <= Square(us, lo, width, pass)[i].pos.x < lo + width
      ensures lo <= Square(us, lo, width, pass)[i].pos.y < lo + width
    {
      UniformBounds(us[2 * i], width, lo);
      UniformBounds(us[2 * i + 1], width, lo);
    }
  }
}

=== FILE: options.dfy ===
/** An optional value, for operations of the labs that return `null`. */
module Options {

  datatype Option<T> = None | Some(value: T)
}

=== FILE: oracles.dfy ===
/**
 The transcendental functions the labs call (`Math.sqrt`, the logistic sigmoid
 built on `Math.exp`, `Math.log2`) are not given a definition here. Each is a
 parameter of the operations that use it, and an operation states which of the
 properties below it relies on. Floating-point rounding is not modelled.
 */
module Oracles {

  import opened Geometry

  /** `sqrt` returns the non-negative square root of every non-negative real. */
  ghost predicate IsSqrt(sqrt: real -> real)
  {
    forall x :: 0.0 <= x ==> 0.0 <= sqrt(x) && Sq(sqrt(x)) == x
  }

  /** The logistic sigmoid: strictly increasing and equal to 0.5 at 0. */
  ghost predicate IsSigmoid(sigmoid: real -> real)
  {
    && sigmoid(0.0) == 0.5
    && forall a, b :: a < b ==> sigmoid(a) < sigmoid(b)
  }

  /** `Math.log2` as far as entropy needs it: zero at 1 and negative on (0, 1). */
  ghost predicate IsLog2(log2: real -> real)
  {
    && log2(1.0) == 0.0
    && forall p :: 0.0 < p < 1.0 ==> log2(p) < 0.0
  }

  lemma SqrtZero(sqrt: real -> real)
    requires IsSqrt(sqrt)
    ensures sqrt(0.0) == 0.0
  {
    SqPositive(sqrt(0.0));
  }

  lemma SqrtOne(sqrt: real -> real)
    requires IsSqrt(sqrt)
    ensures sqrt(1.0) == 1.0
  {
    SqMonotone(sqrt(1.0), 1.0);
    SqMonotone(1.0, sqrt(1.0));
  }

  /** The square root is strictly increasing on the non-negative reals, so a
      comparison of `Math.sqrt` distances has the same outcome as the same
      comparison of squared distances. */
  lemma SqrtStrictlyMonotone(sqrt: real -> real, a: real, b: real)
    requires IsSqrt(sqrt)
    requires 0.0 <= a < b
    ensures sqrt(a) < sqrt(b)
  {
    SqMonotone(sqrt(b), sqrt(a));
  }

  lemma SqrtOrder(sqrt: real -> real, a: real, b: real)
    requires IsSqrt(sqrt)
    requires 0.0 <= a && 0.0 <= b
    ensures sqrt(a) <= sqrt(b) <==> a <= b
    ensures sqrt(a) < sqrt(b) <==> a < b
    ensures sqrt(a) == sqrt(b) <==> a == b
  {
    if a < b {
      SqrtStrictlyMonotone(sqrt, a, b);
    } else if b < a {
      SqrtStrictlyMonotone(sqrt, b, a);
    }
  }

  /** The square root of a square is the non-negative base. */
  lemma SqrtOfSquare(sqrt: real -> real, a: real)
    requires IsSqrt(sqrt)
    requires 0.0 <= a
    ensures sqrt(Sq(a)) == a
  {
    var b := sqrt(Sq(a));
    SqMonotone(a, b);
    SqMonotone(b, a);
  }

  /** A sigmoid output is at least one half exactly when its argument is non-negative. */
  lemma SigmoidAtLeastHalf(sigmoid: real -> real, z: real)
    requires IsSigmoid(sigmoid)
    ensures sigmoid(z) >= 0.5 <==> z >= 0.0
  {
    if z < 0.0 {
      assert sigmoid(z) < sigmoid(0.0);
    } else if z > 0.0 {
      assert sigmoid(0.0) < sigmoid(z);
    }
  }
}

=== FILE: seqs.dfy ===
/**
 Sequence helpers shared by the labs: occurrence counts, the first-occurrence
 de-duplication `[...new Set(xs)]` performs, and real-valued sums.
 */
module Seqs {

  /** Number of occurrences of `x` in `s`. */
  function Count<T(==)>(s: seq<T>, x: T): (n: nat)
    ensures n <= |s|
    ensures n == 0 <==> x !in s
  {
    if |s| == 0 then 0
    else Count(s[..|s| - 1], x) + (if s[|s| - 1] == x then 1 else 0)
  }

  /** Every boolean is counted once, as true or as false. */
  lemma {:induction false} TrueFalseCounts(h: seq<bool>)
    ensures Count(h, true) + Count(h, false) == |h|
  {
    if |h| > 0 {
      var init := h[..|h| - 1];
      TrueFalseCounts(init);
      assert Count(h, true) == Count(init, true) + (if h[|h| - 1] then 1 else 0);
      assert Count(h, false) == Count(init, false) + (if h[|h| - 1] then 0 else 1);
    }
  }

  lemma CountAppend<T>(a: seq<T>, b: seq<T>, x: T)
    ensures Count(a + b, x) == Count(a, x) + Count(b, x)
    decreases |b|
  {
    if |b| == 0 {
      assert a + b == a;
    } else {
      assert (a + b)[..|a + b| - 1] == a + b[..|b| - 1];
      CountAppend(a, b[..|b| - 1], x);
    }
  }

  predicate NoDuplicates<T(==)>(s: seq<T>)
  {
    forall i, j :: 0 <= i < j < |s| ==> s[i] != s[j]
  }

  /** The distinct elements of `s` in order of first occurrence, as
      `[...new Set(s)]` yields them. */
  function Distinct<T(==, !new)>(s: seq<T>): (r: seq<T>)
    ensures NoDuplicates(r)
    ensures forall x :: x in r <==> x in s
    ensures |r| <= |s|
  {
    if |s| == 0 then []
    else
      var d := Distinct(s[..|s| - 1]);
      assert forall x :: x in s <==> x in s[..|s| - 1] || x == s[|s| - 1] by {
        assert s == s[..|s| - 1] + [s[|s| - 1]];
      }
      if s[|s| - 1] in d then d else d + [s[|s| - 1]]
  }

  /** The index of the first occurrence of `x` in `s`, as `indexOf` finds it. */
  function IndexOf<T(==)>(s: seq<T>, x: T): (i: nat)
    requires x in s
    ensures i < |s| && s[i] == x
    ensures forall j :: 0 <= j < i ==> s[j] != x
  {
    if s[0] == x then 0 else 1 + IndexOf(s[1..], x)
  }

  /** Appending leaves the first occurrence of an element already present where it was. */
  lemma IndexOfAppend<T>(p: seq<T>, y: T, x: T)
    requires x in p
    ensures IndexOf(p + [y], x) == IndexOf(p, x)
  {
    var i := IndexOf(p, x);
    var k := IndexOf(p + [y], x);
    assert (p + [y])[i] == x;
    assert k <= i;
    assert p[k] == x;
  }

  /** `Distinct` lists the elements in the order of their first occurrence. */
  lemma {:induction false} DistinctKeepsFirstOrder<T(!new)>(s: seq<T>)
    ensures forall i, j :: 0 <= i < j < |Distinct(s)| ==> IndexOf(s, Distinct(s)[i]) < IndexOf(s, Distinct(s)[j])
  {
    if |s| > 0 {
      var p := s[..|s| - 1];
      var y := s[|s| - 1];
      assert s == p + [y];
      DistinctKeepsFirstOrder(p);
      var d := Distinct(p);
      forall x | x in d
        ensures IndexOf(s, x) == IndexOf(p, x) && IndexOf(p, x) < |p|
      {
        IndexOfAppend(p, y, x);
      }
      if y !in d {
        assert y !in p;
        assert IndexOf(s, y) == |p|;
      }
    }
  }

  /** A non-empty sequence is its prefix followed by its last element. */
  lemma LastSplit<T>(s: seq<T>)
    requires |s| > 0
    ensures s[..|s| - 1] + [s[|s| - 1]] == s
  {
  }

  /** `Distinct` leaves a duplicate-free sequence unchanged. */
  lemma {:induction false} DistinctOfNoDuplicates<T(!new)>(s: seq<T>)
    requires NoDuplicates(s)
    ensures Distinct(s) == s
  {
    if |s| > 0 {
      DistinctOfNoDuplicates(s[..|s| - 1]);
      assert s[|s| - 1] !in s[..|s| - 1];
      assert s == s[..|s| - 1] + [s[|s| - 1]];
    }
  }

  /** A duplicate-free sequence holds each value at most once. */
  lemma CountNoDuplicates<T>(s: seq<T>, x: T)
    requires NoDuplicates(s)
    ensures Count(s, x) <= 1
  {
    if |s| > 0 {
      CountNoDuplicates(s[..|s| - 1], x);
      if s[|s| - 1] == x {
        assert x !in s[..|s| - 1];
      }
    }
  }

  /** A sequence of copies of `x` holds `x` as often as it is long. */
  lemma {:induction false} CountUniform<T>(s: seq<T>, x: T)
    requires forall i :: 0 <= i < |s| ==> s[i] == x
    ensures Count(s, x) == |s|
  {
    if |s| > 0 {
      CountUniform(s[..|s| - 1], x);
    }
  }

  /** Two different values together occur at most as often as `s` is long. */
  lemma {:induction false} CountTwo<T>(s: seq<T>, a: T, b: T)
    requires a != b
    ensures Count(s, a) + Count(s, b) <= |s|
  {
    if |s| > 0 {
      CountTwo(s[..|s| - 1], a, b);
    }
  }

  /** Every element except `x`, in order: `s.filter(i => i !== x)`. */
  function Without<T(==, !new)>(s: seq<T>, x: T): (r: seq<T>)
    ensures x !in r
    ensures forall y :: y != x ==> (y in r <==> y in s)
    ensures forall y :: y != x ==> Count(r, y) == Count(s, y)
  {
    if |s| == 0 then []
    else
      var w := Without(s[..|s| - 1], x);
      var last := s[|s| - 1];
      assert s == s[..|s| - 1] + [last];
      if last == x then w
      else
        assert forall y :: Count(w + [last], y) == Count(w, y) + (if last == y then 1 else 0) by {
          forall y
            ensures Count(w + [last], y) == Count(w, y) + (if last == y then 1 else 0)
          {
            CountAppend(w, [last], y);
            assert [last][..0] == [];
          }
        }
        assert forall y :: Count(s, y) == Count(s[..|s| - 1], y) + (if last == y then 1 else 0);
        w + [last]
  }

  /** Σ of a sequence of reals, folded from the left like `reduce`. */
  function Sum(xs: seq<real>): real
  {
    if |xs| == 0 then 0.0 else Sum(xs[..|xs| - 1]) + xs[|xs| - 1]
  }

  lemma SumNonNegative(xs: seq<real>)
    requires forall i :: 0 <= i < |xs| ==> xs[i] >= 0.0
    ensures Sum(xs) >= 0.0
  {
    if |xs| > 0 {
      SumNonNegative(xs[..|xs| - 1]);
    }
  }

  /** The elements of a sequence as a set. */
  function Elements<T>(s: seq<T>): set<T>
  {
    set x | x in s
  }

  /** A sequence without repeats has as many elements as entries. */
  lemma {:induction false} ElementsCard<T>(s: seq<T>)
    requires NoDuplicates(s)
    ensures |Elements(s)| == |s|
  {
    if |s| > 0 {
      var init := s[..|s| - 1];
      assert NoDuplicates(init);
      ElementsCard(init);
      assert Elements(s) == Elements(init) + {s[|s| - 1]};
      assert s[|s| - 1] !in Elements(init);
    } else {
      assert Elements(s) == {};
    }
  }

  /** A subset is no larger than its superset, and a proper subset is smaller. */
  lemma SubsetCard<T>(a: set<T>, b: set<T>)
    requires a <= b
    ensures |a| <= |b|
    ensures a != b ==> |a| < |b|
  {
    assert b == a + (b - a);
    assert a * (b - a) == {};
    if a != b {
      var x :| x in b && x !in a;
      assert x in b - a;
    }
  }
}

=== FILE: sorting.dfy ===
/**
 A stable sort by a real-valued key, the behaviour `Array.prototype.sort` has
 with a comparator `(a, b) => key(a) - key(b)`: ascending keys, and elements
 with equal keys keep their input order. It is an insertion sort written as a
 function; what the labs rely on is stated by `SortSpec`.
 */
module Sorting {

  ghost predicate SortedBy<T>(s: seq<T>, key: T -> real)
  {
    forall i, j :: 0 <= i < j < |s| ==> key(s[i]) <= key(s[j])
  }

  /** The subsequence of `s` whose elements have key `v`, in order. */
  function WithKey<T>(s: seq<T>, key: T -> real, v: real): (r: seq<T>)
    ensures |r| <= |s|
  {
    if |s| == 0 then []
    else WithKey(s[..|s| - 1], key, v) + (if key(s[|s| - 1]) == v then [s[|s| - 1]] else [])
  }

  /** Inserts `x` after every leading element whose key is at most `key(x)`. */
  function Insert<T>(x: T, s: seq<T>, key: T -> real): (r: seq<T>)
    ensures multiset(r) == multiset(s) + multiset{x}
    ensures |r| == |s| + 1
  {
    if |s| == 0 then [x]
    else if key(s[0]) <= key(x) then
      assert s == [s[0]] + s[1..];
      [s[0]] + Insert(x, s[1..], key)
    else [x] + s
  }

  function Sort<T>(s: seq<T>, key: T -> real): (r: seq<T>)
    ensures multiset(r) == multiset(s)
    ensures |r| == |s|
  {
    if |s| == 0 then []
    else
      assert s == s[..|s| - 1] + [s[|s| - 1]];
      Insert(s[|s| - 1], Sort(s[..|s| - 1], key), key)
  }

  lemma WithKeyAppend<T>(a: seq<T>, b: seq<T>, key: T -> real, v: real)
    ensures WithKey(a + b, key, v) == WithKey(a, key, v) + WithKey(b, key, v)
    decreases |b|
  {
    if |b| == 0 {
      assert a + b == a;
    } else {
      assert (a + b)[..|a + b| - 1] == a + b[..|b| - 1];
      WithKeyAppend(a, b[..|b| - 1], key, v);
    }
  }

  lemma WithKeyNone<T>(s: seq<T>, key: T -> real, v: real)
    requires forall i :: 0 <= i < |s| ==> key(s[i]) > v
    ensures WithKey(s, key, v) == []
  {
    if |s| > 0 {
      WithKeyNone(s[..|s| - 1], key, v);
    }
  }

  lemma InsertSorted<T>(x: T, s: seq<T>, key: T -> real)
    requires SortedBy(s, key)
    ensures SortedBy(Insert(x, s, key), key)
  {
    if |s| > 0 && key(s[0]) <= key(x) {
      InsertSorted(x, s[1..], key);
      var r := Insert(x, s, key);
      var t := Insert(x, s[1..], key);
      assert r == [s[0]] + t;
      forall k | 0 <= k < |t|
        ensures key(s[0]) <= key(t[k])
      {
        assert t[k] in multiset(t);
        assert t[k] in multiset(s[1..]) + multiset{x};
        if t[k] != x {
          assert t[k] in multiset(s[1..]);
          var m :| 0 <= m < |s[1..]| && s[1..][m] == t[k];
          assert s[1 + m] == t[k];
        }
      }
    }
  }

  lemma {:induction false} InsertWithKey<T>(x: T, s: seq<T>, key: T -> real, v: real)
    requires SortedBy(s, key)
    ensures WithKey(Insert(x, s, key), key, v)
         == WithKey(s, key, v) + (if key(x) == v then [x] else [])
  {
    if |s| == 0 {
      WithKeyOne(x, key, v);
    } else if key(s[0]) <= key(x) {
      InsertWithKey(x, s[1..], key, v);
      InsertBehindWithKey(x, s, key, v);
    } else {
      InsertFrontWithKey(x, s, key, v);
    }
  }

  lemma WithKeyOne<T>(y: T, key: T -> real, v: real)
    ensures WithKey([y], key, v) == if key(y) == v then [y] else []
  {
    assert [y][..0] == [];
  }

  /** The step of `InsertWithKey` where `x` goes behind the first element. */
  lemma InsertBehindWithKey<T>(x: T, s: seq<T>, key: T -> real, v: real)
    requires |s| > 0 && key(s[0]) <= key(x)
    requires WithKey(Insert(x, s[1..], key), key, v)
         == WithKey(s[1..], key, v) + (if key(x) == v then [x] else [])
    ensures WithKey(Insert(x, s, key), key, v)
         == WithKey(s, key, v) + (if key(x) == v then [x] else [])
  {
    var w0 := WithKey([s[0]], key, v);
    var ws := WithKey(s[1..], key, v);
    var e := if key(x) == v then [x] else [];
    WithKeyFirst(s, key, v);
    assert Insert(x, s, key) == [s[0]] + Insert(x, s[1..], key);
    WithKeyAppend([s[0]], Insert(x, s[1..], key), key, v);
    assert WithKey(Insert(x, s, key), key, v) == w0 + (ws + e);
    assert w0 + (ws + e) == (w0 + ws) + e;
  }

  lemma WithKeyFirst<T>(s: seq<T>, key: T -> real, v: real)
    requires |s| > 0
    ensures WithKey(s, key, v) == WithKey([s[0]], key, v) + WithKey(s[1..], key, v)
  {
    assert s == [s[0]] + s[1..];
    WithKeyAppend([s[0]], s[1..], key, v);
  }

  /** The step of `InsertWithKey` where `x` goes in front. */
  lemma InsertFrontWithKey<T>(x: T, s: seq<T>, key: T -> real, v: real)
    requires SortedBy(s, key) && |s| > 0 && key(x) < key(s[0])
    ensures WithKey(Insert(x, s, key), key, v)
         == WithKey(s, key, v) + (if key(x) == v then [x] else [])
  {
    assert Insert(x, s, key) == [x] + s;
    WithKeyAppend([x], s, key, v);
    WithKeyOne(x, key, v);
    if key(x) == v {
      WithKeyNone(s, key, v);
    }
  }

  /** `Sort` returns a permutation of its input, ordered by key, and for every
      key value the elements carrying it appear in their input order. */
  lemma {:induction false} SortSpec<T>(s: seq<T>, key: T -> real)
    ensures multiset(Sort(s, key)) == multiset(s)
    ensures SortedBy(Sort(s, key), key)
    ensures forall v :: WithKey(Sort(s, key), key, v) == WithKey(s, key, v)
  {
    if |s| > 0 {
      var init := s[..|s| - 1];
      SortSpec(init, key);
      InsertSorted(s[|s| - 1], Sort(init, key), key);
      forall v
        ensures WithKey(Sort(s, key), key, v) == WithKey(s, key, v)
      {
        InsertWithKey(s[|s| - 1], Sort(init, key), key, v);
      }
    }
  }

  /** Sorting by two keys that order the input's elements identically gives the
      same sequence: only the outcome of each comparison matters. */
  lemma {:induction false} SortByEquivalentKeys<T>(s: seq<T>, key1: T -> real, key2: T -> real)
    requires forall a, b :: a in s && b in s ==> (key1(a) <= key1(b) <==> key2(a) <= key2(b))
    ensures Sort(s, key1) == Sort(s, key2)
  {
    if |s| > 0 {
      var init := s[..|s| - 1];
      assert forall a :: a in init ==> a in s;
      SortByEquivalentKeys(init, key1, key2);
      var t := Sort(init, key1);
      forall y | y in t
        ensures y in s
      {
        assert y in multiset(t);
      }
      InsertEquivalentKeys(s[|s| - 1], t, key1, key2, s);
    }
  }

  lemma InsertEquivalentKeys<T>(x: T, t: seq<T>, key1: T -> real, key2: T -> real, s: seq<T>)
    requires x in s
    requires forall y :: y in t ==> y in s
    requires forall a, b :: a in s && b in s ==> (key1(a) <= key1(b) <==> key2(a) <= key2(b))
    ensures Insert(x, t, key1) == Insert(x, t, key2)
  {
    if |t| > 0 {
      assert t[0] in t;
      assert forall y :: y in t[1..] ==> y in t;
      InsertEquivalentKeys(x, t[1..], key1, key2, s);
    }
  }
}

=== FILE: svm.dfy ===
/**
 The support-vector-machine lab (`SVMLab` in labs/svm.js).

 The lab does not solve the SVM optimisation problem. Its linear "fit" puts the
 decision line through the midpoint of the two class centroids, perpendicular
 to the segment joining them, and picks as support vectors the point of each
 class nearest that line plus every point inside a margin band. Its RBF "fit"
 picks the points that lie close to the other class, and its RBF prediction
 is a signed, kernel-weighted vote of those points.

 `Math.sqrt`, `Math.exp` and `x ↦ Math.pow(10, x)` are the fields of a
 `Numerics` value; `Sound` lists what the proofs assume of them.
 */
module Svm {

  import opened Geometry
  import opened Oracles
  import opened Seqs
  import opened Viewport
  import opened Options

  /** The two classes the brush buttons offer (`'red'` and `'blue'`). */
  datatype Cls = Red | Blue

  datatype LPoint = LPoint(pos: Point, cls: Cls)

  datatype Kernel = Linear | Rbf

  /** The line `w1·x + w2·y + b = 0`. */
  datatype Weights = Weights(w1: real, w2: real, b: real)

  /** A support vector: an index into `points` and its weight. */
  datatype SupportVector = SupportVector(index: nat, alpha: real)

  datatype State = State(
    points: seq<LPoint>,
    kernel: Kernel,
    c: real,
    gamma: real,
    weights: Weights,
    supportVectors: seq<SupportVector>,
    margin: real,
    selected: Cls,
    dragging: bool,
    dragged: Option<nat>)

  datatype Numerics = Numerics(sqrt: real -> real, exp: real -> real, pow10: real -> real)

  /** A square root, an everywhere-positive exponential and positive powers of ten. */
  ghost predicate Sound(m: Numerics)
  {
    && IsSqrt(m.sqrt)
    && (forall x :: m.exp(x) > 0.0)
    && (forall x :: m.pow10(x) > 0.0)
  }

  const Padding: real := 60.0
  const DataMin: real := 0.0
  const DataMax: real := 10.0
  const DragMin: real := 0.5
  const DragMax: real := 9.5
  /** A click this close to a point, in pixels, adds nothing. */
  const ClickRadius: real := 15.0
  /** A press this close to a support vector, in pixels, grabs it. */
  const GrabRadius: real := 20.0

  /** The canvas takes the container's measured size as is, so the transforms
      invert each other unless a side is exactly twice the padding. */
  function LabFrame(width: real, height: real): (f: Frame)
    ensures width != 2.0 * Padding && height != 2.0 * Padding ==> Invertible(f)
  {
    Frame(Padding, DataMin, DataMax, width, height)
  }

  lemma TransformsRoundTrip(width: real, height: real, p: Point, c: Point)
    requires width != 2.0 * Padding && height != 2.0 * Padding
    ensures ToData(LabFrame(width, height), ToCanvas(LabFrame(width, height), p)) == p
    ensures ToCanvas(LabFrame(width, height), ToData(LabFrame(width, height), c)) == c
  {
    DataCanvasRoundTrip(LabFrame(width, height), p);
    CanvasDataRoundTrip(LabFrame(width, height), c);
  }

  function Abs(x: real): (r: real)
    ensures r >= 0.0 && (r == x || r == -x)
  {
    if x < 0.0 then -x else x
  }

  // ---------------------------------------------------------------------
  // The linear decision function

  function Score(w: Weights, p: Point): real
  {
    w.w1 * p.x + w.w2 * p.y + w.b
  }

  /** `distanceToHyperplane`: the signed distance from `p` to the line, 0 when
      the normal vector is zero. */
  function DistanceToHyperplane(sqrt: real -> real, w: Weights, p: Point): real
  {
    var norm := sqrt(Sq(w.w1) + Sq(w.w2));
    if norm == 0.0 then 0.0 else Score(w, p) / norm
  }

  lemma DivSign(a: real, t: real)
    requires t > 0.0
    ensures a / t >= 0.0 <==> a >= 0.0
    ensures a / t == 0.0 <==> a == 0.0
  {
    var q := a / t;
    assert q * t == a;
    if a >= 0.0 {
      DivNonNegative(a, t);
    } else {
      DivNonNegative(-a, t);
      assert -a / t == -q;
    }
  }

  /** The norm is zero exactly when both weights are. */
  lemma NormZero(sqrt: real -> real, w: Weights)
    requires IsSqrt(sqrt)
    ensures sqrt(Sq(w.w1) + Sq(w.w2)) >= 0.0
    ensures sqrt(Sq(w.w1) + Sq(w.w2)) == 0.0 <==> w.w1 == 0.0 && w.w2 == 0.0
  {
    var n := Sq(w.w1) + Sq(w.w2);
    SqPositive(w.w1);
    SqPositive(w.w2);
    SqPositive(sqrt(n));
    if w.w1 == 0.0 && w.w2 == 0.0 {
      SqrtZero(sqrt);
    }
  }

  /** The signed distance is 0 for a zero normal, has the sign of the score
      otherwise, and equals the score for a unit normal. */
  lemma DistanceSign(sqrt: real -> real, w: Weights, p: Point)
    requires IsSqrt(sqrt)
    ensures w.w1 == 0.0 && w.w2 == 0.0 ==> DistanceToHyperplane(sqrt, w, p) == 0.0
    ensures w.w1 != 0.0 || w.w2 != 0.0 ==>
      (DistanceToHyperplane(sqrt, w, p) >= 0.0 <==> Score(w, p) >= 0.0) &&
      (DistanceToHyperplane(sqrt, w, p) == 0.0 <==> Score(w, p) == 0.0)
    ensures Sq(w.w1) + Sq(w.w2) == 1.0 ==> DistanceToHyperplane(sqrt, w, p) == Score(w, p)
  {
    NormZero(sqrt, w);
    var norm := sqrt(Sq(w.w1) + Sq(w.w2));
    if norm != 0.0 {
      DivSign(Score(w, p), norm);
    }
    if Sq(w.w1) + Sq(w.w2) == 1.0 {
      SqrtOne(sqrt);
    }
  }

  /** Linear `predict`: blue on the non-negative side of the line. */
  function PredictLinear(w: Weights, p: Point): Cls
  {
    if Score(w, p) >= 0.0 then Blue else Red
  }

  /** For a non-zero normal, the linear prediction is the side of the line the
      signed distance reports. */
  lemma PredictionFollowsDistance(sqrt: real -> real, w: Weights, p: Point)
    requires IsSqrt(sqrt)
    requires w.w1 != 0.0 || w.w2 != 0.0
    ensures PredictLinear(w, p) == Blue <==> DistanceToHyperplane(sqrt, w, p) >= 0.0
    ensures PredictLinear(w, p) == Red <==> DistanceToHyperplane(sqrt, w, p) < 0.0
  {
    DistanceSign(sqrt, w, p);
  }

  // ---------------------------------------------------------------------
  // Nearest points

  function Classes(ps: seq<LPoint>): (cs: seq<Cls>)
    ensures |cs| == |ps|
    ensures forall i :: 0 <= i < |ps| ==> cs[i] == ps[i].cls
  {
    seq(|ps|, i requires 0 <= i < |ps| => ps[i].cls)
  }

  /** `Math.sqrt` of the squared distance from every point to `q`. */
  function Distances(sqrt: real -> real, q: Point, ps: seq<LPoint>): (ds: seq<real>)
    ensures |ds| == |ps|
    ensures forall i :: 0 <= i < |ps| ==> ds[i] == sqrt(Dist2(ps[i].pos, q))
  {
    seq(|ps|, i requires 0 <= i < |ps| => sqrt(Dist2(ps[i].pos, q)))
  }

  /** The index a `forEach` over the points of class `c` ends on when it keeps a
      running minimum of `ks` with a strict `<`, or None when the class has no
      point. `ClosestIsLeast` says which index that is. */
  function Closest(cs: seq<Cls>, ks: seq<real>, c: Cls): (r: Option<nat>)
    requires |cs| == |ks|
    ensures r.Some? <==> c in cs
    ensures r.Some? ==> r.value < |cs| && cs[r.value] == c
  {
    if |cs| == 0 then None
    else
      var n := |cs| - 1;
      var best := Closest(cs[..n], ks[..n], c);
      assert c in cs[..n] ==> c in cs;
      if cs[n] != c then best
      else if best.None? || ks[n] < ks[best.value] then Some(n)
      else best
  }

  /** The running minimum ends on the first index of least key in class `c`. */
  lemma {:induction false} ClosestIsLeast(cs: seq<Cls>, ks: seq<real>, c: Cls)
    requires |cs| == |ks|
    ensures var r := Closest(cs, ks, c);
      r.Some? ==>
        && (forall j :: 0 <= j < |cs| && cs[j] == c ==> ks[r.value] <= ks[j])
        && (forall j :: 0 <= j < r.value && cs[j] == c ==> ks[r.value] < ks[j])
  {
    if |cs| > 0 {
      var n := |cs| - 1;
      ClosestIsLeast(cs[..n], ks[..n], c);
      assert forall j :: 0 <= j < n ==> cs[..n][j] == cs[j] && ks[..n][j] == ks[j];
    }
  }

  /** The fallback of `predictRBF`: red when the nearest red point is strictly
      closer than the nearest blue one (a missing class is infinitely far). */
  function NearestClass(sqrt: real -> real, ps: seq<LPoint>, q: Point): Cls
  {
    var ds, cs := Distances(sqrt, q, ps), Classes(ps);
    var red, blue := Closest(cs, ds, Red), Closest(cs, ds, Blue);
    if red.Some? && (blue.None? || ds[red.value] < ds[blue.value]) then Red else Blue
  }

  /** The fallback answers red exactly when some red point is strictly closer
      to `q` than every blue point. */
  lemma NearestClassIsRed(sqrt: real -> real, ps: seq<LPoint>, q: Point)
    requires IsSqrt(sqrt)
    ensures NearestClass(sqrt, ps, q) == Red <==>
      exists i :: 0 <= i < |ps| && ps[i].cls == Red &&
        forall j :: 0 <= j < |ps| && ps[j].cls == Blue ==> Dist2(ps[i].pos, q) < Dist2(ps[j].pos, q)
  {
    var ds, cs := Distances(sqrt, q, ps), Classes(ps);
    var red, blue := Closest(cs, ds, Red), Closest(cs, ds, Blue);
    ClosestIsLeast(cs, ds, Red);
    ClosestIsLeast(cs, ds, Blue);
    if NearestClass(sqrt, ps, q) == Red {
      var i := red.value;
      forall j | 0 <= j < |ps| && ps[j].cls == Blue
        ensures Dist2(ps[i].pos, q) < Dist2(ps[j].pos, q)
      {
        SqrtOrder(sqrt, Dist2(ps[i].pos, q), Dist2(ps[j].pos, q));
      }
    } else {
      forall i | 0 <= i < |ps| && ps[i].cls == Red
        ensures exists j :: 0 <= j < |ps| && ps[j].cls == Blue && Dist2(ps[i].pos, q) >= Dist2(ps[j].pos, q)
      {
        var j := blue.value;
        SqrtOrder(sqrt, Dist2(ps[i].pos, q), Dist2(ps[j].pos, q));
      }
    }
  }

  // ---------------------------------------------------------------------
  // The RBF decision function

  predicate ValidIndices(svs: seq<SupportVector>, n: nat)
  {
    forall k :: 0 <= k < |svs| ==> svs[k].index < n
  }

  /** +1 for blue, −1 for red. */
  function Sign(c: Cls): real
  {
    if c == Blue then 1.0 else -1.0
  }

  /** Σ alpha · sign · exp(−γ · |q − p|²) over the support vectors. */
  function KernelSum(exp: real -> real, gamma: real, ps: seq<LPoint>, svs: seq<SupportVector>, q: Point): real
    requires ValidIndices(svs, |ps|)
  {
    if |svs| == 0 then 0.0
    else
      var sv := svs[|svs| - 1];
      var p := ps[sv.index];
      KernelSum(exp, gamma, ps, svs[..|svs| - 1], q) + sv.alpha * Sign(p.cls) * exp(-gamma * Dist2(q, p.pos))
  }

  /** `predictRBF`: the nearest-class fallback without support vectors,
      otherwise blue when the kernel vote is non-negative. */
  function PredictRbf(m: Numerics, gamma: real, ps: seq<LPoint>, svs: seq<SupportVector>, q: Point): Cls
    requires ValidIndices(svs, |ps|)
  {
    if |svs| == 0 then NearestClass(m.sqrt, ps, q)
    else if KernelSum(m.exp, gamma, ps, svs, q) >= 0.0 then Blue else Red
  }

  /** Every support vector belongs to class `c` and carries a positive weight. */
  predicate Unanimous(ps: seq<LPoint>, svs: seq<SupportVector>, c: Cls)
    requires ValidIndices(svs, |ps|)
  {
    forall k :: 0 <= k < |svs| ==> ps[svs[k].index].cls == c && svs[k].alpha > 0.0
  }

  /** Each term of a unanimous vote pushes the sum towards that class. */
  lemma {:induction false} UnanimousSum(exp: real -> real, gamma: real, ps: seq<LPoint>, svs: seq<SupportVector>, q: Point, c: Cls)
    requires ValidIndices(svs, |ps|) && Unanimous(ps, svs, c)
    requires forall x :: exp(x) > 0.0
    ensures Sign(c) * KernelSum(exp, gamma, ps, svs, q) >= 0.0
    ensures |svs| > 0 ==> Sign(c) * KernelSum(exp, gamma, ps, svs, q) > 0.0
  {
    if |svs| > 0 {
      var n := |svs| - 1;
      var sv := svs[n];
      var e := exp(-gamma * Dist2(q, ps[sv.index].pos));
      assert ValidIndices(svs[..n], |ps|) && Unanimous(ps, svs[..n], c) by {
        forall k | 0 <= k < n
          ensures svs[..n][k] == svs[k]
        {
        }
      }
      UnanimousSum(exp, gamma, ps, svs[..n], q, c);
      MulPositive(sv.alpha, e);
      assert Sign(c) * (sv.alpha * Sign(c) * e) == sv.alpha * e;
    }
  }

  /** When every support vector votes for the same class with positive weight,
      the RBF prediction is that class everywhere. */
  lemma UnanimousPrediction(m: Numerics, gamma: real, ps: seq<LPoint>, svs: seq<SupportVector>, q: Point, c: Cls)
    requires ValidIndices(svs, |ps|) && Unanimous(ps, svs, c) && |svs| > 0
    requires forall x :: m.exp(x) > 0.0
    ensures PredictRbf(m, gamma, ps, svs, q) == c
  {
    UnanimousSum(m.exp, gamma, ps, svs, q, c);
  }

  // ---------------------------------------------------------------------
  // Linear fit

  /** The positions of the points of class `c`, in order (`points.filter`). */
  function Positions(ps: seq<LPoint>, c: Cls): (r: seq<Point>)
    ensures |r| == 0 <==> forall i :: 0 <= i < |ps| ==> ps[i].cls != c
    ensures |r| <= |ps|
  {
    if |ps| == 0 then []
    else
      var n := |ps| - 1;
      Positions(ps[..n], c) + (if ps[n].cls == c then [ps[n].pos] else [])
  }

  /** Both classes have at least one point. */
  predicate BothClasses(ps: seq<LPoint>)
  {
    |Positions(ps, Red)| > 0 && |Positions(ps, Blue)| > 0
  }

  function Midpoint(a: Point, b: Point): Point
  {
    Point((a.x + b.x) / 2.0, (a.y + b.y) / 2.0)
  }

  /** `Math.sqrt` of the squared distance between the two centroids. */
  function Separation(sqrt: real -> real, red: Point, blue: Point): real
  {
    sqrt(Sq(blue.x - red.x) + Sq(blue.y - red.y))
  }

  /** The unit vector from the red centroid to the blue one, or (1, 0) when
      their distance is not positive. */
  function Direction(sqrt: real -> real, red: Point, blue: Point): Point
  {
    var len := Separation(sqrt, red, blue);
    if len > 0.0 then Point((blue.x - red.x) / len, (blue.y - red.y) / len) else Point(1.0, 0.0)
  }

  /** The line with normal `Direction` through the centroids' midpoint. */
  function Hyperplane(sqrt: real -> real, red: Point, blue: Point): (w: Weights)
    ensures Score(w, Midpoint(red, blue)) == 0.0
  {
    var d := Direction(sqrt, red, blue);
    var mid := Midpoint(red, blue);
    Weights(d.x, d.y, -(d.x * mid.x + d.y * mid.y))
  }

  lemma ProductSquare(a: real, t: real, d: real)
    requires a * t == d
    ensures Sq(a) * Sq(t) == Sq(d)
  {
    assert Sq(d) == (a * t) * (a * t);
  }

  lemma UnitArith(a: real, b: real, t: real, dx: real, dy: real)
    requires t > 0.0 && a * t == dx && b * t == dy && Sq(t) == Sq(dx) + Sq(dy)
    ensures Sq(a) + Sq(b) == 1.0
  {
    ProductSquare(a, t, dx);
    ProductSquare(b, t, dy);
    var u := Sq(a) + Sq(b);
    assert u * Sq(t) == Sq(a) * Sq(t) + Sq(b) * Sq(t);
    SqPositive(t);
    if u > 1.0 {
      MulPositive(u - 1.0, Sq(t));
    } else if u < 1.0 {
      MulPositive(1.0 - u, Sq(t));
    }
  }

  /** The normal is a unit vector; it points from the red centroid to the
      blue one when they differ, and is (1, 0) when they coincide. */
  lemma DirectionIsUnit(sqrt: real -> real, red: Point, blue: Point)
    requires IsSqrt(sqrt)
    ensures var d := Direction(sqrt, red, blue); Sq(d.x) + Sq(d.y) == 1.0
    ensures red == blue ==> Direction(sqrt, red, blue) == Point(1.0, 0.0)
    ensures red != blue ==>
      && Separation(sqrt, red, blue) > 0.0
      && Direction(sqrt, red, blue).x * Separation(sqrt, red, blue) == blue.x - red.x
      && Direction(sqrt, red, blue).y * Separation(sqrt, red, blue) == blue.y - red.y
  {
    var dx, dy := blue.x - red.x, blue.y - red.y;
    var len := Separation(sqrt, red, blue);
    SqPositive(dx);
    SqPositive(dy);
    SqPositive(len);
    if red == blue {
      SqrtZero(sqrt);
    } else {
      assert dx != 0.0 || dy != 0.0;
      assert len > 0.0;
      var d := Direction(sqrt, red, blue);
      assert d.x * len == dx && d.y * len == dy;
      UnitArith(d.x, d.y, len, dx, dy);
    }
  }

  lemma SideArith(a: real, b: real, t: real, r: Point, q: Point)
    requires a * t == q.x - r.x && b * t == q.y - r.y && Sq(a) + Sq(b) == 1.0
    ensures a * q.x + b * q.y - (a * Midpoint(r, q).x + b * Midpoint(r, q).y) == t / 2.0
    ensures a * r.x + b * r.y - (a * Midpoint(r, q).x + b * Midpoint(r, q).y) == -t / 2.0
  {
    var m := Midpoint(r, q);
    assert q.x - m.x == (a * t) / 2.0 && q.y - m.y == (b * t) / 2.0;
    assert r.x - m.x == -(a * t) / 2.0 && r.y - m.y == -(b * t) / 2.0;
    assert a * q.x - a * m.x == a * (q.x - m.x);
    assert b * q.y - b * m.y == b * (q.y - m.y);
    assert a * r.x - a * m.x == a * (r.x - m.x);
    assert b * r.y - b * m.y == b * (r.y - m.y);
    assert a * ((a * t) / 2.0) == Sq(a) * t / 2.0;
    assert b * ((b * t) / 2.0) == Sq(b) * t / 2.0;
    assert Sq(a) * t / 2.0 + Sq(b) * t / 2.0 == (Sq(a) + Sq(b)) * t / 2.0;
  }

  /** Distinct centroids land on their own sides of the fitted line: the blue
      centroid at signed distance +len/2, the red one at −len/2, so the linear
      prediction classifies each centroid as its own class. */
  lemma CentroidsOnTheirSides(sqrt: real -> real, red: Point, blue: Point)
    requires IsSqrt(sqrt) && red != blue
    ensures Score(Hyperplane(sqrt, red, blue), blue) == Separation(sqrt, red, blue) / 2.0 > 0.0
    ensures Score(Hyperplane(sqrt, red, blue), red) == -Separation(sqrt, red, blue) / 2.0 < 0.0
    ensures PredictLinear(Hyperplane(sqrt, red, blue), blue) == Blue
    ensures PredictLinear(Hyperplane(sqrt, red, blue), red) == Red
  {
    DirectionIsUnit(sqrt, red, blue);
    var d := Direction(sqrt, red, blue);
    SideArith(d.x, d.y, Separation(sqrt, red, blue), red, blue);
  }

  /** |signed distance| of every point to the line. */
  function AbsDistances(sqrt: real -> real, w: Weights, ps: seq<LPoint>): (ds: seq<real>)
    ensures |ds| == |ps|
    ensures forall i :: 0 <= i < |ps| ==> ds[i] == Abs(DistanceToHyperplane(sqrt, w, ps[i].pos))
  {
    seq(|ps|, i requires 0 <= i < |ps| => Abs(DistanceToHyperplane(sqrt, w, ps[i].pos)))
  }

  /** The indices below `n`, outside `skip`, whose key is below `t`, in
      increasing order (a `forEach` that pushes when `dist < threshold`). */
  function Below(ks: seq<real>, n: nat, skip: set<nat>, t: real): (r: seq<nat>)
    requires n <= |ks|
    ensures forall i: nat :: i in r <==> i < n && i !in skip && ks[i] < t
    ensures forall a, b :: 0 <= a < b < |r| ==> r[a] < r[b]
  {
    if n == 0 then []
    else
      var i := n - 1;
      var before := Below(ks, i, skip, t);
      assert forall a :: 0 <= a < |before| ==> before[a] in before;
      before + (if i !in skip && ks[i] < t then [i] else [])
  }

  /** Support vectors of weight `alpha` at the given indices. */
  function Weighted(idx: seq<nat>, alpha: real): (svs: seq<SupportVector>)
    ensures |svs| == |idx|
    ensures forall k :: 0 <= k < |idx| ==> svs[k] == SupportVector(idx[k], alpha)
  {
    seq(|idx|, k requires 0 <= k < |idx| => SupportVector(idx[k], alpha))
  }

  function Indices(svs: seq<SupportVector>): (r: seq<nat>)
    ensures |r| == |svs|
    ensures forall k :: 0 <= k < |svs| ==> r[k] == svs[k].index
  {
    seq(|svs|, k requires 0 <= k < |svs| => svs[k].index)
  }

  lemma IndicesCover(svs: seq<SupportVector>)
    ensures forall k :: 0 <= k < |svs| ==> svs[k].index in Indices(svs)
  {
    forall k | 0 <= k < |svs|
      ensures svs[k].index in Indices(svs)
    {
      assert Indices(svs)[k] == svs[k].index;
    }
  }

  /** The support vectors `fitLinearSVM` picks from the classes `cs` and the
      distances `ds` to the line: the red point nearest the line, then the
      blue one, both with weight 1, then with weight 0.5 every other point
      closer than the band threshold (the larger of the two nearest distances,
      widened by 1.5 / cScale). */
  function LinearSelection(cs: seq<Cls>, ds: seq<real>, cScale: real): (svs: seq<SupportVector>)
    requires |cs| == |ds| && Red in cs && Blue in cs && cScale > 0.0
  {
    var red, blue := Closest(cs, ds, Red).value, Closest(cs, ds, Blue).value;
    Lead(red, blue, Below(ds, |ds|, {red, blue}, Band(cs, ds, cScale)))
  }

  /** The red and the blue index with weight 1, then `near` with weight 0.5. */
  function Lead(red: nat, blue: nat, near: seq<nat>): seq<SupportVector>
  {
    [SupportVector(red, 1.0), SupportVector(blue, 1.0)] + Weighted(near, 0.5)
  }

  /** The band threshold of `LinearSelection`. */
  function Band(cs: seq<Cls>, ds: seq<real>, cScale: real): real
    requires |cs| == |ds| && Red in cs && Blue in cs && cScale > 0.0
  {
    Max(ds[Closest(cs, ds, Red).value], ds[Closest(cs, ds, Blue).value]) * (1.5 / cScale + 1.0)
  }

  /** The linear selection leads with the red and the blue point nearest the
      line (weight 1, each the first of its class at that distance), follows
      with weight 0.5 by exactly the other points inside the band, repeats no
      index and names only points. */
  lemma LinearSelectionFacts(cs: seq<Cls>, ds: seq<real>, cScale: real)
    requires |cs| == |ds| && Red in cs && Blue in cs && cScale > 0.0
    ensures var svs := LinearSelection(cs, ds, cScale);
      && |svs| >= 2
      && ValidIndices(svs, |cs|)
      && NoDuplicates(Indices(svs))
      && svs[0].alpha == 1.0 && cs[svs[0].index] == Red
      && svs[1].alpha == 1.0 && cs[svs[1].index] == Blue
      && (forall j :: 0 <= j < |cs| && cs[j] == Red ==> ds[svs[0].index] <= ds[j])
      && (forall j :: 0 <= j < |cs| && cs[j] == Blue ==> ds[svs[1].index] <= ds[j])
      && (forall k :: 2 <= k < |svs| ==> svs[k].alpha == 0.5)
      && (forall i: nat :: i < |cs| ==>
            (i in Indices(svs) <==> i == svs[0].index || i == svs[1].index || ds[i] < Band(cs, ds, cScale)))
  {
    var svs := LinearSelection(cs, ds, cScale);
    var red, blue := Closest(cs, ds, Red).value, Closest(cs, ds, Blue).value;
    var near := Below(ds, |ds|, {red, blue}, Band(cs, ds, cScale));
    ClosestIsLeast(cs, ds, Red);
    ClosestIsLeast(cs, ds, Blue);
    PairThenBand(red, blue, near, |cs|);
  }

  /** Two distinct indices followed by increasing indices outside them name
      each index once; all are below `n` when each is. */
  lemma PairThenBand(red: nat, blue: nat, near: seq<nat>, n: nat)
    requires red < n && blue < n && red != blue && red !in near && blue !in near
    requires forall i: nat :: i in near ==> i < n
    requires forall a, b :: 0 <= a < b < |near| ==> near[a] < near[b]
    ensures var svs := Lead(red, blue, near);
      && |svs| >= 2 && svs[0] == SupportVector(red, 1.0) && svs[1] == SupportVector(blue, 1.0)
      && (forall k :: 2 <= k < |svs| ==> svs[k].alpha == 0.5)
      && ValidIndices(svs, n)
      && NoDuplicates(Indices(svs))
      && Indices(svs) == [red, blue] + near
  {
    var svs := Lead(red, blue, near);
    var idx := Indices(svs);
    assert idx == [red, blue] + near;
    forall a, b | 0 <= a < b < |idx|
      ensures idx[a] != idx[b]
    {
      if b >= 2 {
        assert idx[b] == near[b - 2] && idx[b] in near;
        if a >= 2 {
          assert idx[a] == near[a - 2];
        }
      }
    }
    forall k | 0 <= k < |svs|
      ensures svs[k].index < n
    {
      assert svs[k].index == idx[k];
      if k >= 2 {
        assert idx[k] in near;
      }
    }
  }

  /** Twice the smaller nearest distance, widened by 1 + 1 / cScale. */
  function LinearMargin(cs: seq<Cls>, ds: seq<real>, cScale: real): real
    requires |cs| == |ds| && Red in cs && Blue in cs && cScale > 0.0
  {
    Min(ds[Closest(cs, ds, Red).value], ds[Closest(cs, ds, Blue).value]) * 2.0 * (1.0 + 1.0 / cScale)
  }

  /** With non-negative distances the margin is non-negative, and it is zero
      exactly when a support vector lies on the line. */
  lemma LinearMarginFacts(cs: seq<Cls>, ds: seq<real>, cScale: real)
    requires |cs| == |ds| && Red in cs && Blue in cs && cScale > 0.0
    requires forall i :: 0 <= i < |ds| ==> ds[i] >= 0.0
    ensures LinearMargin(cs, ds, cScale) >= 0.0
    ensures LinearMargin(cs, ds, cScale) == 0.0 <==>
      ds[LinearSelection(cs, ds, cScale)[0].index] == 0.0 || ds[LinearSelection(cs, ds, cScale)[1].index] == 0.0
  {
    var low := Min(ds[Closest(cs, ds, Red).value], ds[Closest(cs, ds, Blue).value]);
    var widen := 1.0 + 1.0 / cScale;
    DivNonNegative(1.0, cScale);
    MulNonNegative(low * 2.0, widen);
    if low > 0.0 {
      MulPositive(low * 2.0, widen);
    }
  }

  /** Both classes occur among the classes of the points. */
  lemma BothClassesIn(ps: seq<LPoint>)
    requires BothClasses(ps)
    ensures Red in Classes(ps) && Blue in Classes(ps)
  {
    var cs := Classes(ps);
    var i :| 0 <= i < |ps| && ps[i].cls == Red;
    var j :| 0 <= j < |ps| && ps[j].cls == Blue;
    assert cs[i] == Red && cs[j] == Blue;
  }

  /** `fitLinearSVM`: the line through the centroids' midpoint normal to the
      segment between them, the support vectors of `LinearSelection` on the
      points' distances to that line, and its margin. */
  function FitLinear(m: Numerics, s: State): (r: State)
    requires BothClasses(s.points) && m.pow10(s.c) > 0.0
    ensures r.(weights := s.weights, supportVectors := s.supportVectors, margin := s.margin) == s
  {
    var ps := s.points;
    var w := Hyperplane(m.sqrt, Mean(Positions(ps, Red)), Mean(Positions(ps, Blue)));
    var ds, cs := AbsDistances(m.sqrt, w, ps), Classes(ps);
    BothClassesIn(ps);
    s.(weights := w, supportVectors := LinearSelection(cs, ds, m.pow10(s.c)), margin := LinearMargin(cs, ds, m.pow10(s.c)))
  }

  // ---------------------------------------------------------------------
  // RBF fit

  /** What the RBF fit needs of `Math.sqrt`: it is never negative. */
  ghost predicate SqrtNonNegative(sqrt: real -> real)
  {
    forall x :: 0.0 <= x ==> sqrt(x) >= 0.0
  }

  lemma SoundSqrtNonNegative(sqrt: real -> real)
    requires IsSqrt(sqrt)
    ensures SqrtNonNegative(sqrt)
  {
  }

  function Other(c: Cls): Cls
  {
    if c == Red then Blue else Red
  }

  /** The nearest point of the other class to point `i`, the first such at
      that distance. */
  function NearestOtherIndex(sqrt: real -> real, ps: seq<LPoint>, i: nat): (j: nat)
    requires i < |ps| && BothClasses(ps)
    ensures j < |ps| && ps[j].cls == Other(ps[i].cls)
  {
    var ds := Distances(sqrt, ps[i].pos, ps);
    BothClassesIn(ps);
    Closest(Classes(ps), ds, Other(ps[i].cls)).value
  }

  /** For every point, its distance to the nearest point of the other class. */
  function NearestOthers(sqrt: real -> real, ps: seq<LPoint>): (ms: seq<real>)
    requires BothClasses(ps)
    ensures |ms| == |ps|
    ensures forall i :: 0 <= i < |ps| ==> ms[i] == sqrt(Dist2(ps[NearestOtherIndex(sqrt, ps, i)].pos, ps[i].pos))
  {
    seq(|ps|, i requires 0 <= i < |ps| => sqrt(Dist2(ps[NearestOtherIndex(sqrt, ps, i)].pos, ps[i].pos)))
  }

  /** The nearest-other distance is a lower bound on the distances to the
      other class, and it is attained. */
  lemma NearestOtherIsLeast(sqrt: real -> real, ps: seq<LPoint>, i: nat)
    requires i < |ps| && BothClasses(ps)
    ensures forall j :: 0 <= j < |ps| && ps[j].cls == Other(ps[i].cls) ==>
      NearestOthers(sqrt, ps)[i] <= sqrt(Dist2(ps[j].pos, ps[i].pos))
  {
    BothClassesIn(ps);
    ClosestIsLeast(Classes(ps), Distances(sqrt, ps[i].pos, ps), Other(ps[i].cls));
  }

  lemma NearestNonNegative(sqrt: real -> real, ps: seq<LPoint>)
    requires BothClasses(ps) && SqrtNonNegative(sqrt)
    ensures forall i :: 0 <= i < |ps| ==> NearestOthers(sqrt, ps)[i] >= 0.0
  {
    forall i | 0 <= i < |ps|
      ensures NearestOthers(sqrt, ps)[i] >= 0.0
    {
      assert sqrt(Dist2(ps[NearestOtherIndex(sqrt, ps, i)].pos, ps[i].pos)) >= 0.0;
    }
  }

  /** Support vectors with weight 1 / (1 + nearest-other distance). */
  function RbfWeighted(idx: seq<nat>, ms: seq<real>): (svs: seq<SupportVector>)
    requires forall k :: 0 <= k < |idx| ==> idx[k] < |ms| && ms[idx[k]] >= 0.0
    ensures |svs| == |idx|
    ensures forall k :: 0 <= k < |idx| ==> svs[k] == SupportVector(idx[k], 1.0 / (1.0 + ms[idx[k]]))
  {
    seq(|idx|, k requires 0 <= k < |idx| => SupportVector(idx[k], 1.0 / (1.0 + ms[idx[k]])))
  }

  function Gather(ms: seq<real>, idx: seq<nat>): (r: seq<real>)
    requires forall k :: 0 <= k < |idx| ==> idx[k] < |ms|
    ensures |r| == |idx|
    ensures forall k :: 0 <= k < |idx| ==> r[k] == ms[idx[k]]
  {
    seq(|idx|, k requires 0 <= k < |idx| => ms[idx[k]])
  }

  /** What the RBF fit needs: both classes present, a `sqrt` that is never
      negative and a positive power of ten for the threshold. */
  ghost predicate RbfReady(m: Numerics, s: State)
  {
    BothClasses(s.points) && SqrtNonNegative(m.sqrt) && m.pow10(s.c * 0.5) > 0.0
  }

  /** `3 / 10^(C/2)`: how close to the other class a point must be to be a
      support vector. */
  function RbfThreshold(m: Numerics, s: State): real
    requires RbfReady(m, s)
  {
    3.0 / m.pow10(s.c * 0.5)
  }

  /** The RBF candidates: every point nearer than `t` to the other class, in
      order, weighted by 1 / (1 + distance), with the mean of those distances
      as the margin. */
  function RbfSelection(ms: seq<real>, t: real): (r: (seq<SupportVector>, real))
    requires forall i :: 0 <= i < |ms| ==> ms[i] >= 0.0
  {
    var near := Below(ms, |ms|, {}, t);
    assert forall k :: 0 <= k < |near| ==> near[k] in near;
    (RbfWeighted(near, ms), if |near| > 0 then Sum(Gather(ms, near)) / (|near| as real) else 0.0)
  }

  /** The candidates of the RBF fit: `RbfSelection` on the nearest-other
      distances with the threshold of the current C. */
  function Candidates(m: Numerics, s: State): (r: (seq<SupportVector>, real))
    requires RbfReady(m, s)
  {
    NearestNonNegative(m.sqrt, s.points);
    RbfSelection(NearestOthers(m.sqrt, s.points), RbfThreshold(m, s))
  }

  /** The red end of the closest red–blue pair, as the nested loops of
      `fitRBFSVM` find it: the first red point whose nearest blue point is
      nearest of all. The blue end is that nearest blue point,
      `NearestOtherIndex(sqrt, ps, PairRed(sqrt, ps))`. */
  function PairRed(sqrt: real -> real, ps: seq<LPoint>): (red: nat)
    requires BothClasses(ps)
    ensures red < |ps| && ps[red].cls == Red
  {
    BothClassesIn(ps);
    Closest(Classes(ps), NearestOthers(sqrt, ps), Red).value
  }

  /** No red point is nearer to the blue class than the pair's red end. */
  lemma PairRedIsLeast(sqrt: real -> real, ps: seq<LPoint>)
    requires BothClasses(ps)
    ensures forall i :: 0 <= i < |ps| && ps[i].cls == Red ==>
      NearestOthers(sqrt, ps)[PairRed(sqrt, ps)] <= NearestOthers(sqrt, ps)[i]
  {
    BothClassesIn(ps);
    ClosestIsLeast(Classes(ps), NearestOthers(sqrt, ps), Red);
  }

  /** The closest red–blue pair with weight 1 each, and the pair's distance. */
  function ClosestPair(sqrt: real -> real, ps: seq<LPoint>): (r: (seq<SupportVector>, real))
    requires BothClasses(ps)
  {
    var red := PairRed(sqrt, ps);
    var blue := NearestOtherIndex(sqrt, ps, red);
    ([SupportVector(red, 1.0), SupportVector(blue, 1.0)], sqrt(Dist2(ps[blue].pos, ps[red].pos)))
  }

  /** `fitRBFSVM`: the candidates of `RbfSelection`; when there is none, the
      closest red–blue pair with weight 1 each and the pair's distance as the
      margin. */
  function FitRbf(m: Numerics, s: State): (r: State)
    requires RbfReady(m, s)
    ensures r.(supportVectors := s.supportVectors, margin := s.margin) == s
  {
    var candidates := Candidates(m, s);
    var chosen := if |candidates.0| > 0 then candidates else ClosestPair(m.sqrt, s.points);
    s.(supportVectors := chosen.0, margin := chosen.1)
  }

  /** 1 / (1 + d) lies in (0, 1] for every non-negative d. */
  lemma InverseBounds(d: real)
    requires d >= 0.0
    ensures 0.0 < 1.0 / (1.0 + d) <= 1.0
  {
    var q := 1.0 / (1.0 + d);
    assert q * (1.0 + d) == 1.0;
    if q <= 0.0 {
      MulNonNegative(-q, 1.0 + d);
    }
    if q > 1.0 {
      MulPositive(q - 1.0, 1.0 + d);
    }
  }

  /** The RBF candidates are exactly the points nearer than `t` to the other
      class, each once, with weights in (0, 1] and a non-negative margin. */
  lemma RbfSelectionFacts(ms: seq<real>, t: real)
    requires forall i :: 0 <= i < |ms| ==> ms[i] >= 0.0
    ensures var svs, margin := RbfSelection(ms, t).0, RbfSelection(ms, t).1;
      && ValidIndices(svs, |ms|)
      && NoDuplicates(Indices(svs))
      && (forall i: nat :: i < |ms| ==> (i in Indices(svs) <==> ms[i] < t))
      && (forall k :: 0 <= k < |svs| ==> 0.0 < svs[k].alpha <= 1.0)
      && margin >= 0.0
  {
    var svs := RbfSelection(ms, t).0;
    var near := Below(ms, |ms|, {}, t);
    assert Indices(svs) == near;
    forall k | 0 <= k < |svs|
      ensures svs[k].index < |ms| && 0.0 < svs[k].alpha <= 1.0
    {
      assert near[k] in near;
      InverseBounds(ms[near[k]]);
    }
    SumNonNegative(Gather(ms, near));
    if |near| > 0 {
      DivNonNegative(Sum(Gather(ms, near)), |near| as real);
    }
  }

  /** Some point of the other class lies nearer than `t` to point `i`. */
  predicate NearOther(sqrt: real -> real, ps: seq<LPoint>, i: nat, t: real)
    requires i < |ps|
  {
    exists j :: 0 <= j < |ps| && ps[j].cls == Other(ps[i].cls) && sqrt(Dist2(ps[j].pos, ps[i].pos)) < t
  }

  /** A point's nearest-other distance is below `t` exactly when some point
      of the other class lies nearer to it than `t`. */
  lemma NearerThan(sqrt: real -> real, ps: seq<LPoint>, t: real, i: nat)
    requires BothClasses(ps) && i < |ps|
    ensures NearestOthers(sqrt, ps)[i] < t <==> NearOther(sqrt, ps, i, t)
  {
    NearestOtherIsLeast(sqrt, ps, i);
    var o := NearestOtherIndex(sqrt, ps, i);
    assert NearestOthers(sqrt, ps)[i] == sqrt(Dist2(ps[o].pos, ps[i].pos));
  }

  /** Every RBF fit names each point at most once, names only points, and
      weighs each in (0, 1]; its margin is never negative. */
  predicate WellShaped(svs: seq<SupportVector>, margin: real, n: nat)
  {
    && ValidIndices(svs, n)
    && NoDuplicates(Indices(svs))
    && (forall k :: 0 <= k < |svs| ==> 0.0 < svs[k].alpha <= 1.0)
    && margin >= 0.0
  }

  /** The candidates are the points near the other class, each named once,
      weighted in (0, 1], with a non-negative margin. */
  lemma CandidatesNearOther(m: Numerics, s: State)
    requires RbfReady(m, s)
    ensures WellShaped(Candidates(m, s).0, Candidates(m, s).1, |s.points|)
    ensures forall i: nat :: i < |s.points| ==>
      (i in Indices(Candidates(m, s).0) <==> NearOther(m.sqrt, s.points, i, RbfThreshold(m, s)))
  {
    var ps, t := s.points, RbfThreshold(m, s);
    var ms := NearestOthers(m.sqrt, ps);
    NearestNonNegative(m.sqrt, ps);
    RbfSelectionFacts(ms, t);
    forall i: nat | i < |ps|
      ensures i in Indices(RbfSelection(ms, t).0) <==> NearOther(m.sqrt, ps, i, t)
    {
      NearerThan(m.sqrt, ps, t, i);
    }
  }

  lemma RbfFitTakesCandidates(m: Numerics, s: State)
    requires RbfReady(m, s) && |Candidates(m, s).0| > 0
    ensures FitRbf(m, s).supportVectors == Candidates(m, s).0
    ensures FitRbf(m, s).margin == Candidates(m, s).1
  {
  }

  lemma RbfFitTakesPair(m: Numerics, s: State)
    requires RbfReady(m, s) && |Candidates(m, s).0| == 0
    ensures FitRbf(m, s).supportVectors == ClosestPair(m.sqrt, s.points).0
    ensures FitRbf(m, s).margin == ClosestPair(m.sqrt, s.points).1
  {
  }

  /** The closest pair names a red and then a blue point, weight 1 each, and
      its margin is their distance, which no other red–blue pair undercuts. */
  lemma ClosestPairFacts(sqrt: real -> real, ps: seq<LPoint>)
    requires BothClasses(ps) && SqrtNonNegative(sqrt)
    ensures var svs, margin := ClosestPair(sqrt, ps).0, ClosestPair(sqrt, ps).1;
      && |svs| == 2
      && svs[0].alpha == 1.0 && svs[1].alpha == 1.0
      && svs[0].index < |ps| && svs[1].index < |ps|
      && ps[svs[0].index].cls == Red && ps[svs[1].index].cls == Blue
      && margin == sqrt(Dist2(ps[svs[1].index].pos, ps[svs[0].index].pos))
      && margin >= 0.0
      && forall i, j :: 0 <= i < |ps| && 0 <= j < |ps| && ps[i].cls == Red && ps[j].cls == Blue ==>
           margin <= sqrt(Dist2(ps[j].pos, ps[i].pos))
  {
    PairIsNearest(sqrt, ps);
  }

  /** When some point lies nearer than the threshold to the other class, the
      RBF fit's support vectors are exactly the points that do. */
  lemma RbfCandidates(m: Numerics, s: State, i0: nat)
    requires RbfReady(m, s)
    requires i0 < |s.points| && NearOther(m.sqrt, s.points, i0, RbfThreshold(m, s))
    ensures forall i: nat :: i < |s.points| ==>
      (i in Indices(FitRbf(m, s).supportVectors) <==> NearOther(m.sqrt, s.points, i, RbfThreshold(m, s)))
  {
    CandidatesNearOther(m, s);
    assert i0 in Indices(Candidates(m, s).0);
    RbfFitTakesCandidates(m, s);
  }

  /** With no point near the other class there is no candidate. */
  lemma NoCandidates(m: Numerics, s: State)
    requires RbfReady(m, s)
    requires forall i: nat :: i < |s.points| ==> !NearOther(m.sqrt, s.points, i, RbfThreshold(m, s))
    ensures |Candidates(m, s).0| == 0
  {
    CandidatesNearOther(m, s);
    IndicesCover(Candidates(m, s).0);
  }

  /** When no point lies nearer than the threshold to the other class, the
      RBF fit keeps the closest red–blue pair, weight 1 each, and their
      distance as the margin: no red point is nearer to any blue point. */
  lemma RbfFallback(m: Numerics, s: State)
    requires RbfReady(m, s)
    requires forall i: nat :: i < |s.points| ==> !NearOther(m.sqrt, s.points, i, RbfThreshold(m, s))
    ensures var ps, r := s.points, FitRbf(m, s);
      && |r.supportVectors| == 2
      && var red, blue := r.supportVectors[0].index, r.supportVectors[1].index;
      && r.supportVectors[0].alpha == 1.0 && r.supportVectors[1].alpha == 1.0
      && red < |ps| && blue < |ps| && ps[red].cls == Red && ps[blue].cls == Blue
      && r.margin == m.sqrt(Dist2(ps[blue].pos, ps[red].pos))
      && forall i, j :: 0 <= i < |ps| && 0 <= j < |ps| && ps[i].cls == Red && ps[j].cls == Blue ==>
           r.margin <= m.sqrt(Dist2(ps[j].pos, ps[i].pos))
  {
    NoCandidates(m, s);
    RbfFitTakesPair(m, s);
    ClosestPairFacts(m.sqrt, s.points);
  }

  /** No red–blue pair is at a smaller `sqrt` distance than the pair
      `PairRed` picks. */
  lemma PairIsNearest(sqrt: real -> real, ps: seq<LPoint>)
    requires BothClasses(ps)
    ensures var red := PairRed(sqrt, ps);
      var blue := NearestOtherIndex(sqrt, ps, red);
      forall i, j :: 0 <= i < |ps| && 0 <= j < |ps| && ps[i].cls == Red && ps[j].cls == Blue ==>
        sqrt(Dist2(ps[blue].pos, ps[red].pos)) <= sqrt(Dist2(ps[j].pos, ps[i].pos))
  {
    PairRedIsLeast(sqrt, ps);
    forall i | 0 <= i < |ps|
      ensures ps[i].cls == Red ==> forall j :: 0 <= j < |ps| && ps[j].cls == Blue ==>
        NearestOthers(sqrt, ps)[i] <= sqrt(Dist2(ps[j].pos, ps[i].pos))
    {
      NearestOtherIsLeast(sqrt, ps, i);
    }
  }

  /** For a true square root, no red–blue pair is closer than the pair
      `PairRed` picks. */
  lemma PairIsClosest(sqrt: real -> real, ps: seq<LPoint>)
    requires BothClasses(ps) && IsSqrt(sqrt)
    ensures var red := PairRed(sqrt, ps);
      var blue := NearestOtherIndex(sqrt, ps, red);
      forall i, j :: 0 <= i < |ps| && 0 <= j < |ps| && ps[i].cls == Red && ps[j].cls == Blue ==>
        Dist2(ps[blue].pos, ps[red].pos) <= Dist2(ps[j].pos, ps[i].pos)
  {
    var red := PairRed(sqrt, ps);
    var blue := NearestOtherIndex(sqrt, ps, red);
    PairIsNearest(sqrt, ps);
    forall i, j | 0 <= i < |ps| && 0 <= j < |ps| && ps[i].cls == Red && ps[j].cls == Blue
      ensures Dist2(ps[blue].pos, ps[red].pos) <= Dist2(ps[j].pos, ps[i].pos)
    {
      SqrtOrder(sqrt, Dist2(ps[blue].pos, ps[red].pos), Dist2(ps[j].pos, ps[i].pos));
    }
  }

  /** Every RBF fit is well shaped. */
  lemma RbfFitShape(m: Numerics, s: State)
    requires RbfReady(m, s)
    ensures WellShaped(FitRbf(m, s).supportVectors, FitRbf(m, s).margin, |s.points|)
  {
    if |Candidates(m, s).0| > 0 {
      CandidatesNearOther(m, s);
      RbfFitTakesCandidates(m, s);
    } else {
      RbfFitTakesPair(m, s);
      ClosestPairShape(m.sqrt, s.points);
    }
  }

  lemma ClosestPairShape(sqrt: real -> real, ps: seq<LPoint>)
    requires BothClasses(ps) && SqrtNonNegative(sqrt)
    ensures WellShaped(ClosestPair(sqrt, ps).0, ClosestPair(sqrt, ps).1, |ps|)
  {
    ClosestPairFacts(sqrt, ps);
    var svs := ClosestPair(sqrt, ps).0;
    assert Indices(svs) == [svs[0].index, svs[1].index];
  }

  // ---------------------------------------------------------------------
  // fitSVM, prediction and accuracy

  /** What fitting needs of the numerics: `sqrt` is never negative and every
      power of ten is positive. */
  ghost predicate Fittable(m: Numerics)
  {
    SqrtNonNegative(m.sqrt) && forall x :: m.pow10(x) > 0.0
  }

  lemma SoundFittable(m: Numerics)
    requires Sound(m)
    ensures Fittable(m)
  {
  }

  lemma LinearShape(m: Numerics, s: State)
    requires BothClasses(s.points) && m.pow10(s.c) > 0.0
    ensures ValidIndices(FitLinear(m, s).supportVectors, |s.points|)
    ensures NoDuplicates(Indices(FitLinear(m, s).supportVectors))
  {
    var ps := s.points;
    var w := Hyperplane(m.sqrt, Mean(Positions(ps, Red)), Mean(Positions(ps, Blue)));
    BothClassesIn(ps);
    LinearSelectionFacts(Classes(ps), AbsDistances(m.sqrt, w, ps), m.pow10(s.c));
  }

  /** `fitSVM`: fewer than two points or a missing class clears the support
      vectors and the margin (the weights stay as they were); otherwise the
      kernel's fit. Every fit names each point at most once and only points. */
  function FitSvm(m: Numerics, s: State): (r: State)
    requires Fittable(m)
    ensures r.(weights := s.weights, supportVectors := s.supportVectors, margin := s.margin) == s
    ensures |s.points| < 2 || !BothClasses(s.points) ==> r == s.(supportVectors := [], margin := 0.0)
    ensures |s.points| >= 2 && BothClasses(s.points) && s.kernel == Linear ==> r == FitLinear(m, s)
    ensures |s.points| >= 2 && BothClasses(s.points) && s.kernel == Rbf ==> r == FitRbf(m, s)
    ensures ValidIndices(r.supportVectors, |r.points|)
    ensures NoDuplicates(Indices(r.supportVectors))
  {
    if |s.points| < 2 then s.(supportVectors := [], margin := 0.0)
    else if !BothClasses(s.points) then s.(supportVectors := [], margin := 0.0)
    else if s.kernel == Linear then
      LinearShape(m, s);
      FitLinear(m, s)
    else
      assert RbfReady(m, s);
      RbfFitShape(m, s);
      FitRbf(m, s)
  }

  /** `predict`: the linear rule or the RBF rule, by kernel. */
  function Predict(m: Numerics, s: State, q: Point): Cls
    requires ValidIndices(s.supportVectors, |s.points|)
  {
    if s.kernel == Linear then PredictLinear(s.weights, q)
    else PredictRbf(m, s.gamma, s.points, s.supportVectors, q)
  }

  /** Whether each point is predicted as its own class. */
  function Hits(m: Numerics, s: State): (h: seq<bool>)
    requires ValidIndices(s.supportVectors, |s.points|)
    ensures |h| == |s.points|
    ensures forall i :: 0 <= i < |h| ==> h[i] == (Predict(m, s, s.points[i].pos) == s.points[i].cls)
  {
    seq(|s.points|, i requires 0 <= i < |s.points| => Predict(m, s, s.points[i].pos) == s.points[i].cls)
  }

  /** The `correct` counter of `updateUI`. */
  function Correct(m: Numerics, s: State): nat
    requires ValidIndices(s.supportVectors, |s.points|)
  {
    Count(Hits(m, s), true)
  }

  /** `correct / n · 100`, and 100 when there are no points. */
  function Accuracy(m: Numerics, s: State): real
    requires ValidIndices(s.supportVectors, |s.points|)
  {
    if |s.points| > 0 then (Correct(m, s) as real / |s.points| as real) * 100.0 else 100.0
  }

  /** `points.length − correct`. */
  function Misclassified(m: Numerics, s: State): int
    requires ValidIndices(s.supportVectors, |s.points|)
  {
    |s.points| - Correct(m, s)
  }

  /** The misclassified count is the number of points predicted wrongly; the
      accuracy lies in [0, 100], is 100 with no points, and is 100 exactly
      when every point is predicted as its own class. */
  lemma AccuracyFacts(m: Numerics, s: State)
    requires ValidIndices(s.supportVectors, |s.points|)
    ensures Misclassified(m, s) == Count(Hits(m, s), false)
    ensures 0.0 <= Accuracy(m, s) <= 100.0
    ensures |s.points| == 0 ==> Accuracy(m, s) == 100.0
    ensures Accuracy(m, s) == 100.0 <==> forall i :: 0 <= i < |s.points| ==> Predict(m, s, s.points[i].pos) == s.points[i].cls
  {
    var h := Hits(m, s);
    TrueFalseCounts(h);
    if |s.points| > 0 {
      PercentBounds(Correct(m, s) as real, |s.points| as real);
    }
    if Accuracy(m, s) == 100.0 {
      assert false !in h;
      forall i | 0 <= i < |s.points|
        ensures Predict(m, s, s.points[i].pos) == s.points[i].cls
      {
        assert h[i] in h;
      }
    }
    if forall i :: 0 <= i < |s.points| ==> Predict(m, s, s.points[i].pos) == s.points[i].cls {
      assert false !in h;
    }
  }
}

=== FILE: svm_session.dfy ===
/**
 The cursor handlers, the control panel and the preset data sets of the
 support-vector-machine lab (labs/svm.js), and the invariant a whole session
 of events keeps: every support vector and the dragged point name a point, and
 every point lies inside the plotted square [0, 10]².
 */
module SvmSession {

  import opened Geometry
  import opened Oracles
  import opened Seqs
  import opened Viewport
  import opened Options
  import opened Svm

  // ---------------------------------------------------------------------
  // Pointer handlers

  /** Whether the canvas position `c` lies within `radius` pixels of the data
      point `p` as drawn. */
  predicate Near(sqrt: real -> real, f: Frame, c: Point, p: Point, radius: real)
    requires Invertible(f)
  {
    sqrt(Dist2(c, ToCanvas(f, p))) < radius
  }

  /** Whether a press at `c` is on the support vector `sv`. */
  predicate OnVector(sqrt: real -> real, f: Frame, ps: seq<LPoint>, sv: SupportVector, c: Point)
    requires Invertible(f) && sv.index < |ps|
  {
    Near(sqrt, f, c, ps[sv.index].pos, GrabRadius)
  }

  /** The position in `svs` of the first support vector under the cursor. */
  function FirstGrabbed(sqrt: real -> real, f: Frame, ps: seq<LPoint>, svs: seq<SupportVector>, c: Point): (r: Option<nat>)
    requires Invertible(f) && ValidIndices(svs, |ps|)
    ensures r.None? <==> forall k :: 0 <= k < |svs| ==> !OnVector(sqrt, f, ps, svs[k], c)
    ensures r.Some? ==> r.value < |svs| && OnVector(sqrt, f, ps, svs[r.value], c)
    ensures r.Some? ==> forall k :: 0 <= k < r.value ==> !OnVector(sqrt, f, ps, svs[k], c)
    decreases |svs|
  {
    if |svs| == 0 then None
    else if OnVector(sqrt, f, ps, svs[0], c) then Some(0)
    else
      match FirstGrabbed(sqrt, f, ps, svs[1..], c)
      case None => None
      case Some(k) => Some(k + 1)
  }

  /** `handleMouseDown`: a press on a support vector starts dragging its point;
      the first support vector in the list wins, and a press elsewhere changes
      nothing. */
  function MouseDown(m: Numerics, f: Frame, s: State, c: Point): (r: State)
    requires Invertible(f) && ValidIndices(s.supportVectors, |s.points|)
    ensures (forall k :: 0 <= k < |s.supportVectors| ==> !OnVector(m.sqrt, f, s.points, s.supportVectors[k], c)) ==> r == s
    ensures (exists k :: 0 <= k < |s.supportVectors| && OnVector(m.sqrt, f, s.points, s.supportVectors[k], c)) ==>
      && r == s.(dragging := true, dragged := r.dragged)
      && r.dragged.Some?
      && exists k :: 0 <= k < |s.supportVectors|
          && s.supportVectors[k].index == r.dragged.value
          && OnVector(m.sqrt, f, s.points, s.supportVectors[k], c)
          && forall j :: 0 <= j < k ==> !OnVector(m.sqrt, f, s.points, s.supportVectors[j], c)
  {
    match FirstGrabbed(m.sqrt, f, s.points, s.supportVectors, c)
    case None => s
    case Some(k) => s.(dragging := true, dragged := Some(s.supportVectors[k].index))
  }

  /** `handleMouseMove` while dragging: the dragged point follows the cursor,
      clamped into [0.5, 9.5]², keeps its class, and the model is refitted. */
  function MouseMove(m: Numerics, f: Frame, s: State, c: Point): (r: State)
    requires Fittable(m) && Invertible(f)
    requires s.dragged.Some? ==> s.dragged.value < |s.points|
    ensures !(s.dragging && s.dragged.Some?) ==> r == s
    ensures s.dragging && s.dragged.Some? ==>
      var i := s.dragged.value;
      && |r.points| == |s.points|
      && r.points[i] == LPoint(ClampPoint(DragMin, DragMax, ToData(f, c)), s.points[i].cls)
      && (forall j :: 0 <= j < |s.points| && j != i ==> r.points[j] == s.points[j])
      && r == FitSvm(m, s.(points := r.points))
  {
    if s.dragging && s.dragged.Some? then
      var i := s.dragged.value;
      var p := LPoint(ClampPoint(DragMin, DragMax, ToData(f, c)), s.points[i].cls);
      FitSvm(m, s.(points := s.points[i := p]))
    else s
  }

  /** A dragged point stays inside the drag square, and lies exactly under the
      pointer whenever the cursor is inside that square. */
  lemma DragFollowsPointer(m: Numerics, f: Frame, s: State, c: Point)
    requires Fittable(m) && Invertible(f)
    requires s.dragging && s.dragged.Some? && s.dragged.value < |s.points|
    ensures var p := MouseMove(m, f, s, c).points[s.dragged.value].pos;
      && InSquare(p, DragMin, DragMax)
      && (InSquare(ToData(f, c), DragMin, DragMax) ==> ToCanvas(f, p) == c)
  {
    CanvasDataRoundTrip(f, c);
  }

  /** `handleMouseUp`, also run when the cursor leaves the canvas. */
  function MouseUp(s: State): (r: State)
    ensures !r.dragging && r.dragged.None?
    ensures r.(dragging := s.dragging, dragged := s.dragged) == s
  {
    s.(dragging := false, dragged := None)
  }

  /** Whether a click at `c` is on one of the points. */
  predicate OnPoint(sqrt: real -> real, f: Frame, ps: seq<LPoint>, c: Point)
    requires Invertible(f)
  {
    exists i :: 0 <= i < |ps| && Near(sqrt, f, c, ps[i].pos, ClickRadius)
  }

  /** `handleClick`: ignored while dragging and on an existing point; otherwise
      a click inside the plotted square adds a point of the selected class and
      refits. */
  function HandleClick(m: Numerics, f: Frame, s: State, c: Point): (r: State)
    requires Fittable(m) && Invertible(f)
    ensures var added := s.points + [LPoint(ToData(f, c), s.selected)];
      if !s.dragging && !OnPoint(m.sqrt, f, s.points, c) && InSquare(ToData(f, c), DataMin, DataMax)
      then r == FitSvm(m, s.(points := added)) && |r.points| == |s.points| + 1
      else r == s
  {
    if s.dragging then s
    else if OnPoint(m.sqrt, f, s.points, c) then s
    else
      var d := ToData(f, c);
      if InSquare(d, DataMin, DataMax) then FitSvm(m, s.(points := s.points + [LPoint(d, s.selected)]))
      else s
  }

  /** A point added by a click is drawn at least 15 pixels from every point
      that was already there. */
  lemma ClickedPointIsApart(m: Numerics, f: Frame, s: State, c: Point)
    requires Fittable(m) && IsSqrt(m.sqrt) && Invertible(f)
    requires |HandleClick(m, f, s, c).points| > |s.points|
    ensures var ps := HandleClick(m, f, s, c).points;
      forall i :: 0 <= i < |s.points| ==>
        Dist2(ToCanvas(f, ps[|s.points|].pos), ToCanvas(f, s.points[i].pos)) >= Sq(ClickRadius)
  {
    var ps := HandleClick(m, f, s, c).points;
    CanvasDataRoundTrip(f, c);
    assert ToCanvas(f, ps[|s.points|].pos) == c;
    SqrtOfSquare(m.sqrt, ClickRadius);
    forall i | 0 <= i < |s.points|
      ensures Dist2(c, ToCanvas(f, s.points[i].pos)) >= Sq(ClickRadius)
    {
      assert !Near(m.sqrt, f, c, s.points[i].pos, ClickRadius);
      SqrtOrder(m.sqrt, Dist2(c, ToCanvas(f, s.points[i].pos)), Sq(ClickRadius));
    }
  }

  // ---------------------------------------------------------------------
  // Control panel

  /** The "clear" button: no points, no support vectors, no margin. */
  function ClearPoints(s: State): (r: State)
    ensures r.points == [] && r.supportVectors == [] && r.margin == 0.0
    ensures r.(points := s.points, supportVectors := s.supportVectors, margin := s.margin) == s
  {
    s.(points := [], supportVectors := [], margin := 0.0)
  }

  /** The kernel toggle sets the kernel and refits. */
  function SelectKernel(m: Numerics, s: State, k: Kernel): (r: State)
    requires Fittable(m)
    ensures r.kernel == k && r.points == s.points
    ensures r == FitSvm(m, r.(supportVectors := s.supportVectors, margin := s.margin, weights := s.weights))
  {
    FitSvm(m, s.(kernel := k))
  }

  /** The C slider sets the exponent of C and refits. */
  function SlideC(m: Numerics, s: State, v: real): (r: State)
    requires Fittable(m)
    ensures r.c == v && r.points == s.points && r.kernel == s.kernel
    ensures r == FitSvm(m, r.(supportVectors := s.supportVectors, margin := s.margin, weights := s.weights))
  {
    FitSvm(m, s.(c := v))
  }

  // ---------------------------------------------------------------------
  // Preset data sets

  /** Every draw of `Math.random()` lies in [0, 1). */
  predicate Draws(us: seq<real>)
  {
    forall i :: 0 <= i < |us| ==> 0.0 <= us[i] < 1.0
  }

  /** `turn(u)` is the point `(cos 2πu, sin 2πu)` on the unit circle. */
  ghost predicate IsTurn(turn: real -> Point)
  {
    forall u :: Sq(turn(u).x) + Sq(turn(u).y) == 1.0
  }

  /** `Math.random() * width + lo` for the draw `u`. */
  function Uniform(u: real, width: real, lo: real): real
  {
    u * width + lo
  }

  /** A draw in [0, 1) scales into [lo, lo + width). */
  lemma UniformBounds(u: real, width: real, lo: real)
    requires 0.0 <= u < 1.0 && width > 0.0
    ensures lo <= Uniform(u, width, lo) < lo + width
  {
    MulNonNegative(u, width);
    MulPositive(1.0 - u, width);
  }

  /** `count` points of class `cls`, each at `(Uniform(u, width, lo),
      Uniform(v, width, lo))` for the next two draws `u`, `v`. */
  function Blob(us: seq<real>, count: nat, lo: real, width: real, cls: Cls): (r: seq<LPoint>)
    requires |us| == 2 * count
    ensures |r| == count
    ensures forall i :: 0 <= i < |r| ==> r[i].cls == cls
  {
    seq(count, i requires 0 <= i < count => LPoint(Point(Uniform(us[2 * i], width, lo), Uniform(us[2 * i + 1], width, lo)), cls))
  }

  lemma BlobInBox(us: seq<real>, count: nat, lo: real, width: real, cls: Cls)
    requires |us| == 2 * count && Draws(us) && width > 0.0
    ensures forall i :: 0 <= i < count ==>
      lo <= Blob(us, count, lo, width, cls)[i].pos.x < lo + width &&
      lo <= Blob(us, count, lo, width, cls)[i].pos.y < lo + width
  {
    forall i | 0 <= i < count
      ensures lo <= Blob(us, count, lo, width, cls)[i].pos.x < lo + width
      ensures lo <= Blob(us, count, lo, width, cls)[i].pos.y < lo + width
    {
      UniformBounds(us[2 * i], width, lo);
      UniformBounds(us[2 * i + 1], width, lo);
    }
  }

  /** The centre of the circular data set. */
  const Centre: Point := Point(5.0, 5.0)

  /** The point at radius `rad` from the centre in the direction `t`. */
  function Around(t: Point, rad: real): Point
  {
    Point(Centre.x + t.x * rad, Centre.y + t.y * rad)
  }

  /** `count` points of class `cls`, each at angle `2π · u` and radius
      `v · width + inner` around the centre, for the next two draws `u`, `v`. */
  function Ring(turn: real -> Point, us: seq<real>, count: nat, inner: real, width: real, cls: Cls): (r: seq<LPoint>)
    requires |us| == 2 * count
    ensures |r| == count
    ensures forall i :: 0 <= i < |r| ==> r[i].cls == cls
  {
    seq(count, i requires 0 <= i < count => LPoint(Around(turn(us[2 * i]), Uniform(us[2 * i + 1], width, inner)), cls))
  }

  lemma SqScale(a: real, b: real, r: real)
    ensures Sq(a * r) + Sq(b * r) == (Sq(a) + Sq(b)) * Sq(r)
  {
  }

  /** A coordinate of the unit circle, scaled by `r >= 0`, lies in [−r, r]. */
  lemma UnitScale(a: real, b: real, r: real)
    requires Sq(a) + Sq(b) == 1.0 && r >= 0.0
    ensures -r <= a * r <= r
  {
    if a > 1.0 {
      SqMonotone(1.0, a);
    }
    if a < -1.0 {
      SqMonotone(1.0, -a);
    }
    MulNonNegative(1.0 - a, r);
    MulNonNegative(1.0 + a, r);
  }

  /** A point in a unit direction lies at distance `rad` from the centre and
      inside the square of half-side `rad` about it. */
  lemma AroundFacts(t: Point, rad: real)
    requires Sq(t.x) + Sq(t.y) == 1.0 && rad >= 0.0
    ensures Dist2(Around(t, rad), Centre) == Sq(rad)
    ensures InSquare(Around(t, rad), Centre.x - rad, Centre.x + rad)
  {
    AroundDistance(t, rad);
    AroundInSquare(t, rad);
  }

  lemma AroundDistance(t: Point, rad: real)
    requires Sq(t.x) + Sq(t.y) == 1.0
    ensures Dist2(Around(t, rad), Centre) == Sq(rad)
  {
    var p := Around(t, rad);
    assert p.x - Centre.x == t.x * rad && p.y - Centre.y == t.y * rad;
    SqScale(t.x, t.y, rad);
  }

  lemma AroundInSquare(t: Point, rad: real)
    requires Sq(t.x) + Sq(t.y) == 1.0 && rad >= 0.0
    ensures InSquare(Around(t, rad), Centre.x - rad, Centre.x + rad)
  {
    UnitScale(t.x, t.y, rad);
    UnitScale(t.y, t.x, rad);
  }

  /** A ring point lies at a distance in [inner, inner + width) from the
      centre, and inside the square of half-side `inner + width` about it. */
  lemma RingInAnnulus(turn: real -> Point, us: seq<real>, count: nat, inner: real, width: real, cls: Cls, i: nat)
    requires IsTurn(turn) && |us| == 2 * count && Draws(us) && width > 0.0 && inner >= 0.0 && i < count
    ensures var p := Ring(turn, us, count, inner, width, cls)[i].pos;
      && Sq(inner) <= Dist2(p, Centre) < Sq(inner + width)
      && InSquare(p, Centre.x - (inner + width), Centre.x + (inner + width))
  {
    var rad := Uniform(us[2 * i + 1], width, inner);
    var t := turn(us[2 * i]);
    assert Ring(turn, us, count, inner, width, cls)[i].pos == Around(t, rad);
    UniformBounds(us[2 * i + 1], width, inner);
    AroundFacts(t, rad);
    if inner < rad {
      SqMonotone(inner, rad);
    }
    SqMonotone(rad, inner + width);
  }

  datatype Preset = Separable | Overlapping | Circular

  /** How many draws of `Math.random()` a preset makes. */
  function DrawCount(p: Preset): nat
  {
    match p
    case Separable => 32
    case Overlapping => 40
    case Circular => 48
  }

  /** The points of a preset: red first, then blue, with eight points of each
      class in [1, 4)² and [6, 9)², ten in [1, 6)² and [4, 9)², or twelve in
      the disc of radius 0.5 to 2 and the ring of radius 3 to 4.5 about (5, 5). */
  function PresetPoints(turn: real -> Point, p: Preset, us: seq<real>): (r: seq<LPoint>)
    requires |us| == DrawCount(p)
    ensures |r| == DrawCount(p) / 2
    ensures forall i :: 0 <= i < |r| ==> r[i].cls == (if i < |r| / 2 then Red else Blue)
  {
    match p
    case Separable => Blob(us[..16], 8, 1.0, 3.0, Red) + Blob(us[16..], 8, 6.0, 3.0, Blue)
    case Overlapping => Blob(us[..20], 10, 1.0, 5.0, Red) + Blob(us[20..], 10, 4.0, 5.0, Blue)
    case Circular => Ring(turn, us[..24], 12, 0.5, 1.5, Red) + Ring(turn, us[24..], 12, 3.0, 1.5, Blue)
  }

  /** Every preset point lies in [0.5, 9.5]², inside the plotted square. */
  lemma PresetInside(turn: real -> Point, p: Preset, us: seq<real>)
    requires |us| == DrawCount(p) && Draws(us) && IsTurn(turn)
    ensures forall i :: 0 <= i < |PresetPoints(turn, p, us)| ==> InSquare(PresetPoints(turn, p, us)[i].pos, DragMin, DragMax)
  {
    var h := DrawCount(p) / 2;
    var lo, hi := us[..h], us[h..];
    assert Draws(lo) && Draws(hi) by {
      assert forall i :: 0 <= i < |lo| ==> lo[i] == us[i];
      assert forall i :: 0 <= i < |hi| ==> hi[i] == us[h + i];
    }
    var ps := PresetPoints(turn, p, us);
    match p {
      case Separable =>
        BlobInBox(lo, 8, 1.0, 3.0, Red);
        BlobInBox(hi, 8, 6.0, 3.0, Blue);
      case Overlapping =>
        BlobInBox(lo, 10, 1.0, 5.0, Red);
        BlobInBox(hi, 10, 4.0, 5.0, Blue);
      case Circular =>
        forall i | 0 <= i < 24
          ensures InSquare(ps[i].pos, DragMin, DragMax)
        {
          if i < 12 {
            RingInAnnulus(turn, lo, 12, 0.5, 1.5, Red, i);
          } else {
            RingInAnnulus(turn, hi, 12, 3.0, 1.5, Blue, i - 12);
          }
        }
    }
  }

  /** A preset button: the linear kernel for the two blob sets, the RBF kernel
      for the circular set, then the preset's points and a fit. */
  function LoadPreset(m: Numerics, turn: real -> Point, s: State, p: Preset, us: seq<real>): (r: State)
    requires Fittable(m) && |us| == DrawCount(p)
    ensures r.points == PresetPoints(turn, p, us)
    ensures r.kernel == (if p == Circular then Rbf else Linear)
    ensures r == FitSvm(m, s.(points := r.points, kernel := r.kernel))
  {
    FitSvm(m, s.(points := PresetPoints(turn, p, us), kernel := if p == Circular then Rbf else Linear))
  }

  /** Both classes are present in every preset, so its fit always finds
      support vectors. */
  lemma PresetHasBothClasses(turn: real -> Point, p: Preset, us: seq<real>)
    requires |us| == DrawCount(p)
    ensures BothClasses(PresetPoints(turn, p, us))
  {
    var ps := PresetPoints(turn, p, us);
    assert ps[0].cls == Red;
    assert ps[|ps| - 1].cls == Blue;
  }

  // ---------------------------------------------------------------------
  // A session of events

  /** What the handlers need of a state: every support vector and the dragged
      point name one of the points. */
  predicate Indexed(s: State)
  {
    && ValidIndices(s.supportVectors, |s.points|)
    && (s.dragged.Some? ==> s.dragged.value < |s.points|)
  }

  /** Every point lies inside the plotted square [0, 10]². */
  predicate Inside(ps: seq<LPoint>)
  {
    forall i :: 0 <= i < |ps| ==> InSquare(ps[i].pos, DataMin, DataMax)
  }

  /** The events of the lab. `Release` is `mouseup` and `mouseleave`; every
      control lies outside the canvas, so the cursor has left the canvas (and
      released any drag) before a control is used. */
  datatype Event =
    | Press(at: Point)
    | Move(at: Point)
    | Release
    | Click(at: Point)
    | Choose(cls: Cls)
    | Toggle(kernel: Kernel)
    | Slide(value: real)
    | Load(preset: Preset, draws: seq<real>)
    | Clear

  /** A preset event carries exactly the draws its generator makes. */
  predicate WellFormed(e: Event)
  {
    e.Load? ==> |e.draws| == DrawCount(e.preset)
  }

  function Apply(m: Numerics, turn: real -> Point, f: Frame, s: State, e: Event): (r: State)
    requires Fittable(m) && Invertible(f) && Indexed(s) && WellFormed(e)
    ensures Indexed(r)
  {
    match e
    case Press(c) => MouseDown(m, f, s, c)
    case Move(c) => MouseMove(m, f, s, c)
    case Release => MouseUp(s)
    case Click(c) => HandleClick(m, f, s, c)
    case Choose(cls) => MouseUp(s).(selected := cls)
    case Toggle(k) => SelectKernel(m, MouseUp(s), k)
    case Slide(v) => SlideC(m, MouseUp(s), v)
    case Load(p, us) => LoadPreset(m, turn, MouseUp(s), p, us)
    case Clear => ClearPoints(MouseUp(s))
  }

  /** The state after a sequence of events, taken in order. */
  function Run(m: Numerics, turn: real -> Point, f: Frame, s: State, es: seq<Event>): (r: State)
    requires Fittable(m) && Invertible(f) && Indexed(s)
    requires forall k :: 0 <= k < |es| ==> WellFormed(es[k])
    ensures Indexed(r)
    decreases |es|
  {
    if |es| == 0 then s
    else Run(m, turn, f, Apply(m, turn, f, s, es[0]), es[1..])
  }

  /** Every event keeps every point inside the plotted square, provided the
      random draws lie in [0, 1) and `turn` stays on the unit circle. */
  lemma ApplyKeepsInside(m: Numerics, turn: real -> Point, f: Frame, s: State, e: Event)
    requires Fittable(m) && Invertible(f) && Indexed(s) && WellFormed(e) && Inside(s.points)
    requires IsTurn(turn) && (e.Load? ==> Draws(e.draws))
    ensures Inside(Apply(m, turn, f, s, e).points)
  {
    if e.Press? || e.Move? || e.Release? || e.Click? {
      PointerKeepsInside(m, turn, f, s, e);
    } else {
      ControlKeepsInside(m, turn, f, s, e);
    }
  }

  lemma PointerKeepsInside(m: Numerics, turn: real -> Point, f: Frame, s: State, e: Event)
    requires Fittable(m) && Invertible(f) && Indexed(s) && WellFormed(e) && Inside(s.points)
    requires e.Press? || e.Move? || e.Release? || e.Click?
    ensures Inside(Apply(m, turn, f, s, e).points)
  {
    if e.Move? && s.dragging && s.dragged.Some? {
      DragFollowsPointer(m, f, s, e.at);
    }
  }

  lemma ControlKeepsInside(m: Numerics, turn: real -> Point, f: Frame, s: State, e: Event)
    requires Fittable(m) && Invertible(f) && Indexed(s) && WellFormed(e) && Inside(s.points)
    requires IsTurn(turn) && (e.Load? ==> Draws(e.draws))
    requires e.Choose? || e.Toggle? || e.Slide? || e.Load? || e.Clear?
    ensures Inside(Apply(m, turn, f, s, e).points)
  {
    if e.Load? {
      PresetInside(turn, e.preset, e.draws);
    }
  }

  lemma {:induction false} RunKeepsInside(m: Numerics, turn: real -> Point, f: Frame, s: State, es: seq<Event>)
    requires Fittable(m) && Invertible(f) && Indexed(s) && Inside(s.points)
    requires forall k :: 0 <= k < |es| ==> WellFormed(es[k])
    requires IsTurn(turn) && forall k :: 0 <= k < |es| && es[k].Load? ==> Draws(es[k].draws)
    ensures Inside(Run(m, turn, f, s, es).points)
    decreases |es|
  {
    if |es| > 0 {
      ApplyKeepsInside(m, turn, f, s, es[0]);
      RunKeepsInside(m, turn, f, Apply(m, turn, f, s, es[0]), es[1..]);
    }
  }
}

=== FILE: tour.dfy ===
/**
 The step machine of education-system.js's `TourGuide`: `start`, `showStep`,
 `next`, `prev` and `end`, and the clamp that keeps the tooltip inside the
 window (`positionTooltip`). A step is known only by whether its target
 element is on the page; a missing element makes `showStep` move on with
 `next`.
 */
module Tour {

  import opened Geometry
  import opened Options

  /** `shown` is the step whose tooltip was last filled in by `showStep`; the
      overlay and the tooltip are on screen only while `isActive` holds. */
  datatype TourGuide = TourGuide(
    present: seq<bool>,
    currentStep: nat,
    isActive: bool,
    shown: Option<nat>,
    completed: bool)

  /** `currentStep` names a step, or is 0 when there are none. */
  predicate InRange(t: TourGuide)
  {
    t.currentStep < |t.present| || t.currentStep == 0
  }

  /** A shown step is one whose element is on the page. */
  predicate ShowsPresent(t: TourGuide)
  {
    t.shown.Some? ==> t.shown.value < |t.present| && t.present[t.shown.value]
  }

  /** `end`: the tour stops, hiding the overlay and the tooltip, and is
      remembered as completed; the step last shown is kept as a record only. */
  function End(t: TourGuide): (r: TourGuide)
    ensures !r.isActive && r.completed
    ensures r.present == t.present && r.currentStep == t.currentStep && r.shown == t.shown
  {
    t.(isActive := false, completed := true)
  }

  /** `showStep(index)`: out-of-range indices change nothing; a step whose
      element is missing hands over to `next`; otherwise the step is shown. */
  function ShowStep(t: TourGuide, index: int): (r: TourGuide)
    requires InRange(t)
    ensures InRange(r) && r.present == t.present
    ensures ShowsPresent(t) ==> ShowsPresent(r)
    ensures (index < 0 || index >= |t.present|) ==> r == t
    ensures 0 <= index < |t.present| && t.present[index] ==> r == t.(shown := Some(index))
    decreases |t.present| - t.currentStep, 1
  {
    if index < 0 || index >= |t.present| then t
    else if !t.present[index] then Next(t)
    else t.(shown := Some(index))
  }

  /** `next`: one step on, or the end after the last step. */
  function Next(t: TourGuide): (r: TourGuide)
    requires InRange(t)
    ensures InRange(r) && r.present == t.present
    ensures ShowsPresent(t) ==> ShowsPresent(r)
    decreases |t.present| - t.currentStep, 0
  {
    if t.currentStep + 1 < |t.present| then ShowStep(t.(currentStep := t.currentStep + 1), t.currentStep + 1)
    else End(t)
  }

  /** `prev`: one step back, above the first step only. */
  function Prev(t: TourGuide): (r: TourGuide)
    requires InRange(t)
    ensures InRange(r) && r.present == t.present
    ensures ShowsPresent(t) ==> ShowsPresent(r)
    ensures t.currentStep == 0 ==> r == t
  {
    if t.currentStep > 0 then ShowStep(t.(currentStep := t.currentStep - 1), t.currentStep - 1)
    else t
  }

  /** `start`: nothing with no steps; otherwise step 0, active. */
  function Start(t: TourGuide): (r: TourGuide)
    requires InRange(t)
    ensures InRange(r) && r.present == t.present
    ensures ShowsPresent(t) ==> ShowsPresent(r)
    ensures |t.present| == 0 ==> r == t
  {
    if |t.present| == 0 then t
    else ShowStep(t.(isActive := true, currentStep := 0), 0)
  }

  /** When the following step's element is present, `next` moves to that
      step and shows it. */
  lemma NextSteps(t: TourGuide)
    requires InRange(t) && t.currentStep + 1 < |t.present| && t.present[t.currentStep + 1]
    ensures Next(t) == t.(currentStep := t.currentStep + 1, shown := Some(t.currentStep + 1))
  {
  }

  /** After the last step `next` ends the tour. */
  lemma NextEnds(t: TourGuide)
    requires InRange(t) && t.currentStep + 1 >= |t.present|
    ensures Next(t) == End(t)
  {
  }

  /** Above the first step, when the previous step's element is present,
      `prev` moves back to that step and shows it. */
  lemma PrevSteps(t: TourGuide)
    requires InRange(t) && t.currentStep > 0 && t.present[t.currentStep - 1]
    ensures Prev(t) == t.(currentStep := t.currentStep - 1, shown := Some(t.currentStep - 1))
  {
  }

  /** A non-empty tour whose first element is present starts active at
      step 0 and shows it. */
  lemma StartShowsFirst(t: TourGuide)
    requires InRange(t) && |t.present| > 0 && t.present[0]
    ensures Start(t) == t.(isActive := true, currentStep := 0, shown := Some(0))
  {
  }

  /** In general `next` skips the steps whose elements are missing: it lands
      on the first later step that is present, with the tour still in the
      same activity, or ends the tour when no later step is present. */
  lemma {:induction false} NextSkipsMissing(t: TourGuide)
    requires InRange(t)
    ensures var r := Next(t);
      || (&& t.currentStep < r.currentStep < |t.present|
          && t.present[r.currentStep]
          && r.shown == Some(r.currentStep)
          && r.isActive == t.isActive
          && r.completed == t.completed
          && forall j :: t.currentStep < j < r.currentStep ==> !t.present[j])
      || (&& !r.isActive && r.completed
          && forall j :: t.currentStep < j < |t.present| ==> !t.present[j])
    decreases |t.present| - t.currentStep
  {
    if t.currentStep + 1 < |t.present| {
      var u := t.(currentStep := t.currentStep + 1);
      if !t.present[t.currentStep + 1] {
        NextSkipsMissing(u);
      }
    }
  }

  /** The sides on which `positionTooltip` places the tooltip. */
  datatype Side = Top | Bottom | Left | Right

  /** A client rectangle. */
  datatype Rect = Rect(left: real, top: real, width: real, height: real)

  const TooltipPadding: real := 16.0

  /** The tooltip's position before clamping: centred beside the element on
      the chosen side, 16 pixels away. */
  function Place(side: Side, el: Rect, tipW: real, tipH: real): Point
  {
    match side
    case Top => Point(el.left + (el.width - tipW) / 2.0, el.top - tipH - TooltipPadding)
    case Bottom => Point(el.left + (el.width - tipW) / 2.0, el.top + el.height + TooltipPadding)
    case Left => Point(el.left - tipW - TooltipPadding, el.top + (el.height - tipH) / 2.0)
    case Right => Point(el.left + el.width + TooltipPadding, el.top + (el.height - tipH) / 2.0)
  }

  /** `Math.max(padding, Math.min(v, extent − size − padding))`. */
  function KeepInside(v: real, size: real, extent: real): (r: real)
    ensures r >= TooltipPadding
    ensures extent - size - TooltipPadding >= TooltipPadding ==> r <= extent - size - TooltipPadding
    ensures TooltipPadding <= v <= extent - size - TooltipPadding ==> r == v
  {
    Max(TooltipPadding, Min(v, extent - size - TooltipPadding))
  }

  /** `positionTooltip`: the placed position, kept inside the window. */
  function PositionTooltip(side: Side, el: Rect, tipW: real, tipH: real, winW: real, winH: real): (p: Point)
    ensures p.x >= TooltipPadding && p.y >= TooltipPadding
    ensures winW - tipW - TooltipPadding >= TooltipPadding ==> p.x <= winW - tipW - TooltipPadding
    ensures winH - tipH - TooltipPadding >= TooltipPadding ==> p.y <= winH - tipH - TooltipPadding
  {
    var q := Place(side, el, tipW, tipH);
    Point(KeepInside(q.x, tipW, winW), KeepInside(q.y, tipH, winH))
  }

  /** A tooltip that fits where it is placed is not moved; when the window is
      too small for it, it sits at the padding. */
  lemma TooltipFits(side: Side, el: Rect, tipW: real, tipH: real, winW: real, winH: real)
    ensures var q := Place(side, el, tipW, tipH);
      var p := PositionTooltip(side, el, tipW, tipH, winW, winH);
      && (TooltipPadding <= q.x <= winW - tipW - TooltipPadding ==> p.x == q.x)
      && (TooltipPadding <= q.y <= winH - tipH - TooltipPadding ==> p.y == q.y)
      && (winW - tipW - TooltipPadding < TooltipPadding ==> p.x == TooltipPadding)
      && (winH - tipH - TooltipPadding < TooltipPadding ==> p.y == TooltipPadding)
  {
  }
}

=== FILE: viewport.dfy ===
/**
 The affine maps between a lab's data square and its canvas. Every plotting lab
 draws the data range [dataMin, dataMax] inside a border of `padding` pixels,
 with the y axis pointing up, so canvas y is measured from the bottom border.

 Two spellings occur in the labs. K-means, KNN and the SVM lab normalise by the
 data range and then scale by the drawable width (`Frame` below);
 the linear-regression lab first computes a pixels-per-unit `scale` and divides
 by it on the way back (`Scaled*`). Both are exact inverses over the reals as
 long as the drawable extent `width - 2 * padding` is not zero.
 */
module Viewport {

  import opened Geometry

  datatype Frame = Frame(padding: real, dataMin: real, dataMax: real, width: real, height: real)

  predicate Invertible(f: Frame)
  {
    f.dataMax != f.dataMin && f.width != 2.0 * f.padding && f.height != 2.0 * f.padding
  }

  /** Logical canvas size of the labs that enforce a minimum: `Math.max(measured, 300)`. */
  function LogicalSize(measured: real): (r: real)
    ensures r >= 300.0
    ensures measured >= 300.0 ==> r == measured
  {
    Max(measured, 300.0)
  }

  /** A frame whose sides come from `LogicalSize` is invertible whenever its
      padding is below 150 pixels (every lab uses 60). */
  lemma LogicalFrameInvertible(padding: real, dataMin: real, dataMax: real, measuredW: real, measuredH: real)
    requires 0.0 <= padding < 150.0 && dataMin < dataMax
    ensures Invertible(Frame(padding, dataMin, dataMax, LogicalSize(measuredW), LogicalSize(measuredH)))
  {
  }

  function ToCanvasX(f: Frame, x: real): real
    requires Invertible(f)
  {
    f.padding + ((x - f.dataMin) / (f.dataMax - f.dataMin)) * (f.width - 2.0 * f.padding)
  }

  function ToCanvasY(f: Frame, y: real): real
    requires Invertible(f)
  {
    f.height - f.padding - ((y - f.dataMin) / (f.dataMax - f.dataMin)) * (f.height - 2.0 * f.padding)
  }

  function ToDataX(f: Frame, cx: real): real
    requires Invertible(f)
  {
    f.dataMin + ((cx - f.padding) / (f.width - 2.0 * f.padding)) * (f.dataMax - f.dataMin)
  }

  function ToDataY(f: Frame, cy: real): real
    requires Invertible(f)
  {
    f.dataMin + ((f.height - f.padding - cy) / (f.height - 2.0 * f.padding)) * (f.dataMax - f.dataMin)
  }

  function ToCanvas(f: Frame, p: Point): (c: Point)
    requires Invertible(f)
  {
    Point(ToCanvasX(f, p.x), ToCanvasY(f, p.y))
  }

  function ToData(f: Frame, c: Point): (p: Point)
    requires Invertible(f)
  {
    Point(ToDataX(f, c.x), ToDataY(f, c.y))
  }

  /** Dividing by `b`, scaling by `c`, and undoing both in reverse order gives
      back `a`. */
  lemma DivMulCancel(a: real, b: real, c: real)
    requires b != 0.0 && c != 0.0
    ensures (a / b * c) / c * b == a
  {
    var q := a / b;
    assert q * b == a;
    assert (q * c) / c == q;
  }

  /** Data → canvas → data is the identity. */
  lemma DataCanvasRoundTrip(f: Frame, p: Point)
    requires Invertible(f)
    ensures ToData(f, ToCanvas(f, p)) == p
  {
    var dr := f.dataMax - f.dataMin;
    var w := f.width - 2.0 * f.padding;
    var h := f.height - 2.0 * f.padding;
    DivMulCancel(p.x - f.dataMin, dr, w);
    DivMulCancel(p.y - f.dataMin, dr, h);
  }

  /** Canvas → data → canvas is the identity. */
  lemma CanvasDataRoundTrip(f: Frame, c: Point)
    requires Invertible(f)
    ensures ToCanvas(f, ToData(f, c)) == c
  {
    var dr := f.dataMax - f.dataMin;
    var w := f.width - 2.0 * f.padding;
    var h := f.height - 2.0 * f.padding;
    DivMulCancel(c.x - f.padding, w, dr);
    DivMulCancel(f.height - f.padding - c.y, h, dr);
  }

  /** The pixels-per-unit factor of the scale-first spelling. */
  function Scale(extent: real, padding: real, lo: real, hi: real): real
    requires lo != hi
  {
    (extent - padding * 2.0) / (hi - lo)
  }

  function ScaledToCanvasX(f: Frame, x: real): real
    requires Invertible(f)
  {
    f.padding + (x - f.dataMin) * Scale(f.width, f.padding, f.dataMin, f.dataMax)
  }

  function ScaledToCanvasY(f: Frame, y: real): real
    requires Invertible(f)
  {
    f.height - f.padding - (y - f.dataMin) * Scale(f.height, f.padding, f.dataMin, f.dataMax)
  }

  function ScaledToDataX(f: Frame, cx: real): real
    requires Invertible(f)
  {
    (cx - f.padding) / Scale(f.width, f.padding, f.dataMin, f.dataMax) + f.dataMin
  }

  function ScaledToDataY(f: Frame, cy: real): real
    requires Invertible(f)
  {
    (f.height - f.padding - cy) / Scale(f.height, f.padding, f.dataMin, f.dataMax) + f.dataMin
  }

  lemma MulQuotient(a: real, w: real, d: real)
    requires d != 0.0
    ensures a * (w / d) == (a / d) * w
  {
    var q := w / d;
    var r := a / d;
    assert q * d == w;
    assert r * d == a;
    assert (a * q) * d == (r * w) * d;
  }

  lemma DivQuotient(a: real, w: real, d: real)
    requires d != 0.0 && w != 0.0
    ensures a / (w / d) == (a / w) * d
  {
    var q := w / d;
    var r := a / w;
    assert q * d == w;
    assert r * w == a;
    assert q != 0.0;
    assert (r * d) * q == r * w;
  }

  /** The scale-first spelling computes the same maps as `Frame`'s, so both
      round trips carry over to it. */
  lemma ScaledAgreesX(f: Frame, x: real, cx: real)
    requires Invertible(f)
    ensures ScaledToCanvasX(f, x) == ToCanvasX(f, x)
    ensures ScaledToDataX(f, cx) == ToDataX(f, cx)
  {
    MulQuotient(x - f.dataMin, f.width - 2.0 * f.padding, f.dataMax - f.dataMin);
    DivQuotient(cx - f.padding, f.width - 2.0 * f.padding, f.dataMax - f.dataMin);
  }

  lemma ScaledAgreesY(f: Frame, y: real, cy: real)
    requires Invertible(f)
    ensures ScaledToCanvasY(f, y) == ToCanvasY(f, y)
    ensures ScaledToDataY(f, cy) == ToDataY(f, cy)
  {
    MulQuotient(y - f.dataMin, f.height - 2.0 * f.padding, f.dataMax - f.dataMin);
    DivQuotient(f.height - f.padding - cy, f.height - 2.0 * f.padding, f.dataMax - f.dataMin);
  }
}
